=== FILE: README.md ===
# LegoIndex query planning and index bookkeeping, in Dafny

LegoIndex answers range queries over particle data written by
particle-in-cell simulations. It has two halves:

- C++ index builders write one summary per block of particles to an index
  file: a min-max interval per axis, or a 3-D R-tree of block envelopes with
  Bloom filters of particle ids.
- An extension of openPMD-viewer queries that index. It intersects the
  answers of the selected quantities, plans which rows of the data file to
  read, builds the boolean masks that pick the wanted rows out of the read
  buffer, and filters the surviving particles.

This project models the pure layer of both halves: index arithmetic over
integers, sequences and finite maps, with the data reads as parameters.

- **Read planning** (`ReadPlan`, `Reconcile`, `MemoryBatch`,
  `ParticleFilter`):
  - intersecting the per-quantity block maps (the slice-map pruning is
    lost on a copy, and its intended form is modelled beside it);
  - the "too many blocks" guard;
  - the recursive largest-gap splitter `find_optimal_strategy`;
  - the read tuples and selection masks of the three read paths;
  - batching under a memory budget;
  - the final strict-inequality particle filter.
- **Identity tracking** (`ParticleTracker`):
  - the two-pointer merge-join of sorted ids, with its "-1 = absent" padding
    mode;
  - `extract_quantity`;
  - the index-guided membership mask over a grouped read buffer.
- **Chunked reads** (`ChunkReader`):
  - record-component name translation;
  - `gc_get_data` / `get_data_new`, which lay the chunks of a read
    back-to-back in one buffer.
- **Min-max index** (`MinMaxBuild`, `MinMaxQuery`): block and in-block slice
  min/max nodes, and the interval-overlap query at both levels.
- **R-tree index** (`RTreeBuild`, `RTreeQuery`, `RTreeTracing`,
  `RTreeInteracted`):
  - block envelopes;
  - Bloom-filter id aggregation;
  - the envelope query;
  - id tracing;
  - the position/momentum intersection.
- **Index file** (`IndexFile`, `SizeCodec`): payloads, then the metadata
  list, then its 8-byte length.
  - The read-back through `loadFileMetadata` / `readNodeList` is proved to
    return each key's payload.
  - `TreeCodec` is the preorder tree serialisation stored in those payloads.
- **Build jobs** (`BuildJobs`): batch-job tiling of blocks in
  `initJobsQueue`, and the per-block slicing in `batchRead`.
- **Test utilities**:
  - N-dimensional index/position conversion and block tiling
    (`BlockTiling`);
  - the three range-extraction methods (`RangeExtract`);
  - the length-prefixed string file (`StringListFile`);
  - the attribute-value tokenizer (`AttrTokenizer`).

Shared pieces:

- `ExtReal` stands for doubles, with -inf and +inf.
- `Decimal` is `std::to_string` and Python's `int()` on block keys.
- `QueryResults` is `std::map::insert`, where the first insert of a key wins.
- `BlockRecords` holds the block records.
- `TextSearch` is `std::string::find` / `find_last_of`.
- `Wrappers` holds `Option` and `Result`.

Python dicts and C++ maps become Dafny `map`s. Where iteration order
matters, the order is an explicit `seq`. GEOS `Envelope3d::intersects` and
`BloomFilter::KeyMayMatch` are function parameters, because only their
headers are part of the repository.

## Model

| member | source | states |
|---|---|---|
| ReadPlan.ScanGaps | openpmd_viewer/openpmd_timeseries/main.py:191-199 | The gap loop keeps the first index with the strictly largest positive gap `blocks[i+1].start - blocks[i].end`, or none when no gap is positive |
| ReadPlan.LargestGap | openpmd_viewer/openpmd_timeseries/main.py:191-199 | `max_gap` / `left_end` after the scan: the largest gap over `[start, end)` and the first index reaching it |
| ReadPlan.Strategy | openpmd_viewer/openpmd_timeseries/main.py:174-219 | `find_optimal_strategy` emits groups that partition `[start, end]` into consecutive ascending ranges. There is a single group past `max_level`, for one block, or when no gap is positive. It splits exactly when the cost test or either half's span exceeds `max_read_length`, and then the cut sits right after the largest gap |
| ReadPlan.OneGroupWhenSplittingNeverPays | openpmd_viewer/openpmd_timeseries/main.py:211-219 | With a non-negative cost test and a large read limit, three gapped blocks are read as one group |
| ReadPlan.GroupSpanNotBounded | openpmd_viewer/openpmd_timeseries/main.py:201-219 | The read limit bounds only the halves of a split, not the groups emitted: with limit 5 a group spanning 12 rows is emitted |
| ReadPlan.GroupCoversBlock | openpmd_viewer/openpmd_timeseries/main.py:694-696 | A group's read tuple covers every block of the group |
| ReadPlan.ReadRangesAscending | openpmd_viewer/openpmd_timeseries/main.py:684-696 | For blocks sorted by start, the strategy's read tuples ascend and do not overlap |
| ReadPlan.MarkedWithinStretch | openpmd_viewer/openpmd_timeseries/main.py:704-715 | Placed after the groups before it, a group's marked rows land inside the stretch of the read buffer that holds that group |
| ReadPlan.StretchOwner | openpmd_viewer/openpmd_timeseries/main.py:704-715 | Only the group whose stretch holds a buffer position can mark it |
| ReadPlan.MarkedOnlyByOwnGroup | openpmd_viewer/openpmd_timeseries/main.py:704-715 | A set position of the corrected mask is a marked row of the group that owns the position |
| ReadPlan.CorrectedMaskAt | openpmd_viewer/openpmd_timeseries/main.py:704-715 | Without the secondary index, every row of every group is selected by the corrected mask |
| ReadPlan.GroupedBufferAt | openpmd_viewer/openpmd_timeseries/main.py:694-705 | Position `Offset(g) + i` of the grouped read buffer holds row `blocks[first].start + i` of the component |
| ReadPlan.GroupMaskDropsLaterGroups | openpmd_viewer/openpmd_timeseries/main.py:704-715 | Two blocks 0..1 and 10..11 are split into two groups. The mask as written selects only the first row, while the corrected mask selects both |
| ReadPlan.TwoBlocksWrittenMask | openpmd_viewer/openpmd_timeseries/main.py:706-715 | The mask as written for the two-block example is `[true, false]` |
| ReadPlan.TwoBlocksCorrectedMask | openpmd_viewer/openpmd_timeseries/main.py:706-715 | The offset-corrected mask for the two-block example is `[true, true]` |
| ReadPlan.Concatenate | openpmd_viewer/openpmd_timeseries/main.py:728 | `np.concatenate` raises on a flat boolean array and on an empty list. Otherwise it joins the arrays in order |
| ReadPlan.GroupedConcatenateFails | openpmd_viewer/openpmd_timeseries/main.py:728 | Concatenating the grouped path's flat mask raises, whatever the mask holds |
| ReadPlan.PerGroupMasks | openpmd_viewer/openpmd_timeseries/main.py:717-728 | One mask per group, relative to the group's first row |
| ReadPlan.ConcatenatedGroupMasks | openpmd_viewer/openpmd_timeseries/main.py:704-728 | Concatenating the per-group masks succeeds and equals the offset-corrected mask |
| ReadPlan.PerGroupMaskAt | openpmd_viewer/openpmd_timeseries/main.py:714-715 | Without the secondary index a group's own mask is all true |
| ReadPlan.FlatMaskAt | openpmd_viewer/openpmd_timeseries/main.py:704-728 | Each position of the joined per-group masks agrees with the corrected mask |
| ReadPlan.ResultToTuple | openpmd_viewer/openpmd_timeseries/main.py:168-169 | `result_to_tuple` reads exactly a block's (or slice's) own rows |
| ReadPlan.DirectBlockBuffer | openpmd_viewer/openpmd_timeseries/main.py:736 | Row `i` of block `k` sits in the direct read buffer after the earlier blocks' rows |
| ReadPlan.PerBlockMasks | openpmd_viewer/openpmd_timeseries/main.py:739-745 | The direct read keeps one mask per block, relative to that block |
| ReadPlan.DirectMaskFits | openpmd_viewer/openpmd_timeseries/main.py:739-745 | The per-block masks concatenate without error to a mask exactly as long as the direct read buffer |
| ReadPlan.DirectBlockMask | openpmd_viewer/openpmd_timeseries/main.py:739-745 | Position `i` of block `k`'s stretch of the joined mask tells whether that row lies in one of the block's secondary slices |
| ReadPlan.PerBlockMaskAt | openpmd_viewer/openpmd_timeseries/main.py:742-744 | Element `i` of block `k`'s mask is set exactly when row `start + i` lies in one of its marked slices |
| ReadPlan.SliceRangesMembers | openpmd_viewer/openpmd_timeseries/main.py:752-758 | A tuple is read by the direct slice read iff it is the rows of some secondary slice of a surviving block |
| ReadPlan.SliceRangesLength | openpmd_viewer/openpmd_timeseries/main.py:752-758 | The direct slice read has exactly as many tuples as there are secondary slices over all surviving blocks |
| ReadPlan.SliceRangesAt | openpmd_viewer/openpmd_timeseries/main.py:752-758 | Slice `i` of block `k` is read by the tuple after all slices of the earlier blocks, so the tuples follow block order and, within a block, slice order |
| ReadPlan.ChooseReadPath | openpmd_viewer/openpmd_timeseries/main.py:680-765 | The grouped read wins, then the direct block read, then the slice read when the secondary index is used. Otherwise the call ends with no valid strategy |
| Reconcile.KeyIntersection | openpmd_viewer/openpmd_timeseries/main.py:642-645 | The running `set.intersection` holds exactly the block keys present in every answer |
| Reconcile.SliceIntersection | openpmd_viewer/openpmd_timeseries/main.py:657-660 | The slice keys of a block present in every answer are those in all answers' slice maps for it |
| Reconcile.Intersect | openpmd_viewer/openpmd_timeseries/main.py:640-664 | The pruned first answer keeps exactly the keys common to all answers. Every survivor keeps the first answer's value whole, its slices included, in both modes, because the slice deletions act on a converted copy of `q` (python/geosindex.cpp:3, 33) |
| Reconcile.IntersectCorrected | openpmd_viewer/openpmd_timeseries/main.py:656-664 | Corrected: the same surviving keys with the first answer's start and end. Without the secondary index it is the as-written result |
| Reconcile.IntersectSlices | openpmd_viewer/openpmd_timeseries/main.py:656-664 | Corrected: with the secondary index, each survivor's slice keys are the intersection of that block's slice keys across all answers, and each slice value is the first answer's |
| Reconcile.SliceDeletionLost | openpmd_viewer/openpmd_timeseries/main.py:656-664 | Answers holding slices {"0", "5"} and {"0"} of block "0": as written slice "5" survives, while the corrected pruning drops it |
| Reconcile.Reconcile | openpmd_viewer/openpmd_timeseries/main.py:639-673 | No surviving block returns the empty result before the limit is checked. A truthy limit below the count returns the message carrying the count. Otherwise the intersected map is read, with its slices as the first answer holds them |
| Reconcile.TooManyExample | openpmd_viewer/openpmd_timeseries/main.py:672-673 | 501 blocks with limit 500 return the message naming 501 |
| Reconcile.NoBlocksBeforeLimit | openpmd_viewer/openpmd_timeseries/main.py:668-669 | An empty intersection returns the empty result whatever the limit |
| MemoryBatch.Step | openpmd_viewer/openpmd_timeseries/main.py:486-493 | One turn of the batching loop always leaves a batch open |
| MemoryBatch.StepKeeps | openpmd_viewer/openpmd_timeseries/main.py:486-493 | A turn preserves the batching invariant: the batches joined are the blocks seen so far, and only single-block batches may exceed the budget |
| MemoryBatch.StepOpens | openpmd_viewer/openpmd_timeseries/main.py:487-490 | A block over the last batch's budget opens a batch of its own |
| MemoryBatch.StepExtends | openpmd_viewer/openpmd_timeseries/main.py:492-493 | A block within the budget joins the last batch |
| MemoryBatch.ReadBatches | openpmd_viewer/openpmd_timeseries/main.py:483-493 | Joining the batches gives back the blocks in order. Every batch of two or more blocks stays within `max_N`, and each batch's successor's first block would have pushed it over. The leading batch is empty exactly when the first block alone exceeds `max_N` (or there are no blocks) |
| MemoryBatch.Batches | openpmd_viewer/openpmd_timeseries/main.py:483-493 | The batches join back to the blocks and fit the budget. The first is empty exactly when there are no blocks or the first block alone exceeds `max_N` |
| MemoryBatch.AddBlock | openpmd_viewer/openpmd_timeseries/main.py:486-493 | The loop's `current_n` is always the last batch's particle count |
| MemoryBatch.BatchReadLength | openpmd_viewer/openpmd_timeseries/main.py:497-500 | A batch's read tuples (`batch_to_tuple` of each block, main.py:171-172) are ordered, and their lengths add up to the batch's particle count, the length of its selection array |
| MemoryBatch.ReadBatch | openpmd_viewer/openpmd_timeseries/main.py:496-505 | A non-empty batch's chunked read, when in extent, is exactly as long as its selection array. An empty batch gets a full read |
| MemoryBatch.LeadingEmptyBatch | openpmd_viewer/openpmd_timeseries/main.py:483-497 | A first block over `max_N` leaves an empty first batch whose `read_chunk_range` is `[]` |
| MemoryBatch.LeadingEmptyBatchExample | openpmd_viewer/openpmd_timeseries/main.py:483-497 | One block of 10 particles with `max_N` 5 gives the batches `[[], [(0, 10)]]`, the first with an empty `read_chunk_range`. The corrected batching gives `[[(0, 10)]]` |
| MemoryBatch.CorrectedBatches | openpmd_viewer/openpmd_timeseries/main.py:483-493 | Corrected batching: the batches join back to the blocks and keep the budget rules, and with any blocks at all no batch is empty |
| MemoryBatch.BatchedSelection | openpmd_viewer/openpmd_timeseries/main.py:524-547 | Selecting each batch with its own mask and joining equals selecting the joined data with the joined masks |
| MemoryBatch.SelectEach | openpmd_viewer/openpmd_timeseries/main.py:537 | `data[select_array_list[i]]` applied batch by batch |
| ParticleFilter.LogicalAnd | openpmd_viewer/openpmd_timeseries/main.py:802-810 | numpy `logical_and` with broadcasting: equal lengths combine elementwise, and a length-1 side broadcasts. Any other pair raises |
| ParticleFilter.ApplyRuleFacts | openpmd_viewer/openpmd_timeseries/main.py:798-812 | A quantity whose array fits keeps row r iff the row was kept and `(lower absent or v > lower) and (upper absent or v < upper)`. A misfit raises |
| ParticleFilter.FilterMask | openpmd_viewer/openpmd_timeseries/main.py:790-812 | The particle mask keeps row r iff every selected quantity's bounds admit its value at r, strictly |
| ParticleFilter.ApplySelection | openpmd_viewer/openpmd_timeseries/main.py:814-818 | Records of more than one element in `var_list` are reduced to the masked rows. Scalars and other keys are untouched, and a mask of the wrong length raises |
| ParticleFilter.KeptValuesAdmitted | openpmd_viewer/openpmd_timeseries/main.py:790-818 | Every value surviving the filter lies strictly inside its quantity's bounds |
| ParticleTracker.SortIds | openpmd_viewer/openpmd_timeseries/particle_tracker.py:121-122 | `selected_pid.sort()` gives the same ids, ascending |
| ParticleTracker.Insert | openpmd_viewer/openpmd_timeseries/particle_tracker.py:122 | Inserting an id into a sorted list keeps it sorted and adds exactly that id |
| ParticleTracker.TrackedIds | openpmd_viewer/openpmd_timeseries/particle_tracker.py:119-122 | The tracked ids are sorted at construction unless the geos index is used, which is the merge-join precondition |
| ParticleTracker.ExtractIndices | openpmd_viewer/openpmd_timeseries/particle_tracker.py:316-350 | The merge-join gives `i_fill <= i_select <= N_selected` and writes one entry per consumed id when preserving. Every non -1 entry is the original index of an equal id. On sorted inputs the result is exactly the expected join and the unconsumed ids are absent |
| ParticleTracker.SortedPidSameIds | openpmd_viewer/openpmd_timeseries/particle_tracker.py:292-293 | Sorting through `argsort` keeps exactly the ids of `pid` |
| ParticleTracker.GetExtractionIndices | openpmd_viewer/openpmd_timeseries/particle_tracker.py:260-314 | With preserve the result has one entry per tracked id and is -1-padded. Without it, it is truncated to the ids found. On sorted tracked ids it is the expected join |
| ParticleTracker.PreservedIndexMeaning | openpmd_viewer/openpmd_timeseries/particle_tracker.py:305-308 | With preserve, entry j is -1 iff tracked id j is not in `pid`, and otherwise points at a `pid` entry equal to it |
| ParticleTracker.CompactIndexMeaning | openpmd_viewer/openpmd_timeseries/particle_tracker.py:309-312 | Without preserve, the result holds one index per tracked id present in `pid`. Entry f points at a particle whose id is the f-th present tracked id, in tracked order |
| ParticleTracker.PresentIds | openpmd_viewer/openpmd_timeseries/particle_tracker.py:309-312 | The tracked ids present in `pid`, in tracked order; each is both tracked and present |
| ParticleTracker.Take | openpmd_viewer/openpmd_timeseries/particle_tracker.py:246 | numpy fancy indexing `q[indices]`: it raises on an out-of-range index, and a negative index counts from the end |
| ParticleTracker.ExtractQuantity | openpmd_viewer/openpmd_timeseries/particle_tracker.py:224-258 | Without preserve it is a plain gather. With preserve, float arrays get NaN exactly where the index is -1, and other arrays become the tracked ids |
| ParticleTracker.TrackedFloatValues | openpmd_viewer/openpmd_timeseries/particle_tracker.py:246-253 | With preserve, a float quantity holds NaN for each absent tracked particle and that particle's own value for each present one |
| ParticleTracker.TrackQuantities | openpmd_viewer/openpmd_timeseries/particle_tracker.py:162-172 | Every array of more than one element is reduced to the tracked particles, and scalars pass through |
| ParticleTracker.MarkBlock | openpmd_viewer/openpmd_timeseries/particle_tracker.py:207-210 | Sets exactly the positions of one block's stretch whose id is in the block's id list |
| ParticleTracker.MarkGroup | openpmd_viewer/openpmd_timeseries/particle_tracker.py:201-212 | After a group's turn, a position is set iff it was set before or is in one of the group's block stretches and holds an id of that block |
| ParticleTracker.TraceMask | openpmd_viewer/openpmd_timeseries/particle_tracker.py:195-212 | The mask is as long as the grouped read, and a position is set iff some block whose stretch holds it lists the id read there |
| ParticleTracker.TracedRowSelected | openpmd_viewer/openpmd_timeseries/particle_tracker.py:207-210 | Row `row` of block `j` sits at `(start - group start) + prev_offset + i` within the read, and is selected when its id is in the block's list |
| ParticleTracker.TracedPositionSound | openpmd_viewer/openpmd_timeseries/particle_tracker.py:201-212 | Every selected position holds the id of a block row that lists it |
| ParticleTracker.ReadTraced | openpmd_viewer/openpmd_timeseries/particle_tracker.py:195-220 | Each quantity, read over the grouped tuples, is reduced by the tracing mask |
| ParticleTracker.TrackWithIndex | openpmd_viewer/openpmd_timeseries/particle_tracker.py:174-220 | Geos mode: no traced block gives one empty array per quantity. Otherwise each quantity is the grouped read reduced to the rows whose id is listed by the block that holds them |
| ChunkReader.Split | openpmd_viewer/openpmd_timeseries/data_reader/io_reader/particle_reader.py:54-56 | `str.split('/')`: at least one piece, none containing the separator |
| ChunkReader.SplitJoin | openpmd_viewer/openpmd_timeseries/data_reader/io_reader/particle_reader.py:54-56 | Joining the pieces with the separator gives back the name |
| ChunkReader.TranslateName | openpmd_viewer/openpmd_timeseries/data_reader/io_reader/particle_reader.py:43-59 | The seven fixed names map via the table. A name with one '/' splits into record and component (more raise on unpacking). Any other name becomes (name, None) |
| ChunkReader.OutputType | openpmd_viewer/openpmd_timeseries/data_reader/io_reader/particle_reader.py:69-72 | `id` is read as unsigned 64-bit, every other record as double |
| ChunkReader.Gather | openpmd_viewer/openpmd_timeseries/data_reader/io_reader/particle_reader.py:199-206 | The chunks' rows one after the other, as long as the ranges together |
| ChunkReader.GatherAt | openpmd_viewer/openpmd_timeseries/data_reader/io_reader/particle_reader.py:199-206 | Row i of chunk k is written at the sum of the earlier chunks' sizes plus i |
| ChunkReader.Convert | openpmd_viewer/openpmd_timeseries/data_reader/io_reader/particle_reader.py:212-213 | The cast happens only when an output type is given and differs from the dtype |
| ChunkReader.GcGetData | openpmd_viewer/openpmd_timeseries/data_reader/io_reader/particle_reader.py:196-214 | The buffer of `length` zeros, holding the chunks back to back from 0. It fails iff a chunk leaves the component or the chunks overrun `length` |
| ChunkReader.GetDataNew | openpmd_viewer/openpmd_timeseries/data_reader/io_reader/particle_reader.py:216-222 | A None or empty range list delegates to a full read. Otherwise the result is exactly the concatenated chunks, converted, with length the sum of `end - start` |
| ChunkReader.ReadSpeciesDataRaw | openpmd_viewer/openpmd_timeseries/data_reader/io_reader/particle_reader.py:40-80 | `read_species_data` with `skip_offset`: translate the name, pick the output type, and return the chunked read untouched. A name that does not translate fails with a name error |
| MinMaxQuery.SliceResults | src/minmaxquery.cpp:17-26 | The slice map holds exactly the overlapping slices, keyed by their start |
| MinMaxQuery.QueryMinMaxData | src/minmaxquery.cpp:5-33 | A block is returned iff `min <= hi && max >= lo`. Its key is its start in decimal, and the first block with that key supplies `(start, end)` |
| MinMaxQuery.QueryEntry | src/minmaxquery.cpp:12-28 | Each entry's key is its start in decimal and comes from an overlapping block. `q` is empty with secondary "none", and otherwise holds exactly the overlapping slices listed under `key + start` |
| MinMaxQuery.SliceEntry | src/minmaxquery.cpp:21-25 | Each slice entry carries the range of the first overlapping slice with its start |
| MinMaxQuery.DefaultBoundsReturnAll | include/geosindex/minmaxquery.h:24 | With the default bounds (-inf, +inf) every block is returned |
| QueryResults.InsertAll | src/minmaxquery.cpp:14-15 | `std::map::insert` over a sequence: the keys are those of the kept items, and the first kept item with a key supplies its value |
| QueryResults.InsertAllEntry | src/rtreequery.cpp:97 | Every entry of the map is the value of the first kept item with its key |
| MinMaxBuild.ProcessMinMaxNodeAppends | src/minmaxbuild.cpp:4-42 | `processMinMaxNode` appends exactly one node covering `(start, end)` under `key`. Slice lists go under `key + start`, and every other list is untouched |
| MinMaxBuild.AppendedPersists | src/minmaxbuild.cpp:44-50 | An append under another key leaves an earlier append intact |
| MinMaxBuild.ProcessThree | src/minmaxbuild.cpp:46-48 | The three calls append one node `(start, end)` under each axis key and touch no other list |
| MinMaxBuild.ProcessBlockDataAppends | src/minmaxbuild.cpp:44-50 | `processBlockData` indexes `key+"x"`, `key+"y"` and `key+"z"`, each with `end = blockStart + blockCount`, and nothing else |
| MinMaxBuild.SlicesTile | src/minmaxbuild.cpp:13-22 | The in-block slices tile `[start, end)` at offsets 0, S, 2S, ... |
| MinMaxBuild.SliceBounds | src/minmaxbuild.cpp:13-27 | Every slice records exactly the min and max of the values in its range |
| MinMaxBuild.SeqMinSplit | src/minmaxbuild.cpp:29-30 | The minimum of a vector is the smaller of the minima of its two parts |
| MinMaxBuild.SeqMaxSplit | src/minmaxbuild.cpp:29-30 | The maximum of a vector is the larger of the maxima of its two parts |
| MinMaxBuild.FoldSlicesFrom | src/minmaxbuild.cpp:10-32 | Folding the slices' bounds into a seed gives the seed combined with the bounds of the remaining data |
| MinMaxBuild.BlockBoundsAgree | src/minmaxbuild.cpp:6-32 | In "minmax" mode the block's bounds, folded from (+inf, -inf) over its slices, equal the direct min/max of "none" mode |
| MinMaxBuild.EmptyBlockBounds | src/minmaxbuild.cpp:10-12 | An empty block in "minmax" mode keeps the fold seed (+inf, -inf) |
| BlockRecords.SeqMinIsLeast | src/rtreebuild.cpp:12-16 | `*std::min_element` is below every element and is one of them |
| BlockRecords.SeqMaxIsGreatest | src/rtreebuild.cpp:13-17 | `*std::max_element` is above every element and is one of them |
| ExtReal.Min | src/minmaxbuild.cpp:29 | `std::min` on doubles: below both, and one of them |
| ExtReal.Max | src/minmaxbuild.cpp:30 | `std::max` on doubles: above both, and one of them |
| RTreeBuild.BlockEnvelope | src/rtreebuild.cpp:11-18 | The block envelope is the per-axis min and max of the block's values, with `start = blockStart`, `end = blockStart + blockCount`, and no filter |
| RTreeBuild.ProcessBlockData | src/rtreebuild.cpp:9-29 | Secondary "none" appends the envelope under `blockData.key` and leaves other keys alone. Other secondary types change nothing |
| RTreeBuild.InitBloomFacts | src/rtreebuild.cpp:102-120 | `initBloomFilter` leaves the children's ids, then a leaf's own range, in `id_data_sub`. It keeps the tree's shape, levels and ranges |
| RTreeBuild.InitBloomFilters | src/rtreebuild.cpp:102-126 | Every node below the root gets the filter of exactly the ids under it, at strength `max_level - level + 1`. The root gets one too, unless it is a non-leaf node at `max_level`, which returns without one |
| RTreeBuild.RTreeFileRoundTrip | src/rtreebuild.cpp:31-77 | Reading a key back from the R-tree index file and deserializing it rebuilds exactly the tree written for that key |
| RTreeQuery.MatchEnvExact | src/rtreequery.cpp:9-20 | `matchEnv` collects exactly the leaves whose bounds and all of whose ancestors' bounds intersect the query envelope |
| RTreeQuery.MatchEnvForestExact | src/rtreequery.cpp:15-17 | The children loop collects exactly the leaves reachable through some child |
| RTreeQuery.QueryByEnvelopeExact | src/rtreequery.cpp:48-66 | `queryByEnvelope` returns an envelope exactly when it belongs to a leaf reached through nodes that all intersect the query; a list that rebuilds no tree matches nothing |
| RTreeQuery.QueryRTreeXYZ | src/rtreequery.cpp:68-100 | The result's keys are exactly the start keys of the leaves matched in the tree under `key`. `QueryRTreeXYZEntry` states what each entry holds |
| RTreeQuery.QueryRTreeXYZKeys | src/rtreequery.cpp:48-100 | A key is in the result iff it is the start of a leaf reachable under the query envelope |
| RTreeQuery.QueryKeySource | src/rtreequery.cpp:76-97 | Every key of the result is the start of a reachable leaf |
| RTreeQuery.QueryKeyProduced | src/rtreequery.cpp:76-97 | Every reachable leaf's start is a key of the result |
| RTreeQuery.QueryRTreeXYZEntry | src/rtreequery.cpp:76-97 | Each entry carries the start and end of the first matched leaf with its key, and that leaf is reachable. With secondary "none", `q` is empty. Otherwise `q`'s keys are exactly the start keys of the slices matched in the tree under `key + start`, and each holds the start and end of the first such slice |
| RTreeTracing.AddId | src/rtreequery.cpp:29-39 | Appends the id to the entry keyed by the leaf's start, creating it with the leaf's `(start, end)` if missing. Other entries are untouched |
| RTreeTracing.MatchIdIsAddIdAll | src/rtreequery.cpp:22-45 | `matchId` records the id for exactly the leaves reached through may-match children (never the node itself), in depth-first order |
| RTreeTracing.TracingResultShape | src/rtreequery.cpp:130-152 | For any tracked list, in any order, `queryRTreeTracing` keys each entry by its start and records only tracked ids. Each id list is sorted when the tracked ids are |
| RTreeTracing.QueryRTreeTracing | src/rtreequery.cpp:130-152 | Every entry is keyed by the decimal text of its start and holds only tracked ids. A list that rebuilds no tree answers the empty map |
| RTreeTracing.TraceAllGrows | src/rtreequery.cpp:148-150 | Tracing later ids never removes entries or earlier ids |
| RTreeTracing.AddIdAllRecords | src/rtreequery.cpp:29-39 | Every matched leaf's entry holds the id afterwards |
| RTreeTracing.MatchedLeavesComplete | src/rtreequery.cpp:22-45 | With filters that have no false negatives set as `initBloomFilter` sets them, every leaf whose range holds the id is reached |
| RTreeTracing.TracingFindsTrackedIds | src/rtreequery.cpp:130-152 | Tracing over a tree whose filters `initBloomFilter` set finds every tracked id in the entry of each leaf whose range holds it |
| RTreeTracing.TraceAllRecords | src/rtreequery.cpp:148-150 | An id matched at a leaf is in that leaf's entry at the end of the loop |
| RTreeInteracted.SetIntersection | src/rtreequery.cpp:167-178 | `std::set_intersection` keeps only ids present in both lists |
| RTreeInteracted.SetIntersectionExact | src/rtreequery.cpp:167-178 | On sorted lists the merge keeps exactly the common ids, sorted |
| RTreeInteracted.Interact | src/rtreequery.cpp:163-179 | Result keys are the position keys that the momentum result also has, with the position entry's start and end |
| RTreeInteracted.TracingInteracted | src/rtreequery.cpp:154-184 | The query as written fails exactly when the key has no "position" |
| RTreeInteracted.MomentumKeyDiffers | src/rtreequery.cpp:159-163 | Replacing "position" by "momentum" always changes the key |
| RTreeInteracted.ElseBranchUnreachable | src/rtreequery.cpp:158-181 | A key without "position" throws, and one with it always takes the intersecting branch, so the position-only branch never runs |
| RTreeInteracted.MomentumKeyThrows | src/rtreequery.cpp:159 | The key "momentum_x" throws |
| RTreeInteracted.TracingInteractedCorrected | src/rtreequery.cpp:180-181 | Corrected: a key without "position" returns the position result |
| RTreeInteracted.CorrectedInteraction | src/rtreequery.cpp:154-184 | The corrected query, which sorts both id lists before merging, agrees with the source wherever the source returns on sorted tracked ids. With "position" and any tracked order, the keys are those common to both results, and each id list is sorted and holds exactly the ids both results report |
| RTreeInteracted.InteractSorted | src/rtreequery.cpp:163-179 | Corrected merge: result keys are the position keys the momentum result also has, with the position entry's start and end |
| RTreeInteracted.InteractSortedExact | src/rtreequery.cpp:167-178 | Sorting before the merge keeps exactly the ids both lists hold, sorted, whatever order the lists came in |
| RTreeInteracted.InteractSortedOfSorted | src/rtreequery.cpp:163-179 | On lists that are already sorted, the corrected merge is the source's merge |
| RTreeInteracted.UnsortedIdsDropCommonId | src/rtreequery.cpp:173-175 | With tracked ids [5, 3], a position leaf reporting [5, 3] (5 a filter false positive) and a momentum leaf reporting [3], the source's entry is empty, while the corrected query keeps 3 |
| TreeCodec.Serialize | src/utils.cpp:8-28 | One record per node in preorder, the node's own record first. The count equals the number of nodes |
| TreeCodec.SerializeForest | src/utils.cpp:25-27 | The children's records, in child order, as many as their nodes |
| TreeCodec.Deserialize | src/utils.cpp:30-43 | `deSerialize` rebuilds a node from the record at `seq`, and the returned index is that of the subtree's last record |
| TreeCodec.DeserializeChildren | src/utils.cpp:35-41 | The children loop reads exactly `childsize` children, moving forward |
| TreeCodec.DeserializeSerialize | src/utils.cpp:8-43 | A serialized tree embedded in a record list deserializes back to the same tree, ending at its last record |
| TreeCodec.DeserializeSerializeForest | src/utils.cpp:25-41 | Serialized children embedded after a record deserialize back to the same children |
| TreeCodec.RoundTrip | src/utils.cpp:8-43 | `deSerialize(serialize(t))` rebuilds `t` |
| TreeCodec.LeafRecordConsumesOne | src/utils.cpp:30-35 | A record with `childsize == 0` consumes exactly one record |
| IndexFile.KeyBytes | src/minmaxbuild.cpp:73-78 | A key name stored as one byte per character |
| IndexFile.KeyBytesRoundTrip | include/geosindex/querybase.h:130-139 | Key names read back as they were written |
| IndexFile.MetaNodes | src/minmaxbuild.cpp:61-70 | One metadata node per entry, in entry order |
| IndexFile.WriteIndexFile | src/minmaxbuild.cpp:52-81 | Entry i is recorded with `startbytes` equal to the running cursor and `length` equal to its payload length. The cursor advances by that length, and the metadata and its 8-byte length follow |
| IndexFile.PayloadAt | src/minmaxbuild.cpp:61-70 | Entry i's payload sits at `[startbytes, startbytes + length)` of the payload area |
| IndexFile.DecodeNodeRecords | include/geosindex/querybase.h:130-135 | Decoding the metadata records gives as many nodes as records |
| IndexFile.MetadataMap | include/geosindex/querybase.h:137-139 | The metadata map is keyed by the nodes' key names |
| IndexFile.MetadataMapLastWins | include/geosindex/querybase.h:137-139 | A later node with the same key name overwrites an earlier one |
| IndexFile.LoadFileMetadata | include/geosindex/querybase.h:118-140 | The trailer's last 8 bytes hold the metadata length, the metadata occupies the bytes just before them, and the result is the map of its nodes. A file shorter than the trailer fails |
| IndexFile.ReadNodeList | include/geosindex/querybase.h:150-162 | An absent key, or one with `startbytes == 0 && length == 0`, leaves the message unparsed. Otherwise exactly the bytes `[startbytes, startbytes + length)` are returned |
| IndexFile.DecodeNodeRecordsOfNodes | include/geosindex/querybase.h:130-135 | The metadata records decode back to the nodes written |
| IndexFile.ReadBackPayload | include/geosindex/querybase.h:118-162 | For a file laid out by the writer, reading key k yields exactly the payload written for k, or nothing when that payload is empty and at offset 0 |
| IndexFile.ReadFromWrittenMetadata | include/geosindex/querybase.h:150-162 | Reading a key through the metadata the writer built yields its payload |
| IndexFile.NodeForKey | include/geosindex/querybase.h:137-139 | With distinct keys, the map holds each key's own node |
| IndexFile.PayloadInFile | src/minmaxbuild.cpp:61-78 | Entry i's payload lies in the file at its recorded offset |
| IndexFile.ReadAbsentKey | include/geosindex/querybase.h:153-158 | A key the writer did not store reads as "not found" |
| IndexFile.MetadataRoundTrip | include/geosindex/querybase.h:130-135 | The metadata list decodes back to the nodes written |
| IndexFile.TrailerPointsAtMetadata | include/geosindex/querybase.h:122-132 | The trailer of `body + meta + size(meta)` points back at exactly `meta` |
| IndexFile.LoadsMetadata | include/geosindex/querybase.h:118-140 | The metadata of a writer-laid-out file loads to the map of its nodes |
| IndexFile.ToInt32 | include/geosindex/buildbase.h:90 | A value stored in a 32-bit `int`: in range and congruent modulo 2^32 |
| IndexFile.CursorAsWrittenIsWrapped | include/geosindex/buildbase.h:90 | The `int` cursor is the true offset reduced to 32 bits |
| IndexFile.Int32CursorMisrecords | include/geosindex/buildbase.h:90 | Once the payloads before an entry reach 2^31 bytes, the recorded `startbytes` is negative and not the entry's offset |
| IndexFile.Int32CursorExample | include/geosindex/buildbase.h:90 | A first payload of exactly 2^31 bytes records the second key at -2^31 |
| SizeCodec.DecodeEncodeLE | tests/testFileWriteAndRead.cpp:19-24 | Decoding the bytes of a value that fits gives it back |
| SizeCodec.EncodeDecodeLE | tests/testFileWriteAndRead.cpp:40-45 | Every byte string is the encoding of what it decodes to |
| SizeCodec.EncodeSize | tests/testFileWriteAndRead.cpp:19 | The eight bytes of a `size_t` |
| SizeCodec.DecodeSize | tests/testFileWriteAndRead.cpp:40 | Reading eight bytes gives a `size_t` value |
| SizeCodec.SizeRoundTrip | tests/testFileWriteAndRead.cpp:19-40 | Reading back the eight bytes written for n gives n |
| SizeCodec.SizeRoundTripBytes | tests/testFileWriteAndRead.cpp:19-40 | Any eight bytes are the encoding of the size they decode to |
| SizeCodec.EncodeSizeWrapping | include/geosindex/querybase.h:122-126 | A `size_t` computed with unsigned arithmetic is written modulo 2^64 |
| StringListFile.EncodeRecords | tests/testFileWriteAndRead.cpp:21-26 | One (length, bytes) record per string, in list order |
| StringListFile.Encode | tests/testFileWriteAndRead.cpp:17-26 | The file is the count and then the records, of size `8 * (1 + n) + sum of lengths` |
| StringListFile.DecodeRecords | tests/testFileWriteAndRead.cpp:43-50 | Reading n records gives n strings |
| StringListFile.Decode | tests/testFileWriteAndRead.cpp:38-50 | Reads the count, then exactly that many length-prefixed strings |
| StringListFile.DecodeEncodeRecords | tests/testFileWriteAndRead.cpp:21-50 | The records read back as the strings, whatever follows them |
| StringListFile.DecodeEncode | tests/testFileWriteAndRead.cpp:7-53 | Reading the file back yields the original list |
| StringListFile.ExampleFile | tests/testFileWriteAndRead.cpp:7-53 | The example list's file is 64 bytes and reads back intact |
| AttrTokenizer.FindFirstOf | tests/testReadAndWriteAttr.cpp:89-90 | `find_first_of`: the first position at or after `from` in the character class, or none |
| AttrTokenizer.Tokenize | tests/testReadAndWriteAttr.cpp:86-98 | The scanning loop extends the tokens collected so far, for any start class that excludes the delimiters |
| AttrTokenizer.TokenizeShape | tests/testReadAndWriteAttr.cpp:89-97 | Every token starts with a start-class character (a digit, as written) and holds no ',', '}' or ' '. At most `elements` tokens are produced |
| AttrTokenizer.TokenizeRest | tests/testReadAndWriteAttr.cpp:86-98 | Scanning stops as soon as `elements` tokens are collected. Asking for no tokens, or for more than the text holds, runs past the last number and throws `out_of_range` |
| AttrTokenizer.TokenizeFormat | tests/testReadAndWriteAttr.cpp:86-98 | Reading back a printed array `{ a, b, ... }` gives its tokens when the element count matches |
| AttrTokenizer.SignDropped | tests/testReadAndWriteAttr.cpp:89 | A leading '-' is never part of a token: "{ -1, 2 }" with two elements reads as "1" and "2" |
| AttrTokenizer.SignKept | tests/testReadAndWriteAttr.cpp:89 | Corrected: with '-' among the start characters, "{ -1, 2 }" reads as "-1" and "2" |
| AttrTokenizer.SignedTokenizeFormat | tests/testReadAndWriteAttr.cpp:86-98 | Corrected: reading back a printed array of signed numbers gives its tokens, signs included, when the element count matches |
| AttrTokenizer.Unquote | tests/testReadAndWriteAttr.cpp:105 | A string attribute drops its first and last character |
| AttrTokenizer.UnquoteQuoted | tests/testReadAndWriteAttr.cpp:105 | The surrounding quotes come off again |
| AttrTokenizer.CopyAttribute | tests/testReadAndWriteAttr.cpp:68-111 | Integer attributes succeed exactly when `stoul`/`stoull` find a number, and float and single-element double attributes exactly when `stof`/`stod` do. They then use the whole value, and otherwise throw `invalid_argument`. Multi-element doubles succeed exactly when the scan does and hold its tokens. Strings succeed exactly when non-empty and hold the value without its first and last character. Other types are skipped |
| AttrTokenizer.NumberBodySplit | tests/testReadAndWriteAttr.cpp:70 | Before looking for a number, the conversions skip the leading white space and then at most one '+' or '-'. The rest of the text is kept as it is |
| AttrTokenizer.UnsignedConversions | tests/testReadAndWriteAttr.cpp:70 | `stoul` finds no number in "abc" or ".5", and accepts " -7" |
| AttrTokenizer.FloatRejects | tests/testReadAndWriteAttr.cpp:74 | `stof` finds no number in empty text or in "e5" |
| AttrTokenizer.FloatAccepts | tests/testReadAndWriteAttr.cpp:80 | `stod` accepts ".5" and "-INF" |
| BlockTiling.PositionToIndices | tests/testChangeBlockSizeByVariable.cpp:8-20 | `positionToIndices` returns one index per dimension, each below its extent |
| BlockTiling.PositionToIndicesRowMajor | tests/testChangeBlockSizeByVariable.cpp:13-17 | For a position inside the array, the indices count back to it last-dimension-fastest |
| BlockTiling.RowMajorPositionToIndices | tests/testChangeBlockSizeByVariable.cpp:8-20 | Every in-bounds index vector is recovered from its row-major position |
| BlockTiling.IndicesToPosition | tests/testChangeBlockSizeByVariable.cpp:22-32 | `indicesToPosition` is `indices[0] + sum of indices[i] * product of shape[j] for j < i` |
| BlockTiling.OneDimensionInverse | tests/testChangeBlockSizeByVariable.cpp:8-32 | In one dimension the two conversions are inverse |
| BlockTiling.IndexOrderMismatch | tests/testChangeBlockSizeByVariable.cpp:8-32 | In two dimensions they are not: position 1 of a 2-by-3 grid goes to (0, 1), which goes back to 2 |
| BlockTiling.BlockExtent | tests/testChangeBlockSizeByVariable.cpp:181-192 | Each block is at least the block shape, and the last takes the remainder, less than twice the block shape |
| BlockTiling.DimensionTiling | tests/testChangeBlockSizeByVariable.cpp:136-140 | The blocks along a dimension tile `[0, shape)`: start at 0, each starts where the previous ends, and the last ends at the extent |
| BlockTiling.ElementBlockOverflow | tests/testChangeBlockSizeByVariable.cpp:146-156 | As written, element 9 of extent 10 in blocks of 4 is sent to block 2 of 2 |
| BlockTiling.ElementBlock | tests/testChangeBlockSizeByVariable.cpp:153 | Corrected: every element is sent to an existing block |
| BlockTiling.ElementInItsBlock | tests/testChangeBlockSizeByVariable.cpp:150-156 | Corrected: every element lies inside the block it is sent to |
| RangeExtract.HstackLength | tests/test_hstack_vs_mask.py:14-15 | Concatenating the slices gives the ranges' total length, `sum(end - start + 1)` |
| RangeExtract.BuildMask | tests/test_hstack_vs_mask.py:20-22 | The mask is set exactly at the positions some inclusive range covers |
| RangeExtract.Select | tests/test_hstack_vs_mask.py:23 | `array[mask]` keeps the marked elements in index order |
| RangeExtract.MaskSelectsHstack | tests/test_hstack_vs_mask.py:14-40 | For sorted, disjoint ranges, mask extraction equals concatenating the slices |
| RangeExtract.CalculateTotalLength | tests/test_hstack_vs_mask.py:56-60 | `calculate_total_length` is the sum of `end - start + 1` |
| RangeExtract.FillRanges | tests/test_hstack_vs_mask.py:63-74 | Preallocated direct filling, as in `extract_ranges_jit`, equals concatenating the slices, in range order |
| BuildJobs.InitJobs | src/buildbase.cpp:78-146 | One metadata row per block, in order. A job is closed after block i iff `(i+1) % blockBatchSize == 0` or i is last, giving ceil(n / blockBatchSize) jobs. Job k starts at its first block's start |
| BuildJobs.WrapSub | src/buildbase.cpp:110 | `last.start + last.count - batchStart` in `size_t` |
| BuildJobs.JobsTile | src/buildbase.cpp:99-124 | For contiguous blocks, job k covers exactly its blocks' rows, and the next job starts where it ends |
| BuildJobs.Piece | src/buildbase.cpp:211-229 | A kept block's data is the job buffer's `[block.start - job.start, + block.count)` |
| BuildJobs.BatchRead | src/buildbase.cpp:197-231 | Every block data produced lies within its job |
| BuildJobs.BatchReadSkips | src/buildbase.cpp:201-203 | Blocks before the job's start are skipped |
| BuildJobs.BatchReadRun | src/buildbase.cpp:199-231 | From the job's first block to its last, each block yields its piece, and the loop breaks after the last |
| BuildJobs.BatchReadJobBlocks | src/buildbase.cpp:148-231 | A job from `initJobsQueue` yields exactly its blocks' pieces, and its buffer is exactly as long as those blocks |
| BuildJobs.DigitRun | src/buildbase.cpp:92 | The leading digits of the text |
| BuildJobs.StoUL | src/buildbase.cpp:92 | On text without leading whitespace or sign, `std::stoul` succeeds iff the text starts with a digit |
| BuildJobs.ParseIteration | src/buildbase.cpp:92 | A key shorter than "/data/" throws |
| BuildJobs.ParseIterationOfKey | src/buildbase.cpp:92 | The iteration in `/data/<iteration>/...` is read back |
| BuildJobs.SavePathRaw | src/buildbase.cpp:132 | The save path is cut to a prefix |
| BuildJobs.SavePathRawCutsSuffix | src/buildbase.cpp:132 | The cut is at the last '_' |
| BuildJobs.SavePathRawWithoutSuffix | src/buildbase.cpp:132 | A path without '_' is kept whole |
| BuildJobs.VariableKeysMeaning | src/buildbase.cpp:82-88 | A key is produced iff some variable name contains the character, species and iteration, ends in 'x', and drops that 'x' to give the key |
| BuildJobs.KeyProduced | src/buildbase.cpp:84-88 | Every selected name contributes its key |
| BuildJobs.KeySource | src/buildbase.cpp:84-88 | Every key comes from a selected name |
| Decimal.ToDecimal | src/minmaxquery.cpp:14 | `std::to_string`: non-empty digits, with no leading zero unless the value is 0 |
| Decimal.ParseDecimal | openpmd_viewer/openpmd_timeseries/main.py:684 | On text without whitespace, sign or '_', `int(key)` succeeds exactly on non-empty digit strings |
| Decimal.ParseToDecimal | openpmd_viewer/openpmd_timeseries/main.py:684 | Reading a key back with `int()` gives the start it was made from |
| Decimal.ToDecimalInjective | src/minmaxquery.cpp:14 | Distinct starts give distinct keys |
| Decimal.KeyValue | openpmd_viewer/openpmd_timeseries/main.py:684 | `int(key)` for a key known to be decimal text |
| TextSearch.FindFirst | src/rtreequery.cpp:159 | `find`: the first occurrence, or none exactly when the pattern never occurs |
| TextSearch.FindLast | src/buildbase.cpp:132 | `find_last_of`: the last occurrence, or none exactly when the character never occurs |

## Left out

- Reading and writing through ADIOS2, openPMD-api, RocksDB, h5py and pandas
  are outside the model.
  - Data columns, block lists and metadata rows are parameters.
  - `writeIndexToRocksDB` and the RocksDB branch of `readNodeList` are not
    modelled.
- Protobuf encoding is outside the model.
  - Payloads (`MinMaxList`, `TreeNodeList`) are opaque bytes, or an
    `encode` function that its decoder inverts.
  - The metadata list uses a fixed-width stand-in (a count, then one
    length-prefixed record per node). Only the framing around it
    (payloads, metadata, 8-byte length) is the source's.
- The threading in `buildbase.cpp` is left out: `buildParallel`, the
  worker loops, the mutexes and the wait loop in `batchRead`. Its point is
  concurrency.
- `batchRead` is modelled for one-dimensional blocks. The source itself
  notes that its copy only works for 1-D data.
- Floating-point numerics are not modelled:
  - doubles are exact extended reals without NaN or rounding;
  - the values `stod`, `stof` and `stoul` compute are not modelled, only
    whether they find a number, and tokens stay text;
  - the momentum-constant scaling of bounds is left out;
  - the `skip_offset` support-data transform is left out;
  - the weighting and mass normalisation in `read_species_data` is left out.
- `ChunkReader.ReadSpeciesDataRaw`: covers the `skip_offset` return only.
  The position offset and normalisation steps after it are floating-point
  arithmetic.
- `GeosIndex` query construction that needs the momentum constant
  (main.py:590-634) is not modelled. The model starts from the list of
  per-quantity answers.
- The Bloom filter and GEOS are outside the model.
  - `KeyMayMatch` and `Envelope3d::intersects` are uninterpreted
    parameters.
  - `RTreeTracing.MatchedLeavesComplete` assumes the filter has no false
    negatives, which is the filter's documented guarantee.
  - STR-tree packing is not modelled; any tree is accepted.
- `queryRTreeMetaData` and `queryRTreeMetaDataRoot` are not modelled. They
  read the same trees and add nothing to the index arithmetic.
- Sorting `sorted_blocks` by `int(key)` is a given in the model.
  - `ReadPlan` and `ParticleTracker.TrackWithIndex` take blocks already
    sorted by start and disjoint.
  - `Decimal.ParseToDecimal` proves that the key order is the start order.
- `ParticleTracker.TrackWithIndex`: requires the traced blocks to ascend
  and not overlap. The source sorts them but relies on the leaves' ranges
  being disjoint.
- Python dict iteration order is an explicit sequence, and `std::map` order
  is an explicit sequence of entries.
- `max_N` is a parameter. Parsing `limit_memory_usage` and the CSV loading
  and deduplication of block metadata are left out.
- `ParticleFilter.FilterMask`: with exactly one particle, `logical_and`
  broadcasting accepts more shapes. The contract says only that a fitting
  input succeeds, not when a one-row input fails.
- `ParticleFilter.ApplySelection`: stated for a `var_list` without
  repeats. A repeated name would reapply the mask to an already reduced
  array.
- `ParticleTracker.ExtractIndices`: on unsorted inputs it states only the
  soundness of each entry. The source's result there is not a join.
- `AttrTokenizer.CopyAttribute`: the `out_of_range` that `stoul`, `stof`
  and `stod` throw on a number too large for their type is not modelled,
  and such a value counts as a success. The narrowing of `stoul`'s result to
  `uint32_t` is not modelled either, because values are not computed.
- `Reconcile.Reconcile`: an empty list of answers gives the `NoAnswers`
  outcome. The source would raise `IndexError` at main.py:668.
- `std::min_element` on an empty block is undefined behaviour.
  `RTreeBuild.BlockEnvelope` and "none"-mode `processMinMaxNode` require
  non-empty blocks.
- `size_t` arithmetic:
  - is modelled where it wraps: job counts (`BuildJobs.WrapSub`), and the
    metadata length in the trailer;
  - elsewhere positions are unbounded (e.g. `indicesToPosition`).
- Prints, timers and progress messages are not modelled.
- The Fastbit path, plotting and field reading in main.py are not
  modelled. Neither are the benchmark scripts, the ADIOS-only tests and the
  pybind module. Of the module, only its conversion of `q` into a fresh dict
  on every access is reflected, in `Reconcile.Intersect`.
- `RTreeQuery.QueryByEnvelope`, `RTreeTracing.QueryRTreeTracing`,
  `RTreeQuery.QueryRTreeXYZ` and `TreeCodec.Deserialize`: an absent key
  or a truncated record list is an out-of-range read in the source.
  - For an absent key, `readNodeList` leaves the list empty
    (querybase.h:153-158), and `deSerialize` then reads record 0.
  - The model answers these cases with no match or the empty map.
  - The `root_node == nullptr` checks (rtreequery.cpp:58, 141) never fire.
- `RTreeQuery.QueryRTreeXYZ` and `RTreeQuery.BlockEntry` read the
  secondary trees from the one map of lists that also holds the block trees.
  - The source loads the metadata of the primary file and the secondary
    file into one `metadataMap` (querybase.h:79, 87), so a name in both
    keeps the secondary file's offsets.
  - `queryByEnvelope` reads every key from the primary file
    (rtreequery.cpp:50), where the source itself marks a bug. So a tree
    under `key + start` would be read at the secondary file's offsets from
    the primary file.
  - The R-tree builder writes no secondary trees (rtreebuild.cpp:23-27),
    so no file it produces holds such a tree. The model therefore states
    the secondary query over lists as if read correctly.
- `BuildJobs.StoUL` and `Decimal.ParseDecimal` are stated for digit text.
  - Leading whitespace and a sign, which `stoul` accepts, are not modelled.
  - Neither is the `out_of_range` `stoul` throws past 2^64-1.
  - Python `int()` also accepts surrounding whitespace, a sign and '_'.
  - On such text the model reports a failure where the source may parse.
  - The texts they read are iteration numbers and starts written as plain
    decimal digits.
- `MinMaxBuild.SlicesFrom`, `MinMaxBuild.Slices` and the slice lemmas
  require a positive `inblockSliceSize`.
  - With 0, the loop at minmaxbuild.cpp:13 never advances and the source
    hangs.
  - Nothing in the source rejects a slice size of 0.
- The pointer lifetime in `deSerialize` and the `new char[]` buffer in
  `readNodeList` are left out. They are memory-safety concerns outside the
  functional model.

## Findings

| source | as written | input that shows it | evidently intended | confidence | as-written member | corrected member |
|---|---|---|---|---|---|---|
| openpmd_viewer/openpmd_timeseries/main.py:706-715 | Every group's rows are marked relative to that group's own first block. The running buffer offset is never added, so later groups overwrite the front of the mask | Blocks rows 0..1 and 10..11, split into two groups: the mask is `[true, false]` | Place group g after the earlier groups' rows, as particle_tracker.py:200-212 does with `prev_offset`; the mask is `[true, true]` | not executed | ReadPlan.GroupMaskDropsLaterGroups | ReadPlan.ConcatenatedGroupMasks |
| openpmd_viewer/openpmd_timeseries/main.py:728 | `np.concatenate` is applied to an already flat boolean array, which always raises | Any non-empty grouped read | Build one mask per group and concatenate the list, as the commented-out code at main.py:717-727 does | not executed | ReadPlan.GroupedConcatenateFails | ReadPlan.FlatMaskAt |
| tests/testChangeBlockSizeByVariable.cpp:8-32 | `positionToIndices` is last-dimension-fastest while `indicesToPosition` is first-dimension-fastest | Shape (2, 3), position 1: indices (0, 1) go back to position 2 | One order for both conversions, so that they are inverse | not executed | BlockTiling.IndexOrderMismatch | BlockTiling.RowMajorPositionToIndices |
| tests/testChangeBlockSizeByVariable.cpp:153 | `elem / blockShape` can equal the number of blocks when the extent is not a multiple of the block shape | Extent 10, block shape 4: element 9 goes to block 2 of 2 | Remainder elements belong to the last block, whose count already includes them | not executed | BlockTiling.ElementBlockOverflow | BlockTiling.ElementInItsBlock |
| include/geosindex/buildbase.h:90 | The file cursor is an `int`, so recorded offsets wrap once the payloads pass 2^31 bytes | A first payload of 2^31 bytes: the second key is recorded at -2^31 | A `size_t` cursor, which makes every payload read back | not executed | IndexFile.Int32CursorExample | IndexFile.ReadBackPayload |
| openpmd_viewer/openpmd_timeseries/main.py:483-500 | The batching opens a new batch whenever a block would pass `max_N`, even while the current batch is empty. A first block over `max_N` therefore leaves an empty batch in front. Its `read_chunk_range` is `[]`, which `get_data_new` (particle_reader.py:217-218) takes as "no ranges" and answers with a full read, while the batch's selection array has length 0 | Blocks `[(0, 10)]` with `max_N` 5: the batches are `[[], [(0, 10)]]`, and the first reads the whole component | Never emit an empty batch, so that every batch is read in chunks exactly as long as its selection array | not executed | MemoryBatch.LeadingEmptyBatchExample | MemoryBatch.CorrectedBatches |
| src/rtreequery.cpp:173-175 | `std::set_intersection` merges the two id lists in the order the ids were traced, which is the tracked order. On the geos path the tracked ids are never sorted (particle_tracker.py:121-122), so the lists can be unsorted and common ids are dropped | Tracked ids `[5, 3]`. The position leaf reports `[5, 3]`, 5 through a filter false positive. The momentum leaf reports `[3]`. The intersected entry is empty | Sort both lists before the merge; the entry is `[3]` | not executed | RTreeInteracted.UnsortedIdsDropCommonId | RTreeInteracted.CorrectedInteraction |
| tests/testReadAndWriteAttr.cpp:89 | A token starts at the first digit, so the minus sign of a negative element is skipped and the value is copied as positive | The value "{ -1, 2 }" with two elements: the tokens are "1" and "2" | Let a token start at a digit or '-', so the tokens are "-1" and "2" | not executed | AttrTokenizer.SignDropped | AttrTokenizer.SignedTokenizeFormat |
| src/rtreequery.cpp:159 | `replace(find("position"), ...)` throws when the key has no "position", and otherwise always changes the key, so the else branch at line 180 never runs | Key "momentum_x" | A key without "position" returns the position result alone | not executed | RTreeInteracted.MomentumKeyThrows | RTreeInteracted.CorrectedInteraction |
| openpmd_viewer/openpmd_timeseries/main.py:656-664 | The slice pruning deletes from `query_result[0][block_start].q`, but `q` is bound with `def_readwrite` over an STL map (python/geosindex.cpp:3, 33), so each access returns a fresh dict and the deletion is lost. Every surviving block keeps all of the first answer's slices, which the later slice reads (main.py:710, 743, 757) then cover | Answers holding block "0" with slices {"0", "5"} and {"0"}: slice "5" survives | A surviving block keeps only the slices every answer holds for it | not executed | Reconcile.SliceDeletionLost | Reconcile.IntersectSlices |

A related observation is that the read limit in `find_optimal_strategy`
bounds only the two halves of a split. It does not bound the groups
emitted (`ReadPlan.GroupSpanNotBounded`: with limit 5 a group of span 12 is
emitted). The model follows the code.

=== FILE: arith.dfy ===
/** Facts about multiplication and Euclidean division on naturals that the
    index arithmetic of the model leans on. */
module Arith {
  lemma MulMonotone(a: nat, b: nat, c: nat)
    requires a <= b
    ensures a * c <= b * c
  {
  }

  lemma MulSucc(q: nat, m: nat)
    ensures (q + 1) * m == q * m + m
  {
  }

  /** Euclidean division has one quotient and remainder. */
  lemma DivModUnique(x: int, a: int, r: int, m: int)
    requires 0 < m && 0 <= r < m && x == a * m + r
    ensures x % m == r && x / m == a
  {
    var d := x / m - a;
    assert d * m == r - x % m by {
      assert x == (x / m) * m + x % m;
      assert d * m == (x / m) * m - a * m;
    }
    if d >= 1 {
      MulMonotone(1, d, m);
      assert false;
    } else if d <= -1 {
      assert false;
    }
  }
}

=== FILE: attr_tokenizer.dfy ===
/** Copying ADIOS attributes (tests/testReadAndWriteAttr.cpp): the textual
    value of an attribute is turned back into what the writer defines. A
    multi-element double is cut into number tokens, a string loses its
    surrounding quotes. Whether `stoul`, `stof` and `stod` find a number is
    modelled; the values they compute are not: tokens stay text. */
module AttrTokenizer {
  import opened Wrappers
  import opened Decimal

  /** `std::string::substr` past the end of the string, and a number
      conversion that finds no number. */
  datatype TokenError = OutOfRange | InvalidArgument

  /** What the writer defines for one attribute. */
  datatype AttrValue =
    | Scalar(text: string)         // one number, converted whole
    | Doubles(tokens: seq<string>) // an array of doubles
    | Text(s: string)              // a string attribute
    | Skipped                      // a type the copier ignores

  /** The characters that end a number token: `",} "`. */
  predicate IsDelimiter(c: char)
  {
    c == ',' || c == '}' || c == ' '
  }

  /** `s.find_first_of(set, from)` for the character class `p`. */
  function FindFirstOf(s: string, p: char -> bool, from: nat): (r: Option<nat>)
    ensures r.Some? ==> from <= r.value < |s| && p(s[r.value])
    ensures r.Some? ==> forall k :: from <= k < r.value ==> !p(s[k])
    ensures r.None? ==> forall k :: from <= k < |s| ==> !p(s[k])
    decreases |s| - from
  {
    if from >= |s| then None
    else if p(s[from]) then Some(from)
    else FindFirstOf(s, p, from + 1)
  }

  /** The scanning loop on what is left of the value: a token starts at the
      first character of the class `isStart` (the digits, as written) and
      runs up to the next delimiter (or the end); scanning goes on from that
      delimiter and stops once `elements` tokens are collected. No start
      character left while the loop still runs means `substr` is handed
      `npos` and throws. */
  function Tokenize(s: string, isStart: char -> bool, elements: nat, acc: seq<string>): (r: Result<seq<string>, TokenError>)
    requires StartsNoDelimiter(isStart)
    ensures r.Success? ==> |acc| <= |r.value| && r.value[..|acc|] == acc
    decreases |s|
  {
    if |s| == 0 then Success(acc)
    else match FindFirstOf(s, isStart, 0)
      case None => Failure(OutOfRange)
      case Some(start) =>
        match FindFirstOf(s, IsDelimiter, start)
        case None => Success(acc + [s[start..]])
        case Some(end) =>
          var found := acc + [s[start..end]];
          if elements == |found| then Success(found)
          else
            var r := Tokenize(s[end..], isStart, elements, found);
            assert r.Success? ==> r.value[..|acc|] == found[..|acc|];
            r
  }

  /** What a token looks like: it starts with a character of the start
      class and holds no delimiter. With the digits as the start class, a
      leading '-' is never part of a token. */
  predicate IsToken(t: string, isStart: char -> bool)
  {
    |t| > 0 && isStart(t[0]) && forall k :: 0 <= k < |t| ==> !IsDelimiter(t[k])
  }

  /** The delimiters never start a token. */
  predicate StartsNoDelimiter(isStart: char -> bool)
  {
    !isStart(',') && !isStart('}') && !isStart(' ')
  }

  /** Every token the loop produces has the token shape, and no more than
      `elements` are produced when `elements` is positive. */
  lemma {:induction false} TokenizeShape(s: string, isStart: char -> bool, elements: nat, acc: seq<string>)
    requires StartsNoDelimiter(isStart)
    requires forall k :: 0 <= k < |acc| ==> IsToken(acc[k], isStart)
    requires elements == 0 || |acc| < elements
    ensures var r := Tokenize(s, isStart, elements, acc);
      r.Success? ==> (forall k :: 0 <= k < |r.value| ==> IsToken(r.value[k], isStart)) &&
                     (elements > 0 ==> |r.value| <= elements)
    decreases |s|
  {
    if |s| > 0 && FindFirstOf(s, isStart, 0).Some? {
      var start := FindFirstOf(s, isStart, 0).value;
      match FindFirstOf(s, IsDelimiter, start)
      case None =>
        assert IsToken(s[start..], isStart);
      case Some(end) =>
        var found := acc + [s[start..end]];
        assert IsToken(s[start..end], isStart);
        if elements != |found| {
          assert Tokenize(s, isStart, elements, acc) == Tokenize(s[end..], isStart, elements, found);
          TokenizeShape(s[end..], isStart, elements, found);
        }
    }
  }

  /** The rest of `"{ a, b, c }"` after its first token. */
  function Rest(ts: seq<string>): string
  {
    if |ts| == 0 then " }" else ", " + ts[0] + Rest(ts[1..])
  }

  /** How the reader prints an array attribute: `"{ 0, 0, 1, 1 }"`. */
  function Format(ts: seq<string>): string
    requires |ts| > 0
  {
    "{ " + ts[0] + Rest(ts[1..])
  }

  /** Scanning `sep + t + Rest(ts)`: the separator holds no start
      character, so the next token found is `t`, then the tokens of `ts`. */
  lemma {:induction false} TokenizeRest(sep: string, t: string, ts: seq<string>, isStart: char -> bool,
                                        elements: nat, acc: seq<string>)
    requires StartsNoDelimiter(isStart) && forall k :: 0 <= k < |sep| ==> !isStart(sep[k])
    requires IsToken(t, isStart) && forall k :: 0 <= k < |ts| ==> IsToken(ts[k], isStart)
    ensures elements == |acc| + 1 + |ts| ==> Tokenize(sep + t + Rest(ts), isStart, elements, acc) == Success(acc + [t] + ts)
    ensures elements == 0 || elements > |acc| + 1 + |ts| ==>
      Tokenize(sep + t + Rest(ts), isStart, elements, acc) == Failure(OutOfRange)
    decreases |ts|
  {
    var s := sep + t + Rest(ts);
    assert s[|sep|] == t[0];
    assert FindFirstOf(s, isStart, 0) == Some(|sep|);
    assert forall k :: |sep| <= k < |sep| + |t| ==> s[k] == t[k - |sep|];
    assert s[|sep| + |t|] == Rest(ts)[0];
    assert FindFirstOf(s, IsDelimiter, |sep|) == Some(|sep| + |t|);
    assert s[|sep|..|sep| + |t|] == t;
    assert s[|sep| + |t|..] == Rest(ts);
    if |ts| == 0 {
      var tail := " }";
      assert FindFirstOf(tail, isStart, 0).None? by {
        assert !isStart(tail[0]) && !isStart(tail[1]);
      }
      assert acc + [t] + ts == acc + [t];
    } else {
      assert Rest(ts) == ", " + ts[0] + Rest(ts[1..]);
      TokenizeRest(", ", ts[0], ts[1..], isStart, elements, acc + [t]);
      assert acc + [t] + [ts[0]] + ts[1..] == acc + [t] + ts;
    }
  }

  /** Reading back what the reader printed gives the tokens, when the
      declared element count matches; a larger count (or 0) runs past the
      last number and throws. */
  lemma TokenizeFormat(ts: seq<string>, isStart: char -> bool, elements: nat)
    requires StartsNoDelimiter(isStart) && !isStart('{')
    requires |ts| > 0 && forall k :: 0 <= k < |ts| ==> IsToken(ts[k], isStart)
    ensures elements == |ts| ==> Tokenize(Format(ts), isStart, elements, []) == Success(ts)
    ensures elements == 0 || elements > |ts| ==> Tokenize(Format(ts), isStart, elements, []).Failure?
  {
    var sep := "{ ";
    assert !isStart(sep[0]) && !isStart(sep[1]);
    TokenizeRest(sep, ts[0], ts[1..], isStart, elements, []);
    assert [] + [ts[0]] + ts[1..] == ts;
  }

  /** A negative number loses its sign: "{ -1, 2 }" read as two elements
      gives the tokens "1" and "2". */
  lemma SignDropped()
    ensures Tokenize("{ -1, 2 }", IsDigit, 2, []) == Success(["1", "2"])
  {
    var s := "{ -1, 2 }";
    assert !IsDigit(s[0]) && !IsDigit(s[1]) && !IsDigit(s[2]) && IsDigit(s[3]);
    assert FindFirstOf(s, IsDigit, 0) == Some(3);
    assert FindFirstOf(s, IsDelimiter, 3) == Some(4);
    assert s[3..4] == "1";
    var empty: seq<string> := [];
    assert empty + [s[3..4]] == ["1"];
    assert Tokenize(s, IsDigit, 2, []) == Tokenize(s[4..], IsDigit, 2, ["1"]);
    SecondTokenTwo(IsDigit, ["1"]);
    assert ["1"] + ["2"] == ["1", "2"];
  }

  /** The rest ", 2 }" after the first token holds the token "2". */
  lemma SecondTokenTwo(isStart: char -> bool, acc: seq<string>)
    requires StartsNoDelimiter(isStart) && isStart('2') && |acc| == 1
    ensures Tokenize("{ -1, 2 }"[4..], isStart, 2, acc) == Success(acc + ["2"])
  {
    var t := "{ -1, 2 }"[4..];
    assert t == ", 2 }";
    assert !isStart(t[0]) && !isStart(t[1]) && isStart(t[2]);
    assert FindFirstOf(t, isStart, 0) == Some(2);
    assert FindFirstOf(t, IsDelimiter, 2) == Some(3);
    assert t[2..3] == "2";
  }

  /** `value.substr(1, value.size() - 2)`: an empty value throws, a
      one-character value gives "" (the length wraps to `npos`). */
  function Unquote(value: string): (r: Result<string, TokenError>)
    ensures |value| >= 2 ==> r == Success(value[1..|value| - 1])
  {
    if |value| == 0 then Failure(OutOfRange)
    else if |value| == 1 then Success("")
    else Success(value[1..|value| - 1])
  }

  /** The start class the scan evidently means: a number may carry a
      leading minus sign. */
  predicate IsNumberStart(c: char)
  {
    IsDigit(c) || c == '-'
  }

  /** With the sign in the start class, "{ -1, 2 }" reads as "-1" and "2". */
  lemma SignKept()
    ensures Tokenize("{ -1, 2 }", IsNumberStart, 2, []) == Success(["-1", "2"])
  {
    var s := "{ -1, 2 }";
    assert !IsNumberStart(s[0]) && !IsNumberStart(s[1]) && IsNumberStart(s[2]);
    assert FindFirstOf(s, IsNumberStart, 0) == Some(2);
    assert FindFirstOf(s, IsDelimiter, 2) == Some(4);
    assert s[2..4] == "-1";
    var empty: seq<string> := [];
    assert empty + [s[2..4]] == ["-1"];
    assert Tokenize(s, IsNumberStart, 2, []) == Tokenize(s[4..], IsNumberStart, 2, ["-1"]);
    SecondTokenTwo(IsNumberStart, ["-1"]);
    assert ["-1"] + ["2"] == ["-1", "2"];
  }

  /** Reading back a printed array of signed numbers gives its tokens, signs
      included, when the element count matches. */
  lemma SignedTokenizeFormat(ts: seq<string>, elements: nat)
    requires |ts| > 0 && forall k :: 0 <= k < |ts| ==> IsToken(ts[k], IsNumberStart)
    ensures elements == |ts| ==> Tokenize(Format(ts), IsNumberStart, elements, []) == Success(ts)
    ensures elements == 0 || elements > |ts| ==> Tokenize(Format(ts), IsNumberStart, elements, []).Failure?
  {
    TokenizeFormat(ts, IsNumberStart, elements);
  }

  /** The quotes the reader prints around a string come off again. */
  lemma UnquoteQuoted(s: string)
    ensures Unquote("\"" + s + "\"") == Success(s)
  {
    assert ("\"" + s + "\"")[1..|s| + 1] == s;
  }

  /** The white space `strtoul` and `strtod` skip before a number. */
  predicate IsSpace(c: char)
  {
    c == ' ' || c == '\t' || c == '\n' || c == '\r' || c as int == 11 || c as int == 12
  }

  /** `value` without its leading white space and at most one sign. */
  function NumberBody(value: string): (u: string)
    ensures |u| <= |value|
  {
    if |value| > 0 && IsSpace(value[0]) then NumberBody(value[1..])
    else if |value| > 0 && (value[0] == '+' || value[0] == '-') then value[1..]
    else value
  }

  /** How many leading characters of `value` are white space. */
  function SpaceRun(value: string): (n: nat)
    ensures n <= |value| && forall i :: 0 <= i < n ==> IsSpace(value[i])
    ensures n < |value| ==> !IsSpace(value[n])
  {
    if |value| > 0 && IsSpace(value[0]) then 1 + SpaceRun(value[1..]) else 0
  }

  /** `NumberBody` removes the leading white space and then at most one '+'
      or '-', and keeps the rest of `value` as it is. */
  lemma {:induction false} NumberBodySplit(value: string)
    ensures var n := SpaceRun(value);
      NumberBody(value) ==
        if n < |value| && (value[n] == '+' || value[n] == '-') then value[n + 1..] else value[n..]
  {
    if |value| > 0 && IsSpace(value[0]) {
      NumberBodySplit(value[1..]);
      assert value[1..][SpaceRun(value[1..])..] == value[SpaceRun(value)..];
    }
  }

  /** ASCII lower case, as the case-blind match of "inf" and "nan" uses. */
  function Lower(c: char): char
  {
    if 'A' <= c <= 'Z' then (c as int + 32) as char else c
  }

  predicate StartsWithWord(u: string, w: string)
  {
    |w| <= |u| && forall i :: 0 <= i < |w| ==> Lower(u[i]) == w[i]
  }

  /** `std::stoul` / `std::stoull` find a number, i.e. do not throw
      `invalid_argument`: a digit after the white space and the sign. */
  predicate UnsignedParses(value: string)
  {
    var u := NumberBody(value);
    |u| > 0 && IsDigit(u[0])
  }

  /** `std::stof` / `std::stod` find a number: after the white space and the
      sign, a digit, a '.' followed by a digit, or "inf" or "nan" in any
      case. */
  predicate FloatParses(value: string)
  {
    var u := NumberBody(value);
    (|u| > 0 && IsDigit(u[0])) || (|u| > 1 && u[0] == '.' && IsDigit(u[1])) ||
    StartsWithWord(u, "inf") || StartsWithWord(u, "nan")
  }

  /** One number converted whole, or `invalid_argument`. */
  function ConvertWhole(value: string, parses: bool): (r: Result<AttrValue, TokenError>)
  {
    if parses then Success(Scalar(value)) else Failure(InvalidArgument)
  }

  /** The dispatch on the attribute's type. */
  function CopyAttribute(typ: string, elements: nat, value: string): (r: Result<AttrValue, TokenError>)
    ensures typ == "uint32_t" || typ == "uint64_t" ==> (r.Success? <==> UnsignedParses(value))
    ensures typ == "float" || (typ == "double" && elements == 1) ==> (r.Success? <==> FloatParses(value))
    ensures typ == "uint32_t" || typ == "uint64_t" || typ == "float" || (typ == "double" && elements == 1) ==>
      (r.Success? ==> r.value == Scalar(value)) && (r.Failure? ==> r.error == InvalidArgument)
    ensures typ == "double" && elements != 1 ==> r.Success? == Tokenize(value, IsDigit, elements, []).Success?
    ensures typ == "double" && elements != 1 && r.Success? ==> r.value == Doubles(Tokenize(value, IsDigit, elements, []).value)
    ensures typ == "string" ==> r.Success? == (|value| > 0)
    ensures typ == "string" && |value| > 0 ==> r == Success(Text(Unquote(value).value))
    ensures r.Success? && r.value.Skipped? <==>
      typ != "uint32_t" && typ != "float" && typ != "double" && typ != "string" && typ != "uint64_t"
  {
    if typ == "uint32_t" || typ == "uint64_t" then ConvertWhole(value, UnsignedParses(value))
    else if typ == "float" then ConvertWhole(value, FloatParses(value))
    else if typ == "double" then
      if elements == 1 then ConvertWhole(value, FloatParses(value))
      else match Tokenize(value, IsDigit, elements, [])
        case Success(ts) => Success(Doubles(ts))
        case Failure(e) => Failure(e)
    else if typ == "string" then
      match Unquote(value)
      case Success(s) => Success(Text(s))
      case Failure(e) => Failure(e)
    else Success(Skipped)
  }

  /** `stoul` finds no number in "abc" or ".5", so those integer copies
      throw; white space and a sign before the digits are accepted. */
  lemma UnsignedConversions()
    ensures !UnsignedParses("abc") && !UnsignedParses(".5")
    ensures UnsignedParses(" -7")
  {
    assert NumberBody("abc") == "abc";
    assert NumberBody(".5") == ".5";
    assert NumberBody(" -7") == NumberBody("-7") == "7";
  }

  /** `stof` and `stod` find no number in empty text or in "e5". */
  lemma FloatRejects()
    ensures !FloatParses("") && !FloatParses("e5")
  {
    assert NumberBody("e5") == "e5";
    assert !StartsWithWord("e5", "inf") && !StartsWithWord("e5", "nan");
  }

  /** `stof` and `stod` accept a leading '.' and a signed "inf" in any
      case. */
  lemma FloatAccepts()
    ensures FloatParses(".5") && FloatParses("-INF")
  {
    assert NumberBody(".5") == ".5";
    var u := NumberBody("-INF");
    assert u == "INF";
    assert Lower(u[0]) == 'i' && Lower(u[1]) == 'n' && Lower(u[2]) == 'f';
  }
}

=== FILE: block_data.dfy ===
/** The unit of work handed from the batch reader to the index builders
    (`BlockData` in buildbase.h): one block's coordinates and its place in
    the particle array. */
module BlockRecords {
  import opened ExtReal

  /** Block `[blockStart, blockStart + blockCount)` of the particle array
      of `key`, with its x, y and z values. */
  datatype BlockData = BlockData(xs: seq<Ext>, ys: seq<Ext>, zs: seq<Ext>,
                                 blockStart: nat, blockCount: nat, key: string)

  /** Each coordinate vector holds exactly one value per particle of the block. */
  predicate WellFormed(b: BlockData)
  {
    |b.xs| == b.blockCount && |b.ys| == b.blockCount && |b.zs| == b.blockCount
  }

  /** The smallest element of a non-empty vector (`*std::min_element`). */
  function SeqMin(d: seq<Ext>): Ext
    requires |d| > 0
  {
    if |d| == 1 then d[0] else Min(d[0], SeqMin(d[1..]))
  }

  /** The largest element of a non-empty vector (`*std::max_element`). */
  function SeqMax(d: seq<Ext>): Ext
    requires |d| > 0
  {
    if |d| == 1 then d[0] else Max(d[0], SeqMax(d[1..]))
  }

  /** `SeqMin` is below every element and is one of them. */
  lemma {:induction false} SeqMinIsLeast(d: seq<Ext>)
    requires |d| > 0
    ensures forall i :: 0 <= i < |d| ==> Le(SeqMin(d), d[i])
    ensures exists i :: 0 <= i < |d| && SeqMin(d) == d[i]
  {
    if |d| > 1 {
      var rest := d[1..];
      SeqMinIsLeast(rest);
      var m := SeqMin(rest);
      forall i | 1 <= i < |d| ensures Le(SeqMin(d), d[i]) {
        assert d[i] == rest[i - 1];
        LeTransitive(SeqMin(d), m, rest[i - 1]);
      }
      if SeqMin(d) == d[0] {
        assert 0 < |d| && SeqMin(d) == d[0];
      } else {
        var w :| 0 <= w < |rest| && m == rest[w];
        assert w + 1 < |d| && SeqMin(d) == d[w + 1];
      }
    } else {
      assert SeqMin(d) == d[0];
    }
  }

  /** `SeqMax` is above every element and is one of them. */
  lemma {:induction false} SeqMaxIsGreatest(d: seq<Ext>)
    requires |d| > 0
    ensures forall i :: 0 <= i < |d| ==> Le(d[i], SeqMax(d))
    ensures exists i :: 0 <= i < |d| && SeqMax(d) == d[i]
  {
    if |d| > 1 {
      var rest := d[1..];
      SeqMaxIsGreatest(rest);
      var m := SeqMax(rest);
      forall i | 1 <= i < |d| ensures Le(d[i], SeqMax(d)) {
        assert d[i] == rest[i - 1];
        LeTransitive(rest[i - 1], m, SeqMax(d));
      }
      if SeqMax(d) == d[0] {
        assert 0 < |d| && SeqMax(d) == d[0];
      } else {
        var w :| 0 <= w < |rest| && m == rest[w];
        assert w + 1 < |d| && SeqMax(d) == d[w + 1];
      }
    } else {
      assert SeqMax(d) == d[0];
    }
  }
}

=== FILE: block_tiling.dfy ===
/** Re-blocking of an N-dimensional variable (tests/testChangeBlockSizeByVariable.cpp):
    the conversions between a linear position and per-dimension indices, and
    the per-dimension block grid the rewritten variable is cut into. */
module BlockTiling {
  import opened Arith

  /** Every extent is non-zero (the conversions divide by them). */
  predicate Positive(shape: seq<nat>)
  {
    forall k :: 0 <= k < |shape| ==> shape[k] > 0
  }

  /** Each index lies inside its dimension. */
  predicate InBounds(indices: seq<nat>, shape: seq<nat>)
  {
    |indices| == |shape| && forall k :: 0 <= k < |shape| ==> indices[k] < shape[k]
  }

  /** The number of elements of an array of this shape. */
  function Product(shape: seq<nat>): nat
  {
    if |shape| == 0 then 1 else Product(shape[..|shape| - 1]) * shape[|shape| - 1]
  }

  lemma ProductPositive(shape: seq<nat>)
    requires Positive(shape)
    ensures Product(shape) > 0
  {
    if |shape| > 0 {
      ProductPositive(shape[..|shape| - 1]);
      MulMonotone(1, Product(shape[..|shape| - 1]), shape[|shape| - 1]);
    }
  }

  /** `positionToIndices`: peel the dimensions off from the last one, taking
      the remainder as that dimension's index and going on with the quotient. */
  function PositionToIndices(p: nat, shape: seq<nat>): (r: seq<nat>)
    requires Positive(shape)
    ensures InBounds(r, shape)
    decreases |shape|
  {
    if |shape| == 0 then []
    else
      var d := shape[|shape| - 1];
      PositionToIndices(p / d, shape[..|shape| - 1]) + [p % d]
  }

  /** Last-dimension-fastest position of an index vector: the order
      `PositionToIndices` counts in. */
  function RowMajor(indices: seq<nat>, shape: seq<nat>): nat
    requires |indices| == |shape|
  {
    if |shape| == 0 then 0
    else RowMajor(indices[..|indices| - 1], shape[..|shape| - 1]) * shape[|shape| - 1] + indices[|indices| - 1]
  }

  /** Every position inside the array has the indices that count back to it. */
  lemma {:induction false} PositionToIndicesRowMajor(p: nat, shape: seq<nat>)
    requires Positive(shape) && p < Product(shape)
    ensures RowMajor(PositionToIndices(p, shape), shape) == p
    decreases |shape|
  {
    if |shape| > 0 {
      var init := shape[..|shape| - 1];
      var d := shape[|shape| - 1];
      var q := p / d;
      if q >= Product(init) {
        MulMonotone(Product(init), q, d);
        assert false;
      }
      PositionToIndicesRowMajor(q, init);
      var r := PositionToIndices(p, shape);
      assert r[..|r| - 1] == PositionToIndices(q, init);
    }
  }

  /** Every index vector inside the array is recovered from its position. */
  lemma {:induction false} RowMajorPositionToIndices(indices: seq<nat>, shape: seq<nat>)
    requires Positive(shape) && InBounds(indices, shape)
    ensures RowMajor(indices, shape) < Product(shape)
    ensures PositionToIndices(RowMajor(indices, shape), shape) == indices
    decreases |shape|
  {
    if |shape| > 0 {
      var n := |shape|;
      var init, d := shape[..n - 1], shape[n - 1];
      var front, i := indices[..n - 1], indices[n - 1];
      RowMajorPositionToIndices(front, init);
      var v := RowMajor(front, init);
      DivModUnique(v * d + i, v, i, d);
      MulMonotone(v + 1, Product(init), d);
      MulSucc(v, d);
      assert indices == front + [i];
    }
  }

  /** The sum `indicesToPosition` builds after `n` dimensions: index `i`
      weighted by the product of the extents before it
      (first-dimension-fastest). */
  function ColumnMajor(shape: seq<nat>, indices: seq<nat>, n: nat): nat
    requires n <= |shape| && n <= |indices|
  {
    if n == 0 then 0 else ColumnMajor(shape, indices, n - 1) + indices[n - 1] * Product(shape[..n - 1])
  }

  /** `indicesToPosition`: a running multiplier over the extents. With an
      empty shape the source still reads `indices[0]`. Positions are
      unbounded here; the source's `size_t` would wrap past 2^64. */
  method IndicesToPosition(shape: seq<nat>, indices: seq<nat>) returns (position: nat)
    requires 0 < |indices| && |shape| <= |indices|
    ensures |shape| > 0 ==> position == ColumnMajor(shape, indices, |shape|)
    ensures |shape| == 0 ==> position == indices[0]
  {
    position := indices[0];
    var multiplier := 1;
    var i := 1;
    assert shape[..0] == [];
    while i < |shape|
      invariant 1 <= i <= |shape| || (i == 1 && |shape| == 0)
      invariant |shape| == 0 ==> position == indices[0]
      invariant multiplier == Product(shape[..i - 1])
      invariant |shape| > 0 ==> position == ColumnMajor(shape, indices, i)
    {
      assert shape[..i][..i - 1] == shape[..i - 1];
      multiplier := multiplier * shape[i - 1];
      position := position + indices[i] * multiplier;
      i := i + 1;
    }
  }

  /** In one dimension both orders coincide, so the two conversions are
      inverse to each other. */
  lemma OneDimensionInverse(p: nat, shape: seq<nat>)
    requires |shape| == 1 && shape[0] > 0 && p < shape[0]
    ensures ColumnMajor(shape, PositionToIndices(p, shape), 1) == p
  {
    assert shape[..0] == [];
    assert shape[..|shape| - 1] == [];
  }

  /** With two dimensions they are not: position 1 of a 2-by-3 grid counts
      to indices (0, 1), which `indicesToPosition` sends to 2. */
  lemma IndexOrderMismatch()
    ensures PositionToIndices(1, [2, 3]) == [0, 1]
    ensures ColumnMajor([2, 3], [0, 1], 2) == 2
  {
    assert [2, 3][..1] == [2];
    assert [2, 3][..0] == [];
    assert Product([2]) == 2 by {
      assert [2][..0] == [];
    }
  }

  /** Blocks along one dimension: `shape / blockShape`, rounded down. */
  function BlocksOnDim(shape: nat, blockShape: nat): nat
    requires blockShape > 0
  {
    shape / blockShape
  }

  /** Start of block `idx` along a dimension. */
  function BlockStart(idx: nat, blockShape: nat): nat
  {
    idx * blockShape
  }

  /** Extent of block `idx`: the last block takes the remainder of the
      dimension, the others the block shape. */
  function BlockExtent(shape: nat, blockShape: nat, idx: nat): (c: nat)
    requires 0 < blockShape && idx < BlocksOnDim(shape, blockShape)
    ensures blockShape <= c
    ensures idx == BlocksOnDim(shape, blockShape) - 1 ==> c < 2 * blockShape
  {
    MulMonotone(idx + 1, shape / blockShape, blockShape);
    MulSucc(idx, blockShape);
    DivModUnique(shape, shape / blockShape, shape % blockShape, blockShape);
    if idx == BlocksOnDim(shape, blockShape) - 1 then shape - idx * blockShape else blockShape
  }

  /** The blocks along a dimension tile it: the first starts at 0, each
      starts where the previous ends, and the last ends at the extent. */
  lemma DimensionTiling(shape: nat, blockShape: nat, idx: nat)
    requires 0 < blockShape && idx < BlocksOnDim(shape, blockShape)
    ensures BlockStart(0, blockShape) == 0
    ensures idx + 1 < BlocksOnDim(shape, blockShape) ==>
      BlockStart(idx, blockShape) + BlockExtent(shape, blockShape, idx) == BlockStart(idx + 1, blockShape)
    ensures idx + 1 == BlocksOnDim(shape, blockShape) ==>
      BlockStart(idx, blockShape) + BlockExtent(shape, blockShape, idx) == shape
  {
    MulSucc(idx, blockShape);
  }

  /** As written: element `e` goes to block `e / blockShape`. */
  function ElementBlockAsWritten(e: nat, blockShape: nat): nat
    requires blockShape > 0
  {
    e / blockShape
  }

  /** For the elements of a remainder that block is one past the last:
      extent 10 in blocks of 4 has 2 blocks, and element 9 is sent to
      block 2, so the push indexes past the end of the block list. */
  lemma ElementBlockOverflow()
    ensures BlocksOnDim(10, 4) == 2
    ensures ElementBlockAsWritten(9, 4) == BlocksOnDim(10, 4)
  {
  }

  /** Corrected: the remainder belongs to the last block, as the extents
      of `BlockExtent` intend. */
  function ElementBlock(e: nat, shape: nat, blockShape: nat): (b: nat)
    requires 0 < blockShape <= shape
    ensures b < BlocksOnDim(shape, blockShape)
  {
    DivModUnique(shape, shape / blockShape, shape % blockShape, blockShape);
    MulMonotone(1, shape / blockShape, blockShape);
    if e / blockShape < shape / blockShape then e / blockShape else shape / blockShape - 1
  }

  /** Every element of the dimension lies inside the block it is sent to. */
  lemma ElementInItsBlock(e: nat, shape: nat, blockShape: nat)
    requires 0 < blockShape <= shape && e < shape
    ensures var b := ElementBlock(e, shape, blockShape);
      BlockStart(b, blockShape) <= e < BlockStart(b, blockShape) + BlockExtent(shape, blockShape, b)
  {
    var b := ElementBlock(e, shape, blockShape);
    DivModUnique(e, e / blockShape, e % blockShape, blockShape);
    if e / blockShape >= shape / blockShape {
      MulMonotone(b, e / blockShape, blockShape);
    }
  }
}

=== FILE: build_jobs.dfy ===
/** Batch-read planning of the index builders (src/buildbase.cpp): blocks of
    one step are grouped `blockBatchSize` at a time into read jobs, each job
    reads one contiguous range, and `batchRead` hands every block its part of
    the job's buffer. Threads and queues are left out; jobs are plain
    sequences in queue order. */
module BuildJobs {
  import opened Wrappers
  import opened ExtReal
  import opened BlockRecords
  import opened Decimal
  import opened TextSearch
  import opened Arith

  /** `size_t` arithmetic wraps modulo this. */
  const SizeT: nat := 0x1_0000_0000_0000_0000

  /** One block of a variable in one step (first dimension). */
  datatype BlockInfo = BlockInfo(start: nat, count: nat)

  /** A queued read: one selection over the variables `key`+"x"/"y"/"z". */
  datatype BatchReadJob = BatchReadJob(start: nat, count: nat, key: string)

  /** One line of the `.blockmeta` file: iteration, start, count. */
  datatype MetaRow = MetaRow(iteration: nat, start: nat, count: nat)

  /** Errors `std::string::substr` and `std::stoul` throw. */
  datatype ParseError = OutOfRange | InvalidArgument

  function End(b: BlockInfo): nat
  {
    b.start + b.count
  }

  /** `a - b` on `size_t`. */
  function WrapSub(a: nat, b: nat): (r: nat)
    ensures r < SizeT
    ensures b <= a < b + SizeT ==> r == a - b
  {
    (a - b) % SizeT
  }

  /** Where job `k` starts: the first block's start for the first job, and
      the end of the previous job's last block after that. */
  function JobStart(blocks: seq<BlockInfo>, batchSize: nat, k: nat): nat
    requires 0 < batchSize && 0 < |blocks| && k * batchSize <= |blocks|
  {
    if k == 0 then blocks[0].start
    else
      assert k * batchSize >= batchSize by { MulMonotone(1, k, batchSize); }
      End(blocks[k * batchSize - 1])
  }

  /** Index of the last block of job `k`. */
  function JobLast(n: nat, batchSize: nat, k: nat): (i: nat)
    requires 0 < batchSize && k * batchSize < n
    ensures k * batchSize <= i < n
  {
    if (k + 1) * batchSize < n then (k + 1) * batchSize - 1 else n - 1
  }

  /** Job `k` as the source composes it from its first and last block. */
  function JobOf(blocks: seq<BlockInfo>, batchSize: nat, k: nat, key: string): BatchReadJob
    requires 0 < batchSize && k * batchSize < |blocks|
  {
    var start := JobStart(blocks, batchSize, k);
    BatchReadJob(start, WrapSub(End(blocks[JobLast(|blocks|, batchSize, k)]), start), key)
  }

  /** `(i + 1) % batchSize == 0` holds exactly at the last slot of a batch. */
  lemma BatchBoundary(q: nat, i: nat, batchSize: nat)
    requires 0 < batchSize && q * batchSize <= i < q * batchSize + batchSize
    ensures (i + 1) % batchSize == 0 <==> i + 1 == q * batchSize + batchSize
  {
    var s := i + 1 - q * batchSize;
    if s < batchSize {
      DivModUnique(i + 1, q, s, batchSize);
    } else {
      DivModUnique(i + 1, q + 1, 0, batchSize);
    }
  }

  /** The state of the block loop of `initJobsQueue` after `i` blocks:
      `jobs` holds the jobs closed so far, `base` counts their slots and
      `batchStart` is where the open job starts. */
  ghost predicate JobsInv(blocks: seq<BlockInfo>, batchSize: nat, key: string, i: nat,
                          jobs: seq<BatchReadJob>, batchStart: nat, base: nat)
  {
    0 < batchSize && 0 < |blocks| && i <= |blocks| && base == |jobs| * batchSize &&
    (i < |blocks| ==> base <= i < base + batchSize && batchStart == JobStart(blocks, batchSize, |jobs|)) &&
    (i == |blocks| ==> base - batchSize < |blocks| <= base) &&
    forall k :: 0 <= k < |jobs| ==> k * batchSize < |blocks| && jobs[k] == JobOf(blocks, batchSize, k, key)
  }

  /** Block `i` closes the open job. */
  lemma JobsInvEmit(blocks: seq<BlockInfo>, batchSize: nat, key: string, i: nat,
                    jobs: seq<BatchReadJob>, batchStart: nat, base: nat)
    requires JobsInv(blocks, batchSize, key, i, jobs, batchStart, base) && i < |blocks|
    requires (i + 1) % batchSize == 0 || i == |blocks| - 1
    ensures JobsInv(blocks, batchSize, key, i + 1,
                    jobs + [BatchReadJob(batchStart, WrapSub(End(blocks[i]), batchStart), key)],
                    End(blocks[i]), base + batchSize)
  {
    var q := |jobs|;
    BatchBoundary(q, i, batchSize);
    MulSucc(q, batchSize);
    assert JobLast(|blocks|, batchSize, q) == i;
    if i + 1 < |blocks| {
      assert JobStart(blocks, batchSize, q + 1) == End(blocks[i]);
    }
  }

  /** Block `i` leaves the open job open. */
  lemma JobsInvSkip(blocks: seq<BlockInfo>, batchSize: nat, key: string, i: nat,
                    jobs: seq<BatchReadJob>, batchStart: nat, base: nat)
    requires JobsInv(blocks, batchSize, key, i, jobs, batchStart, base) && i < |blocks|
    requires !((i + 1) % batchSize == 0 || i == |blocks| - 1)
    ensures JobsInv(blocks, batchSize, key, i + 1, jobs, batchStart, base)
  {
    BatchBoundary(|jobs|, i, batchSize);
  }

  /** `initJobsQueue` for the blocks of one step: one metadata row per block
      and a job after every `batchSize`-th block and after the last one. */
  method InitJobs(blocks: seq<BlockInfo>, batchSize: nat, iteration: nat, key: string)
    returns (jobs: seq<BatchReadJob>, meta: seq<MetaRow>)
    requires 0 < batchSize
    ensures |meta| == |blocks|
    ensures forall t :: 0 <= t < |blocks| ==> meta[t] == MetaRow(iteration, blocks[t].start, blocks[t].count)
    ensures |blocks| == 0 <==> |jobs| == 0
    ensures |blocks| > 0 ==> (|jobs| - 1) * batchSize < |blocks| <= |jobs| * batchSize
    ensures forall k :: 0 <= k < |jobs| ==> k * batchSize < |blocks| && jobs[k] == JobOf(blocks, batchSize, k, key)
  {
    jobs, meta := [], [];
    if |blocks| == 0 {
      return;
    }
    var batchStart := blocks[0].start;
    var i := 0;
    ghost var base := 0;
    while i < |blocks|
      invariant JobsInv(blocks, batchSize, key, i, jobs, batchStart, base)
      invariant |meta| == i
      invariant forall t :: 0 <= t < i ==> meta[t] == MetaRow(iteration, blocks[t].start, blocks[t].count)
    {
      meta := meta + [MetaRow(iteration, blocks[i].start, blocks[i].count)];
      if (i + 1) % batchSize == 0 || i == |blocks| - 1 {
        JobsInvEmit(blocks, batchSize, key, i, jobs, batchStart, base);
        jobs := jobs + [BatchReadJob(batchStart, WrapSub(End(blocks[i]), batchStart), key)];
        batchStart := End(blocks[i]);
        base := base + batchSize;
      } else {
        JobsInvSkip(blocks, batchSize, key, i, jobs, batchStart, base);
      }
      i := i + 1;
    }
    if |jobs| > 0 {
      MulSucc(|jobs| - 1, batchSize);
    }
  }

  /** Each block begins where the previous one ends. */
  predicate Contiguous(blocks: seq<BlockInfo>)
  {
    forall i :: 0 <= i < |blocks| - 1 ==> blocks[i + 1].start == End(blocks[i])
  }

  /** Every block end is a `size_t`. */
  predicate FitsSizeT(blocks: seq<BlockInfo>)
  {
    forall i :: 0 <= i < |blocks| ==> End(blocks[i]) < SizeT
  }

  predicate NonEmptyBlocks(blocks: seq<BlockInfo>)
  {
    forall i :: 0 <= i < |blocks| ==> blocks[i].count > 0
  }

  lemma {:induction false} ContiguousOrder(blocks: seq<BlockInfo>, i: nat, j: nat)
    requires Contiguous(blocks) && i < j < |blocks|
    ensures End(blocks[i]) <= blocks[j].start
    decreases j - i
  {
    if i + 1 < j {
      ContiguousOrder(blocks, i, j - 1);
    }
  }

  /** For contiguous blocks the jobs tile the blocks' range: job `k` starts
      at its first block, ends at its last block's end, and the next job
      starts where it ends. */
  lemma JobsTile(blocks: seq<BlockInfo>, batchSize: nat, k: nat, key: string)
    requires 0 < batchSize && k * batchSize < |blocks|
    requires Contiguous(blocks) && FitsSizeT(blocks)
    ensures JobOf(blocks, batchSize, k, key).start == blocks[k * batchSize].start
    ensures JobOf(blocks, batchSize, k, key).start + JobOf(blocks, batchSize, k, key).count
            == End(blocks[JobLast(|blocks|, batchSize, k)])
    ensures (k + 1) * batchSize < |blocks| ==>
      JobOf(blocks, batchSize, k + 1, key).start
        == JobOf(blocks, batchSize, k, key).start + JobOf(blocks, batchSize, k, key).count
  {
    JobStartsAtFirstBlock(blocks, batchSize, k);
    JobEndsAtLastBlock(blocks, batchSize, k, key);
    if (k + 1) * batchSize < |blocks| {
      NextJobStart(blocks, batchSize, k);
    }
  }

  lemma JobStartsAtFirstBlock(blocks: seq<BlockInfo>, batchSize: nat, k: nat)
    requires 0 < batchSize && k * batchSize < |blocks| && Contiguous(blocks)
    ensures JobStart(blocks, batchSize, k) == blocks[k * batchSize].start
  {
    if k > 0 {
      var first := k * batchSize;
      MulMonotone(1, k, batchSize);
      assert blocks[first - 1 + 1].start == End(blocks[first - 1]);
    }
  }

  lemma JobEndsAtLastBlock(blocks: seq<BlockInfo>, batchSize: nat, k: nat, key: string)
    requires 0 < batchSize && k * batchSize < |blocks|
    requires Contiguous(blocks) && FitsSizeT(blocks)
    ensures JobOf(blocks, batchSize, k, key).start + JobOf(blocks, batchSize, k, key).count
            == End(blocks[JobLast(|blocks|, batchSize, k)])
  {
    var first := k * batchSize;
    var last := JobLast(|blocks|, batchSize, k);
    JobStartsAtFirstBlock(blocks, batchSize, k);
    if first < last {
      ContiguousOrder(blocks, first, last);
    }
    assert JobStart(blocks, batchSize, k) <= End(blocks[last]) < SizeT;
  }

  lemma NextJobStart(blocks: seq<BlockInfo>, batchSize: nat, k: nat)
    requires 0 < batchSize && (k + 1) * batchSize < |blocks|
    ensures k * batchSize < |blocks|
    ensures JobStart(blocks, batchSize, k + 1) == End(blocks[JobLast(|blocks|, batchSize, k)])
  {
    MulSucc(k, batchSize);
  }

  /** The part of a job's buffers that belongs to block `b`. */
  function Piece(b: BlockInfo, job: BatchReadJob, xs: seq<Ext>, ys: seq<Ext>, zs: seq<Ext>): (d: BlockData)
    requires job.start <= b.start
    requires b.start - job.start + b.count <= |xs| && b.start - job.start + b.count <= |ys|
    requires b.start - job.start + b.count <= |zs|
    ensures WellFormed(d) && d.blockStart == b.start && d.blockCount == b.count && d.key == job.key
  {
    var lo := b.start - job.start;
    BlockData(xs[lo..lo + b.count], ys[lo..lo + b.count], zs[lo..lo + b.count], b.start, b.count, job.key)
  }

  /** The block loop of `batchRead` from block `i` on: blocks before the
      job's start are skipped, the first block at or past its end stops the
      loop, and the others get their part of the buffers. A part that would
      run past a buffer (undefined in the source) is `None`. */
  function BatchRead(blocks: seq<BlockInfo>, job: BatchReadJob, xs: seq<Ext>, ys: seq<Ext>, zs: seq<Ext>, i: nat)
    : (r: Option<seq<BlockData>>)
    ensures r.Some? ==> forall t :: 0 <= t < |r.value| ==>
      WellFormed(r.value[t]) && job.start <= r.value[t].blockStart < job.start + job.count
    decreases |blocks| - i
  {
    if i >= |blocks| then Some([])
    else
      var b := blocks[i];
      if b.start < job.start then BatchRead(blocks, job, xs, ys, zs, i + 1)
      else if b.start >= job.start + job.count then Some([])
      else if b.start - job.start + b.count > |xs| || b.start - job.start + b.count > |ys|
           || b.start - job.start + b.count > |zs| then None
      else match BatchRead(blocks, job, xs, ys, zs, i + 1)
        case None => None
        case Some(rest) => Some([Piece(b, job, xs, ys, zs)] + rest)
  }

  /** A job covering blocks `first..last`, starting at the first block's
      start and ending at the last block's end. */
  predicate Covers(blocks: seq<BlockInfo>, job: BatchReadJob, first: nat, last: nat)
  {
    first <= last < |blocks| && job.start == blocks[first].start && job.start + job.count == End(blocks[last])
  }

  /** Blocks before the job's first block are skipped. */
  lemma {:induction false} BatchReadSkips(blocks: seq<BlockInfo>, job: BatchReadJob, first: nat, last: nat,
                                          xs: seq<Ext>, ys: seq<Ext>, zs: seq<Ext>, i: nat)
    requires Contiguous(blocks) && NonEmptyBlocks(blocks) && Covers(blocks, job, first, last)
    requires i <= first
    ensures BatchRead(blocks, job, xs, ys, zs, i) == BatchRead(blocks, job, xs, ys, zs, first)
    decreases first - i
  {
    if i < first {
      ContiguousOrder(blocks, i, first);
      BatchReadSkips(blocks, job, first, last, xs, ys, zs, i + 1);
    }
  }

  /** Block `b` lies inside the job's buffers. */
  predicate Fits(b: BlockInfo, job: BatchReadJob, xs: seq<Ext>, ys: seq<Ext>, zs: seq<Ext>)
  {
    job.start <= b.start && b.start - job.start + b.count <= |xs| &&
    b.start - job.start + b.count <= |ys| && b.start - job.start + b.count <= |zs|
  }

  /** `r` holds, in order, the parts of blocks `i`, `i + 1`, ... */
  predicate PiecesFrom(blocks: seq<BlockInfo>, job: BatchReadJob, xs: seq<Ext>, ys: seq<Ext>, zs: seq<Ext>,
                       r: seq<BlockData>, i: nat)
  {
    i + |r| <= |blocks| &&
    forall j :: i <= j < i + |r| ==>
      Fits(blocks[j], job, xs, ys, zs) && r[j - i] == Piece(blocks[j], job, xs, ys, zs)
  }

  /** From block `i` of the job on, each remaining block of the job gets its
      part of the buffers and the loop stops after the job's last block. */
  lemma {:induction false} BatchReadRun(blocks: seq<BlockInfo>, job: BatchReadJob, first: nat, last: nat,
                                        xs: seq<Ext>, ys: seq<Ext>, zs: seq<Ext>, i: nat)
    requires Contiguous(blocks) && NonEmptyBlocks(blocks) && Covers(blocks, job, first, last)
    requires |xs| == job.count && |ys| == job.count && |zs| == job.count
    requires first <= i <= last + 1
    ensures var r := BatchRead(blocks, job, xs, ys, zs, i);
      r.Some? && |r.value| == last + 1 - i && PiecesFrom(blocks, job, xs, ys, zs, r.value, i)
    decreases |blocks| - i
  {
    if i == last + 1 {
      if i < |blocks| {
        assert blocks[last + 1].start == End(blocks[last]);
      }
    } else {
      if first < i {
        ContiguousOrder(blocks, first, i);
      }
      if i < last {
        ContiguousOrder(blocks, i, last);
      }
      assert Fits(blocks[i], job, xs, ys, zs);
      BatchReadRun(blocks, job, first, last, xs, ys, zs, i + 1);
      var rest := BatchRead(blocks, job, xs, ys, zs, i + 1).value;
      var r := [Piece(blocks[i], job, xs, ys, zs)] + rest;
      assert BatchRead(blocks, job, xs, ys, zs, i) == Some(r);
      forall j | i <= j < i + |r|
        ensures Fits(blocks[j], job, xs, ys, zs) && r[j - i] == Piece(blocks[j], job, xs, ys, zs)
      {
        if j > i {
          assert r[j - i] == rest[j - (i + 1)];
        }
      }
    }
  }

  /** `batchRead` of job `k` over contiguous non-empty blocks yields exactly
      the job's blocks in order, each with its own part of the buffers; the
      parts start at offset 0 and the last one ends at the buffer's end. */
  lemma BatchReadJobBlocks(blocks: seq<BlockInfo>, batchSize: nat, k: nat, key: string,
                           xs: seq<Ext>, ys: seq<Ext>, zs: seq<Ext>)
    requires 0 < batchSize && k * batchSize < |blocks|
    requires Contiguous(blocks) && FitsSizeT(blocks) && NonEmptyBlocks(blocks)
    requires |xs| == |ys| == |zs| == JobOf(blocks, batchSize, k, key).count
    ensures var job := JobOf(blocks, batchSize, k, key);
      var first := k * batchSize;
      var last := JobLast(|blocks|, batchSize, k);
      var r := BatchRead(blocks, job, xs, ys, zs, 0);
      r.Some? && |r.value| == last + 1 - first && PiecesFrom(blocks, job, xs, ys, zs, r.value, first) &&
      blocks[first].start == job.start && End(blocks[last]) - job.start == |xs|
  {
    var job := JobOf(blocks, batchSize, k, key);
    var first := k * batchSize;
    var last := JobLast(|blocks|, batchSize, k);
    JobsTile(blocks, batchSize, k, key);
    assert Covers(blocks, job, first, last);
    BatchReadSkips(blocks, job, first, last, xs, ys, zs, 0);
    BatchReadRun(blocks, job, first, last, xs, ys, zs, first);
  }

  /** How many leading characters of `s` are digits. */
  function DigitRun(s: string): (n: nat)
    ensures n <= |s| && forall i :: 0 <= i < n ==> IsDigit(s[i])
    ensures n < |s| ==> !IsDigit(s[n])
  {
    if |s| == 0 || !IsDigit(s[0]) then 0 else 1 + DigitRun(s[1..])
  }

  /** `std::stoul` on text that starts with its number: the leading digits,
      or `invalid_argument` when there are none. */
  function StoUL(s: string): (r: Result<nat, ParseError>)
    ensures r.Success? <==> |s| > 0 && IsDigit(s[0])
  {
    var n := DigitRun(s);
    if n == 0 then Failure(InvalidArgument) else Success(KeyValue(s[..n]))
  }

  /** The iteration of a variable key: `key.substr(6, key.find("/", 6) - 6)`
      read with `stoul`. A `find` that fails gives `npos` and the rest of the
      key; a key shorter than 6 characters makes `substr` throw. */
  function ParseIteration(key: string): (r: Result<nat, ParseError>)
    ensures |key| < 6 ==> r == Failure(OutOfRange)
  {
    if |key| < 6 then Failure(OutOfRange)
    else match FindFrom(key, "/", 6)
      case None => StoUL(key[6..])
      case Some(j) => StoUL(key[6..j])
  }

  /** The iteration written into `/data/<iteration>/...` is read back. */
  lemma ParseIterationOfKey(n: nat, rest: string)
    ensures ParseIteration("/data/" + ToDecimal(n) + "/" + rest) == Success(n)
  {
    var d := ToDecimal(n);
    var key := "/data/" + d + "/" + rest;
    assert key[6..6 + |d|] == d;
    assert OccursAt(key, "/", 6 + |d|) by {
      assert key[6 + |d|..6 + |d| + 1] == "/";
    }
    forall i | 6 <= i < 6 + |d| ensures !OccursAt(key, "/", i) {
      assert key[i] == d[i - 6];
      assert key[i..i + 1][0] == key[i];
    }
    var j := FindFrom(key, "/", 6).value;
    assert j == 6 + |d|;
    assert DigitRun(d) == |d|;
    assert d[..|d|] == d;
    ParseToDecimal(n);
  }

  /** `indexSavePath.substr(0, indexSavePath.find_last_of("_"))`: the path
      without its last `_`-suffix, or the whole path when it has no `_`. */
  function SavePathRaw(path: string): (r: string)
    ensures |r| <= |path| && r == path[..|r|]
  {
    match FindLast(path, '_')
    case None => path
    case Some(j) => path[..j]
  }

  /** Cutting the index-type suffix recovers the base path: "diag2_minmax"
      and "diag2_rtree" both give "diag2". */
  lemma SavePathRawCutsSuffix(base: string, suffix: string)
    requires forall i :: 0 <= i < |suffix| ==> suffix[i] != '_'
    ensures SavePathRaw(base + "_" + suffix) == base
  {
    var path := base + "_" + suffix;
    assert path[|base|] == '_';
    forall i | |base| < i < |path| ensures path[i] != '_' {
      assert path[i] == suffix[i - |base| - 1];
    }
    assert path[..|base|] == base;
  }

  /** A path without `_` is kept whole. */
  lemma SavePathRawWithoutSuffix(path: string)
    requires forall i :: 0 <= i < |path| ==> path[i] != '_'
    ensures SavePathRaw(path) == path
  {
  }

  /** `name` contains `pat` somewhere. */
  predicate Contains(name: string, pat: string)
  {
    FindFirst(name, pat).Some?
  }

  /** The variables `initJobsQueue` picks for a particle character: names
      holding the character, the species and the decimal iteration, and
      ending in 'x'. */
  predicate Selected(name: string, character: string, species: string, iteration: nat)
  {
    Contains(name, character) && Contains(name, species) && Contains(name, ToDecimal(iteration)) &&
    |name| > 0 && name[|name| - 1] == 'x'
  }

  /** The job keys for one particle character: each selected variable name
      without its trailing 'x', in the order the names are visited. */
  function VariableKeys(names: seq<string>, character: string, species: string, iteration: nat): seq<string>
  {
    if |names| == 0 then []
    else
      var rest := VariableKeys(names[1..], character, species, iteration);
      if Selected(names[0], character, species, iteration) then [names[0][..|names[0]| - 1]] + rest else rest
  }

  /** A key is produced exactly when some selected name, without its
      trailing 'x', spells it. */
  lemma VariableKeysMeaning(names: seq<string>, character: string, species: string, iteration: nat)
    ensures forall k :: k in VariableKeys(names, character, species, iteration) <==>
      exists i :: 0 <= i < |names| && Selected(names[i], character, species, iteration) &&
                  k == names[i][..|names[i]| - 1]
  {
    forall k ensures k in VariableKeys(names, character, species, iteration) <==>
      exists i :: 0 <= i < |names| && Selected(names[i], character, species, iteration) &&
                  k == names[i][..|names[i]| - 1]
    {
      if k in VariableKeys(names, character, species, iteration) {
        var i := KeySource(names, character, species, iteration, k);
      }
      if exists i :: 0 <= i < |names| && Selected(names[i], character, species, iteration) &&
                     k == names[i][..|names[i]| - 1] {
        var i :| 0 <= i < |names| && Selected(names[i], character, species, iteration) && k == names[i][..|names[i]| - 1];
        KeyProduced(names, character, species, iteration, i);
      }
    }
  }

  /** Every selected name contributes its key. */
  lemma {:induction false} KeyProduced(names: seq<string>, character: string, species: string, iteration: nat, i: nat)
    requires i < |names| && Selected(names[i], character, species, iteration)
    ensures names[i][..|names[i]| - 1] in VariableKeys(names, character, species, iteration)
  {
    if i > 0 {
      assert names[1..][i - 1] == names[i];
      KeyProduced(names[1..], character, species, iteration, i - 1);
    }
  }

  /** Every key comes from a selected name. */
  lemma {:induction false} KeySource(names: seq<string>, character: string, species: string, iteration: nat, k: string)
    returns (i: nat)
    requires k in VariableKeys(names, character, species, iteration)
    ensures i < |names| && Selected(names[i], character, species, iteration) && k == names[i][..|names[i]| - 1]
  {
    if Selected(names[0], character, species, iteration) && k == names[0][..|names[0]| - 1] {
      i := 0;
    } else {
      var j := KeySource(names[1..], character, species, iteration, k);
      i := j + 1;
      assert names[i] == names[1..][j];
    }
  }
}

=== FILE: chunk_reader.dfy ===
/** The chunked read of one record component (`particle_reader.py`):
    the record/component name translation, `get_data_new`'s choice between
    a full read and a chunked read, and `gc_get_data`'s layout of the
    chunks in one zero-initialised output buffer. */
module ChunkReader {
  import opened Wrappers

  /** A read tuple `(start, end, None)`: rows `[start, end)` of a component. */
  datatype ChunkRange = ChunkRange(start: nat, end: nat)

  /** The numpy dtypes that reach the reader. */
  datatype DType = Float64 | Float32 | UInt64 | Int64 | Bool

  /** A one-dimensional numpy array: its elements and its dtype. */
  datatype Column<T> = Column(values: seq<T>, dtype: DType)

  /** Why a chunked read raises. */
  datatype ReadError =
    | NegativeLength   // `np.full` with a negative length
    | OutOfExtent      // a chunk outside the component's extent
    | ShapeMismatch    // a chunk that does not fit the rest of the buffer
    | NameUnpack       // a component name that does not split into record and component

  // ---------------------------------------------------------------------
  // Name translation
  // ---------------------------------------------------------------------

  /** `s.split(c)`: the pieces between the occurrences of `c`. */
  function Split(s: string, c: char): (parts: seq<string>)
    ensures |parts| >= 1
    ensures forall i :: 0 <= i < |parts| ==> c !in parts[i]
    decreases |s|
  {
    if |s| == 0 then [""]
    else
      var rest := Split(s[1..], c);
      if s[0] == c then [""] + rest
      else [[s[0]] + rest[0]] + rest[1..]
  }

  /** `c.join(parts)`. */
  function Join(parts: seq<string>, c: char): string
    requires |parts| >= 1
    decreases |parts|
  {
    if |parts| == 1 then parts[0] else parts[0] + [c] + Join(parts[1..], c)
  }

  /** Splitting and joining again gives back the string. */
  lemma {:induction false} SplitJoin(s: string, c: char)
    ensures Join(Split(s, c), c) == s
    decreases |s|
  {
    if |s| > 0 {
      var rest := Split(s[1..], c);
      SplitJoin(s[1..], c);
      if s[0] == c {
        assert Split(s, c) == [""] + rest;
        assert s == [c] + s[1..];
      } else {
        var parts := Split(s, c);
        assert parts == [[s[0]] + rest[0]] + rest[1..];
        if |rest| == 1 {
          assert s == [s[0]] + s[1..];
        } else {
          assert parts[1..] == rest[1..];
          assert Join(rest, c) == rest[0] + [c] + Join(rest[1..], c);
          assert s == [s[0]] + s[1..];
        }
      }
    }
  }

  /** A string without `c` splits into itself alone. */
  lemma {:induction false} SplitWithout(s: string, c: char)
    requires c !in s
    ensures Split(s, c) == [s]
    decreases |s|
  {
    if |s| > 0 {
      assert c !in s[1..] by {
        forall i | 0 <= i < |s[1..]| ensures s[1..][i] != c { assert s[1..][i] == s[i + 1]; }
      }
      SplitWithout(s[1..], c);
      assert s == [s[0]] + s[1..];
    }
  }

  /** The fixed translation table of the seven short component names. */
  function Table(name: string): Option<(string, Option<string>)>
  {
    if name == "x" then Some(("position", Some("x")))
    else if name == "y" then Some(("position", Some("y")))
    else if name == "z" then Some(("position", Some("z")))
    else if name == "ux" then Some(("momentum", Some("x")))
    else if name == "uy" then Some(("momentum", Some("y")))
    else if name == "uz" then Some(("momentum", Some("z")))
    else if name == "w" then Some(("weighting", None))
    else None
  }

  /** Unpacking `split('/')` into two names raises unless there are exactly two pieces. */
  datatype NameError = UnpackMismatch

  /** The record and component a component name denotes. */
  function TranslateName(name: string): (r: Result<(string, Option<string>), NameError>)
    ensures Table(name).Some? ==> r == Success(Table(name).value)
    ensures Table(name).None? && '/' !in name ==> r == Success((name, None))
    ensures Table(name).None? && '/' in name ==>
      (r.Success? <==> |Split(name, '/')| == 2)
    ensures r.Success? && Table(name).None? && '/' in name ==>
      r.value.1.Some? && r.value.0 + "/" + r.value.1.value == name &&
      '/' !in r.value.0 && '/' !in r.value.1.value
  {
    if Table(name).Some? then Success(Table(name).value)
    else if '/' in name then
      var parts := Split(name, '/');
      if |parts| == 2 then
        SplitJoin(name, '/');
        Success((parts[0], Some(parts[1])))
      else Failure(UnpackMismatch)
    else Success((name, None))
  }

  /** The dtype a record is converted to: unsigned 64-bit for `id`, double otherwise. */
  function OutputType(record: string): (t: DType)
    ensures t == UInt64 <==> record == "id"
    ensures t != UInt64 ==> t == Float64
  {
    if record == "id" then UInt64 else Float64
  }

  // ---------------------------------------------------------------------
  // Chunk layout
  // ---------------------------------------------------------------------

  /** `sum(end - start)` over the first `k` read tuples. */
  function PrefixLength(ranges: seq<ChunkRange>, k: nat): int
    requires k <= |ranges|
  {
    if k == 0 then 0 else PrefixLength(ranges, k - 1) + (ranges[k - 1].end - ranges[k - 1].start)
  }

  /** `sum(end - start)` over all read tuples. */
  function TotalLength(ranges: seq<ChunkRange>): int
  {
    PrefixLength(ranges, |ranges|)
  }

  /** Each of the first `k` chunks lies inside a component of `n` rows. */
  predicate InExtentUpTo(ranges: seq<ChunkRange>, k: nat, n: nat)
    requires k <= |ranges|
  {
    forall j :: 0 <= j < k ==> ranges[j].start <= ranges[j].end <= n
  }

  /** Every chunk lies inside a component of `n` rows. */
  predicate InExtent(ranges: seq<ChunkRange>, n: nat)
  {
    InExtentUpTo(ranges, |ranges|, n)
  }

  /** No chunk ends before it starts. */
  predicate Ordered(ranges: seq<ChunkRange>)
  {
    forall j :: 0 <= j < |ranges| ==> ranges[j].start <= ranges[j].end
  }

  /** The first `k` chunks' rows, one after the other. */
  function GatherUpTo<T>(values: seq<T>, ranges: seq<ChunkRange>, k: nat): (r: seq<T>)
    requires k <= |ranges| && InExtentUpTo(ranges, k, |values|)
    ensures |r| == PrefixLength(ranges, k)
  {
    if k == 0 then []
    else GatherUpTo(values, ranges, k - 1) + values[ranges[k - 1].start..ranges[k - 1].end]
  }

  /** All chunks' rows, one after the other. */
  function Gather<T>(values: seq<T>, ranges: seq<ChunkRange>): (r: seq<T>)
    requires InExtent(ranges, |values|)
    ensures |r| == TotalLength(ranges)
  {
    GatherUpTo(values, ranges, |ranges|)
  }

  /** The prefix sums of ordered chunk lengths grow with the prefix. */
  lemma {:induction false} PrefixLengthMonotone(ranges: seq<ChunkRange>, a: nat, b: nat)
    requires a <= b <= |ranges| && Ordered(ranges)
    ensures 0 <= PrefixLength(ranges, a) <= PrefixLength(ranges, b)
    decreases b
  {
    if a < b {
      PrefixLengthMonotone(ranges, a, b - 1);
    } else if a > 0 {
      PrefixLengthMonotone(ranges, a - 1, a - 1);
    }
  }

  lemma {:induction false} GatherUpToAt<T>(values: seq<T>, ranges: seq<ChunkRange>, m: nat, k: nat, x: int, row: int)
    requires m <= |ranges| && InExtentUpTo(ranges, m, |values|) && k < m
    requires PrefixLength(ranges, k) <= x && row == ranges[k].start + (x - PrefixLength(ranges, k)) < ranges[k].end
    ensures 0 <= PrefixLength(ranges, k) && x < PrefixLength(ranges, m) && 0 <= row < |values|
    ensures GatherUpTo(values, ranges, m)[x] == values[row]
    decreases m
  {
    PrefixLengthNonNegative(ranges, m, |values|);
    var front := GatherUpTo(values, ranges, m - 1);
    var tail := values[ranges[m - 1].start..ranges[m - 1].end];
    assert GatherUpTo(values, ranges, m) == front + tail;
    if k < m - 1 {
      GatherUpToAt(values, ranges, m - 1, k, x, row);
    } else {
      PrefixLengthNonNegative(ranges, k, |values|);
      assert tail[x - |front|] == values[row];
    }
  }

  lemma {:induction false} PrefixLengthNonNegative(ranges: seq<ChunkRange>, k: nat, n: nat)
    requires k <= |ranges| && InExtentUpTo(ranges, k, n)
    ensures PrefixLength(ranges, k) >= 0
    decreases k
  {
    if k > 0 {
      PrefixLengthNonNegative(ranges, k - 1, n);
    }
  }

  /** Chunk `k` occupies `[PrefixLength(ranges, k), PrefixLength(ranges, k + 1))`
      of the gathered rows, holding the component's rows `start_k ..` in order. */
  lemma GatherAt<T>(values: seq<T>, ranges: seq<ChunkRange>, k: nat, i: nat)
    requires InExtent(ranges, |values|)
    requires k < |ranges| && i < ranges[k].end - ranges[k].start
    ensures 0 <= PrefixLength(ranges, k) && PrefixLength(ranges, k) + i < TotalLength(ranges)
    ensures Gather(values, ranges)[PrefixLength(ranges, k) + i] == values[ranges[k].start + i]
  {
    GatherUpToAt(values, ranges, |ranges|, k, PrefixLength(ranges, k) + i, ranges[k].start + i);
  }

  /** Position `x` of chunk `k`'s stretch holds the row as far past the
      chunk's start as `x` is past the stretch's start. */
  lemma GatherAtPosition<T>(values: seq<T>, ranges: seq<ChunkRange>, k: nat, x: int, row: int)
    requires InExtent(ranges, |values|) && k < |ranges|
    requires PrefixLength(ranges, k) <= x && row == ranges[k].start + (x - PrefixLength(ranges, k)) < ranges[k].end
    ensures 0 <= PrefixLength(ranges, k) && 0 <= x < TotalLength(ranges) && 0 <= row < |values|
    ensures Gather(values, ranges)[x] == values[row]
  {
    GatherUpToAt(values, ranges, |ranges|, k, x, row);
  }

  /** Every position of the gathered rows belongs to one chunk's stretch. */
  lemma {:induction false} ChunkOf(ranges: seq<ChunkRange>, m: nat, x: int) returns (k: nat)
    requires m <= |ranges| && Ordered(ranges)
    requires 0 <= x < PrefixLength(ranges, m)
    ensures k < m
    ensures PrefixLength(ranges, k) <= x < PrefixLength(ranges, k + 1)
    decreases m
  {
    if x < PrefixLength(ranges, m - 1) {
      k := ChunkOf(ranges, m - 1, x);
    } else {
      k := m - 1;
    }
  }

  /** `astype(output_type)` applied when an output type is given and differs. */
  function Convert<T>(c: Column<T>, output: Option<DType>, cast: (DType, T) -> T): (r: Column<T>)
    ensures r.dtype == (if output.Some? then output.value else c.dtype)
    ensures |r.values| == |c.values|
    ensures output.None? || output.value == c.dtype ==> r == c
    ensures output.Some? && output.value != c.dtype ==>
      forall i :: 0 <= i < |c.values| ==> r.values[i] == cast(output.value, c.values[i])
  {
    if output.Some? && c.dtype != output.value then
      Column(seq(|c.values|, i requires 0 <= i < |c.values| => cast(output.value, c.values[i])), output.value)
    else c
  }

  /** `gc_get_data`: a buffer of `length` zeros of the component's dtype,
      each chunk copied in after the previous one, then the dtype conversion. */
  method GcGetData<T>(component: Column<T>, length: int, ranges: seq<ChunkRange>, output: Option<DType>,
                      zero: T, cast: (DType, T) -> T)
    returns (r: Result<Column<T>, ReadError>)
    ensures r.Success? <==> 0 <= length && InExtent(ranges, |component.values|) && TotalLength(ranges) <= length
    ensures r.Success? ==>
      r.value == Convert(Column(Gather(component.values, ranges) + seq(length - TotalLength(ranges), _ => zero),
                                component.dtype), output, cast)
  {
    if length < 0 {
      return Failure(NegativeLength);
    }
    var data := seq(length, _ => zero);
    var offset := 0;
    var k := 0;
    while k < |ranges|
      invariant k <= |ranges|
      invariant InExtentUpTo(ranges, k, |component.values|)
      invariant offset == PrefixLength(ranges, k) <= length
      invariant data == GatherUpTo(component.values, ranges, k) + seq(length - offset, _ => zero)
    {
      var c := ranges[k];
      if !(c.start <= c.end <= |component.values|) {
        return Failure(OutOfExtent);
      }
      var x := component.values[c.start..c.end];
      if offset + |x| > length {
        TooLongStaysTooLong(ranges, k + 1, |component.values|);
        return Failure(ShapeMismatch);
      }
      data := data[..offset] + x + data[offset + |x|..];
      offset := offset + |x|;
      k := k + 1;
    }
    r := Success(Convert(Column(data, component.dtype), output, cast));
  }

  /** Once a prefix of the chunks is longer than the buffer, so are all of
      them, if they all lie in the extent. */
  lemma TooLongStaysTooLong(ranges: seq<ChunkRange>, k: nat, n: nat)
    requires k <= |ranges|
    ensures InExtent(ranges, n) ==> PrefixLength(ranges, k) <= TotalLength(ranges)
  {
    if InExtent(ranges, n) {
      PrefixLengthMonotone(ranges, k, |ranges|);
    }
  }

  /** The two ways `get_data_new` reads a component. */
  datatype Read<T> =
    | FullRead(output: Option<DType>)   // delegated to `get_data`, outside this model
    | Chunked(column: Column<T>)

  /** `get_data_new`: no ranges, or an empty list of them, means a full read;
      otherwise a chunked read into a buffer of exactly the summed chunk length. */
  method GetDataNew<T>(component: Column<T>, ranges: Option<seq<ChunkRange>>, output: Option<DType>,
                       zero: T, cast: (DType, T) -> T)
    returns (r: Result<Read<T>, ReadError>)
    ensures ranges.None? || |ranges.value| == 0 ==> r == Success(FullRead(output))
    ensures ranges.Some? && |ranges.value| > 0 ==>
      (r.Success? <==> InExtent(ranges.value, |component.values|))
    ensures ranges.Some? && |ranges.value| > 0 && r.Success? ==>
      r.value.Chunked? &&
      r.value.column == Convert(Column(Gather(component.values, ranges.value), component.dtype), output, cast)
  {
    if ranges.None? || |ranges.value| == 0 {
      return Success(FullRead(output));
    }
    var length := TotalLength(ranges.value);
    if InExtent(ranges.value, |component.values|) {
      PrefixLengthNonNegative(ranges.value, |ranges.value|, |component.values|);
    }
    var g := GcGetData(component, length, ranges.value, output, zero, cast);
    if g.Failure? {
      return Failure(g.error);
    }
    assert seq(length - TotalLength(ranges.value), _ => zero) == [];
    assert Gather(component.values, ranges.value) + [] == Gather(component.values, ranges.value);
    return Success(Chunked(g.value));
  }

  /** `read_species_data` with `skip_offset` set, given the component the
      translated names select: the chunked (or full) read in the record's
      output type, returned untouched. */
  method ReadSpeciesDataRaw<T>(name: string, lookup: (string, Option<string>) -> Column<T>,
                               ranges: Option<seq<ChunkRange>>, zero: T, cast: (DType, T) -> T)
    returns (r: Result<Read<T>, ReadError>, names: Result<(string, Option<string>), NameError>)
    ensures names == TranslateName(name)
    ensures names.Failure? ==> r == Failure(NameUnpack)
    ensures names.Success? && ranges.Some? && |ranges.value| > 0 && r.Success? ==>
      InExtent(ranges.value, |lookup(names.value.0, names.value.1).values|) &&
      r.value == Chunked(Convert(Column(Gather(lookup(names.value.0, names.value.1).values, ranges.value),
                                        lookup(names.value.0, names.value.1).dtype),
                                 Some(OutputType(names.value.0)), cast))
    ensures names.Success? && (ranges.None? || |ranges.value| == 0) ==>
      r == Success(FullRead(Some(OutputType(names.value.0))))
  {
    names := TranslateName(name);
    if names.Failure? {
      return Failure(NameUnpack), names;
    }
    var component := lookup(names.value.0, names.value.1);
    r := GetDataNew(component, ranges, Some(OutputType(names.value.0)), zero, cast);
  }
}

=== FILE: decimal.dfy ===
/** Decimal text of non-negative integers: C++ `std::to_string` on a `size_t`
    (how every index result map is keyed) and Python `int()` on such a key
    (how the read planner orders blocks). */
module Decimal {
  import opened Wrappers

  predicate IsDigit(c: char)
  {
    '0' <= c <= '9'
  }

  function DigitChar(d: nat): (c: char)
    requires d < 10
    ensures IsDigit(c)
  {
    ['0', '1', '2', '3', '4', '5', '6', '7', '8', '9'][d]
  }

  function DigitValue(c: char): (d: nat)
    requires IsDigit(c)
    ensures d < 10
  {
    (c as int) - ('0' as int)
  }

  lemma DigitValueOfChar(d: nat)
    requires d < 10
    ensures DigitValue(DigitChar(d)) == d
  {
  }

  /** `std::to_string(n)`: shortest decimal text, no sign, no leading zero. */
  function ToDecimal(n: nat): (s: string)
    ensures |s| > 0
    ensures forall i :: 0 <= i < |s| ==> IsDigit(s[i])
    ensures s[0] == '0' ==> n == 0 && |s| == 1
    decreases n
  {
    if n < 10 then [DigitChar(n)] else ToDecimal(n / 10) + [DigitChar(n % 10)]
  }

  /** Python `int(s)` restricted to what the keys can hold: a non-empty run of
      digits (leading zeros allowed); anything else raises, here `None`. */
  function ParseDecimal(s: string): (r: Option<nat>)
    ensures r.Some? <==> |s| > 0 && forall i :: 0 <= i < |s| ==> IsDigit(s[i])
    decreases |s|
  {
    if |s| == 0 || !IsDigit(s[|s| - 1]) then None
    else if |s| == 1 then Some(DigitValue(s[0]))
    else match ParseDecimal(s[..|s| - 1])
      case None => None
      case Some(v) => Some(v * 10 + DigitValue(s[|s| - 1]))
  }

  /** Reading a key back with `int()` gives the block start it was made from. */
  lemma {:induction false} ParseToDecimal(n: nat)
    ensures ParseDecimal(ToDecimal(n)) == Some(n)
    decreases n
  {
    if n < 10 {
      DigitValueOfChar(n);
    } else {
      var s := ToDecimal(n);
      ParseToDecimal(n / 10);
      assert s[..|s| - 1] == ToDecimal(n / 10);
      DigitValueOfChar(n % 10);
    }
  }

  /** Distinct block starts give distinct keys, so a key names one block. */
  lemma ToDecimalInjective(a: nat, b: nat)
    requires ToDecimal(a) == ToDecimal(b)
    ensures a == b
  {
    ParseToDecimal(a);
    ParseToDecimal(b);
  }

  /** Python `int(key)` for a key known to be decimal text. */
  function KeyValue(s: string): (v: nat)
    ensures ParseDecimal(s).Some? ==> ParseDecimal(s) == Some(v)
  {
    match ParseDecimal(s)
    case Some(v) => v
    case None => 0
  }
}

=== FILE: ext_real.dfy ===
/** IEEE doubles without NaN: the finite reals closed by the two infinities.
    The index code uses `DoubleInfinity` and `-DoubleInfinity` as fold seeds
    and as unbounded query limits, so both must be representable. */
module ExtReal {

  datatype Ext = NegInf | Fin(r: real) | PosInf

  predicate Le(a: Ext, b: Ext)
  {
    match (a, b)
    case (NegInf, _) => true
    case (_, PosInf) => true
    case (Fin(x), Fin(y)) => x <= y
    case _ => false
  }

  predicate Lt(a: Ext, b: Ext)
  {
    Le(a, b) && a != b
  }

  function Min(a: Ext, b: Ext): (m: Ext)
    ensures Le(m, a) && Le(m, b)
    ensures m == a || m == b
  {
    if Le(a, b) then a else b
  }

  function Max(a: Ext, b: Ext): (m: Ext)
    ensures Le(a, m) && Le(b, m)
    ensures m == a || m == b
  {
    if Le(a, b) then b else a
  }

  lemma LeTotal(a: Ext, b: Ext)
    ensures Le(a, b) || Le(b, a)
  {
  }

  lemma LeTransitive(a: Ext, b: Ext, c: Ext)
    requires Le(a, b) && Le(b, c)
    ensures Le(a, c)
  {
  }

  lemma LeAntisymmetric(a: Ext, b: Ext)
    requires Le(a, b) && Le(b, a)
    ensures a == b
  {
  }
}

=== FILE: index_file.dfy ===
/** The on-disk index file shared by the min-max and R-tree builders
    (`writeIndexToFile_minmax`, `RTreeBuild::writeIndexToFile`) and read back
    by `QueryBase` (`loadFileMetadata`, the file branch of `readNodeList`).

    Layout: the serialized payload of every key, back to back from offset 0,
    then the serialized metadata list, then the metadata length as a raw
    `size_t`. Each metadata node records a key's offset (`startbytes`), its
    payload length and the key name.

    Payloads (serialized `MinMaxList` / `TreeNodeList` messages) are opaque
    bytes. The metadata list is a protobuf message in the source; here it is
    written with a fixed-width stand-in (a count, then one length-prefixed
    record per node holding `startbytes`, `length` and the key), so that its
    decoding can be stated; only the framing around it is the source's. */
module IndexFile {
  import opened Wrappers
  import opened SizeCodec
  import StringListFile

  type Bytes = seq<byte>

  /** `MetaDataNodeForFile`. */
  datatype MetaNode = MetaNode(startbytes: nat, length: nat, keyname: string)

  /** A default-constructed node: what `metadataMap[key]` yields for a key
      the file does not hold. */
  const EmptyNode := MetaNode(0, 0, "")

  datatype FileError =
    | TooShortForTrailer    // fewer than sizeof(size_t) bytes: the seek fails
    | MetadataOutOfRange    // the recorded metadata length reaches before offset 0
    | MetadataUnparsable    // the metadata bytes are not a node list
    | PayloadOutOfRange     // startbytes + length reaches past the end of the file

  /** A key name as the bytes of its characters (keys are ASCII paths and
      decimal offsets). */
  function KeyBytes(key: string): (b: Bytes)
    ensures |b| == |key|
  {
    seq(|key|, i requires 0 <= i < |key| => (key[i] as int) % 256)
  }

  function BytesToKey(b: Bytes): (key: string)
    ensures |key| == |b|
  {
    seq(|b|, i requires 0 <= i < |b| => b[i] as char)
  }

  predicate IsByteString(key: string)
  {
    forall i :: 0 <= i < |key| ==> (key[i] as int) < 256
  }

  lemma KeyBytesRoundTrip(key: string)
    requires IsByteString(key)
    ensures BytesToKey(KeyBytes(key)) == key
  {
  }

  /* ---------------- writer ---------------- */

  /** The payloads of `entries`, back to back, in entry order. */
  function Payloads(entries: seq<(string, Bytes)>): (b: Bytes)
  {
    if |entries| == 0 then []
    else Payloads(entries[..|entries| - 1]) + entries[|entries| - 1].1
  }

  /** The file offset at which entry `i`'s payload is written. */
  function Offset(entries: seq<(string, Bytes)>, i: nat): nat
    requires i <= |entries|
  {
    |Payloads(entries[..i])|
  }

  /** The metadata nodes the writer records, one per entry, in entry order. */
  function MetaNodes(entries: seq<(string, Bytes)>): (nodes: seq<MetaNode>)
    ensures |nodes| == |entries|
  {
    if |entries| == 0 then []
    else
      var init := entries[..|entries| - 1];
      var last := entries[|entries| - 1];
      MetaNodes(init) + [MetaNode(|Payloads(init)|, |last.1|, last.0)]
  }

  function NodeRecord(node: MetaNode): Bytes
  {
    EncodeSizeWrapping(node.startbytes) + EncodeSizeWrapping(node.length) + KeyBytes(node.keyname)
  }

  function NodeRecords(nodes: seq<MetaNode>): (rs: seq<Bytes>)
    ensures |rs| == |nodes|
    ensures forall i :: 0 <= i < |nodes| ==> rs[i] == NodeRecord(nodes[i])
  {
    seq(|nodes|, i requires 0 <= i < |nodes| => NodeRecord(nodes[i]))
  }

  function EncodeMetadata(nodes: seq<MetaNode>): Bytes
  {
    StringListFile.Encode(NodeRecords(nodes))
  }

  /** The complete index file for `entries` (a `std::map` walked in key
      order), with the write cursor starting at offset 0 of a fresh file. */
  function IndexFileBytes(entries: seq<(string, Bytes)>): Bytes
  {
    var meta := EncodeMetadata(MetaNodes(entries));
    Payloads(entries) + meta + EncodeSizeWrapping(|meta|)
  }

  /** The writer loop: append each payload, record (cursor, length, key),
      advance the cursor by the payload length; then append the metadata and
      its length. Returns the file and the final cursor. */
  method WriteIndexFile(entries: seq<(string, Bytes)>) returns (file: Bytes, cursor: nat)
    ensures file == IndexFileBytes(entries)
    ensures cursor + SizeWidth == |file|
    ensures forall i :: 0 <= i < |entries| ==>
      MetaNodes(entries)[i] == MetaNode(Offset(entries, i), |entries[i].1|, entries[i].0)
  {
    file := [];
    cursor := 0;
    var nodes: seq<MetaNode> := [];
    var k := 0;
    while k < |entries|
      invariant 0 <= k <= |entries|
      invariant file == Payloads(entries[..k])
      invariant nodes == MetaNodes(entries[..k])
      invariant cursor == |file|
    {
      assert entries[..k + 1][..k] == entries[..k];
      file := file + entries[k].1;
      nodes := nodes + [MetaNode(cursor, |entries[k].1|, entries[k].0)];
      cursor := cursor + |entries[k].1|;
      k := k + 1;
    }
    assert entries[..k] == entries;
    var meta := EncodeMetadata(nodes);
    file := file + meta;
    cursor := cursor + |meta|;
    file := file + EncodeSizeWrapping(|meta|);
    forall i | 0 <= i < |entries|
      ensures MetaNodes(entries)[i] == MetaNode(Offset(entries, i), |entries[i].1|, entries[i].0)
    {
      MetaNodeAt(entries, i);
    }
  }

  lemma {:induction false} MetaNodeAt(entries: seq<(string, Bytes)>, i: nat)
    requires i < |entries|
    ensures MetaNodes(entries)[i] == MetaNode(Offset(entries, i), |entries[i].1|, entries[i].0)
    decreases |entries|
  {
    var init := entries[..|entries| - 1];
    if i < |entries| - 1 {
      MetaNodeAt(init, i);
      assert init[..i] == entries[..i];
    } else {
      assert init == entries[..i];
    }
  }

  lemma {:induction false} PayloadsPrefix(entries: seq<(string, Bytes)>, j: nat)
    requires j <= |entries|
    ensures Payloads(entries[..j]) <= Payloads(entries)
    decreases |entries| - j
  {
    if j < |entries| {
      PayloadsPrefix(entries, j + 1);
      assert entries[..j + 1][..j] == entries[..j];
    } else {
      assert entries[..j] == entries;
    }
  }

  /** Entry `i`'s payload sits at `[Offset(i), Offset(i) + length)`. */
  lemma PayloadAt(entries: seq<(string, Bytes)>, i: nat)
    requires i < |entries|
    ensures Offset(entries, i) + |entries[i].1| <= |Payloads(entries)|
    ensures Payloads(entries)[Offset(entries, i)..Offset(entries, i) + |entries[i].1|] == entries[i].1
  {
    PayloadsPrefix(entries, i + 1);
    assert entries[..i + 1][..i] == entries[..i];
    var p := Payloads(entries[..i + 1]);
    assert p == Payloads(entries[..i]) + entries[i].1;
    assert p[Offset(entries, i)..] == entries[i].1;
  }

  /* ---------------- reader ---------------- */

  function DecodeNodeRecord(r: Bytes): Option<MetaNode>
  {
    if |r| < 2 * SizeWidth then None
    else Some(MetaNode(DecodeSize(r[..SizeWidth]), DecodeSize(r[SizeWidth..2 * SizeWidth]),
                       BytesToKey(r[2 * SizeWidth..])))
  }

  function DecodeNodeRecords(rs: seq<Bytes>): (r: Option<seq<MetaNode>>)
    ensures r.Some? ==> |r.value| == |rs|
  {
    if |rs| == 0 then Some([])
    else match (DecodeNodeRecord(rs[0]), DecodeNodeRecords(rs[1..]))
      case (Some(n), Some(ns)) => Some([n] + ns)
      case _ => None
  }

  function DecodeMetadata(meta: Bytes): Option<seq<MetaNode>>
  {
    match StringListFile.Decode(meta)
    case None => None
    case Some(rs) => DecodeNodeRecords(rs)
  }

  /** `metadataMap[keyname] = node` for each node in order: a later node with
      the same key name replaces an earlier one. */
  function MetadataMap(nodes: seq<MetaNode>): (m: map<string, MetaNode>)
    ensures m.Keys == set i | 0 <= i < |nodes| :: nodes[i].keyname
  {
    if |nodes| == 0 then map[]
    else
      var last := nodes[|nodes| - 1];
      MetadataMap(nodes[..|nodes| - 1])[last.keyname := last]
  }

  /** The node kept for a key is the LAST node carrying that key name. */
  lemma {:induction false} MetadataMapLastWins(nodes: seq<MetaNode>, i: nat)
    requires i < |nodes|
    requires forall j :: i < j < |nodes| ==> nodes[j].keyname != nodes[i].keyname
    ensures MetadataMap(nodes)[nodes[i].keyname] == nodes[i]
    decreases |nodes|
  {
    if i < |nodes| - 1 {
      var init := nodes[..|nodes| - 1];
      MetadataMapLastWins(init, i);
    }
  }

  /** `loadFileMetadata`: the last `size_t` of the file is the metadata
      length; the metadata occupies the bytes just before it. */
  function LoadFileMetadata(file: Bytes): (r: Result<map<string, MetaNode>, FileError>)
    ensures |file| < SizeWidth ==> r == Failure(TooShortForTrailer)
    ensures r.Success? ==>
      var len := DecodeSize(file[|file| - SizeWidth..]);
      && len + SizeWidth <= |file|
      && DecodeMetadata(file[|file| - SizeWidth - len..|file| - SizeWidth]).Some?
      && r.value == MetadataMap(DecodeMetadata(file[|file| - SizeWidth - len..|file| - SizeWidth]).value)
  {
    if |file| < SizeWidth then Failure(TooShortForTrailer)
    else
      var len := DecodeSize(file[|file| - SizeWidth..]);
      if |file| - SizeWidth < len then Failure(MetadataOutOfRange)
      else match DecodeMetadata(file[|file| - SizeWidth - len..|file| - SizeWidth])
        case None => Failure(MetadataUnparsable)
        case Some(nodes) => Success(MetadataMap(nodes))
  }

  /** The node `metadataMap[key]` yields: the stored one, or a
      default-constructed one for an absent key. */
  function LookupNode(metadata: map<string, MetaNode>, key: string): MetaNode
  {
    if key in metadata then metadata[key] else EmptyNode
  }

  /** The file branch of `readNodeList`: `Success(None)` when the node has
      `startbytes == 0 && length == 0` (the message is left unparsed),
      otherwise the bytes `[startbytes, startbytes + length)` to parse. */
  function ReadNodeList(metadata: map<string, MetaNode>, file: Bytes, key: string): (r: Result<Option<Bytes>, FileError>)
    ensures key !in metadata ==> r == Success(None)
    ensures r.Success? && r.value.Some? ==>
      && key in metadata
      && metadata[key].startbytes + metadata[key].length <= |file|
      && r.value.value == file[metadata[key].startbytes..metadata[key].startbytes + metadata[key].length]
      && |r.value.value| == metadata[key].length
  {
    var node := LookupNode(metadata, key);
    if node.startbytes == 0 && node.length == 0 then Success(None)
    else if |file| < node.startbytes + node.length then Failure(PayloadOutOfRange)
    else Success(Some(file[node.startbytes..node.startbytes + node.length]))
  }

  /* ---------------- round trip ---------------- */

  predicate DistinctKeys(entries: seq<(string, Bytes)>)
  {
    forall i, j :: 0 <= i < j < |entries| ==> entries[i].0 != entries[j].0
  }

  predicate KeysAreByteStrings(entries: seq<(string, Bytes)>)
  {
    forall i :: 0 <= i < |entries| ==> IsByteString(entries[i].0)
  }

  lemma {:induction false} DecodeNodeRecordsOfNodes(nodes: seq<MetaNode>)
    requires forall i :: 0 <= i < |nodes| ==> IsByteString(nodes[i].keyname)
    requires forall i :: 0 <= i < |nodes| ==> nodes[i].startbytes < SizeLimit && nodes[i].length < SizeLimit
    ensures DecodeNodeRecords(NodeRecords(nodes)) == Some(nodes)
    decreases |nodes|
  {
    if |nodes| > 0 {
      var n := nodes[0];
      var r := NodeRecord(n);
      assert r[..SizeWidth] == EncodeSize(n.startbytes);
      assert r[SizeWidth..2 * SizeWidth] == EncodeSize(n.length);
      assert r[2 * SizeWidth..] == KeyBytes(n.keyname);
      KeyBytesRoundTrip(n.keyname);
      assert DecodeNodeRecord(r) == Some(n);
      assert NodeRecords(nodes)[1..] == NodeRecords(nodes[1..]);
      DecodeNodeRecordsOfNodes(nodes[1..]);
      assert [n] + nodes[1..] == nodes;
    }
  }

  lemma OffsetBound(entries: seq<(string, Bytes)>, i: nat)
    requires i < |entries|
    ensures Offset(entries, i) + |entries[i].1| <= |Payloads(entries)|
  {
    PayloadAt(entries, i);
  }

  /** Reading back a file laid out by the writer: the metadata loads, and
      for every key the writer stored, `readNodeList` yields exactly the
      payload written for it (or leaves the message unparsed when that
      payload is empty and sits at offset 0, which parses to the same empty
      message). Holds while the file is addressable by a `size_t`. */
  lemma ReadBackPayload(entries: seq<(string, Bytes)>, i: nat)
    requires DistinctKeys(entries) && KeysAreByteStrings(entries)
    requires |IndexFileBytes(entries)| < SizeLimit
    requires i < |entries|
    ensures LoadFileMetadata(IndexFileBytes(entries)).Success?
    ensures ReadNodeList(LoadFileMetadata(IndexFileBytes(entries)).value, IndexFileBytes(entries), entries[i].0)
      == Success(if Offset(entries, i) == 0 && |entries[i].1| == 0 then None else Some(entries[i].1))
  {
    LoadsMetadata(entries);
    ReadFromWrittenMetadata(entries, i);
  }

  /** Reading key `i` through the metadata the writer built. */
  lemma ReadFromWrittenMetadata(entries: seq<(string, Bytes)>, i: nat)
    requires DistinctKeys(entries) && i < |entries|
    ensures ReadNodeList(MetadataMap(MetaNodes(entries)), IndexFileBytes(entries), entries[i].0)
      == Success(if Offset(entries, i) == 0 && |entries[i].1| == 0 then None else Some(entries[i].1))
  {
    var off := Offset(entries, i);
    NodeForKey(entries, i);
    ReadWrittenRange(entries, i, MetadataMap(MetaNodes(entries)), off);
  }

  /** With the key's metadata node in place, the read returns the payload
      written at its offset. */
  lemma ReadWrittenRange(entries: seq<(string, Bytes)>, i: nat, m: map<string, MetaNode>, off: nat)
    requires i < |entries| && off == Offset(entries, i)
    requires entries[i].0 in m && m[entries[i].0] == MetaNode(off, |entries[i].1|, entries[i].0)
    ensures ReadNodeList(m, IndexFileBytes(entries), entries[i].0)
      == Success(if off == 0 && |entries[i].1| == 0 then None else Some(entries[i].1))
  {
    var file := IndexFileBytes(entries);
    PayloadInFile(entries, i, off, file);
    ReadRecordedRange(m, file, entries[i].0, off, entries[i].1);
  }

  /** `readNodeList` on a key recorded at (off, |payload|) over a file
      holding `payload` there. */
  lemma ReadRecordedRange(m: map<string, MetaNode>, file: Bytes, key: string, off: nat, payload: Bytes)
    requires key in m && m[key] == MetaNode(off, |payload|, key)
    requires off + |payload| <= |file| && file[off..off + |payload|] == payload
    ensures ReadNodeList(m, file, key) == Success(if off == 0 && |payload| == 0 then None else Some(payload))
  {
  }

  lemma NodeForKey(entries: seq<(string, Bytes)>, i: nat)
    requires DistinctKeys(entries)
    requires i < |entries|
    ensures entries[i].0 in MetadataMap(MetaNodes(entries))
    ensures MetadataMap(MetaNodes(entries))[entries[i].0] == MetaNode(Offset(entries, i), |entries[i].1|, entries[i].0)
  {
    var nodes := MetaNodes(entries);
    MetaNodeAt(entries, i);
    forall j | i < j < |nodes| ensures nodes[j].keyname != nodes[i].keyname {
      MetaNodeAt(entries, j);
    }
    MetadataMapLastWins(nodes, i);
  }

  lemma PayloadInFile(entries: seq<(string, Bytes)>, i: nat, off: nat, file: Bytes)
    requires i < |entries| && off == Offset(entries, i) && file == IndexFileBytes(entries)
    ensures off + |entries[i].1| <= |file|
    ensures file[off..off + |entries[i].1|] == entries[i].1
  {
    PayloadAt(entries, i);
    var p := Payloads(entries);
    var meta := EncodeMetadata(MetaNodes(entries));
    assert file == p + (meta + EncodeSizeWrapping(|meta|));
    assert file[off..off + |entries[i].1|] == p[off..off + |entries[i].1|];
  }

  /** A key the writer did not store reads as "not found". */
  lemma ReadAbsentKey(entries: seq<(string, Bytes)>, key: string)
    requires KeysAreByteStrings(entries)
    requires |IndexFileBytes(entries)| < SizeLimit
    requires forall i :: 0 <= i < |entries| ==> entries[i].0 != key
    ensures LoadFileMetadata(IndexFileBytes(entries)).Success?
    ensures ReadNodeList(LoadFileMetadata(IndexFileBytes(entries)).value, IndexFileBytes(entries), key)
      == Success(None)
  {
    LoadsMetadata(entries);
    var nodes := MetaNodes(entries);
    forall j | 0 <= j < |nodes| ensures nodes[j].keyname != key {
      MetaNodeAt(entries, j);
    }
  }

  lemma {:induction false} ElementWithinTotal(list: seq<Bytes>, j: nat)
    requires j < |list|
    ensures |list[j]| <= StringListFile.TotalLength(list)
    decreases |list|
  {
    if j > 0 {
      ElementWithinTotal(list[1..], j - 1);
    }
  }

  /** The stand-in metadata encoding reads back as the nodes it was made of,
      while every number in it fits a `size_t`. */
  lemma MetadataRoundTrip(nodes: seq<MetaNode>)
    requires forall i :: 0 <= i < |nodes| ==> IsByteString(nodes[i].keyname)
    requires forall i :: 0 <= i < |nodes| ==> nodes[i].startbytes < SizeLimit && nodes[i].length < SizeLimit
    requires |EncodeMetadata(nodes)| < SizeLimit
    ensures DecodeMetadata(EncodeMetadata(nodes)) == Some(nodes)
  {
    var rs := NodeRecords(nodes);
    forall j | 0 <= j < |rs| ensures |rs[j]| < SizeLimit {
      ElementWithinTotal(rs, j);
    }
    assert StringListFile.Encodable(rs);
    StringListFile.DecodeEncode(rs, []);
    assert EncodeMetadata(nodes) + [] == EncodeMetadata(nodes);
    DecodeNodeRecordsOfNodes(nodes);
  }

  /** The trailer of `body + meta + size(|meta|)` points back at `meta`. */
  lemma TrailerPointsAtMetadata(body: Bytes, meta: Bytes)
    requires |meta| < SizeLimit
    ensures var file := body + meta + EncodeSizeWrapping(|meta|);
      && DecodeSize(file[|file| - SizeWidth..]) == |meta|
      && file[|file| - SizeWidth - |meta|..|file| - SizeWidth] == meta
  {
    var file := body + meta + EncodeSizeWrapping(|meta|);
    assert file[|file| - SizeWidth..] == EncodeSize(|meta|);
    assert file[|file| - SizeWidth - |meta|..|file| - SizeWidth] == meta;
  }

  lemma NodesFitSize(entries: seq<(string, Bytes)>)
    requires KeysAreByteStrings(entries)
    requires |IndexFileBytes(entries)| < SizeLimit
    ensures forall j :: 0 <= j < |entries| ==> IsByteString(MetaNodes(entries)[j].keyname)
    ensures forall j :: 0 <= j < |entries| ==>
      MetaNodes(entries)[j].startbytes < SizeLimit && MetaNodes(entries)[j].length < SizeLimit
  {
    var nodes := MetaNodes(entries);
    forall j | 0 <= j < |entries|
      ensures IsByteString(nodes[j].keyname)
      ensures nodes[j].startbytes < SizeLimit && nodes[j].length < SizeLimit
    {
      MetaNodeAt(entries, j);
      OffsetBound(entries, j);
    }
  }

  /** The metadata of a writer-laid-out file loads to the map of its nodes. */
  lemma LoadsMetadata(entries: seq<(string, Bytes)>)
    requires KeysAreByteStrings(entries)
    requires |IndexFileBytes(entries)| < SizeLimit
    ensures LoadFileMetadata(IndexFileBytes(entries)) == Success(MetadataMap(MetaNodes(entries)))
  {
    var nodes := MetaNodes(entries);
    var meta := EncodeMetadata(nodes);
    var file := IndexFileBytes(entries);
    assert file == Payloads(entries) + meta + EncodeSizeWrapping(|meta|);
    assert |meta| < SizeLimit;
    TrailerPointsAtMetadata(Payloads(entries), meta);
    NodesFitSize(entries);
    MetadataRoundTrip(nodes);
    var len := DecodeSize(file[|file| - SizeWidth..]);
    assert len == |meta|;
    assert DecodeMetadata(file[|file| - SizeWidth - len..|file| - SizeWidth]) == Some(nodes);
  }

  /* ---------------- the `int` write cursor ---------------- */

  /** The value a 32-bit `int` holds after being assigned `x` (two's
      complement, modulo 2^32). */
  function ToInt32(x: int): (v: int)
    ensures -0x8000_0000 <= v < 0x8000_0000
    ensures (v - x) % 0x1_0000_0000 == 0
  {
    var m := x % 0x1_0000_0000;
    if m < 0x8000_0000 then m else m - 0x1_0000_0000
  }

  /** The `int diskFileCursor` after the writer loop has advanced it over
      the payloads of `entries` (each `cursor += length` is computed in
      `size_t` and stored back into the `int`). */
  function CursorAsWritten(entries: seq<(string, Bytes)>): (c: int)
  {
    if |entries| == 0 then 0
    else ToInt32(CursorAsWritten(entries[..|entries| - 1]) + |entries[|entries| - 1].1|)
  }

  /** The `startbytes` the writer records for entry `i`: the `int` cursor
      before that entry's payload. */
  function StartbytesAsWritten(entries: seq<(string, Bytes)>, i: nat): int
    requires i < |entries|
  {
    CursorAsWritten(entries[..i])
  }

  lemma ToInt32Congruent(a: int, b: int)
    requires (a - b) % 0x1_0000_0000 == 0
    ensures ToInt32(a) == ToInt32(b)
  {
    var k := (a - b) / 0x1_0000_0000;
    assert a == b + k * 0x1_0000_0000;
    assert a % 0x1_0000_0000 == b % 0x1_0000_0000;
  }

  /** The `int` cursor is the true offset reduced to 32 bits. */
  lemma {:induction false} CursorAsWrittenIsWrapped(entries: seq<(string, Bytes)>)
    ensures CursorAsWritten(entries) == ToInt32(|Payloads(entries)|)
    decreases |entries|
  {
    if |entries| > 0 {
      var init := entries[..|entries| - 1];
      var len := |entries[|entries| - 1].1|;
      CursorAsWrittenIsWrapped(init);
      var c := CursorAsWritten(init);
      assert (c + len - (|Payloads(init)| + len)) % 0x1_0000_0000 == 0;
      ToInt32Congruent(c + len, |Payloads(init)| + len);
    }
  }

  /** Once the payloads before an entry reach 2^31 bytes (2 GiB), the
      recorded `startbytes` is no longer the entry's offset: the `int`
      cursor has turned negative. */
  lemma Int32CursorMisrecords(entries: seq<(string, Bytes)>, i: nat)
    requires i < |entries|
    requires 0x8000_0000 <= Offset(entries, i) < 0x1_0000_0000
    ensures StartbytesAsWritten(entries, i) == Offset(entries, i) - 0x1_0000_0000
    ensures StartbytesAsWritten(entries, i) < 0
  {
    CursorAsWrittenIsWrapped(entries[..i]);
  }

  /** The smallest case: a first payload of exactly 2^31 bytes makes the
      second key's recorded offset -2^31 instead of 2^31. */
  lemma Int32CursorExample(entries: seq<(string, Bytes)>)
    requires |entries| == 2 && |entries[0].1| == 0x8000_0000
    ensures Offset(entries, 1) == 0x8000_0000
    ensures StartbytesAsWritten(entries, 1) == -0x8000_0000
  {
    var first := entries[..1];
    assert first[..0] == [];
    assert Payloads(first) == Payloads(first[..0]) + first[0].1;
    assert Payloads(first) == entries[0].1;
    Int32CursorMisrecords(entries, 1);
  }
}

=== FILE: memory_batch.dfy ===
/** The memory-limited read of `get_particle` (main.py): the sorted block
    list is cut into batches whose particle counts fit a budget, each
    batch becomes one chunked read, and the rows each batch selects are
    joined in batch order. */
module MemoryBatch {
  import opened Wrappers
  import opened ChunkReader
  import RangeExtract

  /** A row of the block metadata table: `(block_start, block_count)`. */
  datatype BlockMeta = BlockMeta(start: nat, count: nat)

  /** `sum(x[1] for x in batch)`: the particles of a batch. */
  function BatchTotal(batch: seq<BlockMeta>): nat
  {
    if |batch| == 0 then 0 else BatchTotal(batch[..|batch| - 1]) + batch[|batch| - 1].count
  }

  /** The first `k` batches one after the other. */
  function ConcatUpTo<T>(batches: seq<seq<T>>, k: nat): seq<T>
    requires k <= |batches|
  {
    if k == 0 then [] else ConcatUpTo(batches, k - 1) + batches[k - 1]
  }

  /** All batches one after the other. */
  function Concat<T>(batches: seq<seq<T>>): seq<T>
  {
    ConcatUpTo(batches, |batches|)
  }

  lemma BatchTotalAppend(batch: seq<BlockMeta>, b: BlockMeta)
    ensures BatchTotal(batch + [b]) == BatchTotal(batch) + b.count
  {
    assert (batch + [b])[..|batch|] == batch;
  }

  /** Batches that agree on their first `k` entries agree on the first `k` joined. */
  lemma {:induction false} ConcatUpToPrefix<T>(a: seq<seq<T>>, b: seq<seq<T>>, k: nat)
    requires k <= |a| && k <= |b| && a[..k] == b[..k]
    ensures ConcatUpTo(a, k) == ConcatUpTo(b, k)
  {
    if k > 0 {
      assert a[..k - 1] == b[..k - 1] by {
        assert a[..k - 1] == a[..k][..k - 1];
        assert b[..k - 1] == b[..k][..k - 1];
      }
      assert a[k - 1] == a[..k][k - 1] == b[..k][k - 1] == b[k - 1];
      ConcatUpToPrefix(a, b, k - 1);
    }
  }

  /** Appending `b` to the last batch appends it to the join. */
  lemma ConcatExtendLast<T>(batches: seq<seq<T>>, b: T)
    requires |batches| > 0
    ensures Concat(batches[..|batches| - 1] + [batches[|batches| - 1] + [b]]) == Concat(batches) + [b]
  {
    var n := |batches|;
    var after := batches[..n - 1] + [batches[n - 1] + [b]];
    assert after[..n - 1] == batches[..n - 1];
    ConcatUpToPrefix(after, batches, n - 1);
  }

  /** Opening a new, empty batch leaves the join unchanged. */
  lemma ConcatNewBatch<T>(batches: seq<seq<T>>)
    ensures Concat(batches + [[]]) == Concat(batches)
  {
    var after := batches + [[]];
    assert after[..|batches|] == batches[..|batches|];
    ConcatUpToPrefix(after, batches, |batches|);
  }

  /** Every batch of two or more blocks fits the budget, every batch after
      the first holds a block, and no block could have joined the batch
      before its own. */
  predicate Fits(batches: seq<seq<BlockMeta>>, maxN: int)
  {
    && (forall k :: 0 <= k < |batches| && |batches[k]| > 1 ==> BatchTotal(batches[k]) <= maxN)
    && (forall k :: 0 < k < |batches| ==> |batches[k]| > 0)
    && (forall k :: 0 <= k < |batches| - 1 ==> BatchTotal(batches[k]) + batches[k + 1][0].count > maxN)
  }

  /** One iteration of the batching loop: open a new batch when `b` would
      take the last batch past `maxN`, then append `b` to the last batch. */
  function Step(batches: seq<seq<BlockMeta>>, b: BlockMeta, maxN: int): (next: seq<seq<BlockMeta>>)
    requires |batches| >= 1
    ensures |next| >= 1
  {
    var grown := if BatchTotal(batches[|batches| - 1]) + b.count > maxN then batches + [[]] else batches;
    grown[..|grown| - 1] + [grown[|grown| - 1] + [b]]
  }

  /** A step keeps the batches fitting, appends `b` to their join, and
      fills the first batch only when that batch is the last one and `b`
      fits into it. */
  lemma StepKeeps(batches: seq<seq<BlockMeta>>, b: BlockMeta, maxN: int)
    requires |batches| >= 1 && Fits(batches, maxN)
    ensures Fits(Step(batches, b, maxN), maxN)
    ensures Concat(Step(batches, b, maxN)) == Concat(batches) + [b]
    ensures BatchTotal(Step(batches, b, maxN)[|Step(batches, b, maxN)| - 1])
         == (if BatchTotal(batches[|batches| - 1]) + b.count > maxN then 0 else BatchTotal(batches[|batches| - 1])) + b.count
    ensures |Step(batches, b, maxN)[0]| == 0
        <==> |batches[0]| == 0 && (|batches| >= 2 || BatchTotal(batches[0]) + b.count > maxN)
    ensures |Step(batches, b, maxN)| == 1 ==> |Step(batches, b, maxN)[0]| > 0
  {
    if BatchTotal(batches[|batches| - 1]) + b.count > maxN {
      StepOpens(batches, b, maxN);
    } else {
      StepExtends(batches, b, maxN);
    }
  }

  /** A block over the budget of the last batch opens a batch of its own. */
  lemma StepOpens(batches: seq<seq<BlockMeta>>, b: BlockMeta, maxN: int)
    requires |batches| >= 1 && Fits(batches, maxN)
    requires BatchTotal(batches[|batches| - 1]) + b.count > maxN
    ensures Step(batches, b, maxN) == batches + [[b]]
    ensures Fits(batches + [[b]], maxN)
    ensures Concat(batches + [[b]]) == Concat(batches) + [b]
    ensures BatchTotal([b]) == b.count
  {
    var grown := batches + [[]];
    assert grown[..|grown| - 1] == batches;
    ConcatNewBatch(batches);
    ConcatExtendLast(grown, b);
    BatchTotalAppend([], b);
    var next := batches + [[b]];
    assert next[|batches|][0] == b;
  }

  /** A block within the budget joins the last batch. */
  lemma StepExtends(batches: seq<seq<BlockMeta>>, b: BlockMeta, maxN: int)
    requires |batches| >= 1 && Fits(batches, maxN)
    requires BatchTotal(batches[|batches| - 1]) + b.count <= maxN
    ensures Step(batches, b, maxN) == batches[..|batches| - 1] + [batches[|batches| - 1] + [b]]
    ensures Fits(Step(batches, b, maxN), maxN)
    ensures Concat(Step(batches, b, maxN)) == Concat(batches) + [b]
    ensures BatchTotal(batches[|batches| - 1] + [b]) == BatchTotal(batches[|batches| - 1]) + b.count
    ensures |batches| >= 2 ==> (batches[|batches| - 1] + [b])[0] == batches[|batches| - 1][0]
  {
    var last := batches[|batches| - 1];
    ConcatExtendLast(batches, b);
    BatchTotalAppend(last, b);
    var next := batches[..|batches| - 1] + [last + [b]];
    forall k | 0 <= k < |next| - 1 ensures next[k] == batches[k] {
    }
    if |batches| >= 2 {
      assert (last + [b])[0] == last[0];
      assert next[|batches| - 1][0] == last[0];
    }
  }

  /** The loop's state after `i` blocks: the batches fit, join to the
      first `i` blocks, and start with an empty batch exactly when the first
      block alone is over the budget. */
  predicate Batched(blocks: seq<BlockMeta>, i: nat, batches: seq<seq<BlockMeta>>, maxN: int)
    requires i <= |blocks|
  {
    && |batches| >= 1 && Fits(batches, maxN)
    && Concat(batches) == blocks[..i]
    && (|batches[0]| == 0 <==> (i == 0 || blocks[0].count > maxN))
    && (|batches| == 1 && i > 0 ==> |batches[0]| > 0)
  }

  lemma StepBatched(blocks: seq<BlockMeta>, i: nat, batches: seq<seq<BlockMeta>>, maxN: int)
    requires i < |blocks| && Batched(blocks, i, batches, maxN)
    ensures Batched(blocks, i + 1, Step(batches, blocks[i], maxN), maxN)
  {
    StepKeeps(batches, blocks[i], maxN);
    assert blocks[..i + 1] == blocks[..i] + [blocks[i]];
  }

  /** The batching loop of main.py:483-493. A block opens a new batch when
      it would take the running count past `maxN`, even when the current
      batch is still empty, so a first block larger than the budget leaves
      an empty batch in front. */
  method ReadBatches(blocks: seq<BlockMeta>, maxN: int) returns (batches: seq<seq<BlockMeta>>)
    ensures batches == Batches(blocks, maxN)
    ensures |batches| >= 1
    ensures Concat(batches) == blocks
    ensures forall k :: 0 <= k < |batches| && |batches[k]| > 1 ==> BatchTotal(batches[k]) <= maxN
    ensures forall k :: 0 < k < |batches| ==> |batches[k]| > 0
    ensures |batches[0]| == 0 <==> (|blocks| == 0 || blocks[0].count > maxN)
    ensures forall k :: 0 <= k < |batches| - 1 ==> BatchTotal(batches[k]) + batches[k + 1][0].count > maxN
  {
    batches := BatchLoop(blocks, maxN);
  }

  /** The loop itself, block by block, keeping the running count of the
      last batch. */
  method BatchLoop(blocks: seq<BlockMeta>, maxN: int) returns (batches: seq<seq<BlockMeta>>)
    ensures batches == BatchesUpTo(blocks, |blocks|, maxN)
  {
    batches := [[]];
    var currentN := 0;
    var i := 0;
    while i < |blocks|
      invariant 0 <= i <= |blocks|
      invariant batches == BatchesUpTo(blocks, i, maxN)
      invariant currentN == BatchTotal(batches[|batches| - 1])
    {
      assert BatchesUpTo(blocks, i + 1, maxN) == Step(batches, blocks[i], maxN);
      batches, currentN := AddBlock(batches, currentN, blocks[i], maxN);
      i := i + 1;
    }
  }

  /** The batches of the first `i` blocks: the loop's state after `i` steps. */
  function BatchesUpTo(blocks: seq<BlockMeta>, i: nat, maxN: int): (batches: seq<seq<BlockMeta>>)
    requires i <= |blocks|
    ensures |batches| >= 1
  {
    if i == 0 then [[]] else Step(BatchesUpTo(blocks, i - 1, maxN), blocks[i - 1], maxN)
  }

  /** The batches the loop of main.py:483-493 builds from all blocks. */
  function Batches(blocks: seq<BlockMeta>, maxN: int): (batches: seq<seq<BlockMeta>>)
    ensures |batches| >= 1
    ensures Concat(batches) == blocks
    ensures Fits(batches, maxN)
    ensures |batches[0]| == 0 <==> (|blocks| == 0 || blocks[0].count > maxN)
  {
    BatchesUpToBatched(blocks, |blocks|, maxN);
    assert blocks[..|blocks|] == blocks;
    BatchesUpTo(blocks, |blocks|, maxN)
  }

  lemma {:induction false} BatchesUpToBatched(blocks: seq<BlockMeta>, i: nat, maxN: int)
    requires i <= |blocks|
    ensures Batched(blocks, i, BatchesUpTo(blocks, i, maxN), maxN)
  {
    if i > 0 {
      BatchesUpToBatched(blocks, i - 1, maxN);
      StepBatched(blocks, i - 1, BatchesUpTo(blocks, i - 1, maxN), maxN);
      assert BatchesUpTo(blocks, i, maxN) == Step(BatchesUpTo(blocks, i - 1, maxN), blocks[i - 1], maxN);
    } else {
      BatchedStart(blocks, maxN);
    }
  }

  /** Before the loop: one empty batch. */
  lemma BatchedStart(blocks: seq<BlockMeta>, maxN: int)
    ensures Batched(blocks, 0, [[]], maxN)
  {
    var first: seq<seq<BlockMeta>> := [[]];
    assert ConcatUpTo(first, 1) == ConcatUpTo(first, 0) + first[0];
  }

  /** As written, a first block over the budget leaves an empty first batch
      in front of the one that holds it. Its `read_chunk_range` is `[]`, which
      `get_data_new` takes as "no ranges" and answers with a full read (see
      `ReadBatch`), while the batch's selection array has no entries. */
  lemma LeadingEmptyBatch(blocks: seq<BlockMeta>, maxN: int)
    requires |blocks| > 0 && blocks[0].count > maxN
    ensures |Batches(blocks, maxN)| >= 2
    ensures Batches(blocks, maxN)[0] == [] && BatchTotal(Batches(blocks, maxN)[0]) == 0
    ensures BatchRanges(Batches(blocks, maxN)[0]) == []
  {
    BatchesUpToBatched(blocks, |blocks|, maxN);
    assert blocks[..|blocks|] == blocks;
  }

  /** One block of 10 particles with a budget of 5: the batches are an
      empty batch and then the block. */
  lemma LeadingEmptyBatchExample()
    ensures Batches([BlockMeta(0, 10)], 5) == [[], [BlockMeta(0, 10)]]
    ensures BatchRanges(Batches([BlockMeta(0, 10)], 5)[0]) == []
    ensures CorrectedBatches([BlockMeta(0, 10)], 5) == [[BlockMeta(0, 10)]]
  {
  }

  /** Joining batches behind an empty first batch is joining the rest. */
  lemma {:induction false} ConcatUpToDropEmpty<T>(batches: seq<seq<T>>, k: nat)
    requires 0 < k <= |batches| && batches[0] == []
    ensures ConcatUpTo(batches, k) == ConcatUpTo(batches[1..], k - 1)
  {
    if k > 1 {
      ConcatUpToDropEmpty(batches, k - 1);
      assert batches[1..][k - 2] == batches[k - 1];
    }
  }

  /** The batching as evidently intended: the same cut, without the empty
      batch in front, so that every batch is read in chunks. */
  function CorrectedBatches(blocks: seq<BlockMeta>, maxN: int): (batches: seq<seq<BlockMeta>>)
    ensures |batches| >= 1
    ensures Concat(batches) == blocks
    ensures |blocks| > 0 ==> forall k :: 0 <= k < |batches| ==> |batches[k]| > 0
    ensures forall k :: 0 < k < |batches| ==> |batches[k]| > 0
    ensures forall k :: 0 <= k < |batches| && |batches[k]| > 1 ==> BatchTotal(batches[k]) <= maxN
    ensures forall k :: 0 <= k < |batches| - 1 ==> BatchTotal(batches[k]) + batches[k + 1][0].count > maxN
  {
    var b := Batches(blocks, maxN);
    if |b| > 1 && b[0] == [] then
      DropEmptyFirst(b, maxN);
      b[1..]
    else
      b
  }

  /** Dropping an empty first batch keeps the join and the budget rules and
      leaves no empty batch. */
  lemma DropEmptyFirst(b: seq<seq<BlockMeta>>, maxN: int)
    requires |b| > 1 && b[0] == [] && Fits(b, maxN)
    ensures Concat(b[1..]) == Concat(b) && Fits(b[1..], maxN)
    ensures forall k :: 0 <= k < |b[1..]| ==> |b[1..][k]| > 0
  {
    ConcatUpToDropEmpty(b, |b|);
    assert forall k :: 0 <= k < |b| - 1 ==> b[1..][k] == b[k + 1];
  }

  /** The loop body: open a new batch when the block would take the running
      count past `maxN`, then append the block to the last batch. */
  method AddBlock(batches: seq<seq<BlockMeta>>, currentN: nat, b: BlockMeta, maxN: int)
    returns (next: seq<seq<BlockMeta>>, nextN: nat)
    requires |batches| >= 1 && currentN == BatchTotal(batches[|batches| - 1])
    ensures next == Step(batches, b, maxN)
    ensures nextN == BatchTotal(next[|next| - 1])
    ensures nextN == (if currentN + b.count > maxN then 0 else currentN) + b.count
  {
    next, nextN := batches, currentN;
    if nextN + b.count > maxN {
      next := next + [[]];
      nextN := 0;
    }
    BatchTotalAppend(next[|next| - 1], b);
    nextN := nextN + b.count;
    next := next[..|next| - 1] + [next[|next| - 1] + [b]];
  }

  /** `batch_to_tuple`: a metadata row becomes the read tuple of its rows. */
  function BatchToTuple(b: BlockMeta): (c: ChunkRange)
    ensures c.start == b.start && c.end - c.start == b.count
  {
    ChunkRange(b.start, b.start + b.count)
  }

  /** `list(map(batch_to_tuple, batch))`. */
  function BatchRanges(batch: seq<BlockMeta>): (ranges: seq<ChunkRange>)
    ensures |ranges| == |batch|
    ensures forall j :: 0 <= j < |batch| ==> ranges[j] == BatchToTuple(batch[j])
  {
    seq(|batch|, j requires 0 <= j < |batch| => BatchToTuple(batch[j]))
  }

  /** The tuples of a batch are ordered and as long together as the batch's
      particle count, the length its selection array is created with at
      main.py:498-500. */
  lemma {:induction false} BatchReadLength(batch: seq<BlockMeta>)
    ensures Ordered(BatchRanges(batch))
    ensures TotalLength(BatchRanges(batch)) == BatchTotal(batch)
  {
    BatchPrefixLength(batch, |batch|);
    assert batch[..|batch|] == batch;
  }

  lemma {:induction false} BatchPrefixLength(batch: seq<BlockMeta>, k: nat)
    requires k <= |batch|
    ensures PrefixLength(BatchRanges(batch), k) == BatchTotal(batch[..k])
  {
    if k > 0 {
      BatchPrefixLength(batch, k - 1);
      assert batch[..k][..k - 1] == batch[..k - 1];
    }
  }

  /** The read of one batch at main.py:496-505: `get_data_new` over the
      batch's tuples. A non-empty batch reads exactly as many rows as its
      selection array holds; an empty batch reads the whole component. */
  method ReadBatch<T>(component: Column<T>, batch: seq<BlockMeta>, output: Option<DType>,
                      zero: T, cast: (DType, T) -> T)
    returns (r: Result<Read<T>, ReadError>)
    ensures |batch| == 0 ==> r == Success(FullRead(output))
    ensures |batch| > 0 ==> (r.Success? <==> InExtent(BatchRanges(batch), |component.values|))
    ensures |batch| > 0 && r.Success? ==> r.value.Chunked? && |r.value.column.values| == BatchTotal(batch)
  {
    BatchReadLength(batch);
    r := GetDataNew(component, Some(BatchRanges(batch)), output, zero, cast);
  }

  /** Row selection distributes over joining: selecting each batch's rows
      with its own mask and joining the results (main.py:524-546) gives the
      rows one mask over the joined batches would select. */
  lemma {:induction false} BatchedSelection<T>(data: seq<seq<T>>, masks: seq<seq<bool>>, k: nat)
    requires |data| == |masks| && k <= |data|
    requires forall j :: 0 <= j < |data| ==> |data[j]| == |masks[j]|
    ensures |ConcatUpTo(data, k)| == |ConcatUpTo(masks, k)|
    ensures ConcatUpTo(SelectEach(data, masks), k) == RangeExtract.Select(ConcatUpTo(data, k), ConcatUpTo(masks, k))
  {
    if k > 0 {
      BatchedSelection(data, masks, k - 1);
      RangeExtract.SelectAppend(ConcatUpTo(data, k - 1), ConcatUpTo(masks, k - 1), data[k - 1], masks[k - 1]);
    }
  }

  /** `data[select_array_list[i]]` for every batch `i`. */
  function SelectEach<T>(data: seq<seq<T>>, masks: seq<seq<bool>>): (r: seq<seq<T>>)
    requires |data| == |masks|
    requires forall j :: 0 <= j < |data| ==> |data[j]| == |masks[j]|
    ensures |r| == |data|
  {
    seq(|data|, j requires 0 <= j < |data| => RangeExtract.Select(data[j], masks[j]))
  }
}

=== FILE: minmax_build.dfy ===
/** The min-max index builder (src/minmaxbuild.cpp): one `MinMaxNode` per
    block and coordinate, and with the "minmax" secondary index one node per
    in-block slice of `inblockSliceSize` particles. Node lists are kept in
    maps keyed by the name the writer later stores them under. */
module MinMaxBuild {
  import opened ExtReal
  import opened BlockRecords
  import opened QueryResults
  import Decimal

  /** Bounds `[min, max]` of the values at particle indices `[start, end)`. */
  datatype MinMaxNode = MinMaxNode(min: Ext, max: Ext, start: nat, end: nat)

  /** The builder's two node-list maps: per coordinate key, and per
      coordinate key followed by the decimal block start. */
  datatype MinMaxIndex = MinMaxIndex(primary: map<string, seq<MinMaxNode>>,
                                     inblock: map<string, seq<MinMaxNode>>)

  const EmptyIndex := MinMaxIndex(map[], map[])

  /** The list stored under `key`, empty when there is none. */
  function ListAt(m: map<string, seq<MinMaxNode>>, key: string): seq<MinMaxNode>
  {
    if key in m then m[key] else []
  }

  /** The key of the slice list of a block: `key + std::to_string(start)`. */
  function SliceKey(key: string, start: nat): string
  {
    key + Decimal.ToDecimal(start)
  }

  /** End offset (exclusive) within the block of the slice starting at `i`. */
  function SliceEnd(size: nat, s: nat, i: nat): nat
  {
    if i + s < size then i + s else size
  }

  /** The in-block slices from offset `i` on: offsets `i, i + s, i + 2s, ...`
      below `|data|`, each covering `[start + i, min(start + i + s, end))`
      with the bounds of `data[i .. min(i + s, |data|)]`. */
  function SlicesFrom(data: seq<Ext>, start: nat, end: nat, s: nat, i: nat): (r: seq<MinMaxNode>)
    requires s > 0
    decreases |data| - i
  {
    if i >= |data| then []
    else
      var j := SliceEnd(|data|, s, i);
      var slice := data[i..j];
      var hi := if start + i + s < end then start + i + s else end;
      [MinMaxNode(SeqMin(slice), SeqMax(slice), start + i, hi)] + SlicesFrom(data, start, end, s, i + s)
  }

  function Slices(data: seq<Ext>, start: nat, end: nat, s: nat): seq<MinMaxNode>
    requires s > 0
  {
    SlicesFrom(data, start, end, s, 0)
  }

  /** The block bounds as the "minmax" branch folds them: starting from
      `(+inf, -inf)`, take the min of the mins and the max of the maxes of
      the slices in order. */
  function FoldBounds(lo: Ext, hi: Ext, slices: seq<MinMaxNode>): (Ext, Ext)
    decreases |slices|
  {
    if |slices| == 0 then (lo, hi)
    else FoldBounds(Min(lo, slices[0].min), Max(hi, slices[0].max), slices[1..])
  }

  /** The node `processMinMaxNode` appends under `key`. "none" takes the
      bounds of the whole vector; "minmax" folds the slices; any other type
      leaves the bounds at their protobuf default of zero. */
  function BlockNode(secondary: SecondaryType, s: nat, data: seq<Ext>, start: nat, end: nat): MinMaxNode
    requires secondary == NoSecondary ==> |data| > 0
    requires secondary == MinMaxSecondary ==> s > 0
  {
    match secondary
    case NoSecondary => MinMaxNode(SeqMin(data), SeqMax(data), start, end)
    case MinMaxSecondary =>
      var b := FoldBounds(PosInf, NegInf, Slices(data, start, end, s));
      MinMaxNode(b.0, b.1, start, end)
    case RTreeSecondary => MinMaxNode(Fin(0.0), Fin(0.0), start, end)
  }

  /** `after` is `before` with one node covering `[start, end)` appended to
      the list of `key`, and every other list untouched. */
  ghost predicate Appended(before: map<string, seq<MinMaxNode>>, after: map<string, seq<MinMaxNode>>,
                           key: string, start: nat, end: nat)
  {
    NodeAppended(before, after, key, start, end) && SameOutside(before, after, {key})
  }

  ghost predicate NodeAppended(before: map<string, seq<MinMaxNode>>, after: map<string, seq<MinMaxNode>>,
                               key: string, start: nat, end: nat)
  {
    key in after && |after[key]| == |ListAt(before, key)| + 1 &&
    after[key][..|after[key]| - 1] == ListAt(before, key) &&
    after[key][|after[key]| - 1].start == start && after[key][|after[key]| - 1].end == end
  }

  /** Every list whose key is not in `keys` is untouched. */
  ghost predicate SameOutside(before: map<string, seq<MinMaxNode>>, after: map<string, seq<MinMaxNode>>,
                              keys: set<string>)
  {
    forall k :: k !in keys ==> (k in after <==> k in before) && (k in before ==> after[k] == before[k])
  }

  /** One node covering `[start, end)` was appended under each of the three
      keys, and every other list is untouched. */
  ghost predicate AppendedUnderThree(before: map<string, seq<MinMaxNode>>, after: map<string, seq<MinMaxNode>>,
                                     kx: string, ky: string, kz: string, start: nat, end: nat)
  {
    NodeAppended(before, after, kx, start, end) &&
    NodeAppended(before, after, ky, start, end) &&
    NodeAppended(before, after, kz, start, end) &&
    SameOutside(before, after, {kx, ky, kz})
  }

  /** `processMinMaxNode`: append the block node under `key` and, with the
      "minmax" secondary index, append the block's slices under the slice key
      (a slice list is only created when there is at least one slice). */
  function ProcessMinMaxNode(idx: MinMaxIndex, secondary: SecondaryType, s: nat,
                             data: seq<Ext>, key: string, start: nat, end: nat): MinMaxIndex
    requires secondary == NoSecondary ==> |data| > 0
    requires secondary == MinMaxSecondary ==> s > 0
  {
    var node := BlockNode(secondary, s, data, start, end);
    var primary := idx.primary[key := ListAt(idx.primary, key) + [node]];
    if secondary == MinMaxSecondary && |data| > 0 then
      var sk := SliceKey(key, start);
      MinMaxIndex(primary, idx.inblock[sk := ListAt(idx.inblock, sk) + Slices(data, start, end, s)])
    else
      MinMaxIndex(primary, idx.inblock)
  }

  /** `processBlockData`: index the x, y and z vectors of a block under
      `key + "x"`, `key + "y"` and `key + "z"`, each covering
      `[blockStart, blockStart + blockCount)`. */
  function ProcessBlockData(idx: MinMaxIndex, secondary: SecondaryType, s: nat, b: BlockData): MinMaxIndex
    requires secondary == NoSecondary ==> |b.xs| > 0 && |b.ys| > 0 && |b.zs| > 0
    requires secondary == MinMaxSecondary ==> s > 0
  {
    ProcessAxes(idx, secondary, s, b.xs, b.ys, b.zs, b.key + "x", b.key + "y", b.key + "z",
                b.blockStart, b.blockStart + b.blockCount)
  }

  /** The three `processMinMaxNode` calls of `processBlockData`, one per axis. */
  function ProcessAxes(idx: MinMaxIndex, secondary: SecondaryType, s: nat,
                       xs: seq<Ext>, ys: seq<Ext>, zs: seq<Ext>,
                       kx: string, ky: string, kz: string, start: nat, end: nat): MinMaxIndex
    requires secondary == NoSecondary ==> |xs| > 0 && |ys| > 0 && |zs| > 0
    requires secondary == MinMaxSecondary ==> s > 0
  {
    var i1 := ProcessMinMaxNode(idx, secondary, s, xs, kx, start, end);
    var i2 := ProcessMinMaxNode(i1, secondary, s, ys, ky, start, end);
    ProcessMinMaxNode(i2, secondary, s, zs, kz, start, end)
  }

  /** `processMinMaxNode` appends one node recording `[start, end)` under
      `key`, leaves every other primary list alone, and changes the slice
      lists only in "minmax" mode, where the block's slices are appended
      under `key + to_string(start)`. */
  lemma ProcessMinMaxNodeAppends(idx: MinMaxIndex, secondary: SecondaryType, s: nat,
                                 data: seq<Ext>, key: string, start: nat, end: nat)
    requires secondary == NoSecondary ==> |data| > 0
    requires secondary == MinMaxSecondary ==> s > 0
    ensures var r := ProcessMinMaxNode(idx, secondary, s, data, key, start, end);
      Appended(idx.primary, r.primary, key, start, end) &&
      (secondary != MinMaxSecondary || |data| == 0 ==> r.inblock == idx.inblock) &&
      (secondary == MinMaxSecondary && |data| > 0 ==>
        r.inblock == idx.inblock[SliceKey(key, start) := ListAt(idx.inblock, SliceKey(key, start)) + Slices(data, start, end, s)])
  {
  }

  /** A later append under another key leaves an earlier append intact. */
  lemma AppendedPersists(m0: map<string, seq<MinMaxNode>>, m1: map<string, seq<MinMaxNode>>,
                         m2: map<string, seq<MinMaxNode>>, k1: string, k2: string, start: nat, end: nat, e2: nat)
    requires k1 != k2
    requires NodeAppended(m0, m1, k1, start, end)
    requires Appended(m1, m2, k2, start, e2)
    ensures NodeAppended(m0, m2, k1, start, end)
  {
  }

  /** Three `processMinMaxNode` calls under three distinct keys append one
      node under each key and touch no other primary list. */
  lemma {:induction false} ProcessThree(idx: MinMaxIndex, secondary: SecondaryType, s: nat,
                                        xs: seq<Ext>, ys: seq<Ext>, zs: seq<Ext>,
                                        kx: string, ky: string, kz: string, start: nat, end: nat, r: MinMaxIndex)
    requires secondary == NoSecondary ==> |xs| > 0 && |ys| > 0 && |zs| > 0
    requires secondary == MinMaxSecondary ==> s > 0
    requires kx != ky && kx != kz && ky != kz
    requires r == ProcessAxes(idx, secondary, s, xs, ys, zs, kx, ky, kz, start, end)
    ensures AppendedUnderThree(idx.primary, r.primary, kx, ky, kz, start, end)
  {
    var p0 := idx.primary;
    var nx := BlockNode(secondary, s, xs, start, end);
    var ny := BlockNode(secondary, s, ys, start, end);
    var nz := BlockNode(secondary, s, zs, start, end);
    var i1 := ProcessMinMaxNode(idx, secondary, s, xs, kx, start, end);
    var i2 := ProcessMinMaxNode(i1, secondary, s, ys, ky, start, end);
    assert r == ProcessMinMaxNode(i2, secondary, s, zs, kz, start, end);
    assert i1.primary == p0[kx := ListAt(p0, kx) + [nx]];
    assert ListAt(i1.primary, ky) == ListAt(p0, ky);
    assert i2.primary == i1.primary[ky := ListAt(p0, ky) + [ny]];
    assert ListAt(i2.primary, kz) == ListAt(p0, kz);
    assert r.primary == p0[kx := ListAt(p0, kx) + [nx]][ky := ListAt(p0, ky) + [ny]][kz := ListAt(p0, kz) + [nz]];
    assert nx.start == ny.start == nz.start == start && nx.end == ny.end == nz.end == end;
    ThreeAppends(p0, kx, ky, kz, nx, ny, nz);
  }

  /** `processBlockData` appends one node covering
      `[blockStart, blockStart + blockCount)` under each of `key + "x"`,
      `key + "y"` and `key + "z"`, and touches no other primary list. */
  lemma {:induction false} ProcessBlockDataAppends(idx: MinMaxIndex, secondary: SecondaryType, s: nat, b: BlockData, r: MinMaxIndex)
    requires secondary == NoSecondary ==> |b.xs| > 0 && |b.ys| > 0 && |b.zs| > 0
    requires secondary == MinMaxSecondary ==> s > 0
    requires r == ProcessBlockData(idx, secondary, s, b)
    ensures AppendedUnderThree(idx.primary, r.primary, b.key + "x", b.key + "y", b.key + "z",
                               b.blockStart, b.blockStart + b.blockCount)
  {
    AxisKeysDistinct(b.key);
    ProcessThree(idx, secondary, s, b.xs, b.ys, b.zs, b.key + "x", b.key + "y", b.key + "z",
                 b.blockStart, b.blockStart + b.blockCount, r);
  }

  /** The keys of the three axes differ. */
  lemma AxisKeysDistinct(key: string)
    ensures key + "x" != key + "y" && key + "x" != key + "z" && key + "y" != key + "z"
  {
    assert (key + "x")[|key|] == 'x' && (key + "y")[|key|] == 'y' && (key + "z")[|key|] == 'z';
  }

  lemma ThreeAppends(p0: map<string, seq<MinMaxNode>>, kx: string, ky: string, kz: string,
                     nx: MinMaxNode, ny: MinMaxNode, nz: MinMaxNode)
    requires kx != ky && kx != kz && ky != kz
    requires nx.start == ny.start == nz.start && nx.end == ny.end == nz.end
    ensures var q := p0[kx := ListAt(p0, kx) + [nx]][ky := ListAt(p0, ky) + [ny]][kz := ListAt(p0, kz) + [nz]];
      AppendedUnderThree(p0, q, kx, ky, kz, nx.start, nx.end)
  {
  }

  /** `slices` cover `[lo, hi)` back to back, each non-empty, in order. */
  ghost predicate Tiles(slices: seq<MinMaxNode>, lo: nat, hi: nat)
    decreases |slices|
  {
    if |slices| == 0 then lo == hi
    else slices[0].start == lo && lo < slices[0].end && Tiles(slices[1..], slices[0].end, hi)
  }

  /** When the block holds one value per index of `[start, end)`, the slices
      from offset `i` tile `[start + i, end)`. */
  lemma {:induction false} SlicesFromTile(data: seq<Ext>, start: nat, end: nat, s: nat, i: nat)
    requires s > 0 && |data| == end - start && i <= |data|
    ensures Tiles(SlicesFrom(data, start, end, s, i), start + i, end)
    decreases |data| - i
  {
    if i < |data| {
      var j := SliceEnd(|data|, s, i);
      if i + s <= |data| {
        SlicesFromTile(data, start, end, s, i + s);
      } else {
        assert SlicesFrom(data, start, end, s, i + s) == [];
      }
    }
  }

  /** The slices of a block tile the block's index range `[start, end)`. */
  lemma SlicesTile(data: seq<Ext>, start: nat, end: nat, s: nat)
    requires s > 0 && |data| == end - start
    ensures Tiles(Slices(data, start, end, s), start, end)
  {
    SlicesFromTile(data, start, end, s, 0);
  }

  /** Slice node `n` lies inside the block `[start, start + |data|)` and
      records the bounds of exactly the values in its range. */
  ghost predicate RecordsBounds(data: seq<Ext>, start: nat, n: MinMaxNode)
  {
    start <= n.start < n.end <= start + |data| &&
    n.min == SeqMin(data[n.start - start .. n.end - start]) &&
    n.max == SeqMax(data[n.start - start .. n.end - start])
  }

  /** Slice `k` from offset `i` is the slice at offset `i + k*s`. */
  lemma {:induction false} SliceAt(data: seq<Ext>, start: nat, end: nat, s: nat, i: nat, k: nat)
    requires s > 0 && |data| == end - start
    requires k < |SlicesFrom(data, start, end, s, i)|
    ensures RecordsBounds(data, start, SlicesFrom(data, start, end, s, i)[k])
    decreases k
  {
    var sl := SlicesFrom(data, start, end, s, i);
    if k > 0 {
      var rest := SlicesFrom(data, start, end, s, i + s);
      assert sl == [sl[0]] + rest;
      assert sl[k] == rest[k - 1];
      SliceAt(data, start, end, s, i + s, k - 1);
    } else {
      SliceFirst(data, start, end, s, i);
    }
  }

  /** The first slice from offset `i` covers `[i, SliceEnd)` of the block. */
  lemma SliceFirst(data: seq<Ext>, start: nat, end: nat, s: nat, i: nat)
    requires s > 0 && |data| == end - start && i < |data|
    ensures RecordsBounds(data, start, SlicesFrom(data, start, end, s, i)[0])
  {
    var j := SliceEnd(|data|, s, i);
    var n := SlicesFrom(data, start, end, s, i)[0];
    assert n == MinMaxNode(SeqMin(data[i..j]), SeqMax(data[i..j]), start + i, start + j);
    assert n.start - start == i && n.end - start == j;
    assert data[n.start - start .. n.end - start] == data[i..j];
  }

  /** Every slice records the bounds of exactly the values in its range. */
  lemma SliceBounds(data: seq<Ext>, start: nat, end: nat, s: nat)
    requires s > 0 && |data| == end - start
    ensures forall k :: 0 <= k < |Slices(data, start, end, s)| ==>
      RecordsBounds(data, start, Slices(data, start, end, s)[k])
  {
    forall k | 0 <= k < |Slices(data, start, end, s)|
      ensures RecordsBounds(data, start, Slices(data, start, end, s)[k])
    {
      SliceAt(data, start, end, s, 0, k);
    }
  }

  /** A value below every element that is itself an element is the minimum. */
  lemma MinIsUnique(d: seq<Ext>, m: Ext, w: nat)
    requires w < |d| && m == d[w]
    requires forall i :: 0 <= i < |d| ==> Le(m, d[i])
    ensures m == SeqMin(d)
  {
    var e := SeqMin(d);
    SeqMinIsLeast(d);
    LeAntisymmetric(m, e);
  }

  lemma MaxIsUnique(d: seq<Ext>, m: Ext, w: nat)
    requires w < |d| && m == d[w]
    requires forall i :: 0 <= i < |d| ==> Le(d[i], m)
    ensures m == SeqMax(d)
  {
    var e := SeqMax(d);
    SeqMaxIsGreatest(d);
    LeAntisymmetric(m, e);
  }

  /** The minimum of a vector is the smaller of the minima of its two parts. */
  lemma SeqMinSplit(d: seq<Ext>, j: nat)
    requires 0 < j < |d|
    ensures SeqMin(d) == Min(SeqMin(d[..j]), SeqMin(d[j..]))
  {
    var a, b := d[..j], d[j..];
    var ma, mb := SeqMin(a), SeqMin(b);
    SeqMinIsLeast(a);
    SeqMinIsLeast(b);
    var m := Min(ma, mb);
    forall i | 0 <= i < |d| ensures Le(m, d[i]) {
      if i < j {
        assert d[i] == a[i];
        LeTransitive(m, ma, a[i]);
      } else {
        assert d[i] == b[i - j];
        LeTransitive(m, mb, b[i - j]);
      }
    }
    if m == ma {
      var w :| 0 <= w < |a| && ma == a[w];
      assert a[w] == d[w];
      MinIsUnique(d, m, w);
    } else {
      var w :| 0 <= w < |b| && mb == b[w];
      assert b[w] == d[j + w];
      MinIsUnique(d, m, j + w);
    }
  }

  /** The maximum of a vector is the larger of the maxima of its two parts. */
  lemma SeqMaxSplit(d: seq<Ext>, j: nat)
    requires 0 < j < |d|
    ensures SeqMax(d) == Max(SeqMax(d[..j]), SeqMax(d[j..]))
  {
    var a, b := d[..j], d[j..];
    var ma, mb := SeqMax(a), SeqMax(b);
    SeqMaxIsGreatest(a);
    SeqMaxIsGreatest(b);
    var m := Max(ma, mb);
    forall i | 0 <= i < |d| ensures Le(d[i], m) {
      if i < j {
        assert d[i] == a[i];
        LeTransitive(a[i], ma, m);
      } else {
        assert d[i] == b[i - j];
        LeTransitive(b[i - j], mb, m);
      }
    }
    if m == ma {
      var w :| 0 <= w < |a| && ma == a[w];
      assert a[w] == d[w];
      MaxIsUnique(d, m, w);
    } else {
      var w :| 0 <= w < |b| && mb == b[w];
      assert b[w] == d[j + w];
      MaxIsUnique(d, m, j + w);
    }
  }

  lemma MinAssoc(a: Ext, b: Ext, c: Ext)
    ensures Min(Min(a, b), c) == Min(a, Min(b, c))
    ensures Max(Max(a, b), c) == Max(a, Max(b, c))
  {
  }

  /** The first slice from offset `i` holds the bounds of `data[i..j]`
      and the rest start at `i + s`. */
  lemma SlicesFromUnfold(data: seq<Ext>, start: nat, end: nat, s: nat, i: nat)
    requires s > 0 && i < |data|
    ensures |SlicesFrom(data, start, end, s, i)| > 0
    ensures SlicesFrom(data, start, end, s, i)[0].min == SeqMin(data[i..SliceEnd(|data|, s, i)])
    ensures SlicesFrom(data, start, end, s, i)[0].max == SeqMax(data[i..SliceEnd(|data|, s, i)])
    ensures SlicesFrom(data, start, end, s, i)[1..] == SlicesFrom(data, start, end, s, i + s)
  {
  }

  /** The bounds of `data[i..]` split at `j` into those of `data[i..j]` and `data[j..]`. */
  lemma SuffixBoundsSplit(data: seq<Ext>, i: nat, j: nat)
    requires i < j < |data|
    ensures SeqMin(data[i..]) == Min(SeqMin(data[i..j]), SeqMin(data[j..]))
    ensures SeqMax(data[i..]) == Max(SeqMax(data[i..j]), SeqMax(data[j..]))
  {
    var rest := data[i..];
    assert data[i..j] == rest[..j - i];
    assert data[j..] == rest[j - i..];
    SeqMinSplit(rest, j - i);
    SeqMaxSplit(rest, j - i);
  }

  /** Folding the slices from offset `i` combines the seed with the bounds
      of everything from `i` on. */
  lemma {:induction false} FoldSlicesFrom(data: seq<Ext>, start: nat, end: nat, s: nat, i: nat, lo: Ext, hi: Ext)
    requires s > 0 && i < |data|
    ensures FoldBounds(lo, hi, SlicesFrom(data, start, end, s, i)) ==
      (Min(lo, SeqMin(data[i..])), Max(hi, SeqMax(data[i..])))
    decreases |data| - i
  {
    var j := SliceEnd(|data|, s, i);
    var sl := SlicesFrom(data, start, end, s, i);
    SlicesFromUnfold(data, start, end, s, i);
    var mn, mx := SeqMin(data[i..j]), SeqMax(data[i..j]);
    var lo', hi' := Min(lo, mn), Max(hi, mx);
    var tail := SlicesFrom(data, start, end, s, i + s);
    assert FoldBounds(lo, hi, sl) == FoldBounds(lo', hi', tail);
    if j < |data| {
      FoldSlicesFrom(data, start, end, s, j, lo', hi');
      SuffixBoundsSplit(data, i, j);
      MinAssoc(lo, mn, SeqMin(data[j..]));
      MinAssoc(hi, mx, SeqMax(data[j..]));
    } else {
      assert tail == [];
      assert data[i..j] == data[i..];
    }
  }

  /** Both secondary types that compute bounds give a non-empty block the
      bounds of its whole vector: folding the slice bounds from
      `(+inf, -inf)` loses nothing. */
  lemma BlockBoundsAgree(data: seq<Ext>, start: nat, end: nat, s: nat)
    requires s > 0 && |data| > 0
    ensures BlockNode(MinMaxSecondary, s, data, start, end) == BlockNode(NoSecondary, s, data, start, end)
  {
    FoldSlicesFrom(data, start, end, s, 0, PosInf, NegInf);
    assert data[0..] == data;
  }

  /** An empty block in "minmax" mode keeps the fold seed `(+inf, -inf)`. */
  lemma EmptyBlockBounds(start: nat, end: nat, s: nat)
    requires s > 0
    ensures BlockNode(MinMaxSecondary, s, [], start, end) == MinMaxNode(PosInf, NegInf, start, end)
  {
  }
}

=== FILE: minmax_query.dfy ===
/** The min-max index query (src/minmaxquery.cpp): keep every block whose
    `[min, max]` meets the query interval and, with a secondary index, every
    slice of such a block that does. */
module MinMaxQuery {
  import opened ExtReal
  import opened QueryResults
  import opened MinMaxBuild
  import Decimal

  /** The closed intervals `[n.min, n.max]` and `[lo, hi]` meet. */
  predicate Overlaps(n: MinMaxNode, lo: Ext, hi: Ext)
  {
    Le(n.min, hi) && Le(lo, n.max)
  }

  function StartKey(n: MinMaxNode): string
  {
    Decimal.ToDecimal(n.start)
  }

  /** The slice map of one block: each overlapping slice keyed by its start,
      the first one winning on a repeated start. */
  function SliceResults(slices: seq<MinMaxNode>, lo: Ext, hi: Ext): (q: map<string, QueryResult>)
    ensures forall k :: k in q <==> exists j :: 0 <= j < |slices| && Overlaps(slices[j], lo, hi) && StartKey(slices[j]) == k
  {
    InsertAll(slices, n => Overlaps(n, lo, hi), StartKey, (n: MinMaxNode) => QueryResult(n.start, n.end))
  }

  /** The entry recorded for one overlapping block: its range, and its slice
      map unless the secondary type is "none" (any other type reads the slice
      list stored under `key + to_string(start)`, empty when there is none). */
  function BlockResult(n: MinMaxNode, secondary: SecondaryType, inblock: map<string, seq<MinMaxNode>>,
                       key: string, lo: Ext, hi: Ext): QueryBlockResult
  {
    if secondary == NoSecondary then QueryBlockResult(n.start, n.end, map[])
    else QueryBlockResult(n.start, n.end, SliceResults(ListAt(inblock, SliceKey(key, n.start)), lo, hi))
  }

  /** `queryMinMaxData(key, lo, hi)` over the list `nodes` stored under
      `key` and the slice lists `inblock`. */
  function QueryMinMaxData(nodes: seq<MinMaxNode>, secondary: SecondaryType, inblock: map<string, seq<MinMaxNode>>,
                           key: string, lo: Ext, hi: Ext): (r: map<string, QueryBlockResult>)
    ensures forall k :: k in r <==> exists i :: 0 <= i < |nodes| && Overlaps(nodes[i], lo, hi) && StartKey(nodes[i]) == k
    ensures forall i :: 0 <= i < |nodes| && FirstKept(nodes, n => Overlaps(n, lo, hi), StartKey, i) ==>
      StartKey(nodes[i]) in r && r[StartKey(nodes[i])].start == nodes[i].start && r[StartKey(nodes[i])].end == nodes[i].end
  {
    InsertAll(nodes, n => Overlaps(n, lo, hi), StartKey, n => BlockResult(n, secondary, inblock, key, lo, hi))
  }

  /** Every entry is the first overlapping block with that start: its key
      is the decimal text of the start it carries, and with a secondary
      index its slice keys are exactly the overlapping slices of that block. */
  lemma QueryEntry(nodes: seq<MinMaxNode>, secondary: SecondaryType, inblock: map<string, seq<MinMaxNode>>,
                   key: string, lo: Ext, hi: Ext, k: string)
    requires k in QueryMinMaxData(nodes, secondary, inblock, key, lo, hi)
    ensures var e := QueryMinMaxData(nodes, secondary, inblock, key, lo, hi)[k];
      Decimal.ToDecimal(e.start) == k &&
      (exists i :: 0 <= i < |nodes| && Overlaps(nodes[i], lo, hi) && nodes[i].start == e.start && nodes[i].end == e.end) &&
      (secondary == NoSecondary ==> e.q == map[]) &&
      (secondary != NoSecondary ==> forall sk :: sk in e.q <==>
        exists j :: 0 <= j < |ListAt(inblock, key + k)| &&
          Overlaps(ListAt(inblock, key + k)[j], lo, hi) && StartKey(ListAt(inblock, key + k)[j]) == sk)
  {
    InsertAllEntry(nodes, n => Overlaps(n, lo, hi), StartKey, n => BlockResult(n, secondary, inblock, key, lo, hi), k);
  }

  /** Each slice entry carries the range of the first overlapping slice with its start. */
  lemma SliceEntry(slices: seq<MinMaxNode>, lo: Ext, hi: Ext, k: string)
    requires k in SliceResults(slices, lo, hi)
    ensures var e := SliceResults(slices, lo, hi)[k];
      Decimal.ToDecimal(e.start) == k &&
      exists j :: 0 <= j < |slices| && Overlaps(slices[j], lo, hi) && slices[j].start == e.start && slices[j].end == e.end
  {
    InsertAllEntry(slices, n => Overlaps(n, lo, hi), StartKey, (n: MinMaxNode) => QueryResult(n.start, n.end), k);
  }

  /** With the default bounds `(-inf, +inf)` every block is returned. */
  lemma DefaultBoundsReturnAll(nodes: seq<MinMaxNode>, secondary: SecondaryType, inblock: map<string, seq<MinMaxNode>>, key: string)
    ensures forall i :: 0 <= i < |nodes| ==> StartKey(nodes[i]) in QueryMinMaxData(nodes, secondary, inblock, key, NegInf, PosInf)
  {
    forall i | 0 <= i < |nodes|
      ensures StartKey(nodes[i]) in QueryMinMaxData(nodes, secondary, inblock, key, NegInf, PosInf)
    {
      assert Overlaps(nodes[i], NegInf, PosInf);
    }
  }
}

=== FILE: particle_filter.dfy ===
/** The particle-level filter that ends `get_particle` (main.py): every
    selected quantity contributes a strict lower and/or upper bound, the
    bounds are combined into one boolean array with numpy's broadcasting
    `logical_and`, and the array then selects the rows of every record
    that has more than one element. */
module ParticleFilter {
  import opened Wrappers
  import opened ExtReal
  import RangeExtract

  /** `select[quantity]`: an optional lower and an optional upper bound. */
  datatype Bounds = Bounds(lower: Option<Ext>, upper: Option<Ext>)

  /** One item of the `select` dict, in iteration order. */
  datatype Rule = Rule(quantity: string, bounds: Bounds)

  /** Why the filter raises: two arrays whose lengths neither match nor
      broadcast, or a boolean index of the wrong length. */
  datatype FilterError = BroadcastMismatch | MaskLengthMismatch

  // ---------------------------------------------------------------------
  // The selection array
  // ---------------------------------------------------------------------

  predicate Bounded(b: Bounds)
  {
    b.lower.Some? || b.upper.Some?
  }

  /** `v` lies strictly inside the bounds that are given. */
  predicate Admits(b: Bounds, v: Ext)
  {
    && (b.lower.Some? ==> Lt(b.lower.value, v))
    && (b.upper.Some? ==> Lt(v, b.upper.value))
  }

  /** Element `i` of `arr` once broadcast to `n` rows: a one-element array
      repeats its element. */
  function At(arr: seq<Ext>, i: nat): Ext
    requires |arr| == 1 || i < |arr|
  {
    if |arr| == 1 then arr[0] else arr[i]
  }

  /** `np.logical_and` of two one-dimensional arrays: equal lengths combine
      elementwise, a one-element array is broadcast, any other pair raises. */
  function LogicalAnd(a: seq<bool>, b: seq<bool>): (r: Result<seq<bool>, FilterError>)
    ensures r.Success? <==> (|a| == |b| || |a| == 1 || |b| == 1)
    ensures r.Success? ==> |r.value| == if |a| == 1 then |b| else |a|
    ensures r.Success? && |a| == |b| ==> forall i :: 0 <= i < |a| ==> (r.value[i] <==> a[i] && b[i])
    ensures r.Success? && |a| != 1 && |b| == 1 ==> forall i :: 0 <= i < |a| ==> (r.value[i] <==> a[i] && b[0])
  {
    if |a| == |b| then Success(seq(|a|, i requires 0 <= i < |a| => a[i] && b[i]))
    else if |a| == 1 then Success(seq(|b|, i requires 0 <= i < |b| => a[0] && b[i]))
    else if |b| == 1 then Success(seq(|a|, i requires 0 <= i < |a| => a[i] && b[0]))
    else Failure(BroadcastMismatch)
  }

  /** `arr > lower`, elementwise. */
  function Above(arr: seq<Ext>, lower: Ext): (r: seq<bool>)
    ensures |r| == |arr| && forall i :: 0 <= i < |arr| ==> (r[i] <==> Lt(lower, arr[i]))
  {
    seq(|arr|, i requires 0 <= i < |arr| => Lt(lower, arr[i]))
  }

  /** `arr < upper`, elementwise. */
  function Below(arr: seq<Ext>, upper: Ext): (r: seq<bool>)
    ensures |r| == |arr| && forall i :: 0 <= i < |arr| ==> (r[i] <==> Lt(arr[i], upper))
  {
    seq(|arr|, i requires 0 <= i < |arr| => Lt(arr[i], upper))
  }

  /** One quantity's turn in the loop of main.py:798-812: the lower bound,
      then the upper bound, each folded into the selection array when given. */
  function ApplyRule(mask: seq<bool>, b: Bounds, arr: seq<Ext>): Result<seq<bool>, FilterError>
  {
    var afterLower := if b.lower.Some? then LogicalAnd(mask, Above(arr, b.lower.value)) else Success(mask);
    if afterLower.Failure? || b.upper.None? then afterLower
    else LogicalAnd(afterLower.value, Below(arr, b.upper.value))
  }

  /** An array that takes part in the filter has `n` rows or one. */
  predicate Fits(b: Bounds, arr: seq<Ext>, n: nat)
  {
    Bounded(b) ==> |arr| == n || |arr| == 1
  }

  /** A rule whose array fits keeps the selection array `n` long and clears
      exactly the rows its bounds reject; with `n != 1`, a rule whose array
      does not fit raises. */
  lemma ApplyRuleFacts(mask: seq<bool>, b: Bounds, arr: seq<Ext>, n: nat)
    requires |mask| == n
    ensures Fits(b, arr, n) ==> ApplyRule(mask, b, arr).Success?
    ensures Fits(b, arr, n) ==> |ApplyRule(mask, b, arr).value| == n
    ensures Fits(b, arr, n) ==> forall i :: 0 <= i < n ==>
      (ApplyRule(mask, b, arr).value[i] <==> mask[i] && (Bounded(b) ==> Admits(b, At(arr, i))))
    ensures n != 1 && !Fits(b, arr, n) ==> ApplyRule(mask, b, arr).Failure?
  {
  }

  predicate AllFitUpTo(rules: seq<Rule>, data: map<string, seq<Ext>>, n: nat, k: nat)
    requires k <= |rules| && forall j :: 0 <= j < |rules| ==> rules[j].quantity in data
  {
    forall j :: 0 <= j < k ==> Fits(rules[j].bounds, data[rules[j].quantity], n)
  }

  /** Every quantity with a bound has `n` rows or one. */
  predicate AllFit(rules: seq<Rule>, data: map<string, seq<Ext>>, n: nat)
    requires forall j :: 0 <= j < |rules| ==> rules[j].quantity in data
  {
    AllFitUpTo(rules, data, n, |rules|)
  }

  /** Row `i` passes the first `k` rules. */
  predicate KeepsUpTo(rules: seq<Rule>, data: map<string, seq<Ext>>, n: nat, k: nat, i: nat)
    requires k <= |rules| && forall j :: 0 <= j < |rules| ==> rules[j].quantity in data
    requires AllFitUpTo(rules, data, n, k) && i < n
  {
    forall j :: 0 <= j < k && Bounded(rules[j].bounds) ==> Admits(rules[j].bounds, At(data[rules[j].quantity], i))
  }

  /** Row `i` passes every rule: for each selected quantity, the lower
      bound is absent or below the value and the upper bound is absent or
      above it. */
  predicate Keeps(rules: seq<Rule>, data: map<string, seq<Ext>>, n: nat, i: nat)
    requires forall j :: 0 <= j < |rules| ==> rules[j].quantity in data
    requires AllFit(rules, data, n) && i < n
  {
    KeepsUpTo(rules, data, n, |rules|, i)
  }

  /** `mask` is the selection array of the rules over `n` rows. */
  predicate MaskOf(rules: seq<Rule>, data: map<string, seq<Ext>>, n: nat, mask: seq<bool>)
    requires forall j :: 0 <= j < |rules| ==> rules[j].quantity in data
    requires AllFit(rules, data, n)
  {
    |mask| == n && forall i :: 0 <= i < n ==> (mask[i] <==> Keeps(rules, data, n, i))
  }

  /** The selection array of main.py:790-812, built over the `n` rows that
      were read. Every quantity of `select` was read into `data` first
      (main.py:768-770). */
  method FilterMask(rules: seq<Rule>, data: map<string, seq<Ext>>, n: nat)
    returns (r: Result<seq<bool>, FilterError>)
    requires forall j :: 0 <= j < |rules| ==> rules[j].quantity in data
    ensures AllFit(rules, data, n) ==> r.Success? && MaskOf(rules, data, n, r.value)
    ensures n != 1 ==> (r.Success? <==> AllFit(rules, data, n))
  {
    var mask := seq(n, _ => true);
    var k := 0;
    while k < |rules|
      invariant 0 <= k <= |rules|
      invariant n != 1 ==> AllFitUpTo(rules, data, n, k)
      invariant AllFitUpTo(rules, data, n, k) ==>
        |mask| == n && forall i :: 0 <= i < n ==> (mask[i] <==> KeepsUpTo(rules, data, n, k, i))
    {
      var rule := rules[k];
      var arr := data[rule.quantity];
      ghost var fitSoFar := AllFitUpTo(rules, data, n, k);
      if fitSoFar {
        ApplyRuleFacts(mask, rule.bounds, arr, n);
      }
      var step := ApplyRule(mask, rule.bounds, arr);
      if step.Failure? {
        assert !AllFitUpTo(rules, data, n, k + 1);
        assert !AllFit(rules, data, n);
        return Failure(step.error);
      }
      mask := step.value;
      k := k + 1;
    }
    r := Success(mask);
  }

  // ---------------------------------------------------------------------
  // Applying the selection array
  // ---------------------------------------------------------------------

  /** No name occurs twice. */
  predicate Distinct(names: seq<string>)
  {
    forall a, b :: 0 <= a < b < |names| ==> names[a] != names[b]
  }

  /** `data_map[key] = data_map[key][mask]` for every key of `var_list`
      whose record has more than one element (main.py:816-818); records
      of one element are scalars and stay as they are. A boolean index of
      the wrong length raises. */
  method ApplySelection<T>(data: map<string, seq<T>>, varList: seq<string>, mask: seq<bool>)
    returns (r: Result<map<string, seq<T>>, FilterError>)
    requires forall k :: 0 <= k < |varList| ==> varList[k] in data
    ensures Distinct(varList) ==>
      (r.Success? <==> forall k :: 0 <= k < |varList| && |data[varList[k]]| > 1 ==> |data[varList[k]]| == |mask|)
    ensures Distinct(varList) && r.Success? ==> r.value.Keys == data.Keys
    ensures Distinct(varList) && r.Success? ==> forall key :: key in data ==>
      if key in varList && |data[key]| > 1
      then |data[key]| == |mask| && r.value[key] == RangeExtract.Select(data[key], mask)
      else r.value[key] == data[key]
  {
    var cur := data;
    var k := 0;
    while k < |varList|
      invariant 0 <= k <= |varList|
      invariant cur.Keys == data.Keys
      invariant Distinct(varList) ==> forall j :: 0 <= j < k && |data[varList[j]]| > 1 ==> |data[varList[j]]| == |mask|
      invariant Distinct(varList) ==> forall key :: key in data ==>
        if key in varList[..k] && |data[key]| > 1
        then |data[key]| == |mask| && cur[key] == RangeExtract.Select(data[key], mask)
        else cur[key] == data[key]
    {
      var key := varList[k];
      assert Distinct(varList) ==> key !in varList[..k];
      assert varList[..k + 1] == varList[..k] + [key];
      if |cur[key]| > 1 {
        if |cur[key]| != |mask| {
          return Failure(MaskLengthMismatch);
        }
        cur := cur[key := RangeExtract.Select(cur[key], mask)];
      }
      k := k + 1;
    }
    assert varList[..k] == varList;
    r := Success(cur);
  }

  /** `v` was selected from `a` at a marked position. */
  lemma {:induction false} SelectFrom<T>(a: seq<T>, mask: seq<bool>, v: T)
    requires |a| == |mask| && v in RangeExtract.Select(a, mask)
    ensures exists i :: 0 <= i < |a| && mask[i] && a[i] == v
  {
    var n := |a|;
    if v in RangeExtract.Select(a[..n - 1], mask[..n - 1]) {
      SelectFrom(a[..n - 1], mask[..n - 1], v);
      var i :| 0 <= i < n - 1 && mask[..n - 1][i] && a[..n - 1][i] == v;
      assert mask[i] && a[i] == v;
    } else {
      assert mask[n - 1] && a[n - 1] == v;
    }
  }

  /** After the filter, every value left in a selected quantity's array lies
      strictly inside that quantity's bounds. */
  lemma KeptValuesAdmitted(rules: seq<Rule>, data: map<string, seq<Ext>>, n: nat, mask: seq<bool>, k: nat, v: Ext)
    requires forall j :: 0 <= j < |rules| ==> rules[j].quantity in data
    requires AllFit(rules, data, n) && MaskOf(rules, data, n, mask)
    requires k < |rules| && |data[rules[k].quantity]| == n
    requires v in RangeExtract.Select(data[rules[k].quantity], mask)
    ensures Admits(rules[k].bounds, v)
  {
    SelectFrom(data[rules[k].quantity], mask, v);
    var i :| 0 <= i < n && mask[i] && data[rules[k].quantity][i] == v;
    assert Keeps(rules, data, n, i);
    if n == 1 {
      assert At(data[rules[k].quantity], i) == v;
    }
  }
}

=== FILE: particle_tracker.dfy ===
/** `ParticleTracker` (particle_tracker.py): following a fixed set of
    particle ids through the iterations. Without the geos index, the ids
    read at an iteration are sorted and merge-joined with the sorted
    tracked ids, giving the position of each tracked particle in the
    arrays; with it, the tracing index names the blocks holding the ids and
    a mask over the grouped read keeps the rows whose id the index listed. */
module ParticleTracker {
  import opened Wrappers
  import opened ChunkReader
  import RangeExtract
  import opened QueryResults
  import opened ReadPlan

  // ---------------------------------------------------------------------
  // The tracked ids
  // ---------------------------------------------------------------------

  /** Ascending, repeats allowed. */
  predicate Sorted(s: seq<int>)
  {
    forall a, b :: 0 <= a < b < |s| ==> s[a] <= s[b]
  }

  /** `x` placed in front of the first element not below it. */
  function Insert(x: int, s: seq<int>): (r: seq<int>)
    requires Sorted(s)
    ensures multiset(r) == multiset(s) + multiset{x}
    ensures Sorted(r)
    decreases |s|
  {
    if |s| == 0 || x <= s[0] then [x] + s
    else
      var rest := Insert(x, s[1..]);
      AllAtLeast(s[0], rest, s[1..], x);
      assert s == [s[0]] + s[1..];
      [s[0]] + rest
  }

  /** A rearrangement of `tail` plus `x` keeps a lower bound of both. */
  lemma AllAtLeast(lo: int, r: seq<int>, tail: seq<int>, x: int)
    requires multiset(r) == multiset(tail) + multiset{x}
    requires lo <= x && forall k :: 0 <= k < |tail| ==> lo <= tail[k]
    ensures forall k :: 0 <= k < |r| ==> lo <= r[k]
  {
    forall k | 0 <= k < |r| ensures lo <= r[k] {
      assert r[k] in multiset(r);
      if r[k] != x {
        assert r[k] in multiset(tail);
      }
    }
  }

  /** `ndarray.sort()` on the tracked ids: the same ids, ascending. */
  function SortIds(s: seq<int>): (r: seq<int>)
    ensures Sorted(r) && multiset(r) == multiset(s)
  {
    if |s| == 0 then []
    else
      assert s == [s[0]] + s[1..];
      Insert(s[0], SortIds(s[1..]))
  }

  /** The tracked ids kept at construction (particle_tracker.py:119-122):
      sorted unless the geos index is used, which is what the merge-join
      below needs. */
  function TrackedIds(selected: seq<int>, useGeosIndex: bool): (r: seq<int>)
    ensures multiset(r) == multiset(selected)
    ensures useGeosIndex ==> r == selected
    ensures !useGeosIndex ==> Sorted(r)
  {
    if useGeosIndex then selected else SortIds(selected)
  }

  // ---------------------------------------------------------------------
  // The merge-join
  // ---------------------------------------------------------------------

  /** The first position of `v` in `s`. */
  function FirstIndex(s: seq<int>, v: int): (i: nat)
    requires v in s
    ensures i < |s| && s[i] == v
    ensures forall k :: 0 <= k < i ==> s[k] != v
  {
    if s[0] == v then 0 else 1 + FirstIndex(s[1..], v)
  }

  /** What the join records for one tracked id: the original index of its
      first occurrence among the sorted ids, or `-1` (only when preserving
      positions) when the id is absent. */
  function Lookup(orig: seq<int>, sortedPid: seq<int>, id: int, preserve: bool): seq<int>
    requires |orig| == |sortedPid|
  {
    if id in sortedPid then [orig[FirstIndex(sortedPid, id)]]
    else if preserve then [-1]
    else []
  }

  /** The join's intended output for the first `k` tracked ids, written
      independently of the two-pointer loop. */
  function Expected(orig: seq<int>, sortedPid: seq<int>, selected: seq<int>, preserve: bool, k: nat): seq<int>
    requires |orig| == |sortedPid| && k <= |selected|
  {
    if k == 0 then [] else Expected(orig, sortedPid, selected, preserve, k - 1) + Lookup(orig, sortedPid, selected[k - 1], preserve)
  }

  /** `n` absent markers. */
  function Absent(n: nat): (r: seq<int>)
    ensures |r| == n && forall j :: 0 <= j < n ==> r[j] == -1
  {
    seq(n, _ => -1)
  }

  /** `v` is the original index of a particle whose id is `id`. */
  predicate Found(orig: seq<int>, sortedPid: seq<int>, v: int, id: int)
    requires |orig| == |sortedPid|
  {
    exists k :: 0 <= k < |sortedPid| && v == orig[k] && sortedPid[k] == id
  }

  /** `v` is the original index of a particle whose id is tracked. */
  predicate FoundAmong(orig: seq<int>, sortedPid: seq<int>, v: int, selected: seq<int>)
    requires |orig| == |sortedPid|
  {
    exists k :: 0 <= k < |sortedPid| && v == orig[k] && sortedPid[k] in selected
  }

  /** The join's state after `i` sorted ids and `iSelect` tracked ids:
      every entry written names a particle carrying its tracked id (or is
      an absent marker), and for sorted inputs the entries are the intended
      ones and every id passed over is below the next tracked id. */
  predicate Joined(orig: seq<int>, sortedPid: seq<int>, selected: seq<int>, preserve: bool, i: nat, iSelect: nat, filled: seq<int>)
    requires |orig| == |sortedPid|
  {
    && i <= |sortedPid| && iSelect <= |selected| && |filled| <= iSelect
    && (preserve ==> |filled| == iSelect)
    && (preserve ==> forall f :: 0 <= f < |filled| ==> filled[f] == -1 || Found(orig, sortedPid, filled[f], selected[f]))
    && (!preserve ==> forall f :: 0 <= f < |filled| ==> FoundAmong(orig, sortedPid, filled[f], selected))
    && (Sorted(sortedPid) && Sorted(selected) ==>
          filled == Expected(orig, sortedPid, selected, preserve, iSelect) &&
          (iSelect < |selected| ==> forall k :: 0 <= k < i ==> sortedPid[k] < selected[iSelect]))
  }

  /** A sorted id below the next tracked id is passed over. */
  lemma JoinSkip(orig: seq<int>, sortedPid: seq<int>, selected: seq<int>, preserve: bool, i: nat, iSelect: nat, filled: seq<int>)
    requires |orig| == |sortedPid| && Joined(orig, sortedPid, selected, preserve, i, iSelect, filled)
    requires i < |sortedPid| && iSelect < |selected| && sortedPid[i] < selected[iSelect]
    ensures Joined(orig, sortedPid, selected, preserve, i + 1, iSelect, filled)
  {
  }

  /** A sorted id equal to the next tracked id records its original index. */
  lemma JoinMatch(orig: seq<int>, sortedPid: seq<int>, selected: seq<int>, preserve: bool, i: nat, iSelect: nat, filled: seq<int>)
    requires |orig| == |sortedPid| && Joined(orig, sortedPid, selected, preserve, i, iSelect, filled)
    requires i < |sortedPid| && iSelect < |selected| && sortedPid[i] == selected[iSelect]
    ensures Joined(orig, sortedPid, selected, preserve, i, iSelect + 1, filled + [orig[i]])
  {
    var next := filled + [orig[i]];
    assert Found(orig, sortedPid, orig[i], selected[iSelect]);
    assert FoundAmong(orig, sortedPid, orig[i], selected);
    if Sorted(sortedPid) && Sorted(selected) {
      assert FirstIndex(sortedPid, selected[iSelect]) == i;
    }
  }

  /** A sorted id above the next tracked id shows that tracked id absent. */
  lemma JoinMiss(orig: seq<int>, sortedPid: seq<int>, selected: seq<int>, preserve: bool, i: nat, iSelect: nat, filled: seq<int>)
    requires |orig| == |sortedPid| && Joined(orig, sortedPid, selected, preserve, i, iSelect, filled)
    requires i < |sortedPid| && iSelect < |selected| && sortedPid[i] > selected[iSelect]
    ensures Joined(orig, sortedPid, selected, preserve, i, iSelect + 1, if preserve then filled + [-1] else filled)
  {
    if Sorted(sortedPid) && Sorted(selected) {
      AbsentAt(sortedPid, selected[iSelect], i);
    }
  }

  /** Once the sorted ids run out, the remaining tracked ids are absent. */
  lemma JoinEnd(orig: seq<int>, sortedPid: seq<int>, selected: seq<int>, preserve: bool, iSelect: nat, filled: seq<int>)
    requires |orig| == |sortedPid| && Joined(orig, sortedPid, selected, preserve, |sortedPid|, iSelect, filled)
    requires Sorted(sortedPid) && Sorted(selected)
    ensures forall j :: iSelect <= j < |selected| ==> selected[j] !in sortedPid
  {
    forall j | iSelect <= j < |selected| ensures selected[j] !in sortedPid {
      assert selected[iSelect] <= selected[j];
    }
  }

  /** `extract_indices` (particle_tracker.py:314-350): walks the sorted ids
      and the sorted tracked ids together. `filled` is what the loop writes
      into `selected_indices[0 .. i_fill)`, and `consumed` is `i_select`. The
      loop ends after at most `N + N_selected` rounds, since each one
      advances one of the two cursors. */
  method ExtractIndices(orig: seq<int>, sortedPid: seq<int>, selected: seq<int>, preserve: bool)
    returns (filled: seq<int>, consumed: nat)
    requires |orig| == |sortedPid|
    ensures |filled| <= consumed <= |selected|
    ensures preserve ==> |filled| == consumed
    ensures preserve ==> forall f :: 0 <= f < |filled| ==> filled[f] == -1 || Found(orig, sortedPid, filled[f], selected[f])
    ensures !preserve ==> forall f :: 0 <= f < |filled| ==> FoundAmong(orig, sortedPid, filled[f], selected)
    ensures Sorted(sortedPid) && Sorted(selected) ==>
      filled == Expected(orig, sortedPid, selected, preserve, consumed) &&
      forall j :: consumed <= j < |selected| ==> selected[j] !in sortedPid
  {
    var i := 0;
    var iSelect := 0;
    filled := [];
    var n := |sortedPid|;
    while i < n && iSelect < |selected|
      invariant Joined(orig, sortedPid, selected, preserve, i, iSelect, filled)
      decreases (n - i) + (|selected| - iSelect)
    {
      if sortedPid[i] < selected[iSelect] {
        JoinSkip(orig, sortedPid, selected, preserve, i, iSelect, filled);
        i := i + 1;
      } else if sortedPid[i] == selected[iSelect] {
        JoinMatch(orig, sortedPid, selected, preserve, i, iSelect, filled);
        filled := filled + [orig[i]];
        iSelect := iSelect + 1;
      } else {
        JoinMiss(orig, sortedPid, selected, preserve, i, iSelect, filled);
        iSelect := iSelect + 1;
        if preserve {
          filled := filled + [-1];
        }
      }
    }
    consumed := iSelect;
    if Sorted(sortedPid) && Sorted(selected) && consumed < |selected| {
      JoinEnd(orig, sortedPid, selected, preserve, consumed, filled);
    }
  }

  /** An id above everything before position `i` and below what sits at `i`
      does not occur in a sorted list. */
  lemma AbsentAt(sortedPid: seq<int>, id: int, i: nat)
    requires Sorted(sortedPid) && i < |sortedPid| && id < sortedPid[i]
    requires forall k :: 0 <= k < i ==> sortedPid[k] < id
    ensures id !in sortedPid
  {
  }

  /** Ids absent from the sorted list add only absent markers, if anything. */
  lemma {:induction false} ExpectedAbsentTail(orig: seq<int>, sortedPid: seq<int>, selected: seq<int>, preserve: bool, m: nat, k: nat)
    requires |orig| == |sortedPid| && m <= k <= |selected|
    requires forall j :: m <= j < |selected| ==> selected[j] !in sortedPid
    ensures Expected(orig, sortedPid, selected, preserve, k)
         == Expected(orig, sortedPid, selected, preserve, m) + (if preserve then Absent(k - m) else [])
    decreases k
  {
    if k > m {
      ExpectedAbsentTail(orig, sortedPid, selected, preserve, m, k - 1);
      if preserve {
        assert Absent(k - 1 - m) + [-1] == Absent(k - m);
      }
    }
  }

  /** With positions preserved, entry `j` of the intended output belongs to
      tracked id `j`. */
  lemma {:induction false} ExpectedPreservedAt(orig: seq<int>, sortedPid: seq<int>, selected: seq<int>, k: nat, j: nat)
    requires |orig| == |sortedPid| && j < k <= |selected|
    ensures |Expected(orig, sortedPid, selected, true, k)| == k
    ensures Expected(orig, sortedPid, selected, true, k)[j] == Lookup(orig, sortedPid, selected[j], true)[0]
    decreases k
  {
    if j < k - 1 {
      ExpectedPreservedAt(orig, sortedPid, selected, k - 1, j);
    } else if k > 1 {
      ExpectedPreservedLength(orig, sortedPid, selected, k - 1);
    }
  }

  lemma {:induction false} ExpectedPreservedLength(orig: seq<int>, sortedPid: seq<int>, selected: seq<int>, k: nat)
    requires |orig| == |sortedPid| && k <= |selected|
    ensures |Expected(orig, sortedPid, selected, true, k)| == k
    decreases k
  {
    if k > 0 {
      ExpectedPreservedLength(orig, sortedPid, selected, k - 1);
    }
  }

  /** `original_indices` from `pid.argsort()`: every index of `pid` once,
      in an order that lists the ids ascending. */
  predicate ArgSorts(orig: seq<int>, pid: seq<int>)
  {
    && |orig| == |pid|
    && (forall i :: 0 <= i < |orig| ==> 0 <= orig[i] < |pid|)
    && (forall p :: 0 <= p < |pid| ==> p in orig)
    && Sorted(SortedPid(pid, orig))
  }

  /** `pid[original_indices]`. */
  function SortedPid(pid: seq<int>, orig: seq<int>): (s: seq<int>)
    requires forall i :: 0 <= i < |orig| ==> 0 <= orig[i] < |pid|
    ensures |s| == |orig| && forall i :: 0 <= i < |orig| ==> s[i] == pid[orig[i]]
  {
    seq(|orig|, i requires 0 <= i < |orig| => pid[orig[i]])
  }

  /** The sorted ids are the ids of `pid`. */
  lemma SortedPidSameIds(pid: seq<int>, orig: seq<int>, id: int)
    requires ArgSorts(orig, pid)
    ensures id in SortedPid(pid, orig) <==> id in pid
  {
    if id in pid {
      var p :| 0 <= p < |pid| && pid[p] == id;
      assert p in orig;
      var i :| 0 <= i < |orig| && orig[i] == p;
      assert SortedPid(pid, orig)[i] == id;
    }
  }

  /** `get_extraction_indices` (particle_tracker.py:260-312): the join's
      output, padded with `-1` up to one entry per tracked id when positions
      are preserved, and cut to the entries filled otherwise. */
  method GetExtractionIndices(pid: seq<int>, orig: seq<int>, selected: seq<int>, preserve: bool)
    returns (indices: seq<int>)
    requires ArgSorts(orig, pid)
    ensures preserve ==> |indices| == |selected|
    ensures !preserve ==> |indices| <= |selected|
    ensures Sorted(selected) ==> indices == Expected(orig, SortedPid(pid, orig), selected, preserve, |selected|)
  {
    var sortedPid := SortedPid(pid, orig);
    var filled, consumed := ExtractIndices(orig, sortedPid, selected, preserve);
    if |filled| < |selected| {
      if preserve {
        indices := filled + Absent(|selected| - |filled|);
      } else {
        indices := filled;
      }
    } else {
      indices := filled;
    }
    if Sorted(selected) {
      ExpectedAbsentTail(orig, sortedPid, selected, preserve, consumed, |selected|);
    }
  }

  /** With positions preserved, entry `j` is `-1` exactly when tracked id
      `j` is missing from `pid`, and otherwise the index of a particle
      carrying that id. */
  lemma PreservedIndexMeaning(pid: seq<int>, orig: seq<int>, selected: seq<int>, indices: seq<int>, j: nat)
    requires ArgSorts(orig, pid) && Sorted(selected) && j < |selected|
    requires indices == Expected(orig, SortedPid(pid, orig), selected, true, |selected|)
    ensures |indices| == |selected|
    ensures indices[j] == -1 <==> selected[j] !in pid
    ensures indices[j] != -1 ==> 0 <= indices[j] < |pid| && pid[indices[j]] == selected[j]
  {
    var sortedPid := SortedPid(pid, orig);
    ExpectedPreservedAt(orig, sortedPid, selected, |selected|, j);
    SortedPidSameIds(pid, orig, selected[j]);
  }

  /** Without preserved positions, the output holds exactly one index per
      tracked id present in `pid`, in the tracked ids' order, each pointing
      at a particle carrying that id. */
  lemma {:induction false} CompactIndexMeaning(pid: seq<int>, orig: seq<int>, selected: seq<int>, k: nat)
    requires ArgSorts(orig, pid) && k <= |selected|
    ensures |Expected(orig, SortedPid(pid, orig), selected, false, k)| == CountPresent(pid, selected, k)
    ensures |Expected(orig, SortedPid(pid, orig), selected, false, k)| == |PresentIds(pid, selected, k)|
    ensures forall f :: 0 <= f < |Expected(orig, SortedPid(pid, orig), selected, false, k)| ==>
      0 <= Expected(orig, SortedPid(pid, orig), selected, false, k)[f] < |pid| &&
      pid[Expected(orig, SortedPid(pid, orig), selected, false, k)[f]] == PresentIds(pid, selected, k)[f]
    decreases k
  {
    if k > 0 {
      CompactIndexMeaning(pid, orig, selected, k - 1);
      SortedPidSameIds(pid, orig, selected[k - 1]);
    }
  }

  /** The first `k` tracked ids that occur in `pid`, in tracked order. */
  function PresentIds(pid: seq<int>, selected: seq<int>, k: nat): (r: seq<int>)
    requires k <= |selected|
    ensures forall f :: 0 <= f < |r| ==> r[f] in pid && r[f] in selected
  {
    if k == 0 then [] else PresentIds(pid, selected, k - 1) + (if selected[k - 1] in pid then [selected[k - 1]] else [])
  }

  /** How many of the first `k` tracked ids occur in `pid`. */
  function CountPresent(pid: seq<int>, selected: seq<int>, k: nat): nat
    requires k <= |selected|
  {
    if k == 0 then 0 else CountPresent(pid, selected, k - 1) + (if selected[k - 1] in pid then 1 else 0)
  }

  // ---------------------------------------------------------------------
  // Extracting a quantity
  // ---------------------------------------------------------------------

  /** numpy integer indexing raises on an index outside `[-len, len)`. */
  datatype IndexError = IndexOutOfBounds

  /** `q[indices]`: a negative index counts from the end. */
  function Take<T>(q: seq<T>, indices: seq<int>): (r: Result<seq<T>, IndexError>)
    ensures r.Success? <==> forall k :: 0 <= k < |indices| ==> -|q| <= indices[k] < |q|
    ensures r.Success? ==> |r.value| == |indices|
    ensures r.Success? ==> forall k :: 0 <= k < |indices| ==>
      r.value[k] == q[if indices[k] < 0 then indices[k] + |q| else indices[k]]
  {
    if forall k :: 0 <= k < |indices| ==> -|q| <= indices[k] < |q| then
      Success(seq(|indices|, k requires 0 <= k < |indices| =>
        q[if indices[k] < 0 then indices[k] + |q| else indices[k]]))
    else Failure(IndexOutOfBounds)
  }

  /** `extract_quantity` (particle_tracker.py:224-258). `q[indices]` is
      taken first, so an index that does not fit raises in every mode. With
      positions preserved, a float array shows `nan` where the index is
      `-1`, and any other array is replaced by the tracked ids. */
  function ExtractQuantity<T>(q: seq<T>, isFloat: bool, indices: seq<int>, preserve: bool, nan: T, trackedIds: seq<T>)
    : (r: Result<seq<T>, IndexError>)
    ensures r.Success? <==> Take(q, indices).Success?
    ensures r.Success? && !preserve ==> r.value == Take(q, indices).value
    ensures r.Success? && preserve && !isFloat ==> r.value == trackedIds
    ensures r.Success? && preserve && isFloat ==> |r.value| == |indices| && forall k :: 0 <= k < |indices| ==>
      r.value[k] == if indices[k] == -1 then nan else q[if indices[k] < 0 then indices[k] + |q| else indices[k]]
  {
    var taken :- Take(q, indices);
    if !preserve then Success(taken)
    else if isFloat then Success(seq(|indices|, k requires 0 <= k < |indices| => if indices[k] == -1 then nan else taken[k]))
    else Success(trackedIds)
  }

  /** Tracking a float quantity with positions preserved: entry `j` is `nan`
      when tracked id `j` is gone, and otherwise the value of a particle
      with that id. */
  lemma TrackedFloatValues<T>(pid: seq<int>, orig: seq<int>, selected: seq<int>, q: seq<T>, nan: T, trackedIds: seq<T>, j: nat)
    requires ArgSorts(orig, pid) && Sorted(selected) && |q| == |pid| > 1 && j < |selected|
    ensures ExtractQuantity(q, true, Expected(orig, SortedPid(pid, orig), selected, true, |selected|), true, nan, trackedIds).Success?
    ensures |ExtractQuantity(q, true, Expected(orig, SortedPid(pid, orig), selected, true, |selected|), true, nan, trackedIds).value| == |selected|
    ensures selected[j] !in pid ==>
      ExtractQuantity(q, true, Expected(orig, SortedPid(pid, orig), selected, true, |selected|), true, nan, trackedIds).value[j] == nan
    ensures selected[j] in pid ==>
      exists p :: 0 <= p < |pid| && pid[p] == selected[j] &&
        ExtractQuantity(q, true, Expected(orig, SortedPid(pid, orig), selected, true, |selected|), true, nan, trackedIds).value[j] == q[p]
  {
    var indices := Expected(orig, SortedPid(pid, orig), selected, true, |selected|);
    PreservedIndexMeaning(pid, orig, selected, indices, j);
    forall k | 0 <= k < |indices| ensures -|q| <= indices[k] < |q| {
      PreservedIndexMeaning(pid, orig, selected, indices, k);
    }
  }

  /** The loop of particle_tracker.py:164-168: every array of more than one
      element is narrowed to the tracked particles; scalars pass unchanged.
      `isFloat[c]` says whether array `c` holds floats. */
  function TrackQuantities<T>(dataList: seq<seq<T>>, isFloat: seq<bool>, indices: seq<int>, preserve: bool, nan: T, trackedIds: seq<T>)
    : (r: Result<seq<seq<T>>, IndexError>)
    requires |isFloat| == |dataList|
    ensures r.Success? <==> forall c :: 0 <= c < |dataList| && |dataList[c]| > 1 ==> Take(dataList[c], indices).Success?
    ensures r.Success? ==> |r.value| == |dataList| && forall c :: 0 <= c < |dataList| ==>
      r.value[c] == if |dataList[c]| > 1 then ExtractQuantity(dataList[c], isFloat[c], indices, preserve, nan, trackedIds).value else dataList[c]
  {
    if forall c :: 0 <= c < |dataList| && |dataList[c]| > 1 ==> Take(dataList[c], indices).Success? then
      Success(seq(|dataList|, c requires 0 <= c < |dataList| =>
        if |dataList[c]| > 1 then ExtractQuantity(dataList[c], isFloat[c], indices, preserve, nan, trackedIds).value else dataList[c]))
    else Failure(IndexOutOfBounds)
  }

  // ---------------------------------------------------------------------
  // Tracking through the geos tracing index
  // ---------------------------------------------------------------------

  /** The rows of a block the tracing query returned. */
  function TraceRows(b: TracingResult): ChunkRange
  {
    ChunkRange(b.start, b.end)
  }

  /** Blocks sorted by start and not overlapping, read in the groups of a
      strategy over all of them. */
  predicate Planned(blocks: seq<TracingResult>, groups: seq<Group>)
  {
    |blocks| > 0 && Ascending(Extents(blocks, TraceRows)) && Partitions(groups, 0, |blocks| - 1)
  }

  /** The read tuples of the groups. */
  function TraceRanges(blocks: seq<TracingResult>, groups: seq<Group>): seq<ChunkRange>
    requires ValidGroups(groups, |blocks|)
  {
    ReadRanges(Extents(blocks, TraceRows), groups)
  }

  /** Where block `j` of group `g` starts in the read buffer:
      `current_block.start - current_global_offset + prev_offset`. */
  function BlockBase(blocks: seq<TracingResult>, groups: seq<Group>, g: nat, j: nat): int
    requires ValidGroups(groups, |blocks|) && g < |groups| && j < |blocks|
  {
    PrefixLength(TraceRanges(blocks, groups), g) + (blocks[j].start - blocks[groups[g].first].start)
  }

  /** Buffer position `x` holds a row of block `j` of group `g`. */
  predicate InBlockStretch(blocks: seq<TracingResult>, groups: seq<Group>, g: nat, j: nat, x: int)
    requires ValidGroups(groups, |blocks|) && g < |groups| && j < |blocks|
  {
    BlockBase(blocks, groups, g, j) <= x < BlockBase(blocks, groups, g, j) + (blocks[j].end - blocks[j].start)
  }

  /** Some block `first <= j < upTo` of group `g` holds position `x` and
      lists the id read there. */
  predicate GroupMarkedUpTo(blocks: seq<TracingResult>, groups: seq<Group>, idList: seq<nat>, g: nat, upTo: nat, x: int)
    requires ValidGroups(groups, |blocks|) && g < |groups| && upTo <= |blocks|
  {
    exists j {:trigger InBlockStretch(blocks, groups, g, j, x)} ::
      groups[g].first <= j < upTo && InBlockStretch(blocks, groups, g, j, x) && 0 <= x < |idList| && idList[x] in blocks[j].idData
  }

  /** Some group among the first `upTo` marks position `x`. */
  predicate TracedUpTo(blocks: seq<TracingResult>, groups: seq<Group>, idList: seq<nat>, upTo: nat, x: int)
    requires ValidGroups(groups, |blocks|) && upTo <= |groups|
  {
    exists g {:trigger GroupMarkedUpTo(blocks, groups, idList, g, groups[g].last + 1, x)} ::
      0 <= g < upTo && GroupMarkedUpTo(blocks, groups, idList, g, groups[g].last + 1, x)
  }

  /** The selection the tracing index asks for: position `x` of the read
      buffer holds a row of a returned block that lists the id read there. */
  predicate Traced(blocks: seq<TracingResult>, groups: seq<Group>, idList: seq<nat>, x: int)
    requires ValidGroups(groups, |blocks|)
  {
    TracedUpTo(blocks, groups, idList, |groups|, x)
  }

  /** Admitting block `r` of group `g` adds the positions of its stretch
      whose id it lists. */
  lemma GroupMarkedStep(blocks: seq<TracingResult>, groups: seq<Group>, idList: seq<nat>, g: nat, r: nat, x: int)
    requires ValidGroups(groups, |blocks|) && g < |groups| && groups[g].first <= r < |blocks|
    ensures GroupMarkedUpTo(blocks, groups, idList, g, r + 1, x)
        <==> GroupMarkedUpTo(blocks, groups, idList, g, r, x) ||
             (InBlockStretch(blocks, groups, g, r, x) && 0 <= x < |idList| && idList[x] in blocks[r].idData)
  {
    if GroupMarkedUpTo(blocks, groups, idList, g, r + 1, x) && !GroupMarkedUpTo(blocks, groups, idList, g, r, x) {
      var j :| groups[g].first <= j < r + 1 && InBlockStretch(blocks, groups, g, j, x) && 0 <= x < |idList| && idList[x] in blocks[j].idData;
      assert j == r;
    }
  }

  /** Admitting group `g` adds the positions it marks. */
  lemma TracedStep(blocks: seq<TracingResult>, groups: seq<Group>, idList: seq<nat>, g: nat, x: int)
    requires ValidGroups(groups, |blocks|) && g < |groups|
    ensures TracedUpTo(blocks, groups, idList, g + 1, x)
        <==> TracedUpTo(blocks, groups, idList, g, x) || GroupMarkedUpTo(blocks, groups, idList, g, groups[g].last + 1, x)
  {
    if TracedUpTo(blocks, groups, idList, g + 1, x) && !TracedUpTo(blocks, groups, idList, g, x) {
      var h :| 0 <= h < g + 1 && GroupMarkedUpTo(blocks, groups, idList, h, groups[h].last + 1, x);
      assert h == g;
    }
  }

  /** The read tuples of a plan are ordered, and block `j` of group `g`
      lies inside the group's stretch of the buffer. */
  lemma BlockInBuffer(blocks: seq<TracingResult>, groups: seq<Group>, g: nat, j: nat)
    requires Planned(blocks, groups) && g < |groups| && groups[g].first <= j <= groups[g].last
    ensures ValidGroups(groups, |blocks|) && Ordered(TraceRanges(blocks, groups))
    ensures blocks[groups[g].first].start <= blocks[j].start <= blocks[j].end <= blocks[groups[g].last].end
    ensures 0 <= BlockBase(blocks, groups, g, j)
    ensures BlockBase(blocks, groups, g, j) + (blocks[j].end - blocks[j].start) <= PrefixLength(TraceRanges(blocks, groups), g + 1)
    ensures PrefixLength(TraceRanges(blocks, groups), g + 1) <= TotalLength(TraceRanges(blocks, groups))
  {
    ReadRangesAscending(Extents(blocks, TraceRows), groups);
    var ranges := TraceRanges(blocks, groups);
    PrefixLengthMonotone(ranges, 0, g);
    PrefixLengthMonotone(ranges, g + 1, |groups|);
    GroupCoversBlock(Extents(blocks, TraceRows), groups[g], j);
  }

  /** `select_array[id_offset] = True` for the rows `i` of block `b`
      (placed at `base`) whose id is in `set(b.id_data)`. */
  method MarkBlock(mask: seq<bool>, idList: seq<nat>, b: TracingResult, base: int) returns (next: seq<bool>)
    requires |mask| == |idList| && 0 <= base && b.start <= b.end && base + (b.end - b.start) <= |mask|
    ensures |next| == |mask|
    ensures forall x :: 0 <= x < |mask| ==>
      (next[x] <==> mask[x] || (base <= x < base + (b.end - b.start) && idList[x] in b.idData))
  {
    next := mask;
    var i := 0;
    while i < b.end - b.start
      invariant 0 <= i <= b.end - b.start
      invariant |next| == |mask|
      invariant forall x :: 0 <= x < |mask| ==>
        (next[x] <==> mask[x] || (base <= x < base + i && idList[x] in b.idData))
    {
      var idOffset := base + i;
      if idList[idOffset] in b.idData {
        next := next[idOffset := true];
      }
      i := i + 1;
    }
  }

  /** The inner loop over the blocks of group `g` (particle_tracker.py:205-212). */
  method MarkGroup(mask: seq<bool>, idList: seq<nat>, blocks: seq<TracingResult>, groups: seq<Group>, g: nat, prevOffset: int)
    returns (next: seq<bool>)
    requires Planned(blocks, groups) && ValidGroups(groups, |blocks|) && g < |groups|
    requires prevOffset == PrefixLength(TraceRanges(blocks, groups), g)
    requires |mask| == |idList| == TotalLength(TraceRanges(blocks, groups))
    ensures |next| == |mask|
    ensures forall x :: 0 <= x < |mask| ==>
      (next[x] <==> mask[x] || GroupMarkedUpTo(blocks, groups, idList, g, groups[g].last + 1, x))
  {
    next := mask;
    var globalOffset := blocks[groups[g].first].start;
    var r := groups[g].first;
    while r <= groups[g].last
      invariant groups[g].first <= r <= groups[g].last + 1
      invariant |next| == |mask|
      invariant forall x :: 0 <= x < |mask| ==>
        (next[x] <==> mask[x] || GroupMarkedUpTo(blocks, groups, idList, g, r, x))
    {
      BlockInBuffer(blocks, groups, g, r);
      var base := blocks[r].start - globalOffset + prevOffset;
      assert base == BlockBase(blocks, groups, g, r);
      next := MarkBlock(next, idList, blocks[r], base);
      forall x | 0 <= x < |mask|
        ensures next[x] <==> mask[x] || GroupMarkedUpTo(blocks, groups, idList, g, r + 1, x)
      {
        GroupMarkedStep(blocks, groups, idList, g, r, x);
      }
      r := r + 1;
    }
  }

  /** The selection mask of particle_tracker.py:201-215: one pass over the
      groups, each placed at the summed lengths of the groups before it. */
  method TraceMask(blocks: seq<TracingResult>, groups: seq<Group>, idList: seq<nat>) returns (mask: seq<bool>)
    requires Planned(blocks, groups) && ValidGroups(groups, |blocks|)
    requires |idList| == TotalLength(TraceRanges(blocks, groups))
    ensures |mask| == |idList|
    ensures forall x :: 0 <= x < |mask| ==> (mask[x] <==> Traced(blocks, groups, idList, x))
  {
    mask := seq(|idList|, _ => false);
    var prevOffset := 0;
    var g := 0;
    while g < |groups|
      invariant 0 <= g <= |groups|
      invariant prevOffset == PrefixLength(TraceRanges(blocks, groups), g)
      invariant |mask| == |idList|
      invariant forall x :: 0 <= x < |mask| ==> (mask[x] <==> TracedUpTo(blocks, groups, idList, g, x))
    {
      mask := MarkGroup(mask, idList, blocks, groups, g, prevOffset);
      forall x | 0 <= x < |mask|
        ensures mask[x] <==> TracedUpTo(blocks, groups, idList, g + 1, x)
      {
        TracedStep(blocks, groups, idList, g, x);
      }
      prevOffset := prevOffset + (blocks[groups[g].last].end - blocks[groups[g].first].start);
      g := g + 1;
    }
  }

  /** The read tuples of a plan lie inside a component of `n` rows when the
      blocks do. */
  lemma TraceRangesInExtent(blocks: seq<TracingResult>, groups: seq<Group>, n: nat)
    requires Planned(blocks, groups) && InExtent(Extents(blocks, TraceRows), n)
    ensures ValidGroups(groups, |blocks|) && InExtent(TraceRanges(blocks, groups), n)
  {
    ReadRangesAscending(Extents(blocks, TraceRows), groups);
    var ranges := TraceRanges(blocks, groups);
    forall k | 0 <= k < |ranges| ensures ranges[k].start <= ranges[k].end <= n {
      assert Extents(blocks, TraceRows)[groups[k].last].end <= n;
    }
  }

  /** A row of a returned block whose id the block lists is selected, at
      the position `x` the read buffer holds it. */
  lemma TracedRowSelected(blocks: seq<TracingResult>, groups: seq<Group>, ids: seq<nat>, g: nat, j: nat, row: int)
    returns (x: int)
    requires Planned(blocks, groups) && ValidGroups(groups, |blocks|) && InExtent(Extents(blocks, TraceRows), |ids|)
    requires g < |groups| && groups[g].first <= j <= groups[g].last && blocks[j].start <= row < blocks[j].end
    requires ids[row] in blocks[j].idData
    ensures InExtent(TraceRanges(blocks, groups), |ids|)
    ensures x == BlockBase(blocks, groups, g, j) + (row - blocks[j].start)
    ensures 0 <= x < TotalLength(TraceRanges(blocks, groups))
    ensures Gather(ids, TraceRanges(blocks, groups))[x] == ids[row]
    ensures Traced(blocks, groups, Gather(ids, TraceRanges(blocks, groups)), x)
  {
    TraceRangesInExtent(blocks, groups, |ids|);
    x := BlockBase(blocks, groups, g, j) + (row - blocks[j].start);
    assert InBlockStretch(blocks, groups, g, j, x);
    BlockRowAt(blocks, groups, ids, g, j, x, row);
    MarkWitness(blocks, groups, Gather(ids, TraceRanges(blocks, groups)), g, j, x);
  }

  /** A block of group `g` listing the id at a position of its stretch
      makes that position traced. */
  lemma MarkWitness(blocks: seq<TracingResult>, groups: seq<Group>, idList: seq<nat>, g: nat, j: nat, x: int)
    requires ValidGroups(groups, |blocks|) && g < |groups| && groups[g].first <= j <= groups[g].last
    requires InBlockStretch(blocks, groups, g, j, x)
    requires 0 <= x < |idList| && idList[x] in blocks[j].idData
    ensures Traced(blocks, groups, idList, x)
  {
    assert GroupMarkedUpTo(blocks, groups, idList, g, groups[g].last + 1, x);
  }

  /** A selected position holds the id of a row of some returned block, and
      that block lists the id. */
  lemma TracedPositionSound(blocks: seq<TracingResult>, groups: seq<Group>, ids: seq<nat>, x: int)
    requires Planned(blocks, groups) && ValidGroups(groups, |blocks|) && InExtent(Extents(blocks, TraceRows), |ids|)
    requires InExtent(TraceRanges(blocks, groups), |ids|)
    requires Traced(blocks, groups, Gather(ids, TraceRanges(blocks, groups)), x)
    ensures 0 <= x < TotalLength(TraceRanges(blocks, groups))
    ensures exists j, row :: 0 <= j < |blocks| && blocks[j].start <= row < blocks[j].end &&
                             Gather(ids, TraceRanges(blocks, groups))[x] == ids[row] && ids[row] in blocks[j].idData
  {
    var idList := Gather(ids, TraceRanges(blocks, groups));
    var g :| 0 <= g < |groups| && GroupMarkedUpTo(blocks, groups, idList, g, groups[g].last + 1, x);
    var j :| groups[g].first <= j < groups[g].last + 1 && InBlockStretch(blocks, groups, g, j, x) && 0 <= x < |idList| && idList[x] in blocks[j].idData;
    var row := blocks[j].start + (x - BlockBase(blocks, groups, g, j));
    BlockRowAt(blocks, groups, ids, g, j, x, row);
  }

  /** Position `x` of block `j`'s stretch holds the block's row `row`. */
  lemma BlockRowAt(blocks: seq<TracingResult>, groups: seq<Group>, ids: seq<nat>, g: nat, j: nat, x: int, row: int)
    requires Planned(blocks, groups) && ValidGroups(groups, |blocks|) && InExtent(TraceRanges(blocks, groups), |ids|)
    requires g < |groups| && groups[g].first <= j <= groups[g].last && InBlockStretch(blocks, groups, g, j, x)
    requires row == blocks[j].start + (x - BlockBase(blocks, groups, g, j))
    ensures blocks[j].start <= row < blocks[j].end <= |ids| && 0 <= x < TotalLength(TraceRanges(blocks, groups))
    ensures Gather(ids, TraceRanges(blocks, groups))[x] == ids[row]
  {
    BlockInBuffer(blocks, groups, g, j);
    var ranges := TraceRanges(blocks, groups);
    assert ranges[g] == ChunkRange(blocks[groups[g].first].start, blocks[groups[g].last].end);
    GatherAtPosition(ids, ranges, g, x, row);
  }

  /** The geos branch of `extract_tracked_particles`
      (particle_tracker.py:174-221). The tracing query's blocks, sorted by
      start, are grouped by the read planner; `ids` and each of `columns`
      are whole components of the species, of which the grouped read
      returns the read tuples' rows. Without blocks, every quantity comes
      back empty. */
  method TrackWithIndex<T>(blocks: seq<TracingResult>, p: Planner, ids: seq<nat>, columns: seq<seq<T>>)
    returns (result: seq<seq<T>>)
    requires Ascending(Extents(blocks, TraceRows)) && InExtent(Extents(blocks, TraceRows), |ids|)
    requires forall c :: 0 <= c < |columns| ==> |columns[c]| == |ids|
    ensures |result| == |columns|
    ensures |blocks| == 0 ==> forall c :: 0 <= c < |columns| ==> result[c] == []
    ensures |blocks| > 0 ==>
      var groups := Strategy(Extents(blocks, TraceRows), 0, |blocks| - 1, 0, p);
      ValidGroups(groups, |blocks|) && InExtent(TraceRanges(blocks, groups), |ids|) &&
      forall c :: 0 <= c < |columns| ==>
        result[c] == RangeExtract.Select(Gather(columns[c], TraceRanges(blocks, groups)),
          seq(TotalLength(TraceRanges(blocks, groups)), x => Traced(blocks, groups, Gather(ids, TraceRanges(blocks, groups)), x)))
  {
    if |blocks| == 0 {
      return seq(|columns|, _ => []);
    }
    var groups := Strategy(Extents(blocks, TraceRows), 0, |blocks| - 1, 0, p);
    TraceRangesInExtent(blocks, groups, |ids|);
    result := ReadTraced(blocks, groups, ids, columns);
  }

  /** The grouped read of `ids` and of each column, narrowed to the traced
      positions of the read buffer. */
  method ReadTraced<T>(blocks: seq<TracingResult>, groups: seq<Group>, ids: seq<nat>, columns: seq<seq<T>>)
    returns (result: seq<seq<T>>)
    requires Planned(blocks, groups) && ValidGroups(groups, |blocks|) && InExtent(TraceRanges(blocks, groups), |ids|)
    requires forall c :: 0 <= c < |columns| ==> |columns[c]| == |ids|
    ensures |result| == |columns|
    ensures forall c :: 0 <= c < |columns| ==>
      result[c] == RangeExtract.Select(Gather(columns[c], TraceRanges(blocks, groups)),
        seq(TotalLength(TraceRanges(blocks, groups)), x => Traced(blocks, groups, Gather(ids, TraceRanges(blocks, groups)), x)))
  {
    var ranges := TraceRanges(blocks, groups);
    var idList := Gather(ids, ranges);
    var mask := TraceMask(blocks, groups, idList);
    assert mask == seq(TotalLength(ranges), x => Traced(blocks, groups, idList, x));
    result := seq(|columns|, c requires 0 <= c < |columns| => RangeExtract.Select(Gather(columns[c], ranges), mask));
  }
}

=== FILE: query_results.dfy ===
/** The result records the index queries return (`QueryResult`,
    `QueryBlockResult`, `TracingResult` in querybase.h) and the
    `std::map::insert` discipline every query uses to fill its result map. */
module QueryResults {

  /** One in-block slice `[start, end)`. */
  datatype QueryResult = QueryResult(start: nat, end: nat)

  /** One block `[start, end)` with the slices a secondary index kept,
      keyed by the decimal text of each slice start. */
  datatype QueryBlockResult = QueryBlockResult(start: nat, end: nat, q: map<string, QueryResult>)

  /** One block `[start, end)` with the tracked ids found in it. */
  datatype TracingResult = TracingResult(start: nat, end: nat, idData: seq<nat>)

  /** The `secondaryIndexType` setting. */
  datatype SecondaryType = NoSecondary | MinMaxSecondary | RTreeSecondary

  /** The map built by calling `m.insert({keyOf(x), valueOf(x)})` for each
      item `x` that passes `keep`, in order. `insert` never replaces an
      existing key, so the first kept item with a given key wins. */
  function InsertAll<T, V>(items: seq<T>, keep: T -> bool, keyOf: T -> string, valueOf: T -> V): (m: map<string, V>)
    ensures forall k :: k in m <==> exists i :: 0 <= i < |items| && keep(items[i]) && keyOf(items[i]) == k
    ensures forall i :: 0 <= i < |items| && FirstKept(items, keep, keyOf, i) ==>
      keyOf(items[i]) in m && m[keyOf(items[i])] == valueOf(items[i])
    decreases |items|
  {
    if |items| == 0 then map[]
    else
      var init := items[..|items| - 1];
      var last := items[|items| - 1];
      var m0 := InsertAll(init, keep, keyOf, valueOf);
      assert forall i :: 0 <= i < |init| ==> init[i] == items[i];
      if keep(last) && keyOf(last) !in m0 then m0[keyOf(last) := valueOf(last)] else m0
  }

  /** Item `i` is the first kept item carrying its key. */
  ghost predicate FirstKept<T>(items: seq<T>, keep: T -> bool, keyOf: T -> string, i: int)
    requires 0 <= i < |items|
  {
    keep(items[i]) && forall j :: 0 <= j < i ==> !(keep(items[j]) && keyOf(items[j]) == keyOf(items[i]))
  }

  /** Every kept item has a first kept item with the same key at or before it. */
  lemma {:induction false} FirstKeptExists<T>(items: seq<T>, keep: T -> bool, keyOf: T -> string, i: nat)
    requires i < |items| && keep(items[i])
    ensures exists j :: 0 <= j <= i && FirstKept(items, keep, keyOf, j) && keyOf(items[j]) == keyOf(items[i])
    decreases i
  {
    if !FirstKept(items, keep, keyOf, i) {
      var j :| 0 <= j < i && keep(items[j]) && keyOf(items[j]) == keyOf(items[i]);
      FirstKeptExists(items, keep, keyOf, j);
    }
  }

  /** Every entry of the map is the value of the first kept item with its key. */
  lemma InsertAllEntry<T, V>(items: seq<T>, keep: T -> bool, keyOf: T -> string, valueOf: T -> V, k: string)
    requires k in InsertAll(items, keep, keyOf, valueOf)
    ensures exists i :: (0 <= i < |items| && FirstKept(items, keep, keyOf, i) && keyOf(items[i]) == k &&
                         InsertAll(items, keep, keyOf, valueOf)[k] == valueOf(items[i]))
  {
    var i :| 0 <= i < |items| && keep(items[i]) && keyOf(items[i]) == k;
    FirstKeptExists(items, keep, keyOf, i);
  }
}

=== FILE: range_extract.dfy ===
/** Three ways of pulling inclusive index ranges out of an array
    (tests/test_hstack_vs_mask.py): concatenating slices, selecting through
    a boolean mask, and filling a preallocated buffer, which the compiled
    `extract_ranges_jit` repeats verbatim. */
module RangeExtract {
  /** The inclusive index range `[start, end]`. */
  datatype Range = Range(start: nat, end: nat)

  /** Every range is non-empty and inside an array of length `n`. */
  predicate ValidRanges(ranges: seq<Range>, n: nat)
  {
    forall i :: 0 <= i < |ranges| ==> ranges[i].start <= ranges[i].end < n
  }

  /** Each range ends before the next one starts. */
  predicate Ascending(ranges: seq<Range>)
  {
    forall i :: 0 <= i < |ranges| - 1 ==> ranges[i].end < ranges[i + 1].start
  }

  /** Index `j` lies in one of the ranges. */
  predicate Covered(ranges: seq<Range>, j: nat)
  {
    exists i :: 0 <= i < |ranges| && ranges[i].start <= j <= ranges[i].end
  }

  /** `sum(end - start + 1 for start, end in ranges)` for ranges with
      `start <= end`, which every use here requires. */
  function TotalLengthOf(ranges: seq<Range>): nat
  {
    if |ranges| == 0 then 0
    else
      var r := ranges[|ranges| - 1];
      TotalLengthOf(ranges[..|ranges| - 1]) + (if r.start <= r.end then r.end - r.start + 1 else 0)
  }

  /** Method 1: `np.hstack([array[start:end + 1] for start, end in ranges])`. */
  function Hstack<T>(a: seq<T>, ranges: seq<Range>): seq<T>
    requires ValidRanges(ranges, |a|)
  {
    if |ranges| == 0 then []
    else
      var r := ranges[|ranges| - 1];
      Hstack(a, ranges[..|ranges| - 1]) + a[r.start..r.end + 1]
  }

  /** The concatenation is as long as the ranges together. */
  lemma {:induction false} HstackLength<T>(a: seq<T>, ranges: seq<Range>)
    requires ValidRanges(ranges, |a|)
    ensures |Hstack(a, ranges)| == TotalLengthOf(ranges)
  {
    if |ranges| > 0 {
      HstackLength(a, ranges[..|ranges| - 1]);
    }
  }

  /** Method 2, the mask: `mask[start:end + 1] = True` for every range. */
  method BuildMask(n: nat, ranges: seq<Range>) returns (mask: seq<bool>)
    ensures |mask| == n
    ensures forall j :: 0 <= j < n ==> (mask[j] <==> Covered(ranges, j))
  {
    mask := seq(n, _ => false);
    var k := 0;
    while k < |ranges|
      invariant 0 <= k <= |ranges|
      invariant |mask| == n
      invariant forall j :: 0 <= j < n ==> (mask[j] <==> Covered(ranges[..k], j))
    {
      var r := ranges[k];
      mask := seq(n, j requires 0 <= j < n => mask[j] || (r.start <= j <= r.end));
      forall j | 0 <= j < n ensures mask[j] <==> Covered(ranges[..k + 1], j) {
        if Covered(ranges[..k], j) {
          var i :| 0 <= i < k && ranges[..k][i].start <= j <= ranges[..k][i].end;
          assert ranges[..k + 1][i] == ranges[..k][i];
        }
        if Covered(ranges[..k + 1], j) {
          var i :| 0 <= i < k + 1 && ranges[..k + 1][i].start <= j <= ranges[..k + 1][i].end;
          if i < k {
            assert ranges[..k][i] == ranges[..k + 1][i];
          }
        }
      }
      k := k + 1;
    }
    assert ranges[..k] == ranges;
  }

  /** `array[mask]`: the elements whose mask entry is set, in index order. */
  function Select<T>(a: seq<T>, mask: seq<bool>): (r: seq<T>)
    requires |a| == |mask|
    ensures |r| <= |a|
  {
    if |a| == 0 then []
    else Select(a[..|a| - 1], mask[..|mask| - 1]) + (if mask[|mask| - 1] then [a[|a| - 1]] else [])
  }

  lemma {:induction false} SelectAppend<T>(a1: seq<T>, m1: seq<bool>, a2: seq<T>, m2: seq<bool>)
    requires |a1| == |m1| && |a2| == |m2|
    ensures Select(a1 + a2, m1 + m2) == Select(a1, m1) + Select(a2, m2)
    decreases |a2|
  {
    if |a2| > 0 {
      var n := |a2|;
      assert (a1 + a2)[..|a1 + a2| - 1] == a1 + a2[..n - 1];
      assert (m1 + m2)[..|m1 + m2| - 1] == m1 + m2[..n - 1];
      SelectAppend(a1, m1, a2[..n - 1], m2[..n - 1]);
    } else {
      assert a1 + a2 == a1 && m1 + m2 == m1;
    }
  }

  lemma {:induction false} SelectAll<T>(a: seq<T>, mask: seq<bool>, v: bool)
    requires |a| == |mask| && forall j :: 0 <= j < |mask| ==> mask[j] == v
    ensures Select(a, mask) == if v then a else []
  {
    if |a| > 0 {
      SelectAll(a[..|a| - 1], mask[..|mask| - 1], v);
      assert a[..|a| - 1] + [a[|a| - 1]] == a;
    }
  }

  /** Slices taken from a prefix that holds every range are the same. */
  lemma {:induction false} HstackPrefix<T>(a: seq<T>, ranges: seq<Range>, n: nat)
    requires n <= |a| && ValidRanges(ranges, n)
    ensures Hstack(a[..n], ranges) == Hstack(a, ranges)
  {
    if |ranges| > 0 {
      HstackPrefix(a, ranges[..|ranges| - 1], n);
    }
  }

  /** A mask that is set on `[s, e]` and clear after it selects what it
      selects before `s`, then the slice. */
  lemma SelectThree<T>(a: seq<T>, mask: seq<bool>, s: nat, e: nat)
    requires |mask| == |a| && s <= e < |a|
    requires forall j :: s <= j <= e ==> mask[j]
    requires forall j :: e < j < |a| ==> !mask[j]
    ensures Select(a, mask) == Select(a[..s], mask[..s]) + a[s..e + 1]
  {
    assert a == a[..s] + a[s..e + 1] + a[e + 1..];
    assert mask == mask[..s] + mask[s..e + 1] + mask[e + 1..];
    SelectAppend(a[..s] + a[s..e + 1], mask[..s] + mask[s..e + 1], a[e + 1..], mask[e + 1..]);
    SelectAppend(a[..s], mask[..s], a[s..e + 1], mask[s..e + 1]);
    SelectAll(a[s..e + 1], mask[s..e + 1], true);
    SelectAll(a[e + 1..], mask[e + 1..], false);
  }

  /** How the coverage of ascending ranges splits around the last range. */
  lemma CoveredSplit(ranges: seq<Range>, n: nat, j: nat)
    requires ValidRanges(ranges, n) && Ascending(ranges) && |ranges| > 0
    ensures var k := |ranges| - 1;
      (j < ranges[k].start ==> (Covered(ranges, j) <==> Covered(ranges[..k], j))) &&
      (ranges[k].start <= j <= ranges[k].end ==> Covered(ranges, j)) &&
      (ranges[k].end < j ==> !Covered(ranges, j))
  {
    var k := |ranges| - 1;
    if Covered(ranges, j) {
      var i :| 0 <= i < |ranges| && ranges[i].start <= j <= ranges[i].end;
      if i < k {
        AscendingEnds(ranges, n, i, k);
        assert ranges[..k][i] == ranges[i];
      }
    }
    if Covered(ranges[..k], j) {
      var i :| 0 <= i < k && ranges[..k][i].start <= j <= ranges[..k][i].end;
      assert ranges[i] == ranges[..k][i];
    }
    if ranges[k].start <= j <= ranges[k].end {
      assert ranges[k].start <= j <= ranges[k].end;
    }
  }

  /** For ascending ranges the mask selects exactly the concatenated slices
      (the first comparison of the test). */
  lemma {:induction false} MaskSelectsHstack<T>(a: seq<T>, ranges: seq<Range>, mask: seq<bool>)
    requires ValidRanges(ranges, |a|) && Ascending(ranges)
    requires |mask| == |a| && forall j :: 0 <= j < |a| ==> (mask[j] <==> Covered(ranges, j))
    ensures Select(a, mask) == Hstack(a, ranges)
    decreases |ranges|
  {
    if |ranges| == 0 {
      SelectAll(a, mask, false);
    } else {
      var k := |ranges| - 1;
      var s, e := ranges[k].start, ranges[k].end;
      MaskSplitsAtLast(a, ranges, mask);
      MaskSelectsHstack(a[..s], ranges[..k], mask[..s]);
      HstackPrefix(a, ranges[..k], s);
      SelectThree(a, mask, s, e);
      assert Hstack(a, ranges) == Hstack(a, ranges[..k]) + a[s..e + 1];
    }
  }

  /** The mask of ascending ranges is the mask of all but the last range
      before the last range's start, set on the last range and clear after it. */
  lemma MaskSplitsAtLast<T>(a: seq<T>, ranges: seq<Range>, mask: seq<bool>)
    requires ValidRanges(ranges, |a|) && Ascending(ranges) && |ranges| > 0
    requires |mask| == |a| && forall j :: 0 <= j < |a| ==> (mask[j] <==> Covered(ranges, j))
    ensures var k := |ranges| - 1; var s := ranges[k].start;
      && ValidRanges(ranges[..k], s) && Ascending(ranges[..k])
      && (forall j :: 0 <= j < s ==> (mask[..s][j] <==> Covered(ranges[..k], j)))
      && (forall j :: s <= j <= ranges[k].end ==> mask[j])
      && (forall j :: ranges[k].end < j < |a| ==> !mask[j])
  {
    var k := |ranges| - 1;
    var init := ranges[..k];
    var s, e := ranges[k].start, ranges[k].end;
    forall j | 0 <= j < |a|
      ensures j < s ==> (mask[j] <==> Covered(init, j))
      ensures s <= j <= e ==> mask[j]
      ensures e < j ==> !mask[j]
    {
      CoveredSplit(ranges, |a|, j);
    }
    forall i | 0 <= i < k ensures init[i].end < s {
      AscendingEnds(ranges, |a|, i, k);
    }
  }

  lemma {:induction false} AscendingEnds(ranges: seq<Range>, n: nat, i: nat, k: nat)
    requires ValidRanges(ranges, n) && Ascending(ranges) && i < k < |ranges|
    ensures ranges[i].end < ranges[k].start
    decreases k - i
  {
    if i + 1 < k {
      AscendingEnds(ranges, n, i, k - 1);
    }
  }

  /** `calculate_total_length`: the running sum of range lengths. */
  method CalculateTotalLength(ranges: seq<Range>) returns (total: nat)
    requires forall i :: 0 <= i < |ranges| ==> ranges[i].start <= ranges[i].end
    ensures total == TotalLengthOf(ranges)
  {
    total := 0;
    var k := 0;
    while k < |ranges|
      invariant 0 <= k <= |ranges|
      invariant total == TotalLengthOf(ranges[..k])
    {
      assert ranges[..k + 1][..k] == ranges[..k];
      total := total + (ranges[k].end - ranges[k].start + 1);
      k := k + 1;
    }
    assert ranges[..k] == ranges;
  }

  /** Method 3 and `extract_ranges_jit`: a buffer of the total length
      (initially `fill`, standing in for `np.empty`) receives each slice at
      the running position. It holds the concatenated slices. */
  method FillRanges<T>(a: seq<T>, ranges: seq<Range>, fill: T) returns (result: seq<T>)
    requires ValidRanges(ranges, |a|)
    ensures |result| == TotalLengthOf(ranges)
    ensures result == Hstack(a, ranges)
  {
    var total := CalculateTotalLength(ranges);
    result := seq(total, _ => fill);
    var position := 0;
    var k := 0;
    while k < |ranges|
      invariant 0 <= k <= |ranges|
      invariant |result| == total
      invariant position == TotalLengthOf(ranges[..k])
      invariant position <= total
      invariant result[..position] == Hstack(a, ranges[..k])
    {
      var r := ranges[k];
      var length := r.end - r.start + 1;
      assert ranges[..k + 1][..k] == ranges[..k];
      PrefixLengthBound(ranges, k + 1);
      result := result[..position] + a[r.start..r.end + 1] + result[position + length..];
      position := position + length;
      k := k + 1;
    }
    assert ranges[..k] == ranges;
    HstackLength(a, ranges);
  }

  /** The ranges of a prefix are no longer than all of them. */
  lemma {:induction false} PrefixLengthBound(ranges: seq<Range>, k: nat)
    requires k <= |ranges|
    ensures TotalLengthOf(ranges[..k]) <= TotalLengthOf(ranges)
    decreases |ranges|
  {
    if k < |ranges| {
      assert ranges[..|ranges| - 1][..k] == ranges[..k];
      PrefixLengthBound(ranges[..|ranges| - 1], k);
    } else {
      assert ranges[..k] == ranges;
    }
  }
}

=== FILE: read_plan.dfy ===
/** Read planning for an index query (`main.py`, `get_particle`): the
    recursive largest-gap splitter that groups the sorted blocks into
    contiguous reads, the read tuples of the groups, the boolean mask that
    picks the selected rows out of the concatenated read buffer, and the
    direct block and direct slice read paths. */
module ReadPlan {
  import opened Wrappers
  import opened QueryResults
  import opened ChunkReader

  // ---------------------------------------------------------------------
  // The largest-gap splitter
  // ---------------------------------------------------------------------

  /** The planner's settings: `max_level`, the cost line `k`, `b` and `max_read_length`. */
  datatype Planner = Planner(maxLevel: int, k: real, b: real, maxReadLength: int)

  /** The blocks `first..last` (inclusive) of the sorted list, read as one chunk. */
  datatype Group = Group(first: nat, last: nat)

  /** The largest gap seen so far and the block to its left. */
  datatype Cut = Cut(gap: int, left: nat)

  /** The rows between block `i` and block `i + 1`. */
  function Gap(blocks: seq<ChunkRange>, i: nat): int
    requires i + 1 < |blocks|
  {
    blocks[i + 1].start - blocks[i].end
  }

  /** `c` is what scanning the gaps `start..i - 1` leaves: zero when none is
      positive, and otherwise the first strictly largest one. */
  predicate IsLargestGap(blocks: seq<ChunkRange>, start: nat, i: nat, c: Cut)
    requires start <= i < |blocks|
  {
    && c.gap >= 0
    && (c.gap == 0 ==> forall j :: start <= j < i ==> Gap(blocks, j) <= 0)
    && (c.gap > 0 ==>
          && start <= c.left < i
          && Gap(blocks, c.left) == c.gap
          && (forall j :: start <= j < i ==> Gap(blocks, j) <= c.gap)
          && (forall j :: start <= j < c.left ==> Gap(blocks, j) < c.gap))
  }

  /** The loop over `range(start, end)` that keeps a gap only when it is strictly larger. */
  function ScanGaps(blocks: seq<ChunkRange>, start: nat, i: nat, end: nat, best: Cut): (c: Cut)
    requires start <= i <= end < |blocks|
    requires IsLargestGap(blocks, start, i, best)
    ensures IsLargestGap(blocks, start, end, c)
    decreases end - i
  {
    if i == end then best
    else
      var g := Gap(blocks, i);
      ScanGaps(blocks, start, i + 1, end, if g > best.gap then Cut(g, i) else best)
  }

  /** `max_gap` and `left_end` after the scan; `right_start` is `left_end + 1`. */
  function LargestGap(blocks: seq<ChunkRange>, start: nat, end: nat): (c: Cut)
    requires start <= end < |blocks|
    ensures IsLargestGap(blocks, start, end, c)
  {
    ScanGaps(blocks, start, start, end, Cut(0, 0))
  }

  /** Either bridging the gap costs more than a second read, or one side of
      the cut is longer than `max_read_length`. */
  predicate SplitWanted(blocks: seq<ChunkRange>, start: nat, end: nat, left: nat, p: Planner)
    requires start <= left < end < |blocks|
  {
    || (blocks[left].start - blocks[left + 1].end) as real * p.k + p.b < 0.0
    || blocks[left].end - blocks[start].start > p.maxReadLength
    || blocks[end].end - blocks[left + 1].start > p.maxReadLength
  }

  /** The planner cuts `start..end` at this level. */
  predicate Splits(blocks: seq<ChunkRange>, start: nat, end: nat, level: nat, p: Planner)
    requires start <= end < |blocks|
  {
    var c := LargestGap(blocks, start, end);
    level <= p.maxLevel && start < end && c.gap > 0 && SplitWanted(blocks, start, end, c.left, p)
  }

  /** The groups cover `start..end` in order, each a non-empty run that
      starts right after the previous one ends. */
  predicate Partitions(groups: seq<Group>, start: nat, end: nat)
  {
    && |groups| > 0
    && groups[0].first == start
    && groups[|groups| - 1].last == end
    && (forall i :: 0 <= i < |groups| ==> groups[i].first <= groups[i].last)
    && (forall i :: 0 < i < |groups| ==> groups[i].first == groups[i - 1].last + 1)
  }

  lemma PartitionsConcat(a: seq<Group>, b: seq<Group>, start: nat, mid: nat, end: nat)
    requires Partitions(a, start, mid) && Partitions(b, mid + 1, end)
    ensures Partitions(a + b, start, end)
  {
    var ab := a + b;
    forall i | 0 < i < |ab| ensures ab[i].first == ab[i - 1].last + 1 {
      if i < |a| {
      } else if i == |a| {
      } else {
        assert ab[i] == b[i - |a|] && ab[i - 1] == b[i - 1 - |a|];
      }
    }
  }

  /** `find_optimal_strategy(start, end, level)`: the groups it appends to `read_strategy`. */
  function Strategy(blocks: seq<ChunkRange>, start: nat, end: nat, level: nat, p: Planner): (groups: seq<Group>)
    requires start <= end < |blocks|
    ensures Partitions(groups, start, end)
    ensures level > p.maxLevel || start == end ==> groups == [Group(start, end)]
    ensures (forall i :: start <= i < end ==> Gap(blocks, i) <= 0) ==> groups == [Group(start, end)]
    ensures |groups| > 1 <==> Splits(blocks, start, end, level, p)
    ensures |groups| > 1 ==>
      exists j :: 0 < j < |groups| && groups[j].first == LargestGap(blocks, start, end).left + 1
    decreases end - start
  {
    if level > p.maxLevel || start == end then [Group(start, end)]
    else
      var c := LargestGap(blocks, start, end);
      if c.gap == 0 then [Group(start, end)]
      else if SplitWanted(blocks, start, end, c.left, p) then
        var lo := Strategy(blocks, start, c.left, level + 1, p);
        var hi := Strategy(blocks, c.left + 1, end, level + 1, p);
        PartitionsConcat(lo, hi, start, c.left, end);
        assert (lo + hi)[|lo|] == hi[0];
        lo + hi
      else [Group(start, end)]
  }

  /** The three blocks `0..10`, `10..12` and `1000..1010`. */
  function ThreeBlocks(): seq<ChunkRange>
  {
    [ChunkRange(0, 10), ChunkRange(10, 12), ChunkRange(1000, 1010)]
  }

  /** With a cost line that never favours a second read and a large enough
      `max_read_length`, the three blocks are read as one group. */
  lemma OneGroupWhenSplittingNeverPays(maxLevel: int)
    ensures Strategy(ThreeBlocks(), 0, 2, 0, Planner(maxLevel, 0.0, 1.0, 2000)) == [Group(0, 2)]
  {
    var blocks := ThreeBlocks();
    assert Gap(blocks, 0) == 0 && Gap(blocks, 1) == 988;
    var c := LargestGap(blocks, 0, 2);
    assert c == Cut(988, 1);
    assert !SplitWanted(blocks, 0, 2, 1, Planner(maxLevel, 0.0, 1.0, 2000));
  }

  /** With `max_read_length` 5 the far block is split off, but the first two
      blocks stay one group spanning 12 rows: they touch, so no positive gap
      remains to cut at. */
  lemma GroupSpanNotBounded(maxLevel: int)
    requires maxLevel >= 0
    ensures Strategy(ThreeBlocks(), 0, 2, 0, Planner(maxLevel, 0.0, 1.0, 5)) == [Group(0, 1), Group(2, 2)]
    ensures ThreeBlocks()[1].end - ThreeBlocks()[0].start == 12
  {
    var blocks := ThreeBlocks();
    var p := Planner(maxLevel, 0.0, 1.0, 5);
    assert Gap(blocks, 0) == 0 && Gap(blocks, 1) == 988;
    var c := LargestGap(blocks, 0, 2);
    assert c == Cut(988, 1);
    assert SplitWanted(blocks, 0, 2, 1, p);
    assert Strategy(blocks, 0, 1, 1, p) == [Group(0, 1)];
    assert Strategy(blocks, 2, 2, 1, p) == [Group(2, 2)];
  }

  // ---------------------------------------------------------------------
  // Read tuples of the groups
  // ---------------------------------------------------------------------

  /** Every block starts no later than it ends, and ends no later than the next one starts. */
  predicate Ascending(blocks: seq<ChunkRange>)
  {
    && (forall i :: 0 <= i < |blocks| ==> blocks[i].start <= blocks[i].end)
    && (forall i :: 0 < i < |blocks| ==> blocks[i - 1].end <= blocks[i].start)
  }

  /** In an ascending list, an earlier block ends before a later one starts. */
  lemma {:induction false} AscendingApart(blocks: seq<ChunkRange>, i: nat, j: nat)
    requires Ascending(blocks) && i < j < |blocks|
    ensures blocks[i].end <= blocks[j].start
    decreases j - i
  {
    if i + 1 < j {
      AscendingApart(blocks, i + 1, j);
    }
  }

  /** Every group refers to blocks of the list. */
  predicate ValidGroups(groups: seq<Group>, n: nat)
  {
    forall i :: 0 <= i < |groups| ==> groups[i].first <= groups[i].last < n
  }

  /** `(blocks[first].start, blocks[last].end, None)` for each group, in strategy order. */
  function ReadRanges(blocks: seq<ChunkRange>, groups: seq<Group>): (ranges: seq<ChunkRange>)
    requires ValidGroups(groups, |blocks|)
    ensures |ranges| == |groups|
    ensures forall i :: 0 <= i < |groups| ==>
      ranges[i] == ChunkRange(blocks[groups[i].first].start, blocks[groups[i].last].end)
  {
    seq(|groups|, i requires 0 <= i < |groups| => ChunkRange(blocks[groups[i].first].start, blocks[groups[i].last].end))
  }

  /** A group's read tuple covers each of its blocks. */
  lemma GroupCoversBlock(blocks: seq<ChunkRange>, g: Group, j: nat)
    requires Ascending(blocks) && g.first <= j <= g.last < |blocks|
    ensures blocks[g.first].start <= blocks[j].start <= blocks[j].end <= blocks[g.last].end
  {
    if g.first < j { AscendingApart(blocks, g.first, j); }
    if j < g.last { AscendingApart(blocks, j, g.last); }
  }

  /** For ascending blocks partitioned by a strategy, the read tuples are
      themselves ascending, so sorting them by start leaves them where they are. */
  lemma {:induction false} ReadRangesAscending(blocks: seq<ChunkRange>, groups: seq<Group>)
    requires Ascending(blocks) && |blocks| > 0 && Partitions(groups, 0, |blocks| - 1)
    ensures ValidGroups(groups, |blocks|)
    ensures Ascending(ReadRanges(blocks, groups)) && Ordered(ReadRanges(blocks, groups))
  {
    PartitionsValid(groups, |blocks| - 1);
    var ranges := ReadRanges(blocks, groups);
    forall g | 0 <= g < |groups| ensures ranges[g].start <= ranges[g].end {
      GroupCoversBlock(blocks, groups[g], groups[g].first);
    }
    forall g | 0 < g < |groups| ensures ranges[g - 1].end <= ranges[g].start {
      AscendingApart(blocks, groups[g - 1].last, groups[g].first);
    }
  }

  /** A partition of `0..last` only names blocks up to `last`. */
  lemma {:induction false} PartitionsValid(groups: seq<Group>, last: nat)
    requires Partitions(groups, 0, last)
    ensures ValidGroups(groups, last + 1)
    ensures forall g, h :: 0 <= g < h < |groups| ==> groups[g].last < groups[h].first
  {
    forall g, h | 0 <= g < h < |groups| ensures groups[g].last < groups[h].first {
      GroupsIncrease(groups, last, g, h);
    }
    forall g | 0 <= g < |groups| ensures groups[g].last <= last {
      if g < |groups| - 1 { GroupsIncrease(groups, last, g, |groups| - 1); }
    }
  }

  lemma {:induction false} GroupsIncrease(groups: seq<Group>, last: nat, g: nat, h: nat)
    requires Partitions(groups, 0, last) && g < h < |groups|
    ensures groups[g].last < groups[h].first
    decreases h - g
  {
    if g + 1 < h { GroupsIncrease(groups, last, g + 1, h); }
  }

  // ---------------------------------------------------------------------
  // The selection mask of the grouped read
  // ---------------------------------------------------------------------

  /** The rows of each block, for any record that names its rows through
      `rows`. */
  function Extents<T>(items: seq<T>, rows: T -> ChunkRange): (blocks: seq<ChunkRange>)
    ensures |blocks| == |items|
    ensures forall i :: 0 <= i < |items| ==> blocks[i] == rows(items[i])
  {
    seq(|items|, i requires 0 <= i < |items| => rows(items[i]))
  }

  /** The rows of a block the envelope query matched. */
  function BlockRows(b: QueryBlockResult): ChunkRange
  {
    ChunkRange(b.start, b.end)
  }

  /** The row intervals a block marks as selected: its secondary slices when
      the secondary index is used, otherwise the whole block. */
  function Marks(b: QueryBlockResult, useSecondary: bool): set<QueryResult>
  {
    if useSecondary then b.q.Values else {QueryResult(b.start, b.end)}
  }

  /** The sorted blocks ascend, and every secondary slice lies in its block. */
  predicate WellFormed(items: seq<QueryBlockResult>)
  {
    && Ascending(Extents(items, BlockRows))
    && (forall j, s {:trigger s in items[j].q.Values} :: 0 <= j < |items| && s in items[j].q.Values ==>
          items[j].start <= s.start <= s.end <= items[j].end)
  }

  /** Row `row` lies in one of the intervals a block of `g` marks. */
  predicate RowMarked(items: seq<QueryBlockResult>, g: Group, useSecondary: bool, row: int)
    requires g.first <= g.last < |items|
  {
    exists j, s {:trigger s in Marks(items[j], useSecondary)} ::
      g.first <= j <= g.last && s in Marks(items[j], useSecondary) && s.start <= row < s.end
  }

  /** Mask position `x` is set by group `g` when the mask places that group's
      first row at `base`: the row `x - base` past the group's first row is
      marked. */
  predicate MarkedBy(items: seq<QueryBlockResult>, g: Group, base: int, useSecondary: bool, x: int)
    requires g.first <= g.last < |items|
  {
    RowMarked(items, g, useSecondary, items[g.first].start + (x - base))
  }

  /** Where the read buffer holds group `g`'s first row: the summed lengths
      of the groups before it. */
  function Offset(items: seq<QueryBlockResult>, groups: seq<Group>, g: nat): int
    requires ValidGroups(groups, |items|) && g <= |groups|
  {
    PrefixLength(ReadRanges(Extents(items, BlockRows), groups), g)
  }

  /** `select_array_length`: the summed lengths of the read tuples. */
  function MaskLength(items: seq<QueryBlockResult>, groups: seq<Group>): int
    requires ValidGroups(groups, |items|)
  {
    TotalLength(ReadRanges(Extents(items, BlockRows), groups))
  }

  /** The mask as built at main.py:704-715: every group's intervals are
      placed relative to that group's own first row, as if each group were
      read into the buffer from position 0. */
  ghost function GroupMaskAsWritten(items: seq<QueryBlockResult>, groups: seq<Group>, useSecondary: bool): seq<bool>
    requires ValidGroups(groups, |items|) && MaskLength(items, groups) >= 0
  {
    seq(MaskLength(items, groups), x =>
      exists g {:trigger MarkedBy(items, groups[g], 0, useSecondary, x)} ::
        0 <= g < |groups| && MarkedBy(items, groups[g], 0, useSecondary, x))
  }

  /** Mask position `x` is set once each group's intervals are placed where
      the read buffer holds that group: after the groups before it. */
  predicate CorrectedMarked(items: seq<QueryBlockResult>, groups: seq<Group>, useSecondary: bool, x: int)
    requires ValidGroups(groups, |items|)
  {
    exists g {:trigger MarkedBy(items, groups[g], Offset(items, groups, g), useSecondary, x)} ::
      0 <= g < |groups| && MarkedBy(items, groups[g], Offset(items, groups, g), useSecondary, x)
  }

  /** The mask with each group's intervals placed where the read buffer
      holds that group. */
  ghost function GroupMaskCorrected(items: seq<QueryBlockResult>, groups: seq<Group>, useSecondary: bool): seq<bool>
    requires ValidGroups(groups, |items|) && MaskLength(items, groups) >= 0
  {
    seq(MaskLength(items, groups), x => CorrectedMarked(items, groups, useSecondary, x))
  }

  /** The facts about groups and offsets the mask lemmas share. */
  lemma GroupFacts(items: seq<QueryBlockResult>, groups: seq<Group>)
    requires WellFormed(items) && |items| > 0 && Partitions(groups, 0, |items| - 1)
    ensures ValidGroups(groups, |items|)
    ensures Ordered(ReadRanges(Extents(items, BlockRows), groups))
    ensures MaskLength(items, groups) >= 0
  {
    ReadRangesAscending(Extents(items, BlockRows), groups);
    PrefixLengthMonotone(ReadRanges(Extents(items, BlockRows), groups), 0, |groups|);
  }

  /** Group `g`'s stretch of the buffer: it starts at the group's offset,
      is as long as the group's read tuple, and ends inside the buffer. */
  lemma Stretch(items: seq<QueryBlockResult>, groups: seq<Group>, g: nat)
    requires WellFormed(items) && |items| > 0 && Partitions(groups, 0, |items| - 1)
    requires ValidGroups(groups, |items|) && g < |groups|
    ensures 0 <= Offset(items, groups, g)
    ensures Offset(items, groups, g + 1) == Offset(items, groups, g) + (items[groups[g].last].end - items[groups[g].first].start)
    ensures Offset(items, groups, g + 1) <= MaskLength(items, groups)
  {
    var ranges := ReadRanges(Extents(items, BlockRows), groups);
    GroupFacts(items, groups);
    PrefixLengthMonotone(ranges, 0, g);
    PrefixLengthMonotone(ranges, g + 1, |groups|);
  }

  /** A mark of a group's block lies inside the group's read tuple. */
  lemma MarkInsideGroup(items: seq<QueryBlockResult>, g: Group, j: nat, s: QueryResult, useSecondary: bool)
    requires WellFormed(items) && g.first <= j <= g.last < |items|
    requires s in Marks(items[j], useSecondary)
    ensures items[g.first].start <= s.start <= s.end <= items[g.last].end
  {
    GroupCoversBlock(Extents(items, BlockRows), g, j);
  }

  /** A group's marks land inside the stretch of the buffer that holds the group. */
  lemma MarkedWithinStretch(items: seq<QueryBlockResult>, groups: seq<Group>, useSecondary: bool, h: nat, x: int)
    requires WellFormed(items) && |items| > 0 && Partitions(groups, 0, |items| - 1)
    requires ValidGroups(groups, |items|)
    requires h < |groups| && MarkedBy(items, groups[h], Offset(items, groups, h), useSecondary, x)
    ensures Offset(items, groups, h) <= x < Offset(items, groups, h + 1)
  {
    var j, s :| groups[h].first <= j <= groups[h].last && s in Marks(items[j], useSecondary) &&
      Offset(items, groups, h) + s.start - items[groups[h].first].start <= x
      < Offset(items, groups, h) + s.end - items[groups[h].first].start;
    MarkInsideGroup(items, groups[h], j, s, useSecondary);
    Stretch(items, groups, h);
  }

  /** Only the group whose stretch holds `x` can mark `x`. */
  lemma StretchOwner(items: seq<QueryBlockResult>, groups: seq<Group>, useSecondary: bool, g: nat, h: nat, x: int)
    requires WellFormed(items) && |items| > 0 && Partitions(groups, 0, |items| - 1)
    requires ValidGroups(groups, |items|) && g < |groups| && h < |groups|
    requires Offset(items, groups, g) <= x < Offset(items, groups, g + 1)
    requires MarkedBy(items, groups[h], Offset(items, groups, h), useSecondary, x)
    ensures h == g
  {
    GroupFacts(items, groups);
    var ranges := ReadRanges(Extents(items, BlockRows), groups);
    MarkedWithinStretch(items, groups, useSecondary, h, x);
    if h < g {
      PrefixLengthMonotone(ranges, h + 1, g);
    } else if g < h {
      PrefixLengthMonotone(ranges, g + 1, h);
    }
  }

  /** A position of group `g`'s stretch that the corrected mask sets was set
      by group `g` itself, for a row of one of its marked intervals. */
  lemma MarkedOnlyByOwnGroup(items: seq<QueryBlockResult>, groups: seq<Group>, useSecondary: bool, g: nat, x: int)
    requires WellFormed(items) && |items| > 0 && Partitions(groups, 0, |items| - 1)
    requires ValidGroups(groups, |items|) && g < |groups|
    requires Offset(items, groups, g) <= x < Offset(items, groups, g + 1)
    requires CorrectedMarked(items, groups, useSecondary, x)
    ensures RowMarked(items, groups[g], useSecondary, items[groups[g].first].start + (x - Offset(items, groups, g)))
  {
    var h :| 0 <= h < |groups| && MarkedBy(items, groups[h], Offset(items, groups, h), useSecondary, x);
    StretchOwner(items, groups, useSecondary, g, h, x);
  }

  /** The corrected mask marks buffer position `offset_g + i` exactly when
      row `first_g.start + i` lies in a marked interval of one of the group's
      blocks. */
  lemma CorrectedMaskAt(items: seq<QueryBlockResult>, groups: seq<Group>, useSecondary: bool, g: nat, i: nat)
    requires WellFormed(items) && |items| > 0 && Partitions(groups, 0, |items| - 1)
    requires ValidGroups(groups, |items|)
    requires g < |groups| && i < items[groups[g].last].end - items[groups[g].first].start
    ensures MaskLength(items, groups) >= 0
    ensures 0 <= Offset(items, groups, g) && Offset(items, groups, g) + i < MaskLength(items, groups)
    ensures GroupMaskCorrected(items, groups, useSecondary)[Offset(items, groups, g) + i]
        <==> RowMarked(items, groups[g], useSecondary, items[groups[g].first].start + i)
  {
    GroupFacts(items, groups);
    Stretch(items, groups, g);
    var x := Offset(items, groups, g) + i;
    assert GroupMaskCorrected(items, groups, useSecondary)[x] == CorrectedMarked(items, groups, useSecondary, x);
    if CorrectedMarked(items, groups, useSecondary, x) {
      MarkedOnlyByOwnGroup(items, groups, useSecondary, g, x);
    } else {
      assert !MarkedBy(items, groups[g], Offset(items, groups, g), useSecondary, x);
    }
  }

  /** Buffer position `offset_g + i` of the grouped read holds row
      `first_g.start + i` of the component. */
  lemma GroupedBufferAt<T>(items: seq<QueryBlockResult>, groups: seq<Group>, values: seq<T>, g: nat, i: nat)
    requires WellFormed(items) && |items| > 0 && Partitions(groups, 0, |items| - 1)
    requires ValidGroups(groups, |items|) && InExtent(Extents(items, BlockRows), |values|)
    requires g < |groups| && i < items[groups[g].last].end - items[groups[g].first].start
    ensures InExtent(ReadRanges(Extents(items, BlockRows), groups), |values|)
    ensures 0 <= Offset(items, groups, g) && Offset(items, groups, g) + i < MaskLength(items, groups)
    ensures Gather(values, ReadRanges(Extents(items, BlockRows), groups))[Offset(items, groups, g) + i]
         == values[items[groups[g].first].start + i]
  {
    GroupFacts(items, groups);
    ReadRangesInExtent(items, groups, |values|);
    var ranges := ReadRanges(Extents(items, BlockRows), groups);
    assert ranges[g].start == items[groups[g].first].start;
    GatherAtPosition(values, ranges, g, Offset(items, groups, g) + i, items[groups[g].first].start + i);
  }

  /** The read tuples stay inside a component that holds every block. */
  lemma ReadRangesInExtent(items: seq<QueryBlockResult>, groups: seq<Group>, n: nat)
    requires WellFormed(items) && |items| > 0 && Partitions(groups, 0, |items| - 1)
    requires ValidGroups(groups, |items|) && InExtent(Extents(items, BlockRows), n)
    ensures InExtent(ReadRanges(Extents(items, BlockRows), groups), n)
  {
    GroupFacts(items, groups);
    var ranges := ReadRanges(Extents(items, BlockRows), groups);
    forall k | 0 <= k < |ranges| ensures ranges[k].end <= n {
      assert Extents(items, BlockRows)[groups[k].last].end <= n;
    }
  }

  /** Blocks `0..1` and `10..11`, no secondary slices. */
  function TwoBlocks(): seq<QueryBlockResult>
  {
    [QueryBlockResult(0, 1, map[]), QueryBlockResult(10, 11, map[])]
  }

  /** A planner whose cost line always favours a second read across a gap. */
  function SplittingPlanner(): Planner
  {
    Planner(10, 1.0, 0.0, 1000)
  }

  /** Two one-row blocks ten rows apart are read as two groups; the read
      buffer holds row 0 then row 10, both selected. The mask as written
      places the second block at position 0 again and leaves position 1
      unset, so row 10 is dropped; the corrected mask keeps both. */
  lemma GroupMaskDropsLaterGroups()
    ensures Strategy(Extents(TwoBlocks(), BlockRows), 0, 1, 0, SplittingPlanner()) == [Group(0, 0), Group(1, 1)]
    ensures ReadRanges(Extents(TwoBlocks(), BlockRows), [Group(0, 0), Group(1, 1)]) == [ChunkRange(0, 1), ChunkRange(10, 11)]
    ensures MaskLength(TwoBlocks(), [Group(0, 0), Group(1, 1)]) == 2
    ensures GroupMaskAsWritten(TwoBlocks(), [Group(0, 0), Group(1, 1)], false) == [true, false]
    ensures GroupMaskCorrected(TwoBlocks(), [Group(0, 0), Group(1, 1)], false) == [true, true]
  {
    TwoBlocksSplit();
    TwoBlocksLayout();
    TwoBlocksWrittenMask();
    TwoBlocksCorrectedMask();
  }

  /** The two blocks are read as two groups. */
  lemma TwoBlocksSplit()
    ensures Strategy(Extents(TwoBlocks(), BlockRows), 0, 1, 0, SplittingPlanner()) == [Group(0, 0), Group(1, 1)]
  {
    var blocks := Extents(TwoBlocks(), BlockRows);
    assert blocks == [ChunkRange(0, 1), ChunkRange(10, 11)];
    assert Gap(blocks, 0) == 9;
    assert LargestGap(blocks, 0, 1) == Cut(9, 0);
    assert SplitWanted(blocks, 0, 1, 0, SplittingPlanner());
  }

  /** The two groups' read tuples, offsets and buffer length. */
  lemma TwoBlocksLayout()
    ensures ReadRanges(Extents(TwoBlocks(), BlockRows), [Group(0, 0), Group(1, 1)]) == [ChunkRange(0, 1), ChunkRange(10, 11)]
    ensures MaskLength(TwoBlocks(), [Group(0, 0), Group(1, 1)]) == 2
    ensures Offset(TwoBlocks(), [Group(0, 0), Group(1, 1)], 0) == 0
    ensures Offset(TwoBlocks(), [Group(0, 0), Group(1, 1)], 1) == 1
  {
    var ranges := ReadRanges(Extents(TwoBlocks(), BlockRows), [Group(0, 0), Group(1, 1)]);
    assert ranges == [ChunkRange(0, 1), ChunkRange(10, 11)];
    assert PrefixLength(ranges, 1) == 1;
    assert TotalLength(ranges) == 2;
  }

  /** Each block marks exactly its one row. */
  lemma TwoBlocksMarks(k: nat, row: int)
    requires k < 2
    ensures RowMarked(TwoBlocks(), Group(k, k), false, row) <==> row == TwoBlocks()[k].start
  {
    var items := TwoBlocks();
    assert Marks(items[k], false) == {QueryResult(items[k].start, items[k].end)};
    if row == items[k].start {
      assert QueryResult(items[k].start, items[k].end) in Marks(items[k], false);
    }
  }

  /** The mask as written sets position 0 only. */
  lemma TwoBlocksWrittenMask()
    ensures MaskLength(TwoBlocks(), [Group(0, 0), Group(1, 1)]) == 2
    ensures GroupMaskAsWritten(TwoBlocks(), [Group(0, 0), Group(1, 1)], false) == [true, false]
  {
    var items := TwoBlocks();
    var groups := [Group(0, 0), Group(1, 1)];
    TwoBlocksLayout();
    TwoBlocksMarks(0, 0);
    TwoBlocksMarks(0, 1);
    TwoBlocksMarks(1, 11);
    TwoBlocksMarks(1, 10);
    assert MarkedBy(items, groups[0], 0, false, 0);
    assert !MarkedBy(items, groups[0], 0, false, 1);
    assert !MarkedBy(items, groups[1], 0, false, 1);
  }

  /** The corrected mask sets both positions. */
  lemma TwoBlocksCorrectedMask()
    ensures MaskLength(TwoBlocks(), [Group(0, 0), Group(1, 1)]) == 2
    ensures GroupMaskCorrected(TwoBlocks(), [Group(0, 0), Group(1, 1)], false) == [true, true]
  {
    var items := TwoBlocks();
    var groups := [Group(0, 0), Group(1, 1)];
    TwoBlocksLayout();
    TwoBlocksMarks(0, 0);
    TwoBlocksMarks(1, 10);
    assert MarkedBy(items, groups[0], Offset(items, groups, 0), false, 0);
    assert MarkedBy(items, groups[1], Offset(items, groups, 1), false, 1);
  }

  // ---------------------------------------------------------------------
  // np.concatenate of the masks
  // ---------------------------------------------------------------------

  /** The argument of `np.concatenate`: one flat boolean array, or a list of them. */
  datatype BoolArrays = Flat(bits: seq<bool>) | Arrays(rows: seq<seq<bool>>)

  /** Why `np.concatenate` raises: the elements of a flat array are
      zero-dimensional, and an empty argument has nothing to join. */
  datatype ConcatError = ZeroDimensional | NothingToConcatenate

  /** The first `g` rows one after the other. */
  function FlattenUpTo(rows: seq<seq<bool>>, g: nat): seq<bool>
    requires g <= |rows|
  {
    if g == 0 then [] else FlattenUpTo(rows, g - 1) + rows[g - 1]
  }

  /** All rows one after the other. */
  function Flatten(rows: seq<seq<bool>>): seq<bool>
  {
    FlattenUpTo(rows, |rows|)
  }

  /** `np.concatenate(a)`. */
  function Concatenate(a: BoolArrays): (r: Result<seq<bool>, ConcatError>)
    ensures a.Flat? ==> r.Failure?
    ensures a.Arrays? ==> (r.Success? <==> |a.rows| > 0)
    ensures r.Success? ==> r.value == Flatten(a.rows)
  {
    match a
    case Flat(bits) => if |bits| == 0 then Failure(NothingToConcatenate) else Failure(ZeroDimensional)
    case Arrays(rows) => if |rows| == 0 then Failure(NothingToConcatenate) else Success(Flatten(rows))
  }

  /** main.py:728 hands the grouped path's flat mask to `np.concatenate`,
      which raises whatever the mask holds. */
  lemma GroupedConcatenateFails(items: seq<QueryBlockResult>, groups: seq<Group>, useSecondary: bool)
    requires ValidGroups(groups, |items|) && MaskLength(items, groups) >= 0
    ensures Concatenate(Flat(GroupMaskAsWritten(items, groups, useSecondary))).Failure?
    ensures Concatenate(Flat(GroupMaskCorrected(items, groups, useSecondary))).Failure?
  {
  }

  /** Row `row` of block `b` lies in one of its marked intervals. */
  predicate BlockRowMarked(b: QueryBlockResult, useSecondary: bool, row: int)
  {
    exists s {:trigger s in Marks(b, useSecondary)} :: s in Marks(b, useSecondary) && s.start <= row < s.end
  }

  /** One mask per group, relative to the group's first row: the shape of
      the per-group list the grouped path was designed around, whose
      concatenation is the intended mask. */
  ghost function PerGroupMasks(items: seq<QueryBlockResult>, groups: seq<Group>, useSecondary: bool): (rows: seq<seq<bool>>)
    requires ValidGroups(groups, |items|)
    ensures |rows| == |groups|
  {
    seq(|groups|, g requires 0 <= g < |groups| =>
      var first := items[groups[g].first].start;
      var span := items[groups[g].last].end - first;
      seq(if span < 0 then 0 else span, i => RowMarked(items, groups[g], useSecondary, first + i)))
  }

  /** Every row is as long as the matching read tuple. */
  predicate RowsFit(rows: seq<seq<bool>>, ranges: seq<ChunkRange>)
  {
    |rows| == |ranges| && forall h :: 0 <= h < |rows| ==> |rows[h]| == ranges[h].end - ranges[h].start
  }

  /** The flattened rows are as long as the tuples' prefix. */
  lemma {:induction false} FlattenLength(rows: seq<seq<bool>>, ranges: seq<ChunkRange>, g: nat)
    requires RowsFit(rows, ranges) && g <= |rows|
    ensures |FlattenUpTo(rows, g)| == PrefixLength(ranges, g)
    decreases g
  {
    if g > 0 {
      FlattenLength(rows, ranges, g - 1);
    }
  }

  /** Row `g`'s element `i` sits after the rows before it, where the read
      buffer holds read tuple `g`'s row `i`. */
  lemma {:induction false} FlattenAt(rows: seq<seq<bool>>, ranges: seq<ChunkRange>, m: nat, g: nat, i: nat)
    requires RowsFit(rows, ranges) && m <= |rows| && g < m && i < |rows[g]|
    ensures 0 <= PrefixLength(ranges, g) && PrefixLength(ranges, g) + i < |FlattenUpTo(rows, m)|
    ensures FlattenUpTo(rows, m)[PrefixLength(ranges, g) + i] == rows[g][i]
    decreases m
  {
    var front := FlattenUpTo(rows, m - 1);
    assert FlattenUpTo(rows, m) == front + rows[m - 1];
    FlattenLength(rows, ranges, m - 1);
    if g < m - 1 {
      FlattenAt(rows, ranges, m - 1, g, i);
    } else {
      FlattenLength(rows, ranges, g);
      assert PrefixLength(ranges, g) == |front|;
      assert |front| >= 0;
    }
  }

  /** Concatenating the per-group masks gives the corrected mask, so the
      grouped path works once the masks are built per group and joined. */
  lemma ConcatenatedGroupMasks(items: seq<QueryBlockResult>, groups: seq<Group>, useSecondary: bool)
    requires WellFormed(items) && |items| > 0 && Partitions(groups, 0, |items| - 1)
    ensures ValidGroups(groups, |items|) && MaskLength(items, groups) >= 0
    ensures Concatenate(Arrays(PerGroupMasks(items, groups, useSecondary)))
         == Success(GroupMaskCorrected(items, groups, useSecondary))
  {
    GroupFacts(items, groups);
    var ranges := ReadRanges(Extents(items, BlockRows), groups);
    var rows := PerGroupMasks(items, groups, useSecondary);
    var mask := GroupMaskCorrected(items, groups, useSecondary);
    PerGroupMasksFit(items, groups, useSecondary);
    FlattenLength(rows, ranges, |rows|);
    var flat := Flatten(rows);
    forall x | 0 <= x < |mask| ensures flat[x] == mask[x] {
      FlatMaskAt(items, groups, useSecondary, x);
    }
    assert flat == mask;
  }

  /** The per-group masks are as long as the groups' read tuples. */
  lemma PerGroupMasksFit(items: seq<QueryBlockResult>, groups: seq<Group>, useSecondary: bool)
    requires WellFormed(items) && |items| > 0 && Partitions(groups, 0, |items| - 1)
    requires ValidGroups(groups, |items|)
    ensures RowsFit(PerGroupMasks(items, groups, useSecondary), ReadRanges(Extents(items, BlockRows), groups))
  {
    var ranges := ReadRanges(Extents(items, BlockRows), groups);
    var rows := PerGroupMasks(items, groups, useSecondary);
    forall h | 0 <= h < |rows| ensures |rows[h]| == ranges[h].end - ranges[h].start {
      GroupCoversBlock(Extents(items, BlockRows), groups[h], groups[h].first);
    }
  }

  /** Element `i` of group `g`'s own mask. */
  lemma PerGroupMaskAt(items: seq<QueryBlockResult>, groups: seq<Group>, useSecondary: bool, g: nat, i: nat)
    requires ValidGroups(groups, |items|) && g < |groups|
    requires i < |PerGroupMasks(items, groups, useSecondary)[g]|
    ensures PerGroupMasks(items, groups, useSecondary)[g][i]
        == RowMarked(items, groups[g], useSecondary, items[groups[g].first].start + i)
  {
  }

  /** Position `x` of the joined per-group masks agrees with the corrected mask. */
  lemma FlatMaskAt(items: seq<QueryBlockResult>, groups: seq<Group>, useSecondary: bool, x: nat)
    requires WellFormed(items) && |items| > 0 && Partitions(groups, 0, |items| - 1)
    requires ValidGroups(groups, |items|) && MaskLength(items, groups) >= 0
    requires x < MaskLength(items, groups)
    ensures x < |Flatten(PerGroupMasks(items, groups, useSecondary))|
    ensures Flatten(PerGroupMasks(items, groups, useSecondary))[x] == GroupMaskCorrected(items, groups, useSecondary)[x]
  {
    GroupFacts(items, groups);
    var ranges := ReadRanges(Extents(items, BlockRows), groups);
    var rows := PerGroupMasks(items, groups, useSecondary);
    PerGroupMasksFit(items, groups, useSecondary);
    var g := ChunkOf(ranges, |ranges|, x);
    var i := x - PrefixLength(ranges, g);
    FlattenAt(rows, ranges, |rows|, g, i);
    PerGroupMaskAt(items, groups, useSecondary, g, i);
    CorrectedMaskAt(items, groups, useSecondary, g, i);
  }

  // ---------------------------------------------------------------------
  // The direct block and direct slice read paths
  // ---------------------------------------------------------------------

  /** `result_to_tuple`: a block's (or slice's) own rows. */
  function ResultToTuple(b: QueryBlockResult): (c: ChunkRange)
    ensures c.end - c.start == b.end - b.start
  {
    ChunkRange(b.start, b.end)
  }

  /** One mask per block in dict order, each relative to its own block. */
  ghost function PerBlockMasks(items: seq<QueryBlockResult>, useSecondary: bool): (rows: seq<seq<bool>>)
    ensures |rows| == |items|
  {
    seq(|items|, k requires 0 <= k < |items| =>
      var span := items[k].end - items[k].start;
      seq(if span < 0 then 0 else span, i => BlockRowMarked(items[k], useSecondary, items[k].start + i)))
  }

  /** The read tuples of the direct block read: one per block, in dict order. */
  function DirectRanges(items: seq<QueryBlockResult>): (ranges: seq<ChunkRange>)
    ensures |ranges| == |items|
    ensures forall k :: 0 <= k < |items| ==> ranges[k] == ChunkRange(items[k].start, items[k].end)
    ensures forall k :: 0 <= k < |items| ==> ranges[k].end - ranges[k].start == items[k].end - items[k].start
  {
    seq(|items|, j requires 0 <= j < |items| => ResultToTuple(items[j]))
  }

  /** The direct block read: buffer position `offset_k + i` holds row
      `start_k + i` of block `k`. */
  lemma DirectBlockBuffer<T>(items: seq<QueryBlockResult>, values: seq<T>, k: nat, i: nat) returns (x: int)
    requires forall j :: 0 <= j < |items| ==> items[j].start <= items[j].end <= |values|
    requires k < |items| && i < items[k].end - items[k].start
    ensures InExtent(DirectRanges(items), |values|)
    ensures x == PrefixLength(DirectRanges(items), k) + i && 0 <= x < TotalLength(DirectRanges(items))
    ensures Gather(values, DirectRanges(items))[x] == values[items[k].start + i]
  {
    var ranges := DirectRanges(items);
    DirectRangesInExtent(items, |values|);
    x := PrefixLength(ranges, k) + i;
    GatherAtPosition(values, ranges, k, x, items[k].start + i);
  }

  /** The direct read stays inside a component that holds every block. */
  lemma DirectRangesInExtent(items: seq<QueryBlockResult>, n: nat)
    requires forall j :: 0 <= j < |items| ==> items[j].start <= items[j].end <= n
    ensures InExtent(DirectRanges(items), n)
  {
  }

  /** With secondary slices, the per-block masks can be joined, into a mask
      as long as the direct read's buffer. */
  lemma DirectMaskFits(items: seq<QueryBlockResult>)
    requires forall j :: 0 <= j < |items| ==> items[j].start <= items[j].end
    ensures RowsFit(PerBlockMasks(items, true), DirectRanges(items))
    ensures |items| > 0 ==> Concatenate(Arrays(PerBlockMasks(items, true))).Success?
    ensures |Flatten(PerBlockMasks(items, true))| == TotalLength(DirectRanges(items))
  {
    PerBlockMasksFit(items, true);
    FlattenLength(PerBlockMasks(items, true), DirectRanges(items), |items|);
  }

  /** With secondary slices, the per-block masks joined by `np.concatenate`
      are as long as the buffer, and mark buffer position `offset_k + i`
      exactly when a slice of block `k` holds row `start_k + i`. */
  lemma DirectBlockMask(items: seq<QueryBlockResult>, k: nat, i: nat)
    requires forall j :: 0 <= j < |items| ==> items[j].start <= items[j].end
    requires k < |items| && i < items[k].end - items[k].start
    ensures Concatenate(Arrays(PerBlockMasks(items, true))).Success?
    ensures |Concatenate(Arrays(PerBlockMasks(items, true))).value| == TotalLength(DirectRanges(items))
    ensures 0 <= PrefixLength(DirectRanges(items), k)
    ensures PrefixLength(DirectRanges(items), k) + i < TotalLength(DirectRanges(items))
    ensures Concatenate(Arrays(PerBlockMasks(items, true))).value[PrefixLength(DirectRanges(items), k) + i]
        <==> BlockRowMarked(items[k], true, items[k].start + i)
  {
    var ranges := DirectRanges(items);
    var rows := PerBlockMasks(items, true);
    DirectMaskFits(items);
    FlattenAt(rows, ranges, |rows|, k, i);
    PerBlockMaskAt(items, true, k, i);
  }

  /** The per-block masks are as long as the blocks. */
  lemma PerBlockMasksFit(items: seq<QueryBlockResult>, useSecondary: bool)
    requires forall j :: 0 <= j < |items| ==> items[j].start <= items[j].end
    ensures RowsFit(PerBlockMasks(items, useSecondary), DirectRanges(items))
  {
  }

  /** Element `i` of block `k`'s own mask. */
  lemma PerBlockMaskAt(items: seq<QueryBlockResult>, useSecondary: bool, k: nat, i: nat)
    requires k < |items| && i < |PerBlockMasks(items, useSecondary)[k]|
    ensures PerBlockMasks(items, useSecondary)[k][i] == BlockRowMarked(items[k], useSecondary, items[k].start + i)
  {
  }

  /** The direct slice read: the secondary slices of each block, in dict
      order, become the read tuples, and no mask is built. */
  function SliceRanges(slices: seq<seq<QueryResult>>): seq<ChunkRange>
    decreases |slices|
  {
    if |slices| == 0 then []
    else
      var last := slices[|slices| - 1];
      SliceRanges(slices[..|slices| - 1]) + seq(|last|, i requires 0 <= i < |last| => ChunkRange(last[i].start, last[i].end))
  }

  /** The slice read reads exactly the secondary slices' rows: a tuple is
      read iff it is one of the slices. */
  lemma {:induction false} SliceRangesMembers(slices: seq<seq<QueryResult>>, c: ChunkRange)
    ensures c in SliceRanges(slices) <==>
      exists k, s :: 0 <= k < |slices| && s in slices[k] && c == ChunkRange(s.start, s.end)
    decreases |slices|
  {
    if |slices| > 0 {
      var n := |slices| - 1;
      var last := slices[n];
      var init := slices[..n];
      var tail := seq(|last|, i requires 0 <= i < |last| => ChunkRange(last[i].start, last[i].end));
      SliceRangesMembers(init, c);
      assert SliceRanges(slices) == SliceRanges(init) + tail;
      if c in tail {
        var i :| 0 <= i < |last| && tail[i] == c;
        assert last[i] in slices[n];
      }
      if c in SliceRanges(init) {
        var k: int, s: QueryResult :| 0 <= k < |init| && s in init[k] && c == ChunkRange(s.start, s.end);
        assert init[k] == slices[k];
      }
      if exists k, s :: 0 <= k < |slices| && s in slices[k] && c == ChunkRange(s.start, s.end) {
        var k: int, s: QueryResult :| 0 <= k < |slices| && s in slices[k] && c == ChunkRange(s.start, s.end);
        if k < n {
          assert init[k] == slices[k];
        } else {
          var i :| 0 <= i < |last| && last[i] == s;
          assert tail[i] == c;
        }
      }
    }
  }

  /** The number of secondary slices over all blocks. */
  function SliceCount(slices: seq<seq<QueryResult>>): nat
    decreases |slices|
  {
    if |slices| == 0 then 0 else SliceCount(slices[..|slices| - 1]) + |slices[|slices| - 1]|
  }

  /** The slice read has exactly one tuple per slice. */
  lemma {:induction false} SliceRangesLength(slices: seq<seq<QueryResult>>)
    ensures |SliceRanges(slices)| == SliceCount(slices)
    decreases |slices|
  {
    if |slices| > 0 {
      SliceRangesLength(slices[..|slices| - 1]);
    }
  }

  /** Slice `i` of block `k` is read by the tuple after the earlier blocks'
      slices, so the tuples follow the blocks and, within a block, the
      slices' own order. */
  lemma {:induction false} SliceRangesAt(slices: seq<seq<QueryResult>>, k: nat, i: nat)
    requires k < |slices| && i < |slices[k]|
    ensures |SliceRanges(slices)| == SliceCount(slices)
    ensures SliceCount(slices[..k]) + i < |SliceRanges(slices)|
    ensures SliceRanges(slices)[SliceCount(slices[..k]) + i] == ChunkRange(slices[k][i].start, slices[k][i].end)
    decreases |slices|
  {
    SliceRangesLength(slices);
    var n := |slices| - 1;
    var init := slices[..n];
    var last := slices[n];
    var tail := seq(|last|, j requires 0 <= j < |last| => ChunkRange(last[j].start, last[j].end));
    assert SliceRanges(slices) == SliceRanges(init) + tail;
    SliceRangesLength(init);
    if k == n {
      assert slices[..k] == init;
      assert SliceRanges(slices)[SliceCount(init) + i] == tail[i];
    } else {
      SliceRangesAt(init, k, i);
      assert init[k] == slices[k];
      assert init[..k] == slices[..k];
      assert SliceCount(init) <= SliceCount(slices);
    }
  }

  /** The read path `get_particle` takes. */
  datatype ReadPath = GroupedRead | DirectBlockRead | DirectSliceRead | NoReadStrategy

  /** Grouping wins over the direct block read, which wins over the direct
      slice read; with none of them enabled nothing is read. */
  function ChooseReadPath(readGroups: bool, directBlockRead: bool, useSecondary: bool): (p: ReadPath)
    ensures p == NoReadStrategy <==> !readGroups && !directBlockRead && !useSecondary
    ensures p == DirectSliceRead ==> useSecondary
    ensures readGroups ==> p == GroupedRead
    ensures p == DirectBlockRead <==> !readGroups && directBlockRead
    ensures p == DirectSliceRead <==> !readGroups && !directBlockRead && useSecondary
  {
    if readGroups then GroupedRead
    else if directBlockRead then DirectBlockRead
    else if useSecondary then DirectSliceRead
    else NoReadStrategy
  }
}

=== FILE: reconcile.dfy ===
/** Reconciling the per-quantity index answers of `get_particle`
    (openpmd_viewer/openpmd_timeseries/main.py): only blocks every answer
    holds survive, and an empty or oversized result stops the query before
    anything is read. The slice pruning the code attempts is lost on a copy;
    `IntersectCorrected` is the pruning it intends. */
module Reconcile {
  import opened Wrappers
  import opened QueryResults
  import opened Decimal

  /** How the query ends after reconciliation. */
  datatype Outcome =
    | NoAnswers                          // `query_result[0]` on an empty list raises
    | NoBlocks                           // `return list(), list()`
    | TooMany(message: string)           // the block limit is exceeded
    | Blocks(m: map<string, QueryBlockResult>)

  /** The running `set.intersection` over the first `n` answers' block keys. */
  function KeyIntersection(results: seq<map<string, QueryBlockResult>>, n: nat): (r: set<string>)
    requires 1 <= n <= |results|
    ensures forall k :: k in r <==> forall i :: 0 <= i < n ==> k in results[i]
  {
    if n == 1 then results[0].Keys else KeyIntersection(results, n - 1) * results[n - 1].Keys
  }

  /** The running intersection of block `b`'s slice keys over the first `n`
      answers. */
  function SliceIntersection(results: seq<map<string, QueryBlockResult>>, b: string, n: nat): (r: set<string>)
    requires 1 <= n <= |results| && forall i :: 0 <= i < n ==> b in results[i]
    ensures forall s :: s in r <==> forall i :: 0 <= i < n ==> s in results[i][b].q
  {
    if n == 1 then results[0][b].q.Keys else SliceIntersection(results, b, n - 1) * results[n - 1][b].q.Keys
  }

  /** The first answer after deleting the blocks the others lack (lines
      640-649). The slice deletions at lines 656-664 change nothing: `q` is
      bound with `def_readwrite` over an STL map (python/geosindex.cpp:3, 33),
      so every `.q` access yields a fresh dict and `del` removes the slice
      from that copy only. Every survivor therefore keeps the first answer's
      value whole, in both modes. */
  function Intersect(results: seq<map<string, QueryBlockResult>>, useSecondary: bool): (r: map<string, QueryBlockResult>)
    requires |results| > 0
    ensures forall k :: k in r <==> forall i :: 0 <= i < |results| ==> k in results[i]
    ensures forall k :: k in r ==> r[k] == results[0][k]
  {
    if |results| == 1 then results[0]
    else
      var common := KeyIntersection(results, |results|);
      map k | k in results[0] && k in common :: results[0][k]
  }

  /** The pruning lines 656-664 evidently intend: with the secondary index in
      use, a surviving block also loses the slices some answer lacks. */
  function IntersectCorrected(results: seq<map<string, QueryBlockResult>>, useSecondary: bool): (r: map<string, QueryBlockResult>)
    requires |results| > 0
    ensures r.Keys == Intersect(results, useSecondary).Keys
    ensures forall k :: k in r ==> r[k].start == results[0][k].start && r[k].end == results[0][k].end
    ensures !useSecondary ==> r == Intersect(results, useSecondary)
  {
    var kept := Intersect(results, useSecondary);
    if !useSecondary || |results| == 1 then kept
    else
      map k | k in kept ::
        kept[k].(q := map s | s in kept[k].q && s in SliceIntersection(results, k, |results|) :: kept[k].q[s])
  }

  /** With the secondary index in use, a surviving block of the corrected
      pruning keeps exactly the slices every answer holds for it, with the
      first answer's values; otherwise its slices are untouched. */
  lemma IntersectSlices(results: seq<map<string, QueryBlockResult>>, useSecondary: bool, k: string)
    requires |results| > 0
    requires k in IntersectCorrected(results, useSecondary)
    ensures var q := IntersectCorrected(results, useSecondary)[k].q;
      (useSecondary ==> forall s :: s in q <==> forall i :: 0 <= i < |results| ==> s in results[i][k].q) &&
      (forall s :: s in q ==> s in results[0][k].q && q[s] == results[0][k].q[s])
  {
    if useSecondary && |results| == 1 {
      var q := IntersectCorrected(results, useSecondary)[k].q;
      assert forall s :: s in q <==> forall i :: 0 <= i < 1 ==> s in results[i][k].q;
    }
  }

  /** Two answers sharing block "0": the first holds slices "0" and "5", the
      second only "0". */
  function SliceExample(): seq<map<string, QueryBlockResult>>
  {
    [map["0" := QueryBlockResult(0, 10, map["0" := QueryResult(0, 5), "5" := QueryResult(5, 10)])],
     map["0" := QueryBlockResult(0, 10, map["0" := QueryResult(0, 5)])]]
  }

  /** As written, slice "5" survives the secondary pruning although the
      second answer lacks it, so the later slice reads (lines 710, 743, 757)
      still cover it; the corrected pruning drops it. */
  lemma SliceDeletionLost()
    ensures "0" in Intersect(SliceExample(), true)
    ensures "5" in Intersect(SliceExample(), true)["0"].q
    ensures "5" !in SliceExample()[1]["0"].q
    ensures "0" in IntersectCorrected(SliceExample(), true)
    ensures "5" !in IntersectCorrected(SliceExample(), true)["0"].q
  {
    var rs := SliceExample();
    assert "0" in rs[0] && "0" in rs[1];
    assert "0" in Intersect(rs, true);
    IntersectSlices(rs, true, "0");
    assert "5" !in rs[1]["0"].q;
  }

  /** The message returned instead of data when too many blocks survive. */
  function TooManyMessage(count: nat): string
  {
    "The number of blocks is " + ToDecimal(count) + ", please reduce the range of the selection"
  }

  /** Reconciliation and the two early exits (lines 668-673). A limit of
      `None` or 0 is falsy and never triggers. */
  function Reconcile(results: seq<map<string, QueryBlockResult>>, useSecondary: bool, limit: Option<nat>): (o: Outcome)
    ensures |results| == 0 <==> o == NoAnswers
    ensures |results| > 0 ==>
      (o == NoBlocks <==> |Intersect(results, useSecondary)| == 0)
    ensures |results| > 0 && o.TooMany? ==>
      limit.Some? && 0 < limit.value < |Intersect(results, useSecondary)| &&
      o.message == TooManyMessage(|Intersect(results, useSecondary)|)
    ensures |results| > 0 && o.Blocks? ==>
      o.m == Intersect(results, useSecondary) && |o.m| > 0 &&
      (limit.None? || limit.value == 0 || |o.m| <= limit.value)
  {
    if |results| == 0 then NoAnswers
    else
      var r := Intersect(results, useSecondary);
      if |r| == 0 then NoBlocks
      else if limit.Some? && limit.value != 0 && |r| > limit.value then TooMany(TooManyMessage(|r|))
      else Blocks(r)
  }

  /** 501 surviving blocks against a limit of 500 stop the query with a
      message carrying 501. */
  lemma TooManyExample(results: seq<map<string, QueryBlockResult>>, useSecondary: bool)
    requires |results| > 0 && |Intersect(results, useSecondary)| == 501
    ensures Reconcile(results, useSecondary, Some(500)) == TooMany(TooManyMessage(501))
    ensures ToDecimal(501) == "501"
  {
    assert DigitChar(5) == '5' && DigitChar(0) == '0' && DigitChar(1) == '1';
    assert ToDecimal(50) == ToDecimal(5) + ['0'] == "50";
    assert ToDecimal(501) == ToDecimal(50) + ['1'] == "501";
  }

  /** With no surviving block the empty answer comes before the limit check,
      whatever the limit. */
  lemma NoBlocksBeforeLimit(results: seq<map<string, QueryBlockResult>>, useSecondary: bool, limit: Option<nat>)
    requires |results| > 0 && (forall k :: k in results[0] ==> exists i :: 0 <= i < |results| && k !in results[i])
    ensures Reconcile(results, useSecondary, limit) == NoBlocks
  {
  }
}

=== FILE: rtree_build.dfy ===
/** The R-tree index builder (src/rtreebuild.cpp): block envelopes per key,
    the Bloom-filter id lists attached to the tree nodes, and the file the
    serialized trees are written to. The STR-tree packing of envelopes into
    a tree is not part of this model: the builder's trees are inputs. */
module RTreeBuild {
  import opened ExtReal
  import opened BlockRecords
  import opened QueryResults
  import opened TreeCodec
  import opened Wrappers
  import IndexFile
  import SizeCodec

  /** The envelope of one block under secondary type "none": the per-axis
      bounds of its coordinates, the range `[blockStart, blockStart +
      blockCount)` and an empty filter. */
  function BlockEnvelope(b: BlockData): (e: Envelope)
    requires |b.xs| > 0 && |b.ys| > 0 && |b.zs| > 0
    ensures e.start == b.blockStart && e.end == b.blockStart + b.blockCount && e.bloom == NoFilter
    ensures forall i :: 0 <= i < |b.xs| ==> Le(e.minx, b.xs[i]) && Le(b.xs[i], e.maxx)
    ensures forall i :: 0 <= i < |b.ys| ==> Le(e.miny, b.ys[i]) && Le(b.ys[i], e.maxy)
    ensures forall i :: 0 <= i < |b.zs| ==> Le(e.minz, b.zs[i]) && Le(b.zs[i], e.maxz)
    ensures e.minx in b.xs && e.maxx in b.xs && e.miny in b.ys && e.maxy in b.ys && e.minz in b.zs && e.maxz in b.zs
  {
    SeqMinIsLeast(b.xs); SeqMaxIsGreatest(b.xs);
    SeqMinIsLeast(b.ys); SeqMaxIsGreatest(b.ys);
    SeqMinIsLeast(b.zs); SeqMaxIsGreatest(b.zs);
    Envelope(SeqMin(b.xs), SeqMax(b.xs), SeqMin(b.ys), SeqMax(b.ys), SeqMin(b.zs), SeqMax(b.zs),
             b.blockStart, b.blockStart + b.blockCount, NoFilter)
  }

  /** `processBlockData`: under "none" append the block's envelope to the
      list of its key; the other secondary types record nothing. */
  function ProcessBlockData(blocks: map<string, seq<Envelope>>, secondary: SecondaryType, b: BlockData): (r: map<string, seq<Envelope>>)
    requires secondary == NoSecondary ==> |b.xs| > 0 && |b.ys| > 0 && |b.zs| > 0
    ensures secondary != NoSecondary ==> r == blocks
    ensures secondary == NoSecondary ==>
      b.key in r && |r[b.key]| >= 1 && r[b.key][|r[b.key]| - 1] == BlockEnvelope(b) &&
      r[b.key][..|r[b.key]| - 1] == (if b.key in blocks then blocks[b.key] else [])
    ensures forall k :: k != b.key ==> (k in r <==> k in blocks) && (k in blocks ==> r[k] == blocks[k])
  {
    if secondary == NoSecondary then
      blocks[b.key := (if b.key in blocks then blocks[b.key] else []) + [BlockEnvelope(b)]]
    else blocks
  }

  /** Every leaf's range lies inside the id array. */
  ghost predicate LeafRangesIn(n: Node, len: nat)
    decreases n
  {
    (n.level == 0 ==> n.env.start <= n.env.end <= len) &&
    forall i :: 0 <= i < |n.children| ==> LeafRangesIn(n.children[i], len)
  }

  /** Children sit strictly below their parent, as in a tree packed level
      by level. */
  ghost predicate LevelsDecrease(n: Node)
    decreases n
  {
    forall i :: 0 <= i < |n.children| ==> n.children[i].level < n.level && LevelsDecrease(n.children[i])
  }

  /** The ids of the particles under a node: its children's ids in child
      order, then, for a leaf, the ids of its own range. */
  function SubtreeIds(n: Node, ids: seq<nat>): seq<nat>
    requires LeafRangesIn(n, |ids|)
    decreases n, 0
  {
    ForestIds(n.children, ids) + (if n.level == 0 then ids[n.env.start..n.env.end] else [])
  }

  function ForestIds(cs: seq<Node>, ids: seq<nat>): seq<nat>
    requires forall i :: 0 <= i < |cs| ==> LeafRangesIn(cs[i], |ids|)
    decreases cs, 1
  {
    if |cs| == 0 then [] else SubtreeIds(cs[0], ids) + ForestIds(cs[1..], ids)
  }

  /** The filter strength of a node: `max_level - level + 1` bits per key. */
  function BitsPerKey(maxLevel: nat, level: nat): int
  {
    maxLevel - level + 1
  }

  /** `initBloomFilter`: the tree with its filters set, and the id list the
      call leaves in `id_data_sub`. A leaf adds its own range after its
      children's ids and gets a filter; a node at `max_level` that is not a
      leaf returns before creating one; every other node gets a filter of
      the ids gathered below it. */
  function InitBloom(n: Node, ids: seq<nat>, maxLevel: nat): (r: (Node, seq<nat>))
    requires LeafRangesIn(n, |ids|)
    decreases n, 0
  {
    var (cs, below) := InitBloomForest(n.children, ids, maxLevel);
    if n.level == 0 then
      var all := below + ids[n.env.start..n.env.end];
      (Node(n.level, n.env.(bloom := Filter(BitsPerKey(maxLevel, n.level), all)), cs), all)
    else if n.level == maxLevel then
      (Node(n.level, n.env, cs), below)
    else
      (Node(n.level, n.env.(bloom := Filter(BitsPerKey(maxLevel, n.level), below)), cs), below)
  }

  /** The loop over the children: each child fills a fresh list, which is
      appended to the parent's list in child order. */
  function InitBloomForest(cs: seq<Node>, ids: seq<nat>, maxLevel: nat): (r: (seq<Node>, seq<nat>))
    requires forall i :: 0 <= i < |cs| ==> LeafRangesIn(cs[i], |ids|)
    ensures |r.0| == |cs|
    decreases cs, 1
  {
    if |cs| == 0 then ([], [])
    else
      var (c, a) := InitBloom(cs[0], ids, maxLevel);
      var (rest, b) := InitBloomForest(cs[1..], ids, maxLevel);
      ([c] + rest, a + b)
  }

  /** A tree with every filter cleared. */
  function Unbloomed(n: Node): (r: Node)
    ensures |r.children| == |n.children| && r.level == n.level
    decreases n
  {
    Node(n.level, n.env.(bloom := NoFilter), seq(|n.children|, i requires 0 <= i < |n.children| => Unbloomed(n.children[i])))
  }

  /** Every node strictly below `r` carries the filter of the ids under it,
      at strength `max_level - level + 1`. */
  ghost predicate ChildFiltersHold(r: Node, ids: seq<nat>, maxLevel: nat)
    decreases r
  {
    forall i :: 0 <= i < |r.children| ==>
      LeafRangesIn(r.children[i], |ids|) &&
      r.children[i].env.bloom == Filter(BitsPerKey(maxLevel, r.children[i].level), SubtreeIds(r.children[i], ids)) &&
      ChildFiltersHold(r.children[i], ids, maxLevel)
  }

  /** What `initBloomFilter` returns for a node: the ids under it, and the
      same node with the same shape, levels and ranges, whose children are
      the children's own results. */
  lemma {:induction false} InitBloomFacts(n: Node, ids: seq<nat>, maxLevel: nat)
    requires LeafRangesIn(n, |ids|)
    ensures var r := InitBloom(n, ids, maxLevel);
      r.1 == SubtreeIds(n, ids) &&
      r.0.level == n.level && r.0.env.start == n.env.start && r.0.env.end == n.env.end &&
      |r.0.children| == |n.children| &&
      (forall i :: 0 <= i < |n.children| ==>
         LeafRangesIn(n.children[i], |ids|) && r.0.children[i] == InitBloom(n.children[i], ids, maxLevel).0) &&
      LeafRangesIn(r.0, |ids|) && SubtreeIds(r.0, ids) == r.1 && Unbloomed(r.0) == Unbloomed(n)
    decreases n, 0
  {
    var (cs, below) := InitBloomForest(n.children, ids, maxLevel);
    InitBloomForestFacts(n.children, ids, maxLevel);
    var r := InitBloom(n, ids, maxLevel).0;
    assert r.children == cs;
    assert Unbloomed(r).children == Unbloomed(n).children;
  }

  lemma {:induction false} InitBloomForestFacts(cs: seq<Node>, ids: seq<nat>, maxLevel: nat)
    requires forall i :: 0 <= i < |cs| ==> LeafRangesIn(cs[i], |ids|)
    ensures var r := InitBloomForest(cs, ids, maxLevel);
      r.1 == ForestIds(cs, ids) &&
      (forall i :: 0 <= i < |cs| ==> r.0[i] == InitBloom(cs[i], ids, maxLevel).0) &&
      (forall i :: 0 <= i < |cs| ==> LeafRangesIn(r.0[i], |ids|) && Unbloomed(r.0[i]) == Unbloomed(cs[i])) &&
      ForestIds(r.0, ids) == r.1
    decreases cs, 1
  {
    if |cs| > 0 {
      InitBloomFacts(cs[0], ids, maxLevel);
      InitBloomForestFacts(cs[1..], ids, maxLevel);
      var r := InitBloomForest(cs, ids, maxLevel);
      var rest := InitBloomForest(cs[1..], ids, maxLevel);
      assert r.0 == [InitBloom(cs[0], ids, maxLevel).0] + rest.0;
      assert r.0[1..] == rest.0;
      forall i | 1 <= i < |cs|
        ensures r.0[i] == InitBloom(cs[i], ids, maxLevel).0
        ensures LeafRangesIn(r.0[i], |ids|) && Unbloomed(r.0[i]) == Unbloomed(cs[i])
      {
        assert r.0[i] == rest.0[i - 1] && cs[i] == cs[1..][i - 1];
      }
    }
  }

  /** After `initBloomFilter` on a tree whose levels fall towards the leaves
      and whose root sits at `max_level`: every node below the root has the
      filter of exactly the ids under it, at strength `max_level - level + 1`;
      the root gets such a filter only when it is a leaf. */
  lemma {:induction false} InitBloomFilters(n: Node, ids: seq<nat>, maxLevel: nat)
    requires LeafRangesIn(n, |ids|) && LevelsDecrease(n) && n.level <= maxLevel
    ensures ChildFiltersHold(InitBloom(n, ids, maxLevel).0, ids, maxLevel)
    ensures n.level == 0 || n.level < maxLevel ==>
      InitBloom(n, ids, maxLevel).0.env.bloom == Filter(BitsPerKey(maxLevel, n.level), SubtreeIds(n, ids))
    ensures 0 < n.level == maxLevel ==> InitBloom(n, ids, maxLevel).0.env.bloom == n.env.bloom
    decreases n
  {
    var r := InitBloom(n, ids, maxLevel).0;
    InitBloomFacts(n, ids, maxLevel);
    forall i | 0 <= i < |r.children|
      ensures LeafRangesIn(r.children[i], |ids|)
      ensures r.children[i].env.bloom == Filter(BitsPerKey(maxLevel, r.children[i].level), SubtreeIds(r.children[i], ids))
      ensures ChildFiltersHold(r.children[i], ids, maxLevel)
    {
      var c := n.children[i];
      InitBloomFacts(c, ids, maxLevel);
      InitBloomFilters(c, ids, maxLevel);
    }
  }

  /** The file entries `writeIndexToFile` lays out: per key, in key order,
      the encoded preorder record list of its tree. `encode` stands for the
      protobuf serialization of a `TreeNodeList`. */
  function TreeEntries(trees: seq<(string, Node)>, encode: seq<TreeRecord> -> IndexFile.Bytes): (es: seq<(string, IndexFile.Bytes)>)
    ensures |es| == |trees|
    ensures forall i :: 0 <= i < |trees| ==> es[i] == (trees[i].0, encode(Serialize(trees[i].1)))
  {
    seq(|trees|, i requires 0 <= i < |trees| => (trees[i].0, encode(Serialize(trees[i].1))))
  }

  /** Reading a key back from the R-tree index file and deserializing it
      rebuilds the tree written for that key, given an encoding that its
      decoder inverts and that never encodes a non-empty list as nothing. */
  lemma RTreeFileRoundTrip(trees: seq<(string, Node)>, encode: seq<TreeRecord> -> IndexFile.Bytes,
                           decode: IndexFile.Bytes -> seq<TreeRecord>, i: nat)
    requires forall rs :: decode(encode(rs)) == rs
    requires forall rs :: |rs| > 0 ==> |encode(rs)| > 0
    requires IndexFile.DistinctKeys(TreeEntries(trees, encode)) && IndexFile.KeysAreByteStrings(TreeEntries(trees, encode))
    requires |IndexFile.IndexFileBytes(TreeEntries(trees, encode))| < SizeCodec.SizeLimit
    requires i < |trees|
    ensures var file := IndexFile.IndexFileBytes(TreeEntries(trees, encode));
      IndexFile.LoadFileMetadata(file).Success? &&
      var read := IndexFile.ReadNodeList(IndexFile.LoadFileMetadata(file).value, file, trees[i].0);
      read.Success? && read.value.Some? &&
      Deserialize(decode(read.value.value), 0) == Some((trees[i].1, Size(trees[i].1) - 1))
  {
    var es := TreeEntries(trees, encode);
    IndexFile.ReadBackPayload(es, i);
    assert |encode(Serialize(trees[i].1))| > 0;
    RoundTrip(trees[i].1);
  }

  /** Whether levels fall towards the leaves does not depend on the filters. */
  lemma {:induction false} LevelsDecreaseUnbloomed(a: Node, b: Node)
    requires Unbloomed(a) == Unbloomed(b)
    ensures LevelsDecrease(a) <==> LevelsDecrease(b)
    decreases a
  {
    forall i | 0 <= i < |a.children|
      ensures a.children[i].level == b.children[i].level
      ensures LevelsDecrease(a.children[i]) <==> LevelsDecrease(b.children[i])
    {
      assert Unbloomed(a).children[i] == Unbloomed(a.children[i]);
      assert Unbloomed(b).children[i] == Unbloomed(b.children[i]);
      LevelsDecreaseUnbloomed(a.children[i], b.children[i]);
    }
  }
}

=== FILE: rtree_interacted.dfy ===
/** `queryRTreeTracingInteracted` (src/rtreequery.cpp:154-184): trace the
    ids in the position tree and in the matching momentum tree and keep, per
    block both report, the ids both report. */
module RTreeInteracted {
  import opened TreeCodec
  import opened QueryResults
  import opened Wrappers
  import opened RTreeTracing
  import RTreeQuery
  import opened TextSearch
  import opened ExtReal
  import ParticleTracker
  import Decimal

  /** The exception `std::string::replace` throws when handed `npos`. */
  datatype TracingError = OutOfRange

  /** `std::set_intersection` of two ranges, merged from the front. */
  function SetIntersection(a: seq<nat>, b: seq<nat>): (r: seq<nat>)
    ensures forall x :: x in r ==> x in a && x in b
    decreases |a| + |b|
  {
    if |a| == 0 || |b| == 0 then []
    else if a[0] < b[0] then SetIntersection(a[1..], b)
    else if b[0] < a[0] then SetIntersection(a, b[1..])
    else [a[0]] + SetIntersection(a[1..], b[1..])
  }

  /** Every element of a sorted sequence is at least its head. */
  lemma HeadIsLeast(s: seq<nat>)
    requires |s| > 0 && Sorted(s)
    ensures forall x :: x in s ==> s[0] <= x
  {
    forall x | x in s ensures s[0] <= x {
      var i :| 0 <= i < |s| && s[i] == x;
      assert i == 0 || s[0] <= s[i];
    }
  }

  lemma SortedTail(s: seq<nat>)
    requires |s| > 0 && Sorted(s)
    ensures Sorted(s[1..])
  {
    assert forall i, j :: 0 <= i < j < |s| - 1 ==> s[1..][i] == s[i + 1] && s[1..][j] == s[j + 1];
  }

  /** A sorted sequence stays sorted under a head no larger than any of its
      elements. */
  lemma SortedCons(h: nat, t: seq<nat>)
    requires Sorted(t) && forall x :: x in t ==> h <= x
    ensures Sorted([h] + t)
  {
    var r := [h] + t;
    forall i, j | 0 <= i < j < |r| ensures r[i] <= r[j] {
      assert r[j] == t[j - 1] && t[j - 1] in t;
      if i > 0 {
        assert r[i] == t[i - 1];
      }
    }
  }

  /** On sorted inputs the merge keeps exactly the common ids. */
  lemma {:induction false} SetIntersectionMembers(a: seq<nat>, b: seq<nat>)
    requires Sorted(a) && Sorted(b)
    ensures forall x :: x in SetIntersection(a, b) <==> x in a && x in b
    decreases |a| + |b|
  {
    if |a| == 0 || |b| == 0 {
    } else {
      SortedTail(a);
      SortedTail(b);
      assert a == [a[0]] + a[1..];
      assert b == [b[0]] + b[1..];
      if a[0] < b[0] {
        SetIntersectionMembers(a[1..], b);
        HeadIsLeast(b);
      } else if b[0] < a[0] {
        SetIntersectionMembers(a, b[1..]);
        HeadIsLeast(a);
      } else {
        SetIntersectionMembers(a[1..], b[1..]);
      }
    }
  }

  /** On sorted inputs the merge is sorted. */
  lemma {:induction false} SetIntersectionSorted(a: seq<nat>, b: seq<nat>)
    requires Sorted(a) && Sorted(b)
    ensures Sorted(SetIntersection(a, b))
    decreases |a| + |b|
  {
    if |a| == 0 || |b| == 0 {
    } else {
      SortedTail(a);
      SortedTail(b);
      if a[0] < b[0] {
        SetIntersectionSorted(a[1..], b);
      } else if b[0] < a[0] {
        SetIntersectionSorted(a, b[1..]);
      } else {
        SetIntersectionSorted(a[1..], b[1..]);
        HeadIsLeast(a);
        SortedCons(a[0], SetIntersection(a[1..], b[1..]));
      }
    }
  }

  /** Both facts together. */
  lemma SetIntersectionExact(a: seq<nat>, b: seq<nat>)
    requires Sorted(a) && Sorted(b)
    ensures forall x :: x in SetIntersection(a, b) <==> x in a && x in b
    ensures Sorted(SetIntersection(a, b))
  {
    SetIntersectionMembers(a, b);
    SetIntersectionSorted(a, b);
  }

  /** The two maps intersected by key, each surviving block keeping the
      position entry's range and the common ids. */
  function Interact(position: map<string, TracingResult>, momentum: map<string, TracingResult>): (r: map<string, TracingResult>)
    ensures r.Keys == position.Keys * momentum.Keys
    ensures forall k :: k in r ==> r[k].start == position[k].start && r[k].end == position[k].end
  {
    map k | k in position.Keys * momentum.Keys ::
      TracingResult(position[k].start, position[k].end, SetIntersection(position[k].idData, momentum[k].idData))
  }

  /** `key` with its first "position" replaced by "momentum". */
  function MomentumKey(key: string, at: nat): string
    requires at + 8 <= |key|
  {
    key[..at] + "momentum" + key[at + 8..]
  }

  /** As written: `replace(find("position"), 8, "momentum")` throws when the
      key has no "position" (`find` gives `npos`), and otherwise the new key
      always differs from the old one, so the branch that returns the
      position map alone can never run. */
  function TracingInteracted(lists: map<string, seq<TreeRecord>>, key: string, tracingIds: seq<nat>,
                             mayMatch: MayMatch): (r: Result<map<string, TracingResult>, TracingError>)
    ensures r.Failure? <==> FindFirst(key, "position").None?
  {
    var position := QueryRTreeTracing(lists, key, tracingIds, mayMatch);
    match FindFirst(key, "position")
    case None => Failure(OutOfRange)
    case Some(at) =>
      var momentumKey := MomentumKey(key, at);
      if momentumKey != key then Success(Interact(position, QueryRTreeTracing(lists, momentumKey, tracingIds, mayMatch)))
      else Success(position)
  }

  /** Replacing "position" always changes the key. */
  lemma MomentumKeyDiffers(key: string, at: nat)
    requires OccursAt(key, "position", at)
    ensures MomentumKey(key, at) != key
  {
    assert MomentumKey(key, at)[at] == 'm';
    assert key[at] == key[at..at + 8][0] == 'p';
  }

  /** The discrepancy: a key without "position" throws instead of reaching
      the position-only branch, and a key with it always takes the
      intersecting branch. */
  lemma ElseBranchUnreachable(lists: map<string, seq<TreeRecord>>, key: string, tracingIds: seq<nat>, mayMatch: MayMatch)
    ensures FindFirst(key, "position").None? ==> TracingInteracted(lists, key, tracingIds, mayMatch) == Failure(OutOfRange)
    ensures FindFirst(key, "position").Some? ==>
      var at := FindFirst(key, "position").value;
      TracingInteracted(lists, key, tracingIds, mayMatch) ==
        Success(Interact(QueryRTreeTracing(lists, key, tracingIds, mayMatch),
                         QueryRTreeTracing(lists, MomentumKey(key, at), tracingIds, mayMatch)))
  {
    if FindFirst(key, "position").Some? {
      MomentumKeyDiffers(key, FindFirst(key, "position").value);
    }
  }

  /** A concrete key that throws: a momentum key handed in directly. */
  lemma MomentumKeyThrows(lists: map<string, seq<TreeRecord>>, tracingIds: seq<nat>, mayMatch: MayMatch)
    ensures TracingInteracted(lists, "momentum_x", tracingIds, mayMatch) == Failure(OutOfRange)
  {
    var key := "momentum_x";
    forall i: nat ensures !OccursAt(key, "position", i) {
      if i + 8 <= |key| {
        assert key[i..i + 8][0] == key[i];
      }
    }
  }

  /** `std::sort` on an id list: the same ids, ascending. */
  function SortIds(s: seq<nat>): (r: seq<nat>)
    ensures multiset(r) == multiset(s) && Sorted(r)
  {
    var t := ParticleTracker.SortIds(s);
    assert forall i :: 0 <= i < |t| ==> t[i] in multiset(s);
    t
  }

  /** Sorting a list that is already sorted leaves it as it is. */
  lemma {:induction false} SortIdsOfSorted(s: seq<nat>)
    requires Sorted(s)
    ensures SortIds(s) == s
    decreases |s|
  {
    if |s| > 0 {
      SortedTail(s);
      SortIdsOfSorted(s[1..]);
      assert s == [s[0]] + s[1..];
    }
  }

  /** Corrected intersection: both id lists of a block are sorted before
      the merge, which `std::set_intersection` requires of its ranges. */
  function InteractSorted(position: map<string, TracingResult>, momentum: map<string, TracingResult>): (r: map<string, TracingResult>)
    ensures r.Keys == position.Keys * momentum.Keys
    ensures forall k :: k in r ==> r[k].start == position[k].start && r[k].end == position[k].end
  {
    map k | k in position.Keys * momentum.Keys ::
      TracingResult(position[k].start, position[k].end,
                    SetIntersection(SortIds(position[k].idData), SortIds(momentum[k].idData)))
  }

  /** In any order of the traced ids, each block of the corrected
      intersection holds, sorted, exactly the ids both maps list for it. */
  lemma InteractSortedExact(position: map<string, TracingResult>, momentum: map<string, TracingResult>, k: string)
    requires k in InteractSorted(position, momentum)
    ensures Sorted(InteractSorted(position, momentum)[k].idData)
    ensures forall x :: x in InteractSorted(position, momentum)[k].idData <==>
      x in position[k].idData && x in momentum[k].idData
  {
    var a := position[k].idData;
    var b := momentum[k].idData;
    SetIntersectionExact(SortIds(a), SortIds(b));
    forall x ensures x in SortIds(a) <==> x in a {
      assert x in multiset(SortIds(a)) <==> x in multiset(a);
    }
    forall x ensures x in SortIds(b) <==> x in b {
      assert x in multiset(SortIds(b)) <==> x in multiset(b);
    }
  }

  /** On lists that are already sorted the corrected intersection is the
      source's. */
  lemma InteractSortedOfSorted(position: map<string, TracingResult>, momentum: map<string, TracingResult>)
    requires forall k :: k in position ==> Sorted(position[k].idData)
    requires forall k :: k in momentum ==> Sorted(momentum[k].idData)
    ensures InteractSorted(position, momentum) == Interact(position, momentum)
  {
    forall k | k in position.Keys * momentum.Keys
      ensures InteractSorted(position, momentum)[k] == Interact(position, momentum)[k]
    {
      SortIdsOfSorted(position[k].idData);
      SortIdsOfSorted(momentum[k].idData);
    }
  }

  /** Corrected: a key without "position" returns the position map, as the
      final branch of the source intends; other keys intersect the sorted
      id lists. */
  function TracingInteractedCorrected(lists: map<string, seq<TreeRecord>>, key: string, tracingIds: seq<nat>,
                                      mayMatch: MayMatch): (r: map<string, TracingResult>)
    ensures FindFirst(key, "position").None? ==> r == QueryRTreeTracing(lists, key, tracingIds, mayMatch)
  {
    var position := QueryRTreeTracing(lists, key, tracingIds, mayMatch);
    match FindFirst(key, "position")
    case None => position
    case Some(at) => InteractSorted(position, QueryRTreeTracing(lists, MomentumKey(key, at), tracingIds, mayMatch))
  }

  /** The corrected query never fails. With sorted tracked ids it agrees
      with the source wherever the source returns. In any order of the
      tracked ids, each surviving block holds, sorted, exactly the ids both
      the position and the momentum tree report there. */
  lemma CorrectedInteraction(lists: map<string, seq<TreeRecord>>, key: string, tracingIds: seq<nat>, mayMatch: MayMatch)
    ensures Sorted(tracingIds) && TracingInteracted(lists, key, tracingIds, mayMatch).Success? ==>
      TracingInteracted(lists, key, tracingIds, mayMatch).value == TracingInteractedCorrected(lists, key, tracingIds, mayMatch)
    ensures FindFirst(key, "position").Some? ==>
      var at := FindFirst(key, "position").value;
      var p := QueryRTreeTracing(lists, key, tracingIds, mayMatch);
      var m := QueryRTreeTracing(lists, MomentumKey(key, at), tracingIds, mayMatch);
      var r := TracingInteractedCorrected(lists, key, tracingIds, mayMatch);
      r.Keys == p.Keys * m.Keys &&
      forall k :: k in r ==>
        (Sorted(r[k].idData) && forall x :: x in r[k].idData <==> x in p[k].idData && x in m[k].idData)
  {
    ElseBranchUnreachable(lists, key, tracingIds, mayMatch);
    if FindFirst(key, "position").Some? {
      var at := FindFirst(key, "position").value;
      var p := QueryRTreeTracing(lists, key, tracingIds, mayMatch);
      var m := QueryRTreeTracing(lists, MomentumKey(key, at), tracingIds, mayMatch);
      forall k | k in InteractSorted(p, m)
        ensures Sorted(InteractSorted(p, m)[k].idData)
        ensures forall x :: x in InteractSorted(p, m)[k].idData <==> x in p[k].idData && x in m[k].idData
      {
        InteractSortedExact(p, m, k);
      }
      if Sorted(tracingIds) {
        TracingResultShape(lists, key, tracingIds, mayMatch);
        TracingResultShape(lists, MomentumKey(key, at), tracingIds, mayMatch);
        InteractSortedOfSorted(p, m);
      }
    }
  }

  /* ---------------- an unsorted trace as written ---------------- */

  /** The bounds of the single block of the example trees: rows `[0, 10)`. */
  function Box(bloom: Bloom): Envelope
  {
    Envelope(Fin(0.0), Fin(1.0), Fin(0.0), Fin(1.0), Fin(0.0), Fin(1.0), 0, 10, bloom)
  }

  /** A root over one leaf whose filter was built from id 3. */
  function OneLeafTree(bitsPerKey: int): Node
  {
    Node(1, Box(NoFilter), [Node(0, Box(Filter(bitsPerKey, [3])), [])])
  }

  /** The position tree (one bit per key) and the momentum tree (two bits
      per key) of one block. */
  function ExampleLists(): map<string, seq<TreeRecord>>
  {
    map["position_x" := Serialize(OneLeafTree(1)), "momentum_x" := Serialize(OneLeafTree(2))]
  }

  /** A filter that never rejects its own ids and, at one bit per key, also
      answers yes for id 5: a false positive. */
  function FalsePositiveFive(): MayMatch
  {
    (id: nat, b: Bloom) => b.Filter? && (id in b.keys || (b.bitsPerKey == 1 && id == 5))
  }

  /** The position tree traced with `[5, 3]`: its leaf records 5 (the
      false positive) and then 3. */
  lemma PositionTrace()
    ensures TraceAll(OneLeafTree(1), [5, 3], map[], FalsePositiveFive()) == map["0" := TracingResult(0, 10, [5, 3])]
  {
    var f := FalsePositiveFive();
    var leaf := Node(0, Box(Filter(1, [3])), []);
    var m5 := map["0" := TracingResult(0, 10, [5])];
    assert Decimal.ToDecimal(0) == "0";
    assert MatchId(OneLeafTree(1), 5, map[], f) == MatchIdForest([leaf], 5, map[], f) == m5;
    assert f(3, leaf.env.bloom) && [5] + [3] == [5, 3];
    assert AddId(m5, leaf.env, 3) == map["0" := TracingResult(0, 10, [5, 3])];
    assert MatchId(OneLeafTree(1), 3, m5, f) == MatchIdForest([leaf], 3, m5, f);
    assert [5, 3][1..] == [3] && [3][1..] == [];
  }

  /** The momentum tree traced with `[5, 3]`: its leaf records only 3. */
  lemma MomentumTrace()
    ensures TraceAll(OneLeafTree(2), [5, 3], map[], FalsePositiveFive()) == map["0" := TracingResult(0, 10, [3])]
  {
    var f := FalsePositiveFive();
    var leaf := Node(0, Box(Filter(2, [3])), []);
    assert Decimal.ToDecimal(0) == "0";
    assert MatchId(OneLeafTree(2), 5, map[], f) == MatchIdForest([leaf], 5, map[], f) == map[];
    assert MatchId(OneLeafTree(2), 3, map[], f) == MatchIdForest([leaf], 3, map[], f);
    assert [5, 3][1..] == [3] && [3][1..] == [];
  }

  /** Both stored trees rebuild, so each query traces its tree. */
  lemma ExampleQueries(ids: seq<nat>, mayMatch: MayMatch)
    ensures QueryRTreeTracing(ExampleLists(), "position_x", ids, mayMatch) == TraceAll(OneLeafTree(1), ids, map[], mayMatch)
    ensures QueryRTreeTracing(ExampleLists(), "momentum_x", ids, mayMatch) == TraceAll(OneLeafTree(2), ids, map[], mayMatch)
  {
    RoundTrip(OneLeafTree(1));
    RoundTrip(OneLeafTree(2));
    assert RTreeQuery.RecordsAt(ExampleLists(), "position_x") == Serialize(OneLeafTree(1));
    assert RTreeQuery.RecordsAt(ExampleLists(), "momentum_x") == Serialize(OneLeafTree(2));
  }

  /** The example's traces: the position leaf lists `[5, 3]` and the
      momentum leaf `[3]`. */
  lemma ExampleTraces()
    ensures QueryRTreeTracing(ExampleLists(), "position_x", [5, 3], FalsePositiveFive()) == map["0" := TracingResult(0, 10, [5, 3])]
    ensures QueryRTreeTracing(ExampleLists(), "momentum_x", [5, 3], FalsePositiveFive()) == map["0" := TracingResult(0, 10, [3])]
  {
    ExampleQueries([5, 3], FalsePositiveFive());
    PositionTrace();
    MomentumTrace();
  }

  /** Both versions of the example query intersect the two traces. */
  lemma ExampleUnfold()
    ensures TracingInteracted(ExampleLists(), "position_x", [5, 3], FalsePositiveFive()) ==
      Success(Interact(QueryRTreeTracing(ExampleLists(), "position_x", [5, 3], FalsePositiveFive()),
                       QueryRTreeTracing(ExampleLists(), "momentum_x", [5, 3], FalsePositiveFive())))
    ensures TracingInteractedCorrected(ExampleLists(), "position_x", [5, 3], FalsePositiveFive()) ==
      InteractSorted(QueryRTreeTracing(ExampleLists(), "position_x", [5, 3], FalsePositiveFive()),
                     QueryRTreeTracing(ExampleLists(), "momentum_x", [5, 3], FalsePositiveFive()))
  {
    ExampleUnfoldAsWritten();
    ExampleUnfoldCorrected();
  }

  lemma ExampleUnfoldAsWritten()
    ensures TracingInteracted(ExampleLists(), "position_x", [5, 3], FalsePositiveFive()) ==
      Success(Interact(QueryRTreeTracing(ExampleLists(), "position_x", [5, 3], FalsePositiveFive()),
                       QueryRTreeTracing(ExampleLists(), "momentum_x", [5, 3], FalsePositiveFive())))
  {
    ExampleKey();
  }

  lemma ExampleUnfoldCorrected()
    ensures TracingInteractedCorrected(ExampleLists(), "position_x", [5, 3], FalsePositiveFive()) ==
      InteractSorted(QueryRTreeTracing(ExampleLists(), "position_x", [5, 3], FalsePositiveFive()),
                     QueryRTreeTracing(ExampleLists(), "momentum_x", [5, 3], FalsePositiveFive()))
  {
    ExampleKey();
  }

  /** The two intersections of the example's id lists. */
  lemma ExampleIntersections()
    ensures Interact(map["0" := TracingResult(0, 10, [5, 3])], map["0" := TracingResult(0, 10, [3])]) ==
      map["0" := TracingResult(0, 10, [])]
    ensures InteractSorted(map["0" := TracingResult(0, 10, [5, 3])], map["0" := TracingResult(0, 10, [3])]) ==
      map["0" := TracingResult(0, 10, [3])]
  {
    ExampleInteract();
    ExampleInteractSorted();
  }

  /** The merge as written on the example's entries. */
  lemma ExampleInteract()
    ensures Interact(map["0" := TracingResult(0, 10, [5, 3])], map["0" := TracingResult(0, 10, [3])]) ==
      map["0" := TracingResult(0, 10, [])]
  {
    SingleKeyMerges(map["0" := TracingResult(0, 10, [5, 3])], map["0" := TracingResult(0, 10, [3])], "0");
    ExampleMerges();
  }

  /** The corrected merge on the example's entries. */
  lemma ExampleInteractSorted()
    ensures InteractSorted(map["0" := TracingResult(0, 10, [5, 3])], map["0" := TracingResult(0, 10, [3])]) ==
      map["0" := TracingResult(0, 10, [3])]
  {
    SingleKeyMerges(map["0" := TracingResult(0, 10, [5, 3])], map["0" := TracingResult(0, 10, [3])], "0");
    ExampleMerges();
  }

  /** Two maps with the one key `k`: both merges give one entry, the
      position entry's range with the merged lists. */
  lemma SingleKeyMerges(p: map<string, TracingResult>, m: map<string, TracingResult>, k: string)
    requires p.Keys == {k} && m.Keys == {k}
    ensures Interact(p, m) == map[k := TracingResult(p[k].start, p[k].end, SetIntersection(p[k].idData, m[k].idData))]
    ensures InteractSorted(p, m) ==
      map[k := TracingResult(p[k].start, p[k].end, SetIntersection(SortIds(p[k].idData), SortIds(m[k].idData)))]
  {
    assert p.Keys * m.Keys == {k};
  }

  /** Tracked ids `[5, 3]`, unsorted as in geos mode. The position leaf
      lists `[5, 3]` and the momentum leaf `[3]`. Both hold 3, yet the merge
      keeps nothing, while the corrected query keeps `[3]`. */
  lemma UnsortedIdsDropCommonId()
    ensures NoFalseNegatives(FalsePositiveFive())
    ensures QueryRTreeTracing(ExampleLists(), "position_x", [5, 3], FalsePositiveFive()) == map["0" := TracingResult(0, 10, [5, 3])]
    ensures QueryRTreeTracing(ExampleLists(), "momentum_x", [5, 3], FalsePositiveFive()) == map["0" := TracingResult(0, 10, [3])]
    ensures TracingInteracted(ExampleLists(), "position_x", [5, 3], FalsePositiveFive()) == Success(map["0" := TracingResult(0, 10, [])])
    ensures TracingInteractedCorrected(ExampleLists(), "position_x", [5, 3], FalsePositiveFive()) == map["0" := TracingResult(0, 10, [3])]
  {
    ExampleTraces();
    ExampleUnfold();
    ExampleIntersections();
  }

  /** "position_x" holds "position" at 0, and replacing it gives "momentum_x". */
  lemma ExampleKey()
    ensures FindFirst("position_x", "position") == Some(0)
    ensures MomentumKey("position_x", 0) == "momentum_x"
  {
    assert OccursAt("position_x", "position", 0);
  }

  /** The merge of the unsorted lists keeps nothing; that of the sorted
      lists keeps 3. */
  lemma ExampleMerges()
    ensures SetIntersection([5, 3], [3]) == []
    ensures SetIntersection(SortIds([5, 3]), SortIds([3])) == [3]
  {
    assert ParticleTracker.SortIds([5, 3]) == [3, 5];
    assert SortIds([3]) == [3];
    assert SetIntersection([3, 5], [3]) == [3];
  }
}

=== FILE: rtree_query.dfy ===
/** The R-tree envelope query (src/rtreequery.cpp, `matchEnv`,
    `queryByEnvelope`, `queryRTreeXYZ`). GEOS's `Envelope3d::intersects` is
    a parameter: the traversal is stated for any intersection test. */
module RTreeQuery {
  import opened TreeCodec
  import opened QueryResults
  import opened Wrappers
  import Decimal

  type Intersects = (Envelope, Envelope) -> bool

  /** Leaves are the nodes at level 0 (`isLeaf`). */
  predicate IsLeaf(n: Node)
  {
    n.level == 0
  }

  /** `matchEnv`: the envelopes of the leaves reached through nodes that all
      intersect `e`, in depth-first child order. */
  function MatchEnv(n: Node, e: Envelope, intersects: Intersects): seq<Envelope>
    decreases n, 0
  {
    if !intersects(n.env, e) then []
    else if IsLeaf(n) then [n.env]
    else MatchEnvForest(n.children, e, intersects)
  }

  function MatchEnvForest(cs: seq<Node>, e: Envelope, intersects: Intersects): seq<Envelope>
    decreases cs, 1
  {
    if |cs| == 0 then [] else MatchEnv(cs[0], e, intersects) + MatchEnvForest(cs[1..], e, intersects)
  }

  /** `env` is the envelope of a leaf of `n` such that the leaf and every
      node on the way down to it intersect `e`. */
  ghost predicate ReachableLeaf(n: Node, env: Envelope, e: Envelope, intersects: Intersects)
    decreases n
  {
    intersects(n.env, e) &&
    if IsLeaf(n) then n.env == env
    else exists i :: 0 <= i < |n.children| && ReachableLeaf(n.children[i], env, e, intersects)
  }

  /** `matchEnv` collects exactly the reachable leaves. */
  lemma {:induction false} MatchEnvExact(n: Node, env: Envelope, e: Envelope, intersects: Intersects)
    ensures env in MatchEnv(n, e, intersects) <==> ReachableLeaf(n, env, e, intersects)
    decreases n, 0
  {
    if intersects(n.env, e) && !IsLeaf(n) {
      MatchEnvForestExact(n.children, env, e, intersects);
    }
  }

  lemma {:induction false} MatchEnvForestExact(cs: seq<Node>, env: Envelope, e: Envelope, intersects: Intersects)
    ensures env in MatchEnvForest(cs, e, intersects) <==>
      exists i :: 0 <= i < |cs| && ReachableLeaf(cs[i], env, e, intersects)
    decreases cs, 1
  {
    if |cs| > 0 {
      MatchEnvExact(cs[0], env, e, intersects);
      MatchEnvForestExact(cs[1..], env, e, intersects);
      if exists i :: 0 <= i < |cs| && ReachableLeaf(cs[i], env, e, intersects) {
        var i :| 0 <= i < |cs| && ReachableLeaf(cs[i], env, e, intersects);
        if i > 0 {
          assert cs[i] == cs[1..][i - 1];
        }
      }
      if exists i :: 0 <= i < |cs[1..]| && ReachableLeaf(cs[1..][i], env, e, intersects) {
        var i :| 0 <= i < |cs[1..]| && ReachableLeaf(cs[1..][i], env, e, intersects);
        assert cs[1..][i] == cs[i + 1];
      }
    }
  }

  /** `queryByEnvelope`: the matched leaves of the tree stored as `records`.
      A list that does not rebuild a tree (an absent key leaves it empty, or
      it is cut short) makes the source's `deSerialize` read past the end of
      the list; the model answers that case with no match. */
  function QueryByEnvelope(records: seq<TreeRecord>, e: Envelope, intersects: Intersects): seq<Envelope>
  {
    match Deserialize(records, 0)
    case None => []
    case Some((root, _)) => MatchEnv(root, e, intersects)
  }

  /** An envelope is matched exactly when it belongs to a leaf of the stored
      tree reached through nodes that all intersect `e`. */
  lemma QueryByEnvelopeExact(records: seq<TreeRecord>, e: Envelope, intersects: Intersects, env: Envelope)
    ensures Deserialize(records, 0).None? ==> QueryByEnvelope(records, e, intersects) == []
    ensures Deserialize(records, 0).Some? ==>
      (env in QueryByEnvelope(records, e, intersects) <==>
       ReachableLeaf(Deserialize(records, 0).value.0, env, e, intersects))
  {
    if Deserialize(records, 0).Some? {
      MatchEnvExact(Deserialize(records, 0).value.0, env, e, intersects);
    }
  }

  function EnvKey(env: Envelope): string
  {
    Decimal.ToDecimal(env.start)
  }

  /** The list stored under `key`, empty when the file holds none. */
  function RecordsAt(lists: map<string, seq<TreeRecord>>, key: string): seq<TreeRecord>
  {
    if key in lists then lists[key] else []
  }

  /** The entry of one matched block: its range and, unless the secondary
      type is "none", the in-block slices matched in the tree stored under
      `key + to_string(start)`. That tree is read from the same file as the
      block tree, as rtreequery.cpp:50 does for every key. */
  function BlockEntry(env: Envelope, lists: map<string, seq<TreeRecord>>, secondary: SecondaryType,
                      key: string, e: Envelope, intersects: Intersects): QueryBlockResult
  {
    if secondary == NoSecondary then QueryBlockResult(env.start, env.end, map[])
    else
      var slices := QueryByEnvelope(RecordsAt(lists, key + EnvKey(env)), e, intersects);
      QueryBlockResult(env.start, env.end,
        InsertAll(slices, KeepAll, EnvKey, SliceOf))
  }

  /** Every matched envelope is offered to `insert`. */
  const KeepAll: Envelope -> bool := _ => true

  /** The slice record of a matched in-block envelope. */
  const SliceOf: Envelope -> QueryResult := (s: Envelope) => QueryResult(s.start, s.end)

  function EntryOf(lists: map<string, seq<TreeRecord>>, secondary: SecondaryType,
                   key: string, e: Envelope, intersects: Intersects): Envelope -> QueryBlockResult
  {
    env => BlockEntry(env, lists, secondary, key, e, intersects)
  }

  /** `queryRTreeXYZ(key, e)`: one entry per matched block keyed by the
      decimal start, the first match winning on a repeated start. */
  function QueryRTreeXYZ(lists: map<string, seq<TreeRecord>>, secondary: SecondaryType,
                         key: string, e: Envelope, intersects: Intersects): (r: map<string, QueryBlockResult>)
    ensures var matched := QueryByEnvelope(RecordsAt(lists, key), e, intersects);
      forall k :: k in r <==> exists i :: 0 <= i < |matched| && EnvKey(matched[i]) == k
  {
    var matched := QueryByEnvelope(RecordsAt(lists, key), e, intersects);
    InsertAll(matched, KeepAll, EnvKey, EntryOf(lists, secondary, key, e, intersects))
  }

  /** For the tree stored under `key`, a block key is in the result exactly
      when some reachable leaf starts there. */
  lemma QueryRTreeXYZKeys(lists: map<string, seq<TreeRecord>>, secondary: SecondaryType, key: string,
                          e: Envelope, intersects: Intersects, root: Node, last: nat, k: string)
    requires Deserialize(RecordsAt(lists, key), 0) == Some((root, last))
    ensures k in QueryRTreeXYZ(lists, secondary, key, e, intersects) <==>
      exists env :: ReachableLeaf(root, env, e, intersects) && EnvKey(env) == k
  {
    if k in QueryRTreeXYZ(lists, secondary, key, e, intersects) {
      var env := QueryKeySource(lists, secondary, key, e, intersects, root, last, k);
    }
    if exists env :: ReachableLeaf(root, env, e, intersects) && EnvKey(env) == k {
      var env :| ReachableLeaf(root, env, e, intersects) && EnvKey(env) == k;
      QueryKeyProduced(lists, secondary, key, e, intersects, root, last, env);
    }
  }

  /** Every key of the result is the start of a reachable leaf. */
  lemma QueryKeySource(lists: map<string, seq<TreeRecord>>, secondary: SecondaryType, key: string,
                       e: Envelope, intersects: Intersects, root: Node, last: nat, k: string)
    returns (env: Envelope)
    requires Deserialize(RecordsAt(lists, key), 0) == Some((root, last))
    requires k in QueryRTreeXYZ(lists, secondary, key, e, intersects)
    ensures ReachableLeaf(root, env, e, intersects) && EnvKey(env) == k
  {
    var matched := MatchEnv(root, e, intersects);
    assert QueryByEnvelope(RecordsAt(lists, key), e, intersects) == matched;
    var i :| 0 <= i < |matched| && EnvKey(matched[i]) == k;
    env := matched[i];
    MatchEnvExact(root, env, e, intersects);
  }

  /** Every reachable leaf's start is a key of the result. */
  lemma QueryKeyProduced(lists: map<string, seq<TreeRecord>>, secondary: SecondaryType, key: string,
                         e: Envelope, intersects: Intersects, root: Node, last: nat, env: Envelope)
    requires Deserialize(RecordsAt(lists, key), 0) == Some((root, last))
    requires ReachableLeaf(root, env, e, intersects)
    ensures EnvKey(env) in QueryRTreeXYZ(lists, secondary, key, e, intersects)
  {
    var matched := MatchEnv(root, e, intersects);
    assert QueryByEnvelope(RecordsAt(lists, key), e, intersects) == matched;
    MatchEnvExact(root, env, e, intersects);
    var i :| 0 <= i < |matched| && matched[i] == env;
  }

  /** Each entry is keyed by the decimal start it carries, copies the range
      of a reachable leaf, and has an empty slice map under "none". */
  lemma QueryRTreeXYZEntry(lists: map<string, seq<TreeRecord>>, secondary: SecondaryType, key: string,
                           e: Envelope, intersects: Intersects, root: Node, last: nat, k: string)
    requires Deserialize(RecordsAt(lists, key), 0) == Some((root, last))
    requires k in QueryRTreeXYZ(lists, secondary, key, e, intersects)
    ensures var entry := QueryRTreeXYZ(lists, secondary, key, e, intersects)[k];
      var matched := QueryByEnvelope(RecordsAt(lists, key), e, intersects);
      Decimal.ToDecimal(entry.start) == k &&
      (exists j :: 0 <= j < |matched| && FirstKept(matched, KeepAll, EnvKey, j) &&
         ReachableLeaf(root, matched[j], e, intersects) &&
         matched[j].start == entry.start && matched[j].end == entry.end) &&
      (secondary == NoSecondary ==> entry.q == map[])
    ensures var entry := QueryRTreeXYZ(lists, secondary, key, e, intersects)[k];
      var slices := QueryByEnvelope(RecordsAt(lists, key + k), e, intersects);
      secondary != NoSecondary ==>
        (forall sk :: sk in entry.q <==> exists i :: 0 <= i < |slices| && EnvKey(slices[i]) == sk) &&
        (forall i :: 0 <= i < |slices| && FirstKept(slices, KeepAll, EnvKey, i) ==>
           EnvKey(slices[i]) in entry.q && entry.q[EnvKey(slices[i])] == QueryResult(slices[i].start, slices[i].end))
  {
    var matched := MatchEnv(root, e, intersects);
    assert QueryByEnvelope(RecordsAt(lists, key), e, intersects) == matched;
    var f := EntryOf(lists, secondary, key, e, intersects);
    InsertAllEntry(matched, KeepAll, EnvKey, f, k);
    var j :| 0 <= j < |matched| && FirstKept(matched, KeepAll, EnvKey, j) && EnvKey(matched[j]) == k &&
      InsertAll(matched, KeepAll, EnvKey, f)[k] == f(matched[j]);
    MatchEnvExact(root, matched[j], e, intersects);
    assert QueryRTreeXYZ(lists, secondary, key, e, intersects)[k] == BlockEntry(matched[j], lists, secondary, key, e, intersects);
  }
}

=== FILE: rtree_tracing.dfy ===
/** Particle tracing over the R-tree (src/rtreequery.cpp, `matchId`,
    `queryRTreeTracing`, `queryRTreeTracingInteracted`). The Bloom filter's
    `KeyMayMatch` is a parameter; its one property that matters here, no
    false negatives, is stated where it is needed. */
module RTreeTracing {
  import opened TreeCodec
  import opened QueryResults
  import opened Wrappers
  import opened RTreeQuery
  import opened RTreeBuild
  import Decimal

  type MayMatch = (nat, Bloom) -> bool

  /** A Bloom filter never rejects an id it was built from. */
  ghost predicate NoFalseNegatives(mayMatch: MayMatch)
  {
    forall id, bits, keys :: id in keys ==> mayMatch(id, Filter(bits, keys))
  }

  /** Record `id` for the leaf `env`: append it to the entry of the leaf's
      start, creating that entry with the leaf's range when it is missing. */
  function AddId(m: map<string, TracingResult>, env: Envelope, id: nat): (r: map<string, TracingResult>)
    ensures EnvKey(env) in r && r[EnvKey(env)].idData == (if EnvKey(env) in m then m[EnvKey(env)].idData else []) + [id]
    ensures EnvKey(env) !in m ==> r[EnvKey(env)].start == env.start && r[EnvKey(env)].end == env.end
    ensures forall k :: k != EnvKey(env) ==> (k in r <==> k in m) && (k in m ==> r[k] == m[k])
    ensures forall k :: k in m ==> k in r && r[k].start == m[k].start && r[k].end == m[k].end
  {
    var k := EnvKey(env);
    if k in m then m[k := m[k].(idData := m[k].idData + [id])]
    else m[k := TracingResult(env.start, env.end, [id])]
  }

  /** `matchId`: visit the children only; a child the filter may hold is
      recorded when it is a leaf and searched when it is not. */
  function MatchId(n: Node, id: nat, m: map<string, TracingResult>, mayMatch: MayMatch): map<string, TracingResult>
    decreases n, 1
  {
    MatchIdForest(n.children, id, m, mayMatch)
  }

  function MatchIdForest(cs: seq<Node>, id: nat, m: map<string, TracingResult>, mayMatch: MayMatch): map<string, TracingResult>
    decreases cs, 2
  {
    if |cs| == 0 then m
    else
      var c := cs[0];
      var m1 := if !mayMatch(id, c.env.bloom) then m
                else if IsLeaf(c) then AddId(m, c.env, id)
                else MatchId(c, id, m, mayMatch);
      MatchIdForest(cs[1..], id, m1, mayMatch)
  }

  /** The leaves `matchId` records, in visiting order: a reference
      definition that separates the traversal from the map updates. */
  function MatchedLeaves(n: Node, id: nat, mayMatch: MayMatch): seq<Envelope>
    decreases n, 1
  {
    MatchedLeavesForest(n.children, id, mayMatch)
  }

  function MatchedLeavesForest(cs: seq<Node>, id: nat, mayMatch: MayMatch): seq<Envelope>
    decreases cs, 2
  {
    if |cs| == 0 then []
    else
      var c := cs[0];
      var here := if !mayMatch(id, c.env.bloom) then []
                  else if IsLeaf(c) then [c.env]
                  else MatchedLeaves(c, id, mayMatch);
      here + MatchedLeavesForest(cs[1..], id, mayMatch)
  }

  /** Record `id` for each leaf in turn. */
  function AddIdAll(m: map<string, TracingResult>, envs: seq<Envelope>, id: nat): map<string, TracingResult>
    decreases |envs|
  {
    if |envs| == 0 then m else AddIdAll(AddId(m, envs[0], id), envs[1..], id)
  }

  lemma {:induction false} AddIdAllConcat(m: map<string, TracingResult>, a: seq<Envelope>, b: seq<Envelope>, id: nat)
    ensures AddIdAll(m, a + b, id) == AddIdAll(AddIdAll(m, a, id), b, id)
    decreases |a|
  {
    if |a| > 0 {
      assert (a + b)[1..] == a[1..] + b;
      AddIdAllConcat(AddId(m, a[0], id), a[1..], b, id);
    } else {
      assert a + b == b;
    }
  }

  /** `matchId` records `id` for exactly the leaves of `MatchedLeaves`, in order. */
  lemma {:induction false} MatchIdIsAddIdAll(n: Node, id: nat, m: map<string, TracingResult>, mayMatch: MayMatch)
    ensures MatchId(n, id, m, mayMatch) == AddIdAll(m, MatchedLeaves(n, id, mayMatch), id)
    decreases n, 1
  {
    MatchIdForestIsAddIdAll(n.children, id, m, mayMatch);
  }

  lemma {:induction false} MatchIdForestIsAddIdAll(cs: seq<Node>, id: nat, m: map<string, TracingResult>, mayMatch: MayMatch)
    ensures MatchIdForest(cs, id, m, mayMatch) == AddIdAll(m, MatchedLeavesForest(cs, id, mayMatch), id)
    decreases cs, 2
  {
    if |cs| > 0 {
      var c := cs[0];
      var here := if !mayMatch(id, c.env.bloom) then []
                  else if IsLeaf(c) then [c.env]
                  else MatchedLeaves(c, id, mayMatch);
      var m1 := AddIdAll(m, here, id);
      if mayMatch(id, c.env.bloom) && !IsLeaf(c) {
        MatchIdIsAddIdAll(c, id, m, mayMatch);
      } else if mayMatch(id, c.env.bloom) {
        assert AddIdAll(m, [c.env], id) == AddIdAll(AddId(m, c.env, id), [], id);
      }
      MatchIdForestIsAddIdAll(cs[1..], id, m1, mayMatch);
      AddIdAllConcat(m, here, MatchedLeavesForest(cs[1..], id, mayMatch), id);
    }
  }

  /** `queryRTreeTracing` on a rebuilt tree: `matchId` for each tracked id
      in order, all into one map. */
  function TraceAll(root: Node, tracingIds: seq<nat>, m: map<string, TracingResult>, mayMatch: MayMatch): map<string, TracingResult>
    decreases |tracingIds|
  {
    if |tracingIds| == 0 then m
    else TraceAll(root, tracingIds[1..], MatchId(root, tracingIds[0], m, mayMatch), mayMatch)
  }

  /** `queryRTreeTracing(key, tracingID)`: `matchId` for every tracked id
      over the tree stored under `key`. Every entry is keyed by the decimal
      text of its start and holds only tracked ids. A list that does not
      rebuild a tree (an absent key, a truncated list) is an out-of-range
      read in the source's `deSerialize`; here it answers the empty map. */
  function QueryRTreeTracing(lists: map<string, seq<TreeRecord>>, key: string, tracingIds: seq<nat>,
                             mayMatch: MayMatch): (r: map<string, TracingResult>)
    ensures Consistent(r, tracingIds)
    ensures Deserialize(RecordsAt(lists, key), 0).None? ==> r == map[]
  {
    match Deserialize(RecordsAt(lists, key), 0)
    case None => map[]
    case Some((root, _)) =>
      TraceAllConsistent(root, tracingIds, map[], mayMatch, tracingIds);
      TraceAll(root, tracingIds, map[], mayMatch)
  }

  /* ---------------- what the tracing map holds ---------------- */

  /** Every entry is keyed by the decimal text of its start and holds only
      ids drawn from `src`. */
  ghost predicate Consistent(m: map<string, TracingResult>, src: seq<nat>)
  {
    forall k :: k in m ==> Decimal.ToDecimal(m[k].start) == k && forall x :: x in m[k].idData ==> x in src
  }

  predicate Sorted(s: seq<nat>)
  {
    forall i, j :: 0 <= i < j < |s| ==> s[i] <= s[j]
  }

  /** Every id list is sorted and holds no id above `bound`. */
  ghost predicate SortedUpTo(m: map<string, TracingResult>, bound: nat)
  {
    forall k :: k in m ==> Sorted(m[k].idData) && forall x :: x in m[k].idData ==> x <= bound
  }

  lemma AddIdConsistent(m: map<string, TracingResult>, env: Envelope, id: nat, src: seq<nat>)
    requires id in src && Consistent(m, src)
    ensures Consistent(AddId(m, env, id), src)
  {
    var r := AddId(m, env, id);
    forall k | k in r
      ensures Decimal.ToDecimal(r[k].start) == k
      ensures forall x :: x in r[k].idData ==> x in src
    {
      if k != EnvKey(env) {
        assert r[k] == m[k];
      }
    }
  }

  lemma {:induction false} AddIdAllConsistent(m: map<string, TracingResult>, envs: seq<Envelope>, id: nat, src: seq<nat>)
    requires id in src && Consistent(m, src)
    ensures Consistent(AddIdAll(m, envs, id), src)
    decreases |envs|
  {
    if |envs| > 0 {
      AddIdConsistent(m, envs[0], id, src);
      AddIdAllConsistent(AddId(m, envs[0], id), envs[1..], id, src);
    }
  }

  /** Whatever the order of the tracked ids, every entry is keyed by its
      start and holds only tracked ids. */
  lemma {:induction false} TraceAllConsistent(root: Node, tracingIds: seq<nat>, m: map<string, TracingResult>,
                                              mayMatch: MayMatch, src: seq<nat>)
    requires forall x :: x in tracingIds ==> x in src
    requires Consistent(m, src)
    ensures Consistent(TraceAll(root, tracingIds, m, mayMatch), src)
    decreases |tracingIds|
  {
    if |tracingIds| > 0 {
      var id := tracingIds[0];
      MatchIdIsAddIdAll(root, id, m, mayMatch);
      AddIdAllConsistent(m, MatchedLeaves(root, id, mayMatch), id, src);
      TraceAllConsistent(root, tracingIds[1..], MatchId(root, id, m, mayMatch), mayMatch, src);
    }
  }

  lemma AddIdSorted(m: map<string, TracingResult>, env: Envelope, id: nat, bound: nat)
    requires bound <= id && SortedUpTo(m, bound)
    ensures SortedUpTo(AddId(m, env, id), id)
  {
    var r := AddId(m, env, id);
    forall k | k in r
      ensures Sorted(r[k].idData) && forall x :: x in r[k].idData ==> x <= id
    {
      if k != EnvKey(env) {
        assert r[k] == m[k];
      } else {
        var prev := if k in m then m[k].idData else [];
        var l := r[k].idData;
        assert l == prev + [id];
        assert Sorted(prev) && forall x :: x in prev ==> x <= id;
        forall i, j | 0 <= i < j < |l| ensures l[i] <= l[j] {
          assert l[i] == prev[i] && prev[i] in prev;
          if j < |prev| {
            assert l[j] == prev[j];
          }
        }
      }
    }
  }

  lemma {:induction false} AddIdAllKeeps(m: map<string, TracingResult>, envs: seq<Envelope>, id: nat, src: seq<nat>, bound: nat)
    requires id in src && Consistent(m, src)
    requires bound <= id && SortedUpTo(m, bound)
    ensures Consistent(AddIdAll(m, envs, id), src)
    ensures SortedUpTo(AddIdAll(m, envs, id), id)
    decreases |envs|
  {
    if |envs| > 0 {
      AddIdConsistent(m, envs[0], id, src);
      AddIdSorted(m, envs[0], id, bound);
      AddIdAllKeeps(AddId(m, envs[0], id), envs[1..], id, src, id);
    } else {
      assert SortedUpTo(m, id);
    }
  }

  /** Ids are recorded in the order they are traced: with the tracked ids
      sorted, every id list of the result is sorted, and every entry is
      keyed by its start and holds only tracked ids. */
  lemma {:induction false} TraceAllKeeps(root: Node, tracingIds: seq<nat>, m: map<string, TracingResult>,
                                         mayMatch: MayMatch, src: seq<nat>, bound: nat)
    requires forall x :: x in tracingIds ==> x in src
    requires Consistent(m, src)
    requires Sorted(tracingIds) && SortedUpTo(m, bound)
    requires |tracingIds| > 0 ==> bound <= tracingIds[0]
    ensures Consistent(TraceAll(root, tracingIds, m, mayMatch), src)
    ensures Sorted(tracingIds) ==> forall k :: k in TraceAll(root, tracingIds, m, mayMatch) ==>
      Sorted(TraceAll(root, tracingIds, m, mayMatch)[k].idData)
    decreases |tracingIds|
  {
    if |tracingIds| > 0 {
      var id := tracingIds[0];
      MatchIdIsAddIdAll(root, id, m, mayMatch);
      AddIdAllKeeps(m, MatchedLeaves(root, id, mayMatch), id, src, bound);
      TraceAllKeeps(root, tracingIds[1..], MatchId(root, id, m, mayMatch), mayMatch, src, id);
    }
  }

  /** Ids are recorded in the order they are traced, so each id list of
      `queryRTreeTracing` is sorted when the tracked ids are. Unsorted
      tracked ids give id lists in tracking order, and
      `RTreeInteracted.UnsortedIdsDropCommonId` shows one. */
  lemma TracingResultShape(lists: map<string, seq<TreeRecord>>, key: string, tracingIds: seq<nat>, mayMatch: MayMatch)
    ensures Consistent(QueryRTreeTracing(lists, key, tracingIds, mayMatch), tracingIds)
    ensures Sorted(tracingIds) ==> forall k :: k in QueryRTreeTracing(lists, key, tracingIds, mayMatch) ==>
      Sorted(QueryRTreeTracing(lists, key, tracingIds, mayMatch)[k].idData)
  {
    match Deserialize(RecordsAt(lists, key), 0)
    case None =>
    case Some((root, _)) =>
      if Sorted(tracingIds) {
        TraceAllKeeps(root, tracingIds, map[], mayMatch, tracingIds, if |tracingIds| > 0 then tracingIds[0] else 0);
      }
  }

  /* ---------------- every tracked id is found ---------------- */

  /** Entries never disappear and their id lists only grow at the end. */
  ghost predicate Grows(m: map<string, TracingResult>, r: map<string, TracingResult>)
  {
    forall k :: k in m ==> k in r && m[k].idData <= r[k].idData
  }

  lemma {:induction false} AddIdAllGrows(m: map<string, TracingResult>, envs: seq<Envelope>, id: nat)
    ensures Grows(m, AddIdAll(m, envs, id))
    decreases |envs|
  {
    if |envs| > 0 {
      AddIdAllGrows(AddId(m, envs[0], id), envs[1..], id);
    }
  }

  lemma {:induction false} AddIdAllRecords(m: map<string, TracingResult>, envs: seq<Envelope>, id: nat, j: nat)
    requires j < |envs|
    ensures EnvKey(envs[j]) in AddIdAll(m, envs, id) && id in AddIdAll(m, envs, id)[EnvKey(envs[j])].idData
    decreases |envs|
  {
    if j == 0 {
      AddIdAllRecordsFirst(m, envs, id);
    } else {
      AddIdAllRecords(AddId(m, envs[0], id), envs[1..], id, j - 1);
      assert envs[1..][j - 1] == envs[j];
    }
  }

  /** The first envelope's entry holds the id, and later additions keep it. */
  lemma AddIdAllRecordsFirst(m: map<string, TracingResult>, envs: seq<Envelope>, id: nat)
    requires |envs| > 0
    ensures EnvKey(envs[0]) in AddIdAll(m, envs, id) && id in AddIdAll(m, envs, id)[EnvKey(envs[0])].idData
  {
    var m1 := AddId(m, envs[0], id);
    var k := EnvKey(envs[0]);
    assert id in m1[k].idData;
    AddIdAllGrows(m1, envs[1..], id);
    var r := AddIdAll(m1, envs[1..], id);
    assert m1[k].idData <= r[k].idData;
  }

  lemma {:induction false} TraceAllGrows(root: Node, tracingIds: seq<nat>, m: map<string, TracingResult>, mayMatch: MayMatch)
    ensures Grows(m, TraceAll(root, tracingIds, m, mayMatch))
    decreases |tracingIds|
  {
    if |tracingIds| > 0 {
      var id := tracingIds[0];
      MatchIdIsAddIdAll(root, id, m, mayMatch);
      AddIdAllGrows(m, MatchedLeaves(root, id, mayMatch), id);
      TraceAllGrows(root, tracingIds[1..], MatchId(root, id, m, mayMatch), mayMatch);
    }
  }

  /** `l` is a node strictly below `n`. */
  ghost predicate Descendant(n: Node, l: Node)
    decreases n
  {
    exists i :: 0 <= i < |n.children| && (n.children[i] == l || Descendant(n.children[i], l))
  }

  lemma {:induction false} ForestIdsContains(cs: seq<Node>, ids: seq<nat>, i: nat, x: nat)
    requires forall j :: 0 <= j < |cs| ==> LeafRangesIn(cs[j], |ids|)
    requires i < |cs| && x in SubtreeIds(cs[i], ids)
    ensures x in ForestIds(cs, ids)
    decreases i
  {
    if i > 0 {
      assert cs[i] == cs[1..][i - 1];
      ForestIdsContains(cs[1..], ids, i - 1, x);
    }
  }

  /** The ids of a leaf's range are among the ids of every node above it. */
  lemma {:induction false} LeafIdsUnder(n: Node, l: Node, ids: seq<nat>, x: nat)
    requires LeafRangesIn(n, |ids|) && IsLeaf(l)
    requires n == l || Descendant(n, l)
    requires l.env.start <= l.env.end <= |ids| && x in ids[l.env.start..l.env.end]
    ensures x in SubtreeIds(n, ids)
    decreases n
  {
    if n != l {
      var i :| 0 <= i < |n.children| && (n.children[i] == l || Descendant(n.children[i], l));
      LeafIdsUnder(n.children[i], l, ids, x);
      ForestIdsContains(n.children, ids, i, x);
    }
  }

  lemma {:induction false} MatchedLeavesForestContains(cs: seq<Node>, id: nat, mayMatch: MayMatch, i: nat, env: Envelope)
    requires i < |cs| && mayMatch(id, cs[i].env.bloom)
    requires if IsLeaf(cs[i]) then env == cs[i].env else env in MatchedLeaves(cs[i], id, mayMatch)
    ensures env in MatchedLeavesForest(cs, id, mayMatch)
    decreases i
  {
    if i > 0 {
      assert cs[i] == cs[1..][i - 1];
      MatchedLeavesForestContains(cs[1..], id, mayMatch, i - 1, env);
    }
  }

  /** With filters that hold the ids under each node and never reject an id
      they were built from, `matchId` reaches every leaf whose range holds
      the id. */
  lemma {:induction false} MatchedLeavesComplete(n: Node, ids: seq<nat>, maxLevel: nat, mayMatch: MayMatch, l: Node, id: nat)
    requires NoFalseNegatives(mayMatch)
    requires LeafRangesIn(n, |ids|) && LevelsDecrease(n) && ChildFiltersHold(n, ids, maxLevel)
    requires Descendant(n, l) && IsLeaf(l) && l.env.start <= l.env.end <= |ids| && id in ids[l.env.start..l.env.end]
    ensures l.env in MatchedLeaves(n, id, mayMatch)
    decreases n
  {
    var i :| 0 <= i < |n.children| && (n.children[i] == l || Descendant(n.children[i], l));
    var c := n.children[i];
    LeafIdsUnder(c, l, ids, id);
    assert mayMatch(id, c.env.bloom);
    if c != l {
      var j :| 0 <= j < |c.children| && (c.children[j] == l || Descendant(c.children[j], l));
      assert c.children[j].level < c.level;
      MatchedLeavesComplete(c, ids, maxLevel, mayMatch, l, id);
    }
    MatchedLeavesForestContains(n.children, id, mayMatch, i, l.env);
  }

  /** Tracing over a tree whose filters were set by `initBloomFilter` finds
      every tracked id in the entry of each leaf whose range holds it. */
  lemma TracingFindsTrackedIds(root: Node, ids: seq<nat>, maxLevel: nat, mayMatch: MayMatch,
                               tracingIds: seq<nat>, l: Node, id: nat)
    requires NoFalseNegatives(mayMatch)
    requires LeafRangesIn(root, |ids|) && LevelsDecrease(root) && root.level <= maxLevel
    requires Descendant(InitBloom(root, ids, maxLevel).0, l) && IsLeaf(l)
    requires l.env.start <= l.env.end <= |ids| && id in ids[l.env.start..l.env.end] && id in tracingIds
    ensures var r := TraceAll(InitBloom(root, ids, maxLevel).0, tracingIds, map[], mayMatch);
      EnvKey(l.env) in r && id in r[EnvKey(l.env)].idData
  {
    var built := InitBloom(root, ids, maxLevel).0;
    InitBloomFacts(root, ids, maxLevel);
    InitBloomFilters(root, ids, maxLevel);
    LevelsDecreaseUnbloomed(built, root);
    MatchedLeavesComplete(built, ids, maxLevel, mayMatch, l, id);
    TraceAllRecords(built, tracingIds, map[], mayMatch, l.env, id);
  }

  lemma {:induction false} TraceAllRecords(root: Node, tracingIds: seq<nat>, m: map<string, TracingResult>,
                                           mayMatch: MayMatch, env: Envelope, id: nat)
    requires id in tracingIds && env in MatchedLeaves(root, id, mayMatch)
    ensures var r := TraceAll(root, tracingIds, m, mayMatch);
      EnvKey(env) in r && id in r[EnvKey(env)].idData
    decreases |tracingIds|
  {
    var m1 := MatchId(root, tracingIds[0], m, mayMatch);
    if tracingIds[0] == id {
      var envs := MatchedLeaves(root, id, mayMatch);
      var j :| 0 <= j < |envs| && envs[j] == env;
      MatchIdIsAddIdAll(root, id, m, mayMatch);
      AddIdAllRecords(m, envs, id, j);
      TraceAllGrows(root, tracingIds[1..], m1, mayMatch);
      var r := TraceAll(root, tracingIds[1..], m1, mayMatch);
      assert m1[EnvKey(env)].idData <= r[EnvKey(env)].idData;
    } else {
      TraceAllRecords(root, tracingIds[1..], m1, mayMatch, env, id);
    }
  }
}

=== FILE: size_codec.dfy ===
/** Bytes and the raw 8-byte `size_t` the C++ code writes with
    `write(reinterpret_cast<const char *>(&n), sizeof(size_t))`. The model
    fixes the byte order to little-endian (the x86-64 layout the files are
    produced on). */
module SizeCodec {

  type byte = b: int | 0 <= b < 256

  /** `sizeof(std::size_t)` on the 64-bit targets the code is built for. */
  const SizeWidth: nat := 8

  function Pow256(k: nat): (p: nat)
    ensures p >= 1
  {
    if k == 0 then 1 else 256 * Pow256(k - 1)
  }

  /** One past the largest `size_t`: 2^64. */
  const SizeLimit: nat := 0x1_0000_0000_0000_0000

  lemma SizeLimitIsPow256()
    ensures Pow256(SizeWidth) == SizeLimit
  {
    assert Pow256(4) == 0x1_0000_0000;
  }

  function EncodeLE(n: nat, k: nat): (b: seq<byte>)
    ensures |b| == k
  {
    if k == 0 then [] else [n % 256] + EncodeLE(n / 256, k - 1)
  }

  function DecodeLE(b: seq<byte>): (n: nat)
    ensures n < Pow256(|b|)
  {
    if |b| == 0 then 0 else b[0] + 256 * DecodeLE(b[1..])
  }

  lemma {:induction false} DecodeEncodeLE(n: nat, k: nat)
    requires n < Pow256(k)
    ensures DecodeLE(EncodeLE(n, k)) == n
  {
    if k > 0 {
      DecodeEncodeLE(n / 256, k - 1);
      assert EncodeLE(n, k)[1..] == EncodeLE(n / 256, k - 1);
    }
  }

  lemma {:induction false} EncodeDecodeLE(b: seq<byte>)
    ensures EncodeLE(DecodeLE(b), |b|) == b
  {
    if |b| > 0 {
      EncodeDecodeLE(b[1..]);
      var n := DecodeLE(b);
      assert n % 256 == b[0];
      assert n / 256 == DecodeLE(b[1..]);
    }
  }

  /** The eight bytes holding one `size_t`. */
  function EncodeSize(n: nat): (b: seq<byte>)
    requires n < SizeLimit
    ensures |b| == SizeWidth
    ensures DecodeLE(b) == n
  {
    SizeLimitIsPow256();
    DecodeEncodeLE(n, SizeWidth);
    EncodeLE(n, SizeWidth)
  }

  function DecodeSize(b: seq<byte>): (n: nat)
    requires |b| == SizeWidth
    ensures n < SizeLimit
    ensures EncodeLE(n, SizeWidth) == b
  {
    SizeLimitIsPow256();
    EncodeDecodeLE(b);
    DecodeLE(b)
  }

  /** Reading back the eight bytes written for `n` gives `n`. */
  lemma SizeRoundTrip(n: nat)
    requires n < SizeLimit
    ensures DecodeSize(EncodeSize(n)) == n
  {
  }

  /** Every eight bytes are the encoding of the size they decode to. */
  lemma SizeRoundTripBytes(b: seq<byte>)
    requires |b| == SizeWidth
    ensures EncodeSize(DecodeSize(b)) == b
  {
  }

  /** A `size_t` value computed with C++ unsigned arithmetic: modulo 2^64. */
  function EncodeSizeWrapping(n: nat): (b: seq<byte>)
    ensures |b| == SizeWidth
    ensures n < SizeLimit ==> b == EncodeSize(n)
    ensures DecodeSize(b) == n % SizeLimit
  {
    EncodeSize(n % SizeLimit)
  }
}

=== FILE: string_list_file.dfy ===
/** The length-prefixed string-list file: a `size_t` count, then for each
    string its `size_t` length followed by its raw bytes, in list order. A
    C++ `std::string` is a byte string, so strings are `seq<byte>` here. */
module StringListFile {
  import opened Wrappers
  import opened SizeCodec

  type Bytes = seq<byte>

  predicate Encodable(list: seq<Bytes>)
  {
    && |list| < SizeLimit
    && forall i :: 0 <= i < |list| ==> |list[i]| < SizeLimit
  }

  function TotalLength(list: seq<Bytes>): nat
  {
    if |list| == 0 then 0 else |list[0]| + TotalLength(list[1..])
  }

  /** The (length, bytes) records of the strings, in order. */
  function EncodeRecords(list: seq<Bytes>): (b: Bytes)
    ensures |b| == SizeWidth * |list| + TotalLength(list)
  {
    if |list| == 0 then []
    else EncodeSizeWrapping(|list[0]|) + list[0] + EncodeRecords(list[1..])
  }

  /** The whole file: the count, then the records. */
  function Encode(list: seq<Bytes>): (b: Bytes)
    ensures |b| == SizeWidth * (1 + |list|) + TotalLength(list)
    ensures DecodeSize(b[..SizeWidth]) == |list| % SizeLimit
  {
    assert (EncodeSizeWrapping(|list|) + EncodeRecords(list))[..SizeWidth] == EncodeSizeWrapping(|list|);
    EncodeSizeWrapping(|list|) + EncodeRecords(list)
  }

  /** Reads `n` records; `None` when the bytes run out first (the stream
      read fails). Bytes after the last record are not looked at. */
  function DecodeRecords(b: Bytes, n: nat): (r: Option<seq<Bytes>>)
    ensures r.Some? ==> |r.value| == n
    decreases n
  {
    if n == 0 then Some([])
    else if |b| < SizeWidth then None
    else
      var len := DecodeSize(b[..SizeWidth]);
      if |b| - SizeWidth < len then None
      else match DecodeRecords(b[SizeWidth + len..], n - 1)
        case None => None
        case Some(rest) => Some([b[SizeWidth..SizeWidth + len]] + rest)
  }

  /** Reads the count, then exactly that many length-prefixed strings. */
  function Decode(b: Bytes): (r: Option<seq<Bytes>>)
    ensures r.Some? ==> |b| >= SizeWidth && |r.value| == DecodeSize(b[..SizeWidth])
  {
    if |b| < SizeWidth then None
    else DecodeRecords(b[SizeWidth..], DecodeSize(b[..SizeWidth]))
  }

  lemma {:induction false} DecodeEncodeRecords(list: seq<Bytes>, extra: Bytes)
    requires forall i :: 0 <= i < |list| ==> |list[i]| < SizeLimit
    ensures DecodeRecords(EncodeRecords(list) + extra, |list|) == Some(list)
    decreases |list|
  {
    if |list| > 0 {
      var b := EncodeRecords(list) + extra;
      var head := EncodeSizeWrapping(|list[0]|);
      assert b == head + list[0] + (EncodeRecords(list[1..]) + extra);
      assert b[..SizeWidth] == head;
      assert b[SizeWidth..SizeWidth + |list[0]|] == list[0];
      assert b[SizeWidth + |list[0]|..] == EncodeRecords(list[1..]) + extra;
      DecodeEncodeRecords(list[1..], extra);
      assert [list[0]] + list[1..] == list;
    }
  }

  /** Reading the file back yields the original list, whatever follows it. */
  lemma DecodeEncode(list: seq<Bytes>, extra: Bytes)
    requires Encodable(list)
    ensures Decode(Encode(list) + extra) == Some(list)
  {
    var b := Encode(list) + extra;
    assert b == EncodeSizeWrapping(|list|) + (EncodeRecords(list) + extra);
    assert b[..SizeWidth] == EncodeSizeWrapping(|list|);
    assert b[SizeWidth..] == EncodeRecords(list) + extra;
    DecodeEncodeRecords(list, extra);
  }

  /** The example list of the test program, as bytes. */
  const Example: seq<Bytes> := [
    [72, 101, 108, 108, 111],                          // "Hello"
    [87, 111, 114, 108, 100],                          // "World"
    [67, 43, 43],                                      // "C++"
    [80, 114, 111, 103, 114, 97, 109, 109, 105, 110, 103] // "Programming"
  ]

  /** The example file is 8 * 5 + 24 = 64 bytes long and reads back intact. */
  lemma ExampleFile()
    ensures |Encode(Example)| == 64
    ensures Decode(Encode(Example)) == Some(Example)
  {
    assert TotalLength(Example) == 24;
    DecodeEncode(Example, []);
    assert Encode(Example) + [] == Encode(Example);
  }
}

=== FILE: text_search.dfy ===
/** Substring search on `std::string`: `find`, `find_last_of` and the
    `substr` cuts built on them. */
module TextSearch {
  import opened Wrappers

  /** `pat` occurs in `s` starting at index `i`. */
  predicate OccursAt(s: string, pat: string, i: nat)
  {
    i + |pat| <= |s| && s[i..i + |pat|] == pat
  }

  /** `s.find(pat, from)`: the first index at or after `from` where `pat`
      occurs in `s`. */
  function FindFrom(s: string, pat: string, from: nat): (r: Option<nat>)
    ensures r.Some? ==> from <= r.value && OccursAt(s, pat, r.value)
    ensures r.Some? ==> forall i :: from <= i < r.value ==> !OccursAt(s, pat, i)
    ensures r.None? ==> forall i :: from <= i ==> !OccursAt(s, pat, i)
    decreases |s| - from
  {
    if |s| < from + |pat| then None
    else if OccursAt(s, pat, from) then Some(from)
    else FindFrom(s, pat, from + 1)
  }

  /** `s.find(pat)`. */
  function FindFirst(s: string, pat: string): (r: Option<nat>)
    ensures r.Some? ==> OccursAt(s, pat, r.value) && forall i :: 0 <= i < r.value ==> !OccursAt(s, pat, i)
    ensures r.None? <==> forall i :: !OccursAt(s, pat, i)
  {
    FindFrom(s, pat, 0)
  }

  /** `s.find_last_of(c)` for a single character. */
  function FindLast(s: string, c: char): (r: Option<nat>)
    ensures r.Some? ==> r.value < |s| && s[r.value] == c && forall i :: r.value < i < |s| ==> s[i] != c
    ensures r.None? <==> forall i :: 0 <= i < |s| ==> s[i] != c
  {
    if |s| == 0 then None
    else if s[|s| - 1] == c then Some(|s| - 1)
    else FindLast(s[..|s| - 1], c)
  }
}

=== FILE: tree_codec.dfy ===
/** The R-tree nodes the index stores and the preorder codec between a tree
    and its flat record list (src/utils.cpp). */
module TreeCodec {
  import opened ExtReal
  import opened Wrappers

  /** The Bloom filter a node carries, given by what it was built from: the
      bits per key and the ids added. `NoFilter` is the empty filter string. */
  datatype Bloom = NoFilter | Filter(bitsPerKey: int, keys: seq<nat>)

  /** A 3-d bounding box with the particle index range `[start, end)` it
      covers and its Bloom filter. */
  datatype Envelope = Envelope(minx: Ext, maxx: Ext, miny: Ext, maxy: Ext, minz: Ext, maxz: Ext,
                               start: nat, end: nat, bloom: Bloom)

  /** A tree node: its level (0 for leaves), bounds and children in order. */
  datatype Node = Node(level: nat, env: Envelope, children: seq<Node>)

  /** One flat record (`TreeNode`): a node's fields and its number of children. */
  datatype TreeRecord = TreeRecord(level: nat, childsize: nat, env: Envelope)

  function Record(n: Node): TreeRecord
  {
    TreeRecord(n.level, |n.children|, n.env)
  }

  /** Number of nodes in the tree. */
  function Size(n: Node): nat
    decreases n
  {
    1 + ForestSize(n.children)
  }

  function ForestSize(cs: seq<Node>): nat
    decreases cs
  {
    if |cs| == 0 then 0 else Size(cs[0]) + ForestSize(cs[1..])
  }

  /** `serialize`: the node's record, then each child's records in order. */
  function Serialize(n: Node): (rs: seq<TreeRecord>)
    ensures |rs| == Size(n)
    ensures rs[0] == Record(n)
    decreases n
  {
    [Record(n)] + SerializeForest(n.children)
  }

  function SerializeForest(cs: seq<Node>): (rs: seq<TreeRecord>)
    ensures |rs| == ForestSize(cs)
    decreases cs
  {
    if |cs| == 0 then [] else Serialize(cs[0]) + SerializeForest(cs[1..])
  }

  /** `deSerialize` started at record `pos`: the rebuilt node and the index
      of the last record it consumed (the final value of `seq`). A record
      index past the end of the list is an out-of-range read in the source;
      the model gives `None` there. */
  function Deserialize(rs: seq<TreeRecord>, pos: nat): (r: Option<(Node, nat)>)
    ensures r.Some? ==> pos <= r.value.1 < |rs|
    ensures r.Some? ==> r.value.0.level == rs[pos].level && r.value.0.env == rs[pos].env &&
                        |r.value.0.children| == rs[pos].childsize
    decreases |rs| - pos, 1, 0
  {
    if pos >= |rs| then None
    else
      var rec := rs[pos];
      match DeserializeChildren(rs, pos, rec.childsize)
      case None => None
      case Some((cs, last)) => Some((Node(rec.level, rec.env, cs), last))
  }

  /** The loop over the children of the node whose last consumed record so
      far is `last`: each child starts at the record after the previous one. */
  function DeserializeChildren(rs: seq<TreeRecord>, last: nat, n: nat): (r: Option<(seq<Node>, nat)>)
    requires last < |rs|
    ensures r.Some? ==> |r.value.0| == n && last <= r.value.1 < |rs|
    decreases |rs| - last, 0, n
  {
    if n == 0 then Some(([], last))
    else if last + 1 >= |rs| then None
    else
      match Deserialize(rs, last + 1)
      case None => None
      case Some((c, last1)) =>
        match DeserializeChildren(rs, last1, n - 1)
        case None => None
        case Some((cs, last2)) => Some(([c] + cs, last2))
  }

  /** `deSerialize` undoes `serialize` wherever the records sit in the list,
      and stops on the tree's last record. */
  lemma {:induction false} DeserializeSerialize(rs: seq<TreeRecord>, pos: nat, n: Node)
    requires pos + Size(n) <= |rs| && rs[pos..pos + Size(n)] == Serialize(n)
    ensures Deserialize(rs, pos) == Some((n, pos + Size(n) - 1))
    decreases n, 1
  {
    var s := Serialize(n);
    assert rs[pos] == s[0];
    assert rs[pos + 1..pos + Size(n)] == SerializeForest(n.children) by {
      assert rs[pos + 1..pos + Size(n)] == s[1..];
    }
    DeserializeSerializeForest(rs, pos, n.children);
  }

  lemma {:induction false} DeserializeSerializeForest(rs: seq<TreeRecord>, last: nat, cs: seq<Node>)
    requires last < |rs| && last + 1 + ForestSize(cs) <= |rs|
    requires rs[last + 1..last + 1 + ForestSize(cs)] == SerializeForest(cs)
    ensures DeserializeChildren(rs, last, |cs|) == Some((cs, last + ForestSize(cs)))
    decreases cs, 0
  {
    if |cs| > 0 {
      var c, rest := cs[0], cs[1..];
      var sz, szRest := Size(c), ForestSize(rest);
      assert ForestSize(cs) == sz + szRest;
      var f := SerializeForest(cs);
      assert f == Serialize(c) + SerializeForest(rest);
      var last1 := last + sz;
      SplitSlice(rs, last + 1, last1 + 1, last1 + 1 + szRest);
      AppendCancel(rs[last + 1..last1 + 1], rs[last1 + 1..last1 + 1 + szRest], Serialize(c), SerializeForest(rest));
      DeserializeSerialize(rs, last + 1, c);
      assert Deserialize(rs, last + 1) == Some((c, last1));
      DeserializeSerializeForest(rs, last1, rest);
      ChildrenStep(rs, last, |cs|, c, last1, rest, last1 + szRest);
      assert [c] + rest == cs;
    } else {
      assert DeserializeChildren(rs, last, 0) == Some(([], last));
    }
  }

  /** The children loop reads one child, then the others from where it stopped. */
  lemma ChildrenStep(rs: seq<TreeRecord>, last: nat, n: nat, c: Node, last1: nat, cs: seq<Node>, last2: nat)
    requires last + 1 < |rs| && 0 < n
    requires Deserialize(rs, last + 1) == Some((c, last1))
    requires last1 < |rs| && DeserializeChildren(rs, last1, n - 1) == Some((cs, last2))
    ensures DeserializeChildren(rs, last, n) == Some(([c] + cs, last2))
  {
  }

  /** Joined sequences with equally long fronts have equal parts. */
  lemma AppendCancel<T>(a: seq<T>, b: seq<T>, x: seq<T>, y: seq<T>)
    requires a + b == x + y && |a| == |x|
    ensures a == x && b == y
  {
    assert a == (a + b)[..|a|] && x == (x + y)[..|x|];
    assert b == (a + b)[|a|..] && y == (x + y)[|x|..];
  }

  /** A slice is its two halves joined. */
  lemma SplitSlice<T>(s: seq<T>, a: nat, b: nat, c: nat)
    requires a <= b <= c <= |s|
    ensures s[a..c] == s[a..b] + s[b..c]
  {
  }

  /** The round trip on a list holding exactly one serialized tree: every
      record is consumed and the same tree comes back. */
  lemma RoundTrip(n: Node)
    ensures Deserialize(Serialize(n), 0) == Some((n, |Serialize(n)| - 1))
  {
    var rs := Serialize(n);
    assert rs[0..Size(n)] == rs;
    DeserializeSerialize(rs, 0, n);
  }

  /** A record without children is rebuilt as a childless node and consumes
      only itself. */
  lemma LeafRecordConsumesOne(rs: seq<TreeRecord>, pos: nat)
    requires pos < |rs| && rs[pos].childsize == 0
    ensures Deserialize(rs, pos) == Some((Node(rs[pos].level, rs[pos].env, []), pos))
  {
  }
}

=== FILE: wrappers.dfy ===
/** Failure-carrying result types shared by every module of the model. */
module Wrappers {

  /** A value that may be missing (a Python `None`, an absent map key). */
  datatype Option<+T> = None | Some(value: T)

  /** The outcome of an operation that the source ends with an exception or
      an error return. */
  datatype Result<+T, +E> = Success(value: T) | Failure(error: E) {
    predicate IsFailure() { Failure? }

    function PropagateFailure<U>(): Result<U, E>
      requires Failure?
    {
      Failure(error)
    }

    function Extract(): T
      requires Success?
    {
      value
    }
  }
}
